=== FILE: README.md ===
# A verified model of the Carto mobile SDK's tile, routing and package core

This Dafny project models the sequential logic at the centre of the Carto
mobile map SDK (C++):

- the cancelable priority thread pool that runs tile and routing work;
- the tile layers (shared `TileLayer` logic plus the vector and raster
  layers): substitute search in the caches, tile sort order, visible-tile
  recursion, fetch de-duplication, fetch-task cancel/run, the two-tier
  visible/preloading caches, `loadData`, and the raster sub-tile crop and
  pixel reads;
- the package tile mask: a bit-level base64 codec and a pre-order quadtree
  serialiser, tree construction and tile lookup;
- the big-endian byte cursor of the NML model LOD tree data source and the
  sentinel-terminated record loops that use it;
- the Valhalla and OSRM routing proxies: the zigzag 5-bit polyline codecs,
  the maneuver and instruction tables, configuration merging, path-algorithm
  choice, and merging instructions across route legs;
- the element registry of `LocalVectorDataSource`;
- the dotted-path JSON configuration of the offline Valhalla routing
  service;
- the style-parameter and layer-visibility bookkeeping of the vector tile
  decoders.

Everything is a pure function over immutable datatypes, or a method whose
loops carry the invariants. Threads, mutexes and condition variables are not
modelled: each public operation is one critical section and runs to
completion. Time, camera geometry, decoders, parsers and data sources are
parameters.

Modules follow the source files:

| file | module | source |
|---|---|---|
| wrappers.dfy | Wrappers | `Option`, `Result`, the `Byte` type and the SDK's exception kinds |
| tiles.dfy | Tiles | `MapTile` parent/child/tile id (MapTile.cpp is not part of this model) |
| tile_cache.dfy | TileCache | the keyed store behind the layers' two caches |
| thread_pool.dfy | CancelableThreadPool | all/native/components/CancelableThreadPool.cpp |
| tile_search.dfy | TileSearch | the cache-independent parts of all/native/layers/TileLayer.cpp |
| tile_layer.dfy | TileLayer | the layer state machine of TileLayer.cpp, VectorTileLayer.cpp and RasterTileLayer.cpp |
| vt_tile.dfy | VtTile | the decoded tile and bitmap records the layers store |
| vector_tile_layer.dfy | VectorTileLayer | all/native/layers/VectorTileLayer.cpp |
| raster_tile_layer.dfy | RasterTileLayer | all/native/layers/RasterTileLayer.cpp |
| package_tile_mask.dfy | PackageTileMask | all/native/packagemanager/PackageTileMask.cpp |
| data_input_stream.dfy | DataInputStream | all/native/datasources/OnlineNMLModelLODTreeDataSource.cpp |
| polyline.dfy | Polyline | the polyline codecs of ValhallaRoutingProxy.cpp and OSRMRoutingProxy.cpp |
| routing.dfy | Routing | the routing result records both proxies build |
| valhalla_routing_proxy.dfy | ValhallaRoutingProxy | all/native/routing/ValhallaRoutingProxy.cpp |
| osrm_routing_proxy.dfy | OsrmRoutingProxy | all/native/routing/OSRMRoutingProxy.cpp |
| local_vector_data_source.dfy | LocalVectorDataSource | all/native/datasources/LocalVectorDataSource.cpp |
| routing_service_config.dfy | PackageManagerValhallaRoutingService | all/native/routing/PackageManagerValhallaRoutingService.cpp |
| mb_vector_tile_decoder.dfy | MBVectorTileDecoder | all/native/vectortiles/MBVectorTileDecoder.cpp |
| carto_vector_tile_decoder.dfy | CartoVectorTileDecoder | all/native/vectortiles/CartoVectorTileDecoder.cpp |

## Model

| member | source | states |
|---|---|---|
| CancelableThreadPool.Init | all/native/components/CancelableThreadPool.cpp:7-17 | A new pool has no workers and no queued task, is not stopped, and satisfies the pool invariant: one thread per worker, distinct sequence numbers below the task counter, distinct worker ids. |
| CancelableThreadPool.AllBusyBelow | all/native/components/CancelableThreadPool.cpp:80-88 | The createWorker scan is true exactly when every worker is busy with a task of strictly lower priority, so it is also true when there is no worker. |
| CancelableThreadPool.Execute | all/native/components/CancelableThreadPool.cpp:68-98 | A canceled task, or any task after stop, leaves the pool unchanged. Otherwise exactly one record (task, priority, old counter) is appended, the counter grows by one, and one worker is added iff every existing worker is busy with lower-priority work; the invariant is kept. |
| CancelableThreadPool.AddWorkers | all/native/components/CancelableThreadPool.cpp:55-59 | Adding n workers appends exactly n workers after the existing ones and changes nothing else. |
| CancelableThreadPool.SetPoolSize | all/native/components/CancelableThreadPool.cpp:48-62 | After stop nothing changes. Otherwise the pool size becomes n, and max(0, n - old size) workers are appended; no worker is ever removed. |
| CancelableThreadPool.TopIndex | all/native/components/CancelableThreadPool.cpp:118-124 | Finds an index of a non-empty queue that no other record ranks above under TaskRecord::operator<. |
| CancelableThreadPool.RemoveAt | all/native/components/CancelableThreadPool.cpp:198 | Popping a record leaves exactly the other records: one fewer, and the same multiset less that record. |
| CancelableThreadPool.GetNextTask | all/native/components/CancelableThreadPool.cpp:191-202 | Returns false iff the queue is empty, and then changes nothing. Otherwise it returns the task and priority of a top record and removes that record; workers, stop and pool size are unchanged. |
| CancelableThreadPool.TopOrder | all/native/components/CancelableThreadPool.cpp:118-124 | The record handed out has the highest priority in the queue, and among equal priorities the smallest sequence number, that is, the earliest submission. |
| CancelableThreadPool.TopIsUnique | all/native/components/CancelableThreadPool.cpp:118-124 | With distinct sequence numbers, two top records are the same record, so the dequeue order is fully determined. |
| CancelableThreadPool.TasksOfRemoveAt | all/native/components/CancelableThreadPool.cpp:105-107 | Popping a record removes its task from the queued tasks and keeps all others. |
| CancelableThreadPool.CancelAll | all/native/components/CancelableThreadPool.cpp:100-109 | Afterwards the queue is empty, and the canceled set has grown by exactly the tasks that were queued. Workers, stop, pool size and counter are untouched, so running tasks are not canceled. |
| CancelableThreadPool.CancelOneValid | all/native/components/CancelableThreadPool.cpp:104-108 | One step of the cancel loop keeps the pool invariant and keeps canceled plus queued tasks constant. |
| CancelableThreadPool.Deinit | all/native/components/CancelableThreadPool.cpp:22-41 | After deinit the pool is stopped, the queue, worker list and thread list are empty, and every previously queued task is canceled. |
| CancelableThreadPool.StoppedPoolIgnoresCalls | all/native/components/CancelableThreadPool.cpp:51-53 | After deinit, execute and setPoolSize leave the queue and the worker list empty. |
| CancelableThreadPool.ShouldTerminateWorker | all/native/components/CancelableThreadPool.cpp:204-227 | Returns true and changes nothing when stopped. Returns false and changes nothing when there are no more threads than the pool size. Otherwise it returns true and removes exactly the worker with that identity, with its thread: every other worker stays, and the count drops by one iff the worker was present. |
| CancelableThreadPool.DropWorkerSpec | all/native/components/CancelableThreadPool.cpp:218-220 | Erasing the worker at an index keeps the invariant, removes that id, and keeps every other worker. |
| CancelableThreadPool.SetWorkerState | all/native/components/CancelableThreadPool.cpp:165-177 | Only the worker with the given id gets the new busy flag and current priority; every other worker is unchanged. |
| CancelableThreadPool.WorkerStep | all/native/components/CancelableThreadPool.cpp:133-189 | One pass of the worker loop. When stopped it exits and changes nothing. With a queued task it runs a top record, which leaves the queue, and marks the worker busy at that priority. With an empty queue it never runs a task. |
| CancelableThreadPool.FinishTask | all/native/components/CancelableThreadPool.cpp:173-177 | After a task finishes, the worker is idle again at the default priority, and the queue is unchanged. |
| TileSearch.FindParentTile | all/native/layers/TileLayer.cpp:527-542 | Finds at most one substitute, and none when the tile is at zoom 0 or the depth is used up. |
| TileSearch.FindParentTileNearest | all/native/layers/TileLayer.cpp:527-542 | findParentTile succeeds iff some ancestor at most `depth` levels up (never above zoom 0) is in the cache. It then draws the nearest such ancestor for the visible tile: every ancestor below the drawn one is absent. |
| TileSearch.FindParentTileFinds | all/native/layers/TileLayer.cpp:527-542 | findParentTile returns true iff an ancestor 1 to `depth` levels up, and at zoom 0 or deeper, is cached. |
| TileSearch.FindParentTileDrawsNearest | all/native/layers/TileLayer.cpp:527-542 | When findParentTile succeeds, its one draw request is for the nearest cached ancestor within `depth` levels. |
| TileSearch.FindChildTiles | all/native/layers/TileLayer.cpp:544-561 | With no depth left, no child is searched and the count is 0. |
| TileSearch.FindChildTilesSound | all/native/layers/TileLayer.cpp:544-561 | Every tile findChildTiles draws is a cached descendant within `depth` levels, with no cached tile between it and the start. Each is drawn for the visible tile with its preloading flag. |
| TileSearch.FindChildTilesComplete | all/native/layers/TileLayer.cpp:544-561 | Every topmost cached descendant within reach is drawn, so none is missed. |
| TileSearch.FindChildTilesFinds | all/native/layers/TileLayer.cpp:514 | The returned count is positive iff some cached tile lies between 1 and `depth` levels below. |
| TileSearch.TopmostExists | all/native/layers/TileLayer.cpp:550-558 | Any cached descendant within reach has a topmost cached tile above it on the path down, which the search stops at. |
| TileSearch.MaskTile | all/native/layers/TileLayer.cpp:470-471 | `x & ((1 << zoom) - 1)` on both coordinates folds a tile from a repeated world copy into [0, 2^zoom), keeping its zoom and frame. |
| TileSearch.PolicyCaches | all/native/layers/TileLayer.cpp:484-499 | The caches searched for substitutes: both for policy ALL; the visible cache for VISIBLE, plus the preloading cache for a preloading tile; none for NONE. |
| TileSearch.SearchCacheSpec | all/native/layers/TileLayer.cpp:501-516 | The search in one cache yields draws iff that cache holds the previous-frame tile, an ancestor within the overzoom limit, or a descendant within the underzoom limit. Every tile drawn is present in that cache. |
| TileSearch.SubstituteSearchFirst | all/native/layers/TileLayer.cpp:500-520 | The loop over caches takes every draw from the first cache in policy order that holds a substitute, and finds nothing when none does. |
| TileSearch.FindTile | all/native/layers/TileLayer.cpp:468-525 | For each visible tile, findTiles makes at least one call, either a draw or a fetch. |
| TileSearch.FindTileHit | all/native/layers/TileLayer.cpp:474-482 | On an exact hit in either cache, the tile itself is drawn. A forced (invalidated) re-fetch follows iff neither cache holds a valid copy, and no substitute is searched. |
| TileSearch.FindTileMiss | all/native/layers/TileLayer.cpp:484-523 | On a miss, the substitutes come from the first policy cache that has one, and there are some iff any policy cache does. The last call is always a non-forced fetch of the tile. |
| TileSearch.FindTileDrawsFor | all/native/layers/TileLayer.cpp:474-506 | Every draw findTiles issues for a visible tile is placed at that visible tile, with the preloading flag of the list. |
| TileSearch.NoSubstitutionOnlyFetches | all/native/layers/TileLayer.cpp:497-498 | Under policy NONE, a miss does nothing but fetch the tile. |
| TileSearch.TileSortKey | all/native/layers/TileLayer.cpp:436-455 | The parent level is 1 iff the parent is in either cache; the child level is 1 iff some child is; the third component is the camera distance. |
| TileSearch.InsertByKey | all/native/layers/TileLayer.cpp:458-460 | Inserting into a list sorted by key gives a list sorted by key, with the same elements plus the new one. |
| TileSearch.SortTiles | all/native/layers/TileLayer.cpp:430-466 | sortTiles returns a permutation of its input, in non-decreasing lexicographic order of (parent level, child level, distance). |
| TileSearch.FlippedTile | all/native/layers/TileLayer.cpp:388-389 | The tile the data extent is tested on lies in the base world, at the same zoom. |
| TileSearch.Subdivide | all/native/layers/TileLayer.cpp:407-413 | A tile below the minimum zoom is always split. A tile at or above both the minimum and the target zoom never is. |
| TileSearch.VisibleTilesAreLeaves | all/native/layers/TileLayer.cpp:380-428 | Every tile the recursion emits is a descendant of the start tile. Its zoom lies between the minimum zoom and MAX_SUPPORTED_ZOOM_LEVEL and is no deeper than the start, minimum and target zooms require. It passed the data-extent and preloading-frustum tests, is not split further, and goes to the visible list iff it is in the visible frustum. |
| TileLayer.TaskTile | all/native/layers/VectorTileLayer.cpp:153 | A new fetch task is for the requested tile's coordinates and zoom; the vector layer always uses frame 0. |
| TileLayer.DataSourceTiles | all/native/layers/TileLayer.cpp:596-614 | Every listed tile has a zoom in [minZoom, maxZoom]. The task tile comes first when its own zoom is in range, and the list has at most one tile per zoom from the tile's zoom down to 0. DataSourceTilesSpec gives the full characterisation. |
| TileLayer.DataSourceTilesSpec | all/native/layers/TileLayer.cpp:596-614 | A fetch task's data-source list holds exactly the tile and those of its ancestors whose zoom the data source serves, in strictly decreasing zoom. |
| TileLayer.FetchTile | all/native/layers/VectorTileLayer.cpp:130-164 | If a task for the key is in flight, nothing changes. Otherwise, for a non-forced fetch with a valid preloading copy, a visible request moves that copy to the visible cache and a preloading request changes nothing; a valid visible copy changes nothing. Otherwise exactly one new, unstarted task is registered under the key. It is handed to the thread pool, at the update priority lowered by PRELOADING_PRIORITY_OFFSET for preloading, only when the layer has a pool; without one it stays registered and is never run. Afterwards the key is always in flight or cached. |
| TileLayer.FetchTileIdempotent | all/native/layers/VectorTileLayer.cpp:130-164 | A second identical fetchTile changes nothing. |
| TileLayer.InvalidateRegistered | all/native/layers/VectorTileLayer.cpp:176-179 | Every task in the registry is marked invalidated. Other tasks and the other task flags are unchanged. |
| TileLayer.TilesChanged | all/native/layers/VectorTileLayer.cpp:175-192 | All in-flight tasks are invalidated. With removeTiles both caches are emptied. Otherwise the visible cache keeps its keys but nothing in it is valid from now on, and the preloading cache is emptied. The registry and the submissions are unchanged. |
| TileLayer.TilesChangedForcesFetch | all/native/layers/VectorTileLayer.cpp:175-192 | After tilesChanged, fetching any tile not already in flight starts a new task. |
| TileLayer.CancelTask | all/native/layers/TileLayer.cpp:630-639 | Before the task starts, it is marked canceled and its own tile id leaves the registry; the caches are untouched. After it has started, cancel changes nothing. |
| TileLayer.RunTask | all/native/layers/TileLayer.cpp:641-679 | A canceled task does nothing and requests no redraw. Otherwise the task is marked started and its tile id leaves the registry, whether or not the load threw. A throwing load leaves the caches as they were. A redraw is requested iff the load reported a refresh and the task is not preloading. |
| TileLayer.CancelAfterRunIsNoop | all/native/layers/TileLayer.cpp:630-650 | Once a task has started, canceling it changes nothing. |
| TileLayer.RunAfterCancelSkips | all/native/layers/TileLayer.cpp:630-650 | A task canceled before it starts never loads: running it changes nothing and requests no redraw. |
| TileLayer.DrawTileIdSameWorld | all/native/layers/VectorTileLayer.cpp:240-245 | A deeper substitute from the base world is drawn in the same world copy as the visible tile: its id divided down to the visible zoom gives the visible tile's coordinates. |
| TileLayer.DrawSource | all/native/layers/VectorTileLayer.cpp:231-235 | calculateDrawData finds an entry iff the key is in either cache. |
| TileLayer.FindFrame | all/native/layers/VectorTileLayer.cpp:237-238 | The frame lookup succeeds iff the tile map has that frame number, and then returns that frame's tile. |
| TileLayer.CalculateDrawData | all/native/layers/VectorTileLayer.cpp:227-249 | When the entry (visible cache first) has a drawable frame, exactly one draw datum is appended: the draw id, the tile, the cache key and the preloading flag. Otherwise nothing changes. No other field is touched. |
| TileLayer.FindTiles | all/native/layers/TileLayer.cpp:468-525 | findTiles never adds or removes cached keys, never shrinks the registry, and only appends to the draw list. |
| TileLayer.FindTilesCovers | all/native/layers/TileLayer.cpp:468-525 | After findTiles, every listed tile, folded into the base world, is in flight or cached. |
| TileLayer.FetchParents | all/native/layers/TileLayer.cpp:252-261 | After the parent pre-fetch, the parent of every listed tile above zoom 0 is in flight or cached, and no cached key is added or removed. |
| TileLayer.DrawnIdsSpec | all/native/layers/VectorTileLayer.cpp:260-264 | A key counts as drawn iff some non-preloading draw datum carries it. |
| TileLayer.PromoteDrawn | all/native/layers/VectorTileLayer.cpp:257-269 | The first loop moves every drawn key held only by the preloading cache to the visible cache, with its entry. It reports as unused exactly the visible keys that were not drawn. |
| TileLayer.DemoteUnused | all/native/layers/VectorTileLayer.cpp:271-274 | The second loop moves exactly the unused keys, with their entries, from the visible to the preloading cache. |
| TileLayer.RefreshCaches | all/native/layers/VectorTileLayer.cpp:253-275 | After the cache moves, the visible cache holds exactly the drawn keys that were in either cache, with the visible entry preferred. The preloading cache holds the rest: every undrawn key, plus drawn keys that were in both caches. |
| TileLayer.RefreshDrawData | all/native/layers/VectorTileLayer.cpp:251-327 | The draw list is withheld iff the refresh is synchronized and a visible fetch is in flight; otherwise it is handed over unchanged. Cached keys are neither added nor removed, the visible cache is exactly the drawn cached keys, visibleTileIds lists the draw data's ids in order, and the draw list is cleared. |
| TileLayer.RegistryKeyMatches | all/native/layers/VectorTileLayer.cpp:194-200 | A task removes the key it was registered under iff the layer is raster or in tile-map mode, or the tile is frame 0. |
| TileLayer.CancelAll | all/native/layers/TileLayer.cpp:227-230 | Every unstarted task in the registry becomes canceled and nothing else about any task changes. The registry only shrinks, and it ends empty when every task was registered under its own tile id. |
| TileLayer.CancelRegistered | all/native/layers/TileLayer.cpp:228-230 | The loop over the registry cancels each unstarted registered task, and keeps a registry entry only with its original task index. |
| TileLayer.CancelStep | all/native/layers/TileLayer.cpp:228-230 | Canceling one more registered task keeps the loop invariant. |
| TileLayer.LoadData | all/native/layers/TileLayer.cpp:211-268 | loadData adds or removes no cached key and ends with an empty draw list. When the layer is drawn, every visible tile is in flight or cached. With preloading, so is every preloading tile and the parent of every visible tile above zoom 0. When the layer is not drawn, no task is created and no tile id is recorded as visible. |
| TileLayer.FindVisible | all/native/layers/TileLayer.cpp:245-261 | The drawn branch leaves every visible tile in flight or cached and keeps the cached keys. With preloading it also covers the preloading tiles and the parents of the visible tiles. |
| TileLayer.FindPreloading | all/native/layers/TileLayer.cpp:248-261 | After the preloading search and the parent prefetch over visible-then-preloading tiles, coverage of the visible tiles is kept. Every preloading tile is covered, and so is the parent of every visible tile above zoom 0. |
| VectorTileLayer.GetTileIdSpec | all/native/layers/VectorTileLayer.cpp:194-200 | In tile-map mode, two tiles share a key iff they agree on x, y and zoom, whatever their frames. Otherwise they share a key iff they are the same tile. |
| VectorTileLayer.FramesSizeAppend | all/native/layers/VectorTileLayer.cpp:649-651 | Each frame of a tile map adds exactly its tile's resident size to the total. |
| VectorTileLayer.TileInfoSize | all/native/layers/VectorTileLayer.cpp:644-653 | A cached TileInfo costs at least EXTRA_TILE_FOOTPRINT, plus the raw data when kept, plus the resident size of every frame. |
| TileLayer.ServingIndex | all/native/layers/VectorTileLayer.cpp:557-564 | The tile loaded is the first data-source tile not answered with replace-with-parent; every earlier one was. |
| TileLayer.Store | all/native/layers/VectorTileLayer.cpp:582-592 | After put and the max-age invalidate, the entry holds the value. It is valid at time t iff the max age is negative or t < now + maxAge, and every other entry is kept. |
| VectorTileLayer.LoadTile | all/native/layers/VectorTileLayer.cpp:553-619 | loadTile throws iff the data source throws for the serving tile. It reports a refresh iff that tile has a payload that decodes to a tile map, even when the task was invalidated. Nothing is stored when there is no refresh, the task is invalidated, or the transformer changed. Only the task's own tier can change, and only at the task tile's key. |
| VectorTileLayer.LoadTileStores | all/native/layers/VectorTileLayer.cpp:572-593 | When the serving tile decodes and the task is neither invalidated nor stale, its tier holds the TileInfo under the key. The raw data is kept iff an event listener wants it, and the entry stays valid until now + maxAge, forever for a negative max age. |
| VectorTileLayer.LoadTileIgnoresLaterTiles | all/native/layers/VectorTileLayer.cpp:557-616 | The loop stops at the serving tile: data-source tiles after it never change the outcome. |
| RasterTileLayer.Clamp | all/native/layers/RasterTileLayer.cpp:26-27 | `max(lo, min(v, hi))` lies in [lo, hi], equals v inside the range, and equals the nearer bound outside it. |
| RasterTileLayer.PixelInRange | all/native/layers/RasterTileLayer.cpp:31-41 | The byte offset `(y * width + x) * bpp` of an in-range pixel addresses a whole pixel inside the bitmap's data. |
| RasterTileLayer.ReadTileBitmapColor | all/native/layers/RasterTileLayer.cpp:25-44 | A grayscale pixel reads as an opaque gray, and an RGB pixel reads as opaque. |
| RasterTileLayer.ReadInside | all/native/layers/RasterTileLayer.cpp:25-44 | Inside the bitmap, the colour is the stored pixel of the flipped row (rows are stored bottom-up): gray repeated in r, g and b; RGB with alpha 255; RGBA as stored. |
| RasterTileLayer.ReadClampsOutside | all/native/layers/RasterTileLayer.cpp:26-27 | A read outside the bitmap gives the colour of the nearest edge pixel. |
| RasterTileLayer.CreateVectorTile | all/native/layers/RasterTileLayer.cpp:471-486 | The tile has the map tile's vt id and exactly one bitmap of the source bitmap's size. Grayscale, RGB and RGBA keep their pixels in the matching format; any other format is converted to RGBA. |
| RasterTileLayer.CreateVectorTileWellFormed | all/native/layers/RasterTileLayer.cpp:471-486 | A well-formed bitmap gives a tile bitmap with width * height pixels of its format. |
| RasterTileLayer.SubTileRect | all/native/layers/RasterTileLayer.cpp:461-469 | The crop rectangle for a tile deltaZoom levels below the data tile is non-empty and lies inside the ancestor's bitmap, in unbounded arithmetic. |
| RasterTileLayer.SubRangeInside | all/native/layers/RasterTileLayer.cpp:463-467 | Cell m of p cells of `size / p` pixels, at least 1 pixel wide, starts and ends inside [0, size). |
| RasterTileLayer.SubTileOriginAsWritten | all/native/layers/RasterTileLayer.cpp:463-464 | The crop origin as the code computes it if Bitmap::getWidth returns `int`: a 32-bit product, taken to wrap as two's complement (signed overflow is undefined in C++), then an arithmetic shift right. |
| RasterTileLayer.SubTileOriginUnsigned | all/native/layers/RasterTileLayer.cpp:463-464 | The crop origin if Bitmap::getWidth returns `unsigned int`: the product modulo 2^32, shifted logically; it always fits in 32 bits. |
| RasterTileLayer.SubTileOriginOverflows | all/native/layers/RasterTileLayer.cpp:463-464 | For a 512-pixel tile 24 levels below its data tile at x = 2^24 - 1, the intended origin is 511. The `int` reading gives -1, outside the bitmap, and the `unsigned` reading gives 255, the wrong cell. |
| RasterTileLayer.SubTileOriginAgrees | all/native/layers/RasterTileLayer.cpp:463-464 | Whenever the 32-bit product does not overflow, both readings of the code give the unbounded origin. |
| RasterTileLayer.LoadTile | all/native/layers/RasterTileLayer.cpp:407-459 | loadTile throws iff the data source throws for the serving tile. It reports a refresh iff that tile's payload decodes as an image, even when the task was invalidated. Nothing is stored without a refresh or when invalidated, and only the task's own tier can change. |
| RasterTileLayer.LoadTileStores | all/native/layers/RasterTileLayer.cpp:427-450 | When the image decodes and the task is not invalidated, the task's tier holds, under the task tile's key, the vector tile built from the bitmap: the decoded bitmap itself when the serving tile is the task tile, otherwise the sub-tile cut from it. Its cost is EXTRA_TILE_FOOTPRINT plus the tile's resident size. The entry is valid until now + maxAge, forever for a negative max age, and every other entry of that tier is kept. |
| RasterTileLayer.TileBitmapFor | all/native/layers/RasterTileLayer.cpp:428-431 | The bitmap keeps the decoded format and size. It is the decoded bitmap when the data-source tile is the task tile, and the extracted sub-tile when an ancestor served it. |
| RasterTileLayer.ExtractSubTile | all/native/layers/RasterTileLayer.cpp:461-469 | The result has the data tile's format, width and height, and its pixels are the resize, to that size, of a crop whose rectangle lies inside the bitmap. |
| RasterTileLayer.ServedTileIsTaskTile | all/native/layers/RasterTileLayer.cpp:429-431 | When the data source serves the task tile's own zoom, that tile comes first in the list, and its bitmap is used as is, without a sub-tile cut. |
| PackageTileMask.DecodeChar | all/native/packagemanager/PackageTileMask.cpp:16-43 | Every byte decodes to a 6-bit value or to the marker 255. |
| PackageTileMask.UrlSafeCharDecodes | all/native/packagemanager/PackageTileMask.cpp:21-26 | Replacing '+' with '-' or '/' with '_' does not change a character's decoded value, because the table reads '-' like '+' and '_' like '/'. |
| PackageTileMask.EncodeChar | all/native/packagemanager/PackageTileMask.cpp:45-53 | The encode table is the decode table's inverse on 0..63. |
| PackageTileMask.LowBitsOfValue | all/native/packagemanager/PackageTileMask.cpp:59-61 | Reading bits 5..0 of a character value gives back the bits that value was built from, so the bit order of decoding matches encoding. |
| PackageTileMask.DecodeBase64 | all/native/packagemanager/PackageTileMask.cpp:55-64 | Every character, valid or not, contributes exactly six bits. |
| PackageTileMask.PadTo24 | all/native/packagemanager/PackageTileMask.cpp:67-69 | Padding adds fewer than 24 false bits, reaching a multiple of 24, and keeps the original bits as a prefix. |
| PackageTileMask.EncodeBase64 | all/native/packagemanager/PackageTileMask.cpp:66-81 | The string length is a multiple of 4. |
| PackageTileMask.Base64RoundTrip | all/native/packagemanager/PackageTileMask.cpp:55-81 | Decoding an encoded bit string gives the padded bits, so the original bits come back as a prefix followed only by false. |
| PackageTileMask.UrlSafe | all/native/packagemanager/PackageTileMask.cpp:182-187 | The URL-safe string has the same length, contains neither '+' nor '/', and changes no other character. |
| PackageTileMask.UrlSafeDecodesAlike | all/native/packagemanager/PackageTileMask.cpp:182-187 | The URL-safe string decodes to the same bits as the original. |
| PackageTileMask.EncodeNode | all/native/packagemanager/PackageTileMask.cpp:287-305 | Every node encodes to at least two bits, the second being its inside flag. |
| PackageTileMask.DecodeNode | all/native/packagemanager/PackageTileMask.cpp:269-285 | A decoded node is a well-formed tree for the requested tile, and the rest of the bits is a proper suffix of the input. |
| PackageTileMask.EncodeDecodeNode | all/native/packagemanager/PackageTileMask.cpp:269-305 | Decoding the encoding of a well-formed tree, followed by any bits, gives back the tree and exactly those bits. |
| PackageTileMask.DecodeEncodeNode | all/native/packagemanager/PackageTileMask.cpp:269-305 | Re-encoding a decoded tree gives back exactly the bits it consumed. |
| PackageTileMask.BuildNode | all/native/packagemanager/PackageTileMask.cpp:244-267 | A node is inside iff its tile is in the set. Only inside nodes above the clip zoom have children, and the tree is well formed. |
| PackageTileMask.InsideLeafCovers | all/native/packagemanager/PackageTileMask.cpp:250-265 | An inside leaf above the clip zoom is collapsed from four inside leaves, so every tile below it down to the clip zoom is in the set. |
| PackageTileMask.MaxZoom | all/native/packagemanager/PackageTileMask.cpp:167-173 | The maximum zoom level is the largest listed zoom, or 0: it bounds every listed tile and is attained. |
| PackageTileMask.FromTiles | all/native/packagemanager/PackageTileMask.cpp:164-176 | The tile-list constructor's tree is well formed and rooted at 0/0/0. The root is inside iff that tile is listed, and the max zoom is MaxZoom. |
| PackageTileMask.FromString | all/native/packagemanager/PackageTileMask.cpp:155-162 | The string constructor keeps the string and the max zoom, and decodes a well-formed tree rooted at 0/0/0. |
| PackageTileMask.StringRoundTrip | all/native/packagemanager/PackageTileMask.cpp:155-176 | Building a mask from its own string reproduces the tree of the mask built from the tile list. |
| PackageTileMask.FindInBuilt | all/native/packagemanager/PackageTileMask.cpp:219-242 | In a built tree, findTileNode answers either the tile's own node or an inside leaf ancestor standing for it. It answers an inside node whenever the tile and all its ancestors are in the set. |
| PackageTileMask.FindTileNode | all/native/packagemanager/PackageTileMask.cpp:219-242 | At zoom 0 a node is found iff the tile is 0/0; the root answers it. Deeper, an answer that is not the tile's own node is an inside ancestor leaf standing for it. FindInBuilt is its partner on built trees. |
| PackageTileMask.GetTileStatus | all/native/packagemanager/PackageTileMask.cpp:210-217 | The status is FULL iff the lookup finds a node, the tile's zoom is at most the mask's max zoom, and that node is inside. Every other case, including no node, is MISSING. |
| PackageTileMask.GetTileStatusListed | all/native/packagemanager/PackageTileMask.cpp:210-217 | For a mask built from a list, a tile listed together with all its ancestors is FULL. |
| PackageTileMask.GetTileStatusFull | all/native/packagemanager/PackageTileMask.cpp:210-217 | For a mask built from a list, a FULL tile is no deeper than the listed tiles, and its ancestor at the clip zoom (the tile itself when not deeper) is listed. |
| DataInputStream.ReadByte | all/native/datasources/OnlineNMLModelLODTreeDataSource.cpp:219-225 | Inside the data the next byte is returned and the cursor moves by one. At the end the result is 0 and the cursor stays put. |
| DataInputStream.ReadUnsignedStep | all/native/datasources/OnlineNMLModelLODTreeDataSource.cpp:227-241 | Reading n+1 bytes is reading n bytes, shifting left by 8 and or-ing in one more readByte. |
| DataInputStream.ReadUnsigned | all/native/datasources/OnlineNMLModelLODTreeDataSource.cpp:227-241 | The cursor stays in the data. It moves exactly n bytes when they fit and stops at the end otherwise; ReadUnsignedStep ties the closed form to the byte loop. |
| DataInputStream.ReadInt | all/native/datasources/OnlineNMLModelLODTreeDataSource.cpp:227-233 | readInt keeps the cursor inside the data and advances it by at most four bytes. |
| DataInputStream.ReadLongLong | all/native/datasources/OnlineNMLModelLODTreeDataSource.cpp:235-241 | readLongLong keeps the cursor inside the data and advances it by at most eight bytes. |
| DataInputStream.ReadString | all/native/datasources/OnlineNMLModelLODTreeDataSource.cpp:253-263 | A non-empty string is exactly the bytes after the two length bytes, and its length is the big-endian length. The cursor ends after the length bytes plus the string. |
| DataInputStream.ReadBytes | all/native/datasources/OnlineNMLModelLODTreeDataSource.cpp:265-273 | A read that fits returns exactly the next size bytes and advances by size. A read that overruns returns nothing and leaves the cursor alone. |
| DataInputStream.ReadBytesAsWritten | all/native/datasources/OnlineNMLModelLODTreeDataSource.cpp:265-273 | Whenever the size fits in the remaining data the as-written reader agrees with the corrected one. |
| DataInputStream.NegativeLengthWrapsGuard | all/native/datasources/OnlineNMLModelLODTreeDataSource.cpp:265-273 | A length of -1 read by readInt wraps to 2^64-1 and passes the wrapped bounds check. The offset would move from 4 back to 3. The corrected reader returns nothing. |
| DataInputStream.SizeT | all/native/datasources/OnlineNMLModelLODTreeDataSource.cpp:265 | The int-to-size_t conversion lands below 2^64 and keeps every non-negative value in range. |
| DataInputStream.BigEndianOfWrite | all/native/datasources/OnlineNMLModelLODTreeDataSource.cpp:227-241 | Writing a value as n big-endian bytes and reading their value back gives the value. |
| DataInputStream.ReadWriteUnsigned | all/native/datasources/OnlineNMLModelLODTreeDataSource.cpp:227-241 | Reading n bytes that hold a written value yields that value and advances by n. |
| DataInputStream.Unsigned | all/native/datasources/OnlineNMLModelLODTreeDataSource.cpp:227-241 | The two's-complement pattern of a value lies in range and reinterprets as the value. |
| DataInputStream.ReadWriteInt | all/native/datasources/OnlineNMLModelLODTreeDataSource.cpp:227-233 | readInt over the four bytes of any 32-bit value returns that value and advances by four. |
| DataInputStream.ReadWriteLongLong | all/native/datasources/OnlineNMLModelLODTreeDataSource.cpp:235-241 | readLongLong over the eight bytes of any 64-bit value returns that value and advances by eight. |
| DataInputStream.ReadWriteString | all/native/datasources/OnlineNMLModelLODTreeDataSource.cpp:253-263 | readString over a length-prefixed string returns the string and advances past it. |
| DataInputStream.ParseMapTiles | all/native/datasources/OnlineNMLModelLODTreeDataSource.cpp:62-74 | A terminating loop consumes at least the end key and keeps no record whose id is -1. |
| DataInputStream.MapTilesRoundTrip | all/native/datasources/OnlineNMLModelLODTreeDataSource.cpp:62-74 | The map-tile loop reads back exactly the records written before the -1 key, in order, and stops right after that key. |
| DataInputStream.RunReads | all/native/datasources/OnlineNMLModelLODTreeDataSource.cpp:219-273 | On the corrected reader (the corrected member of the first Findings row), after any sequence of reads the cursor never passes the end of the data and never moves backwards. The C++ reader as written can move it backwards. |
| DataInputStream.ReadProxy | all/native/datasources/OnlineNMLModelLODTreeDataSource.cpp:107-121 | A proxy record keeps the model id it was read under. |
| DataInputStream.ParseProxies | all/native/datasources/OnlineNMLModelLODTreeDataSource.cpp:107-121 | A terminating proxies loop consumes input and keeps no model id of -1. ProxiesRoundTrip is its partner. |
| DataInputStream.ReadMeshBinding | all/native/datasources/OnlineNMLModelLODTreeDataSource.cpp:130-140 | A binding carries a MeshOp exactly when the first mesh id read is -1. |
| DataInputStream.ParseMeshBindings | all/native/datasources/OnlineNMLModelLODTreeDataSource.cpp:125-141 | A terminating mesh-bindings loop consumes input and keeps no node id of -1. MeshBindingsRoundTrip is its partner. |
| DataInputStream.ReadTextureBinding | all/native/datasources/OnlineNMLModelLODTreeDataSource.cpp:150-152 | The cursor stays in the data and never moves back. TextureBindingThen is its partner. |
| DataInputStream.ProxiesRoundTrip | all/native/datasources/OnlineNMLModelLODTreeDataSource.cpp:107-121 | Over the bytes a writer of the format emits (model id, URL-encoded string, three 64-bit patterns, then -1), the proxies loop returns exactly those proxies in order and stops right after the -1. |
| DataInputStream.MeshBindingThen | all/native/datasources/OnlineNMLModelLODTreeDataSource.cpp:130-140 | A written binding reads back whole. A plain one gives its mesh id with no MeshOp and stops after the id. A marked one (mesh id -1) gives the real id and the int-length MeshOp bytes, and stops right after them. |
| DataInputStream.MeshBindingsRoundTrip | all/native/datasources/OnlineNMLModelLODTreeDataSource.cpp:125-141 | The mesh-bindings loop reads back exactly the written (node id, binding) pairs, in order, and stops right after the -1. |
| DataInputStream.TextureBindingThen | all/native/datasources/OnlineNMLModelLODTreeDataSource.cpp:150-152 | A written texture binding (local id, texture id, level) reads back whole and the cursor stops right after it. |
| DataInputStream.TextureBindingsRoundTrip | all/native/datasources/OnlineNMLModelLODTreeDataSource.cpp:145-155 | The texture-bindings loop reads back exactly the written pairs, in order, and stops right after the -1. |
| DataInputStream.ParseTextureBindings | all/native/datasources/OnlineNMLModelLODTreeDataSource.cpp:145-155 | A terminating texture-bindings loop consumes input and keeps no node id of -1. TextureBindingsRoundTrip is its partner. |
| DataInputStream.ProxyMapFirstWins | all/native/datasources/OnlineNMLModelLODTreeDataSource.cpp:120 | emplace keeps exactly the ids read, each mapped to the first proxy read under it. |
| DataInputStream.GroupByNodeKeepsOrder | all/native/datasources/OnlineNMLModelLODTreeDataSource.cpp:137-139 | The bindings map has a group exactly for the nodes that occur. Each group lists that node's bindings in the order read. |
| DataInputStream.ParseLodTree | all/native/datasources/OnlineNMLModelLODTreeDataSource.cpp:100-159 | In a parsed tree every proxy sits under its own model id and no binding group is empty. |
| DataInputStream.Envelope | all/native/datasources/OnlineNMLModelLODTreeDataSource.cpp:49-51 | The payload is never longer than the response. EnvelopeRoundTrip is its partner. |
| DataInputStream.EnvelopeRoundTrip | all/native/datasources/OnlineNMLModelLODTreeDataSource.cpp:49-51 | The response envelope returns exactly the payload written after its int length. |
| Polyline.UnZigZag | all/native/routing/ValhallaRoutingProxy.cpp:632 | The decoders' sign unfolding is the inverse of the encoder's sign folding. |
| Polyline.ZigZagRoundTrip | all/native/routing/ValhallaRoutingProxy.cpp:658-661 | Folding the sign into the low bit and unfolding it gives every integer back. |
| Polyline.EncodeVarintShape | all/native/routing/ValhallaRoutingProxy.cpp:662-670 | Every chunk the encoder writes is a byte in 63..126. Every chunk but the last carries the continuation bit, and the last does not. |
| Polyline.Serialize | all/native/routing/ValhallaRoutingProxy.cpp:658-670 | A value serialises to at least one byte, every byte in 63..126. Every byte but the last carries the continuation bit (is at least 95) and the last does not. VarintRoundTrip is its partner. |
| Polyline.EncodeIsPrintable | all/native/routing/ValhallaRoutingProxy.cpp:650-685 | An encoded polyline consists only of bytes in 63..126. |
| Polyline.Encode | all/native/routing/ValhallaRoutingProxy.cpp:650-685 | The encoding is empty exactly when there are no points. |
| Polyline.NextValue | all/native/routing/ValhallaRoutingProxy.cpp:618-633 | A value read fails with "Bad encoded polyline" exactly when no byte from the position on ends a value. A successful read consumes at least one byte. |
| Polyline.DecodeFrom | all/native/routing/ValhallaRoutingProxy.cpp:604-646 | A successful decode of non-empty input yields at least one point. Every failure is the bad-polyline error. |
| Polyline.Decode | all/native/routing/ValhallaRoutingProxy.cpp:639-647 | A successful decode is empty iff the input is; every failure is "Bad encoded polyline". DecodeEncode is its partner. |
| Polyline.VarintRoundTrip | all/native/routing/ValhallaRoutingProxy.cpp:618-633 | The value reader reads back an encoded value and stops right after its last chunk. |
| Polyline.DecodeEncode | all/native/routing/ValhallaRoutingProxy.cpp:639-685 | decode(encode(points)) gives the same points, latitude read before longitude as written. |
| Polyline.NextValueOsrm | all/native/routing/OSRMRoutingProxy.cpp:266-272 | The unsigned value reader finds a value exactly when some byte from the position on lies in 63..94. |
| Polyline.DecodeOsrm | all/native/routing/OSRMRoutingProxy.cpp:260-290 | A decoded geometry is empty iff the input is. OsrmDecodeEncode is its partner. |
| Polyline.NextValuesAgree | all/native/routing/OSRMRoutingProxy.cpp:266-272 | On bytes 63..126 the OSRM value reader and the Valhalla value reader return the same value and position. |
| Polyline.DecodersAgree | all/native/routing/OSRMRoutingProxy.cpp:260-290 | On bytes 63..126 DecodeGeometry reads the same points as the Valhalla decoder, and fails where it fails. |
| Polyline.OsrmDecodeEncode | all/native/routing/OSRMRoutingProxy.cpp:260-290 | DecodeGeometry reads back exactly the points of any encoded polyline. |
| Polyline.SpaceSplitsDecoders | all/native/routing/OSRMRoutingProxy.cpp:266-272 | A byte below 63 ends a Valhalla value but continues an OSRM one, because the OSRM reader subtracts in unsigned arithmetic. |
| Routing.AddToLast | all/native/routing/OSRMRoutingProxy.cpp:75-80 | Folding a skipped instruction adds its time and distance to the last instruction only, and leaves every other field and instruction as it was. |
| Routing.AddToLastTotals | all/native/routing/OSRMRoutingProxy.cpp:145-149 | When a previous instruction exists, folding loses no time or distance. |
| ValhallaRoutingProxy.TranslateManeuverType | all/native/routing/ValhallaRoutingProxy.cpp:1059-1100 | Exactly the maneuver types 0..29 translate. Right and left turns and straight maneuvers map to their actions. An unknown or transit type leaves the action untouched and returns false. |
| ValhallaRoutingProxy.MergeConfig | all/native/routing/ValhallaRoutingProxy.cpp:226-247 | The merge fails exactly when there is no "default" profile. Otherwise each key takes the preference value, else the mode value, else the default. |
| ValhallaRoutingProxy.FillMissing | all/native/routing/ValhallaRoutingProxy.cpp:253-268 | Adding missing children keeps every existing key's value and takes only absent keys from the source. |
| ValhallaRoutingProxy.MergeConfigInPlace | all/native/routing/ValhallaRoutingProxy.cpp:249-270 | The in-place merge layers the preferences over the mode profile over the default profile. Without a default profile it fails after the mode fill. |
| ValhallaRoutingProxy.MergeOverloadsAgree | all/native/routing/ValhallaRoutingProxy.cpp:226-270 | Where the default profile exists, both MergeConfig overloads produce the same profile. |
| ValhallaRoutingProxy.GetPathAlgorithm | all/native/routing/ValhallaRoutingProxy.cpp:356-381 | Multimodal uses multimodal A*, bus uses A*, and pedestrian and wheelchair use bidirectional A*. Any other costing uses A* exactly when origin and destination share an edge id. |
| OsrmRoutingProxy.TranslateInstructionCode | all/native/routing/OSRMRoutingProxy.cpp:208-258 | A code translates exactly when the switch names it. The three right turns become TurnRight and the three left turns TurnLeft. No code gives StartAtEndOfStreet. An unnamed code leaves the action untouched. |
| OsrmRoutingProxy.TranslationReachesActions | all/native/routing/OSRMRoutingProxy.cpp:208-258 | Every action other than StartAtEndOfStreet is the translation of some code. |
| OsrmRoutingProxy.EmittedFrom | all/native/routing/OSRMRoutingProxy.cpp:69-91 | Each emitted instruction comes from an emitting source instruction. |
| OsrmRoutingProxy.MergeAll | all/native/routing/OSRMRoutingProxy.cpp:69-91 | The loop adds exactly one instruction per emitted source instruction to those built before. |
| OsrmRoutingProxy.MergeAllTotals | all/native/routing/OSRMRoutingProxy.cpp:69-91 | Once an instruction exists, the loop loses no time or distance: the totals grow by those of all source instructions. |
| OsrmRoutingProxy.MergeAllKeepsPrefix | all/native/routing/OSRMRoutingProxy.cpp:75-80 | Instructions built before the loop keep their action, point index and street. |
| OsrmRoutingProxy.MergeAllEmits | all/native/routing/OSRMRoutingProxy.cpp:69-91 | The emitted instructions follow the earlier ones, in source order. |
| OsrmRoutingProxy.MergeAllHeads | all/native/routing/OSRMRoutingProxy.cpp:69-91 | Every instruction the loop returns carries the head of an earlier instruction or of an emitted one. |
| OsrmRoutingProxy.NativeCandidate | all/native/routing/OSRMRoutingProxy.cpp:70-89 | NoTurn and StayOnRoundabout are not emitted, and Finish is not emitted on a leg before the last. The point index is the leg's first point plus the geometry index. Time and distance are those of the source instruction. |
| OsrmRoutingProxy.AddLeg | all/native/routing/OSRMRoutingProxy.cpp:57-91 | A leg without instructions changes nothing, its points included. Otherwise its geometry is appended, and the earlier instructions keep their heads. |
| OsrmRoutingProxy.AddLegKeepsActions | all/native/routing/OSRMRoutingProxy.cpp:57-91 | A leg adds no NoTurn or StayOnRoundabout instruction, and adds no Finish unless it is the last leg. |
| OsrmRoutingProxy.BuildRoute | all/native/routing/OSRMRoutingProxy.cpp:57-91 | The route from the legs has no skipped action, and no Finish before the last leg. |
| OsrmRoutingProxy.CalculateRoute | all/native/routing/OSRMRoutingProxy.cpp:31-95 | Routing fails exactly when some leg failed. A route has no NoTurn or StayOnRoundabout instruction. The instructions from the earlier legs keep their actions in the final route, and none is Finish. |
| OsrmRoutingProxy.PointIndexOffset | all/native/routing/OSRMRoutingProxy.cpp:63-87 | Every instruction a leg emits points into that leg's own geometry: the number of earlier points plus its geometry index. |
| OsrmRoutingProxy.AddLegKeepsTime | all/native/routing/OSRMRoutingProxy.cpp:69-91 | Once an instruction exists, a leg adds exactly its total time to the route. |
| OsrmRoutingProxy.HttpCandidate | all/native/routing/OSRMRoutingProxy.cpp:138-157 | An HTTP instruction is emitted exactly when its code translates, with the response's point index, time and distance. |
| OsrmRoutingProxy.CalculateRouteHttp | all/native/routing/OSRMRoutingProxy.cpp:121-157 | A status other than 0 or 200 is an error. A geometry that ends inside a value is a ParseError in the model, where the C++ reads past the end of the string. Otherwise the points are the decoded geometry and there is one instruction per translatable code. |
| OsrmRoutingProxy.HttpInstructionOrigin | all/native/routing/OSRMRoutingProxy.cpp:138-157 | Every emitted HTTP instruction has the point index of a translatable source instruction. |
| OsrmRoutingProxy.VariantsDifferOnNoTurn | all/native/routing/OSRMRoutingProxy.cpp:73-80 | The HTTP variant emits a NoTurn instruction that the native variant folds away. |
| LocalVectorDataSource.CheckAll | all/native/datasources/LocalVectorDataSource.cpp:156-164 | A list passes the up-front check exactly when no element is null or attached. A passing list yields its elements unchanged. A failure is NullArgument("Null element") or InvalidArgument with the calling operation's message. |
| LocalVectorDataSource.Add | all/native/datasources/LocalVectorDataSource.cpp:137-154 | A null element throws NullArgument and an attached one InvalidArgument. Otherwise the element joins the index with the next id, the counter grows by one, and one added notification fires. |
| LocalVectorDataSource.AssignIds | all/native/datasources/LocalVectorDataSource.cpp:166-176 | Every listed element gets an id, and an unlisted element keeps its id. |
| LocalVectorDataSource.AssignIdsPositions | all/native/datasources/LocalVectorDataSource.cpp:166-176 | An element listed once gets the counter value plus its position in the list. |
| LocalVectorDataSource.AddAll | all/native/datasources/LocalVectorDataSource.cpp:156-180 | All elements are checked before any is inserted. On success all join the index and the counter grows by the list length. One notification fires, and only for a non-empty list. |
| LocalVectorDataSource.SetAllLoop | all/native/datasources/LocalVectorDataSource.cpp:105-127 | The old elements missing from the list are removed. The counter grows by the number of added occurrences, and an old element not re-added keeps its id. |
| LocalVectorDataSource.SetAllLoopAdds | all/native/datasources/LocalVectorDataSource.cpp:114-126 | The loop adds exactly the occurrences that are not old elements or that repeat an earlier one, in input order. |
| LocalVectorDataSource.SetAll | all/native/datasources/LocalVectorDataSource.cpp:93-135 | Every element is checked first. Then the index becomes exactly the new list, the old elements not in it are reported removed, and the counter grows by the number of added elements. |
| LocalVectorDataSource.SetAllAddsNew | all/native/datasources/LocalVectorDataSource.cpp:93-135 | setAll adds exactly the new occurrences, in input order. |
| LocalVectorDataSource.SetAllTwice | all/native/datasources/LocalVectorDataSource.cpp:93-135 | Setting the same list of distinct elements a second time adds nothing, removes nothing, fires nothing and leaves the index as it was. |
| LocalVectorDataSource.Remove | all/native/datasources/LocalVectorDataSource.cpp:182-203 | A null element throws NullArgument, and one of another data source InvalidArgument. Otherwise one occurrence leaves the index. The result is true exactly when the element was there, and only then a notification fires. |
| LocalVectorDataSource.AddThenRemove | all/native/datasources/LocalVectorDataSource.cpp:137-203 | Adding an element and then removing it reports the removal and restores the index. |
| LocalVectorDataSource.RemoveEach | all/native/datasources/LocalVectorDataSource.cpp:218-227 | The loop removes exactly the common part of the list and the index, counted with multiplicity, and reports it. The index left over is the old index minus the list. |
| LocalVectorDataSource.RemoveEachAll | all/native/datasources/LocalVectorDataSource.cpp:218-227 | Every listed element is removed exactly when the list, counted with multiplicity, is contained in the index. |
| LocalVectorDataSource.RemoveAll | all/native/datasources/LocalVectorDataSource.cpp:205-232 | The check comes first. The new index is the old one minus the listed elements, and nothing else changes. The result is true exactly when every element was removed. One notification, carrying the common part of the list and the old index, fires exactly when some listed element was in the index. |
| LocalVectorDataSource.RemoveEachEmpty | all/native/datasources/LocalVectorDataSource.cpp:218-227 | The loop removes nothing exactly when no listed element is in the index. |
| LocalVectorDataSource.Clear | all/native/datasources/LocalVectorDataSource.cpp:76-86 | The index empties and the counter and ids stay. A removal notification with the old contents fires exactly when the index held something. |
| PackageManagerValhallaRoutingService.Split | all/native/routing/PackageManagerValhallaRoutingService.cpp:50 | Splitting a path yields at least one piece, and no piece contains a dot. |
| PackageManagerValhallaRoutingService.JoinSplit | all/native/routing/PackageManagerValhallaRoutingService.cpp:50 | Splitting on '.' loses nothing: joining the pieces with '.' gives the path back. |
| PackageManagerValhallaRoutingService.SplitJoin | all/native/routing/PackageManagerValhallaRoutingService.cpp:50 | Pieces without dots, joined with '.', split back into the same pieces. |
| PackageManagerValhallaRoutingService.GetPath | all/native/routing/PackageManagerValhallaRoutingService.cpp:51-58 | A walk that meets a non-object before the last key answers null. |
| PackageManagerValhallaRoutingService.SetPath | all/native/routing/PackageManagerValhallaRoutingService.cpp:65-73 | A write makes the value an object holding the first key. It keeps every sibling member, and replaces a non-object by an object holding only that key. |
| PackageManagerValhallaRoutingService.GetAfterSet | all/native/routing/PackageManagerValhallaRoutingService.cpp:47-75 | Reading a key path right after writing it gives the value written. |
| PackageManagerValhallaRoutingService.GetAfterSetOther | all/native/routing/PackageManagerValhallaRoutingService.cpp:47-75 | A write leaves every path that branches off from it unchanged, provided the values on the shared part were objects. |
| PackageManagerValhallaRoutingService.Create | all/native/routing/PackageManagerValhallaRoutingService.cpp:16-30 | A null package manager throws NullArgument. Otherwise the profile is "pedestrian", the configuration is the default one, and no databases are cached. |
| PackageManagerValhallaRoutingService.SetProfile | all/native/routing/PackageManagerValhallaRoutingService.cpp:42-45 | The profile becomes the one given, and nothing else changes. |
| PackageManagerValhallaRoutingService.GetConfigurationParameter | all/native/routing/PackageManagerValhallaRoutingService.cpp:47-59 | A configuration that is not an object answers null for every parameter. |
| PackageManagerValhallaRoutingService.SetConfigurationParameter | all/native/routing/PackageManagerValhallaRoutingService.cpp:61-75 | After a write the configuration is an object, and the profile and cached databases are unchanged. |
| PackageManagerValhallaRoutingService.GetAfterSetParameter | all/native/routing/PackageManagerValhallaRoutingService.cpp:47-75 | getConfigurationParameter after setConfigurationParameter of the same dotted parameter returns the value set. |
| PackageManagerValhallaRoutingService.PrepareRouting | all/native/routing/PackageManagerValhallaRoutingService.cpp:107-132 | A null request throws NullArgument. Otherwise the installed routing databases become the cached list, and the profile and configuration are unchanged. |
| PackageManagerValhallaRoutingService.OnPackagesChanged | all/native/routing/PackageManagerValhallaRoutingService.cpp:142-145 | A package change empties the cached database list and changes nothing else. |
| MBVectorTileDecoder.EnumLookup | all/native/vectortiles/MBVectorTileDecoder.cpp:189-194 | An enum key is found exactly when the table lists it, and the value found is listed under that key. |
| MBVectorTileDecoder.FirstKeyWith | all/native/vectortiles/MBVectorTileDecoder.cpp:157-162 | A key is found exactly when some entry holds the value, and the key found is listed with that value. |
| MBVectorTileDecoder.LoadStyle | all/native/vectortiles/MBVectorTileDecoder.cpp:431-490 | A compiled style set with no asset name throws InvalidArgument, and one without a package GenericError. A CartoCSS set fails exactly when parsing fails. A loaded compiled style's asset name ends in ".xml" or ".json". |
| MBVectorTileDecoder.AddContext | all/native/vectortiles/MBVectorTileDecoder.cpp:492-495 | The package always ends up with a context and at most two contexts are kept. A new package added when the limit is reached clears the others first. |
| MBVectorTileDecoder.CheckFits | all/native/vectortiles/MBVectorTileDecoder.cpp:532-540 | The validity flag is set iff the value fits its parameter: it must appear in the enum table when there is one, and otherwise have the default value's variant kind. |
| MBVectorTileDecoder.Reconcile | all/native/vectortiles/MBVectorTileDecoder.cpp:526-555 | A value the application set survives a style change exactly when it fits the new parameter, by variant kind or by enum table. Every other parameter takes its default. |
| MBVectorTileDecoder.ReconcileFixpoint | all/native/vectortiles/MBVectorTileDecoder.cpp:526-555 | Reconciling against the style the decoder already has changes neither the values nor the set of updated parameters. |
| MBVectorTileDecoder.UpdateCurrentStyleSet | all/native/vectortiles/MBVectorTileDecoder.cpp:431-560 | The update fails exactly when loading the style fails. On success the decoder holds the new style and parameters, and the updated parameters are exactly the old ones that fit, with their values. |
| MBVectorTileDecoder.ReapplyKeepsValues | all/native/vectortiles/MBVectorTileDecoder.cpp:431-560 | Re-applying the current style keeps every value and every updated parameter. |
| MBVectorTileDecoder.Create | all/native/vectortiles/MBVectorTileDecoder.cpp:46-84 | A null style set throws NullArgument. A new decoder has no updated parameter, one symbolizer context, and every parameter at its default. |
| MBVectorTileDecoder.SetStyleSet | all/native/vectortiles/MBVectorTileDecoder.cpp:97-128 | A null style set throws NullArgument. A successful set keeps the decoder consistent with the new style and keeps the context bound. |
| MBVectorTileDecoder.StyleParameters | all/native/vectortiles/MBVectorTileDecoder.cpp:130-138 | Every parameter name of the style is listed exactly once. |
| MBVectorTileDecoder.GetStyleParameter | all/native/vectortiles/MBVectorTileDecoder.cpp:140-175 | An unknown parameter throws InvalidArgument. An enum parameter answers the first key listed with the current value, or "" when there is none. |
| MBVectorTileDecoder.Convert | all/native/vectortiles/MBVectorTileDecoder.cpp:198-212 | A converted value has the default value's kind. A string converts as it is, and a boolean converts exactly from "true", "false", "1" or "0". |
| MBVectorTileDecoder.SetStyleParameter | all/native/vectortiles/MBVectorTileDecoder.cpp:177-222 | An unknown parameter or enum key returns false and changes nothing. A known enum key stores its value. A failed conversion is GenericError. A stored value marks the parameter updated. |
| MBVectorTileDecoder.SetStyleParameterConsistent | all/native/vectortiles/MBVectorTileDecoder.cpp:177-222 | setStyleParameter keeps every stored value fitting its parameter. |
| MBVectorTileDecoder.EnumSetThenGet | all/native/vectortiles/MBVectorTileDecoder.cpp:140-222 | With distinct table values, an enum key that was set reads back as that key. |
| MBVectorTileDecoder.StringSetThenGet | all/native/vectortiles/MBVectorTileDecoder.cpp:140-222 | A string parameter reads back exactly the text that was set. |
| MBVectorTileDecoder.BoolSetThenGet | all/native/vectortiles/MBVectorTileDecoder.cpp:140-222 | A boolean parameter set to "true" or "false" reads back as "1" or "0". |
| CartoVectorTileDecoder.IsLayerVisible | all/native/vectortiles/CartoVectorTileDecoder.cpp:68-76 | A layer without a style set throws OutOfRange. Otherwise the layer is visible exactly when it is not hidden. |
| CartoVectorTileDecoder.SetLayerVisible | all/native/vectortiles/CartoVectorTileDecoder.cpp:78-93 | A layer without a style set throws OutOfRange. Otherwise only that layer's hidden flag changes. |
| CartoVectorTileDecoder.SetThenIsVisible | all/native/vectortiles/CartoVectorTileDecoder.cpp:68-93 | isLayerVisible after setLayerVisible reads back the flag that was set. |
| CartoVectorTileDecoder.GetLayerStyleSet | all/native/vectortiles/CartoVectorTileDecoder.cpp:95-103 | A layer without a style set throws OutOfRange. |
| CartoVectorTileDecoder.UpdateLayerStyleSet | all/native/vectortiles/CartoVectorTileDecoder.cpp:305-360 | A null style set throws NullArgument, and one that does not parse ParseError. Otherwise that layer's style set and map are replaced and nothing else changes. The background follows the first layer's map only. |
| CartoVectorTileDecoder.SetLayerStyleSet | all/native/vectortiles/CartoVectorTileDecoder.cpp:105-115 | An unknown layer throws OutOfRange. Otherwise the call is updateLayerStyleSet, and the set of styled layers stays the same. |
| CartoVectorTileDecoder.SetThenGetStyleSet | all/native/vectortiles/CartoVectorTileDecoder.cpp:95-115 | A style set that was set is the one getLayerStyleSet returns. |
| CartoVectorTileDecoder.ApplyStyleSets | all/native/vectortiles/CartoVectorTileDecoder.cpp:56-58 | Every listed layer gets a style set and a map. It fails exactly when some listed style set is null or does not parse, with the error of the first such entry: NullArgument exactly when that one is null. |
| CartoVectorTileDecoder.Create | all/native/vectortiles/CartoVectorTileDecoder.cpp:45-59 | Construction fails exactly when some listed style set is null or does not parse. A new decoder keeps the layer ids, hides nothing, and styles every listed layer. |
| CartoVectorTileDecoder.FirstIndex | all/native/vectortiles/CartoVectorTileDecoder.cpp:276 | std::find returns the first position of the id, or the length when it is absent. |
| CartoVectorTileDecoder.ReadTiles | all/native/vectortiles/CartoVectorTileDecoder.cpp:270-282 | The read fails exactly when some drawn layer's reader throws. Otherwise each position holds the layers read for it, or nothing. |
| CartoVectorTileDecoder.ComposeTiles | all/native/vectortiles/CartoVectorTileDecoder.cpp:285-293 | The composed layers are those of the tiles, in position order. |
| CartoVectorTileDecoder.DecodeTile | all/native/vectortiles/CartoVectorTileDecoder.cpp:246-303 | Null or empty data, a rejected tile or a throwing reader gives null, and only those do. Otherwise the result is the composed tile. |
| CartoVectorTileDecoder.ComposedFromDrawn | all/native/vectortiles/CartoVectorTileDecoder.cpp:270-293 | Every composed layer comes from a drawn position: first in the list, styled and visible. |
| CartoVectorTileDecoder.ComposedComplete | all/native/vectortiles/CartoVectorTileDecoder.cpp:270-293 | Every layer read for a drawn position appears in the composed tile, re-indexed into its block. |
| CartoVectorTileDecoder.HiddenLayerSkipped | all/native/vectortiles/CartoVectorTileDecoder.cpp:271-273 | When layer indices stay below 65536, no composed index falls in a hidden layer's block. |
| CartoVectorTileDecoder.BlockOfDrawn | all/native/vectortiles/CartoVectorTileDecoder.cpp:290 | The 65536-block of a composed index is a drawn position. |
| CartoVectorTileDecoder.LayerIndexSplit | all/native/vectortiles/CartoVectorTileDecoder.cpp:290 | A composed index splits back into its position and the layer's own index. |
| CartoVectorTileDecoder.ComposedOrdered | all/native/vectortiles/CartoVectorTileDecoder.cpp:285-293 | When layer indices stay below 65536, composed layers appear in layer-list order and each block lies within the list. |

## Left out

- Threads, mutexes, condition variables and thread detaching in the pool and the layers. Every public operation is modelled as one critical section that runs to completion.
- Floating-point geometry: frustum tests, camera distances and the subdivision test of the visible-tile recursion. These are predicates on tiles, and the sort order is an abstract key.
- Turn angles and azimuths of routing instructions, the bilinear filtering of raster pixel reads, and projections. These are floating-point geometry outside the model.
- The LRU and capacity-eviction behaviour of the two tile caches. The cache implementation is not part of this model, so TileCache is the keyed store the layers see, with no eviction.
- PreloadingPriorityOffset and ExtraTileFootprint: their values live in headers that are not part of this model. -2 and 4096 are the values the model fixes, and no contract depends on them.
- MapTile.cpp is not part of this model. Parent, child and tile-id are defined here as shifted coordinates and an injective id.
- The renderer, shaders, redraw requests, label culling, the UTF grid and pole tiles. refreshDrawData hands the draw list over without adding pole tiles.
- The order in which removed elements are reported by LocalVectorDataSource. The spatial index's order is not modelled, so removed elements are a multiset.
- The relative order std::sort gives tiles with equal keys. SortTiles promises a sorted permutation but no particular tie order.
- Polyline.DecodeEncode: integers are unbounded, so the 32-bit wrap-around of large deltas and shifts of 32 or more bits are not modelled.
- Polyline.Encode: works on the integer micro-degree layer. The floor(x * 1e6) scaling from floating-point coordinates is left out.
- RasterTileLayer.ExtractSubTile: getSubBitmap and getResizedBitmap are parameters, so the model promises which crop rectangle and which output size are asked for, not the pixel values.
- Decoding, cropping, scaling and RGBA conversion of bitmaps, and the CartoCSS, XML and JSON style parsers. The Bitmap class is not part of this model, so all of these are parameters.
- The contents of symbolizer contexts: fonts, bitmap managers, stroke and glyph maps. Only which asset packages hold a context is modelled.
- The asset-package symbolizer-context map of CartoVectorTileDecoder. The layer symbolizer contexts hold no behaviour the model states.
- addFallbackFont, setCartoCSSLayerNamesIgnored, feature-id and layer-name overrides, and the feature decoders (decodeFeature, decodeFeatures). They only forward to the renderer or to foreign decoders.
- CartoVectorTileDecoder.DecodeTile: the composed layer index i * 65536 + index is unbounded. The 32-bit truncation for layer positions of 32768 or more is not modelled, and ComposedOrdered and HiddenLayerSkipped require layer indices below 65536.
- The zoom-range getters (always 0 to 24) and the background colour conversion.
- MBVectorTileDecoder.StyleParameters: returns every name once but does not fix the std::map order of the names.
- MBVectorTileDecoder.Convert: boost::lexical_cast is a parameter. A failed cast (bad_lexical_cast) is modelled as GenericError.
- mvt::Value equality is taken as structural equality of the variant.
- The HTTP, JSON and gzip halves of the routing proxies and of the NML model data source: request building, response parsing and inflating. The routing proxies start from parsed responses and the data source from inflated bytes.
- readFloat and readDouble: the bit reinterpretation to floating point. Coordinates are kept as their raw 64-bit patterns.
- DataInputStream.RunReads, ParseLodTree, ReadMeshBinding: run on the corrected readBytes of the first Findings row, so their promise that the cursor never moves backwards is not a promise of the C++ as written. The as-written reader is ReadBytesAsWritten, and NegativeLengthWrapsGuard exhibits the backwards move.
- OsrmRoutingProxy.CalculateRouteHttp / Polyline.DecodeOsrm: DecodeGeometry has no error path, and on a geometry that ends inside a value it reads past the end of the string, which is undefined behaviour. The model answers ParseError there instead.
- The sentinel loops of the NML data source. When no -1 key appears the C++ loops run forever, because reads past the end yield zeros; that outcome is None here.
- PackageTileMask.FromString: answers None where the C++ reads past the end of its bit queue, which is undefined behaviour.
- The mask's getBoundingPolygon: polygon geometry in projected coordinates.
- PackageTileMask.GetTileStatus, FindTileNode: require zoom >= 0. On a negative zoom the C++ findTileNode calls itself with zoom - 1 forever and ends in a stack overflow. That outcome has no Dafny value, so it is left out.
- PackageTileMask.GetTileStatusListed: mask lookups are proved only for frame-0 tiles with in-range coordinates. A tile with negative or out-of-range coordinates is not covered by the lookup lemmas.
- Valhalla thor and meili path finding, map matching and graph access. Only the choice of path algorithm and the configuration merge are modelled.
- The duplicate-key and child-order behaviour of boost property trees. A profile is a map one level deep.

## Findings

| source | as written | input that shows it | evidently intended | confidence | as-written member | corrected member |
|---|---|---|---|---|---|---|
| all/native/datasources/OnlineNMLModelLODTreeDataSource.cpp:265-273 | readBytes checks `_offset + size > _data.size()` in size_t arithmetic, which wraps | data 0xFF 0xFF 0xFF 0xFF: readInt gives -1, readBytes(-1) sees size 2^64-1, and the wrapped sum 3 passes the check, moving the offset from 4 back to 3 | a read past the end returns nothing and leaves the offset alone | not executed | DataInputStream.NegativeLengthWrapsGuard | DataInputStream.ReadBytes |
| all/native/layers/RasterTileLayer.cpp:461-466 | ExtractSubTile computes `width * (x & ((1 << deltaZoom) - 1))` in 32 bits before the shift, as `int` or as `unsigned int` depending on Bitmap::getWidth, which is not part of this model | a 512-pixel tile, deltaZoom 24, x = 2^24 - 1: the product 2^33 - 512 overflows; the crop origin comes out as -1 (int, assuming a two's-complement wrap) or 255 (unsigned) | the crop origin is the tile's own cell, here at 511 | not executed | RasterTileLayer.SubTileOriginOverflows | RasterTileLayer.SubTileRect |

=== FILE: carto_vector_tile_decoder.dfy ===
/**
 * The multi-layer CartoCSS vector tile decoder: an ordered list of layer
 * ids, one CartoCSS style set per layer, a set of hidden layers, the
 * background taken from the first layer's style, and the composition of
 * the per-layer tiles into one tile whose layer indices encode the layer's
 * position.
 *
 * Style parsing, background-pattern loading and the per-layer tile reader
 * are parameters; the symbolizer contexts are not modelled.
 */
module CartoVectorTileDecoder {
  import opened Wrappers
  import MB = MBVectorTileDecoder

  /** Each layer id's sub-layer indices live in a block of this size. */
  const LayerIndexBlock: nat := 65536

  /** A CartoCSS style set: the style source and the asset package it may refer to. */
  datatype StyleSet = StyleSet(cartoCSS: string, assetPackage: Option<MB.AssetPackage>)

  /** What the decoder uses of a parsed style: its background settings (the rules are opaque here). */
  datatype LayerMap = LayerMap(backgroundColor: int, backgroundImage: string, rules: nat)

  datatype Pattern = Pattern(id: nat)

  datatype Background = Background(color: int, pattern: Option<Pattern>)

  /** The CartoCSS parser (None when it throws) and the background-pattern loader. */
  datatype StyleEnv = StyleEnv(
    loadMap: (Option<MB.AssetPackage>, string) -> Option<LayerMap>,
    loadPattern: (Option<MB.AssetPackage>, string) -> Option<Pattern>)

  datatype Decoder = Decoder(
    layerIds: seq<string>,
    invisible: set<string>,
    styleSets: map<string, StyleSet>,
    maps: map<string, LayerMap>,
    background: Background)

  // ---------------------------------------------------------------------------
  // Layer visibility and style sets
  // ---------------------------------------------------------------------------

  /** isLayerVisible: OutOfRange for a layer without a style set; visible iff not hidden. */
  function IsLayerVisible(d: Decoder, layerId: string): (r: Result<bool, SdkError>)
    ensures layerId !in d.styleSets <==> r.Failure?
    ensures r.Failure? ==> r.error.OutOfRange?
    ensures r.Success? ==> (r.value <==> layerId !in d.invisible)
  {
    if layerId !in d.styleSets then Failure(OutOfRange("Invalid layer id")) else Success(layerId !in d.invisible)
  }

  /** setLayerVisible: OutOfRange for an unknown layer; otherwise only that layer's hidden flag changes. */
  function SetLayerVisible(d: Decoder, layerId: string, visible: bool): (r: Result<Decoder, SdkError>)
    ensures layerId !in d.styleSets <==> r.Failure?
    ensures r.Failure? ==> r.error.OutOfRange?
    ensures r.Success? ==> r.value == d.(invisible := r.value.invisible)
    ensures r.Success? ==> forall id :: id != layerId ==> (id in r.value.invisible <==> id in d.invisible)
  {
    if layerId !in d.styleSets then Failure(OutOfRange("Invalid layer id"))
    else if visible then Success(d.(invisible := d.invisible - {layerId}))
    else Success(d.(invisible := d.invisible + {layerId}))
  }

  /** setLayerVisible followed by isLayerVisible reads back the flag that was set. */
  lemma {:induction false} SetThenIsVisible(d: Decoder, layerId: string, visible: bool)
    requires layerId in d.styleSets
    ensures SetLayerVisible(d, layerId, visible).Success?
    ensures IsLayerVisible(SetLayerVisible(d, layerId, visible).value, layerId) == Success(visible)
  {
  }

  /** getLayerStyleSet: OutOfRange for an unknown layer. */
  function GetLayerStyleSet(d: Decoder, layerId: string): (r: Result<StyleSet, SdkError>)
    ensures layerId !in d.styleSets <==> r.Failure?
    ensures r.Failure? ==> r.error.OutOfRange?
  {
    if layerId !in d.styleSets then Failure(OutOfRange("Invalid layer id")) else Success(d.styleSets[layerId])
  }

  /**
   * updateLayerStyleSet: NullArgument for a null style set, ParseError when
   * the style does not parse; otherwise the layer's style set and parsed
   * map are replaced, and when the layer is the first layer id the
   * background is taken from its style.
   */
  function UpdateLayerStyleSet(d: Decoder, layerId: string, styleSet: Option<StyleSet>, env: StyleEnv): (r: Result<Decoder, SdkError>)
    ensures styleSet.None? ==> r.Failure? && r.error.NullArgument?
    ensures styleSet.Some? ==> (r.Failure? <==> env.loadMap(styleSet.value.assetPackage, styleSet.value.cartoCSS).None?)
    ensures r.Failure? ==> r.error.NullArgument? || r.error.ParseError?
    ensures r.Success? ==> r.value.styleSets == d.styleSets[layerId := styleSet.value]
    ensures r.Success? ==> r.value.maps.Keys == d.maps.Keys + {layerId}
    ensures r.Success? ==> forall id :: id in d.maps && id != layerId ==> r.value.maps[id] == d.maps[id]
    ensures r.Success? ==> r.value.layerIds == d.layerIds && r.value.invisible == d.invisible
    ensures r.Success? && (|d.layerIds| == 0 || d.layerIds[0] != layerId) ==> r.value.background == d.background
    ensures r.Success? && |d.layerIds| > 0 && d.layerIds[0] == layerId ==>
              r.value.background.color == r.value.maps[layerId].backgroundColor
              && (r.value.maps[layerId].backgroundImage == "" ==> r.value.background.pattern.None?)
  {
    if styleSet.None? then Failure(NullArgument("Null styleset"))
    else
      var s := styleSet.value;
      match env.loadMap(s.assetPackage, s.cartoCSS)
      case None => Failure(ParseError("CartoCSS style parsing failed"))
      case Some(m) =>
        var background :=
          if |d.layerIds| > 0 && d.layerIds[0] == layerId then
            Background(m.backgroundColor, if m.backgroundImage == "" then None else env.loadPattern(s.assetPackage, m.backgroundImage))
          else d.background;
        Success(d.(styleSets := d.styleSets[layerId := s], maps := d.maps[layerId := m], background := background))
  }

  /** setLayerStyleSet: OutOfRange for a layer without a style set, then as updateLayerStyleSet. */
  function SetLayerStyleSet(d: Decoder, layerId: string, styleSet: Option<StyleSet>, env: StyleEnv): (r: Result<Decoder, SdkError>)
    ensures layerId !in d.styleSets ==> r.Failure? && r.error.OutOfRange?
    ensures layerId in d.styleSets ==> r == UpdateLayerStyleSet(d, layerId, styleSet, env)
    ensures r.Success? ==> r.value.styleSets.Keys == d.styleSets.Keys
  {
    if layerId !in d.styleSets then Failure(OutOfRange("Invalid layer id"))
    else UpdateLayerStyleSet(d, layerId, styleSet, env)
  }

  /** A style set that was set is the one getLayerStyleSet returns. */
  lemma {:induction false} SetThenGetStyleSet(d: Decoder, layerId: string, styleSet: StyleSet, env: StyleEnv)
    requires layerId in d.styleSets
    requires env.loadMap(styleSet.assetPackage, styleSet.cartoCSS).Some?
    ensures SetLayerStyleSet(d, layerId, Some(styleSet), env).Success?
    ensures GetLayerStyleSet(SetLayerStyleSet(d, layerId, Some(styleSet), env).value, layerId) == Success(styleSet)
  {
  }

  /** A style set updateLayerStyleSet throws for: null, or one that does not parse. */
  predicate Rejected(styleSet: Option<StyleSet>, env: StyleEnv) {
    styleSet.None? || env.loadMap(styleSet.value.assetPackage, styleSet.value.cartoCSS).None?
  }

  /**
   * The constructor: the style sets are applied in the order of their map,
   * and the first one that fails aborts construction with its error.
   */
  function ApplyStyleSets(d: Decoder, entries: seq<(string, Option<StyleSet>)>, env: StyleEnv): (r: Result<Decoder, SdkError>)
    ensures r.Success? ==> forall k :: 0 <= k < |entries| ==> entries[k].0 in r.value.styleSets && entries[k].0 in r.value.maps
    ensures r.Success? ==> d.styleSets.Keys <= r.value.styleSets.Keys && d.maps.Keys <= r.value.maps.Keys
    ensures r.Success? ==> r.value.layerIds == d.layerIds && r.value.invisible == d.invisible
    ensures r.Failure? <==> exists k :: 0 <= k < |entries| && Rejected(entries[k].1, env)
    ensures r.Failure? ==> exists k :: 0 <= k < |entries| && Rejected(entries[k].1, env)
                              && (forall j :: 0 <= j < k ==> !Rejected(entries[j].1, env))
                              && (r.error.NullArgument? <==> entries[k].1.None?)
    decreases |entries|
  {
    if |entries| == 0 then Success(d)
    else
      match UpdateLayerStyleSet(d, entries[0].0, entries[0].1, env)
      case Failure(e) => Failure(e)
      case Success(next) =>
        var r := ApplyStyleSets(next, entries[1..], env);
        assert forall k :: 1 <= k < |entries| ==> entries[k] == entries[1..][k - 1];
        if r.Failure? then
          assert exists k :: 1 <= k < |entries| && Rejected(entries[k].1, env)
                               && (forall j :: 0 <= j < k ==> !Rejected(entries[j].1, env))
                               && (r.error.NullArgument? <==> entries[k].1.None?) by {
            var k :| 0 <= k < |entries[1..]| && Rejected(entries[1..][k].1, env)
                     && (forall j :: 0 <= j < k ==> !Rejected(entries[1..][j].1, env))
                     && (r.error.NullArgument? <==> entries[1..][k].1.None?);
            assert forall j :: 1 <= j < k + 1 ==> entries[j] == entries[1..][j - 1];
          }
          r
        else r
  }

  function Create(layerIds: seq<string>, entries: seq<(string, Option<StyleSet>)>, env: StyleEnv): (r: Result<Decoder, SdkError>)
    ensures r.Failure? <==> exists k :: 0 <= k < |entries| && Rejected(entries[k].1, env)
    ensures r.Success? ==> r.value.layerIds == layerIds && r.value.invisible == {}
    ensures r.Success? ==> forall k :: 0 <= k < |entries| ==> entries[k].0 in r.value.styleSets
  {
    ApplyStyleSets(Decoder(layerIds, {}, map[], map[], Background(0, None)), entries, env)
  }

  // ---------------------------------------------------------------------------
  // decodeTile
  // ---------------------------------------------------------------------------

  /** One layer of a decoded tile, with its layer index and its (opaque) contents. */
  datatype SubLayer = SubLayer(layerIndex: int, contents: nat)

  /** The tile reader's answer for one layer's style: an exception, no tile, or the tile's layers. */
  datatype ReadResult = ReadThrew | ReadNull | ReadTile(layers: seq<SubLayer>)

  /** std::find: the first position of `id`, or the length when absent. */
  function FirstIndex(ids: seq<string>, id: string): (i: nat)
    ensures i <= |ids|
    ensures i < |ids| ==> ids[i] == id
    ensures forall j :: 0 <= j < i ==> ids[j] != id
    decreases |ids|
  {
    if |ids| == 0 then 0
    else if ids[0] == id then 0
    else
      var rest := FirstIndex(ids[1..], id);
      assert forall j :: 1 <= j <= rest ==> ids[j] == ids[1..][j - 1];
      1 + rest
  }

  /** Position p of the layer list is drawn: its id's first position, styled and not hidden. */
  predicate Drawn(d: Decoder, p: int) {
    && 0 <= p < |d.layerIds|
    && FirstIndex(d.layerIds, d.layerIds[p]) == p
    && d.layerIds[p] in d.maps
    && d.layerIds[p] !in d.invisible
  }

  /** What position p contributes: the layers its reader returned, or nothing. */
  function Slot(d: Decoder, read: (string, LayerMap) -> ReadResult, p: int): seq<SubLayer> {
    if Drawn(d, p) && read(d.layerIds[p], d.maps[d.layerIds[p]]).ReadTile? then read(d.layerIds[p], d.maps[d.layerIds[p]]).layers
    else []
  }

  /** A layer of position p re-indexed into p's block. */
  function Reindex(p: nat, layers: seq<SubLayer>): (r: seq<SubLayer>)
    ensures |r| == |layers|
    ensures forall k :: 0 <= k < |r| ==> r[k] == SubLayer(p * LayerIndexBlock + layers[k].layerIndex, layers[k].contents)
  {
    seq(|layers|, k requires 0 <= k < |layers| => SubLayer(p * LayerIndexBlock + layers[k].layerIndex, layers[k].contents))
  }

  /** The composed tile's layers from positions 0 .. n-1, in position order. */
  function Composed(d: Decoder, read: (string, LayerMap) -> ReadResult, n: nat): seq<SubLayer>
    decreases n
  {
    if n == 0 then [] else Composed(d, read, n - 1) + Reindex(n - 1, Slot(d, read, n - 1))
  }

  /** Some drawn layer's reader throws (the whole decode then yields null). */
  predicate AnyReadThrows(d: Decoder, read: (string, LayerMap) -> ReadResult) {
    exists p :: 0 <= p < |d.layerIds| && Drawn(d, p) && read(d.layerIds[p], d.maps[d.layerIds[p]]).ReadThrew?
  }

  /**
   * The first loop of decodeTile: the parsed styles are visited by layer id,
   * hidden ids and ids outside the layer list are skipped, and each read
   * tile is put at its id's first position. None when a reader throws.
   */
  method ReadTiles(d: Decoder, read: (string, LayerMap) -> ReadResult) returns (tiles: Option<seq<seq<SubLayer>>>)
    ensures tiles.None? <==> AnyReadThrows(d, read)
    ensures tiles.Some? ==> |tiles.value| == |d.layerIds| && forall p :: 0 <= p < |d.layerIds| ==> tiles.value[p] == Slot(d, read, p)
  {
    var n := |d.layerIds|;
    var slots: seq<seq<SubLayer>> := seq(n, _ => []);
    var todo := d.maps.Keys;
    while todo != {}
      invariant todo <= d.maps.Keys
      invariant |slots| == n
      invariant forall p :: 0 <= p < n ==> slots[p] == if d.layerIds[p] in todo then [] else Slot(d, read, p)
      invariant forall p :: 0 <= p < n && Drawn(d, p) && d.layerIds[p] !in todo ==> !read(d.layerIds[p], d.maps[d.layerIds[p]]).ReadThrew?
      decreases |todo|
    {
      var id :| id in todo;
      todo := todo - {id};
      var index := FirstIndex(d.layerIds, id);
      if id !in d.invisible && index < n {
        var result := read(id, d.maps[id]);
        if result.ReadThrew? {
          assert Drawn(d, index);
          return None;
        }
        if result.ReadTile? {
          slots := slots[index := result.layers];
        }
      }
    }
    return Some(slots);
  }

  /** The second loop of decodeTile: the tiles' layers in position order, re-indexed. */
  method ComposeTiles(d: Decoder, read: (string, LayerMap) -> ReadResult, tiles: seq<seq<SubLayer>>) returns (out: seq<SubLayer>)
    requires |tiles| == |d.layerIds| && forall p :: 0 <= p < |d.layerIds| ==> tiles[p] == Slot(d, read, p)
    ensures out == Composed(d, read, |d.layerIds|)
  {
    out := [];
    var i := 0;
    while i < |tiles|
      invariant 0 <= i <= |tiles|
      invariant out == Composed(d, read, i)
    {
      var block := ReindexBlock(i, tiles[i]);
      out := out + block;
      i := i + 1;
    }
  }

  /** The inner loop of the composition: one tile's layers moved into block `p`. */
  method ReindexBlock(p: nat, layers: seq<SubLayer>) returns (block: seq<SubLayer>)
    ensures block == Reindex(p, layers)
  {
    block := [];
    var k := 0;
    while k < |layers|
      invariant 0 <= k <= |layers|
      invariant block == Reindex(p, layers[..k])
    {
      ReindexSnoc(p, layers, k);
      block := block + [SubLayer(p * LayerIndexBlock + layers[k].layerIndex, layers[k].contents)];
      k := k + 1;
    }
    assert layers[..k] == layers;
  }

  lemma {:induction false} ReindexSnoc(p: nat, layers: seq<SubLayer>, k: nat)
    requires k < |layers|
    ensures Reindex(p, layers[..k + 1]) == Reindex(p, layers[..k]) + [SubLayer(p * LayerIndexBlock + layers[k].layerIndex, layers[k].contents)]
  {
    assert layers[..k + 1][k] == layers[k];
  }

  /**
   * decodeTile: null for null or empty data, for data the feature decoder
   * rejects, and when a reader throws; otherwise one tile holding, in layer
   * list order, the layers of every drawn position p with index
   * p * 65536 + the layer's own index.
   */
  method DecodeTile(d: Decoder, data: Option<seq<bv8>>, decoderAccepts: seq<bv8> -> bool,
                    read: (string, LayerMap) -> ReadResult)
    returns (r: Option<seq<SubLayer>>)
    ensures data.None? || data.value == [] ==> r.None?
    ensures r.None? <==> data.None? || data.value == [] || !decoderAccepts(data.value) || AnyReadThrows(d, read)
    ensures r.Some? ==> r.value == Composed(d, read, |d.layerIds|)
  {
    if data.None? || data.value == [] || !decoderAccepts(data.value) {
      return None;
    }
    var tiles := ReadTiles(d, read);
    if tiles.None? {
      return None;
    }
    var out := ComposeTiles(d, read, tiles.value);
    return Some(out);
  }

  /** The origin of a composed layer: the drawn position it came from and its layer there. */
  ghost predicate ComesFrom(d: Decoder, read: (string, LayerMap) -> ReadResult, layer: SubLayer, n: nat) {
    exists p, k :: 0 <= p < n && 0 <= k < |Slot(d, read, p)| && Drawn(d, p)
                   && layer == SubLayer(p * LayerIndexBlock + Slot(d, read, p)[k].layerIndex, Slot(d, read, p)[k].contents)
  }

  /** Every composed layer comes from a drawn (styled, visible, first-occurrence) position. */
  lemma {:induction false} ComposedFromDrawn(d: Decoder, read: (string, LayerMap) -> ReadResult, n: nat)
    ensures forall layer :: layer in Composed(d, read, n) ==> ComesFrom(d, read, layer, n)
    decreases n
  {
    if n > 0 {
      ComposedFromDrawn(d, read, n - 1);
      var slot := Slot(d, read, n - 1);
      forall layer | layer in Composed(d, read, n)
        ensures ComesFrom(d, read, layer, n)
      {
        if layer in Composed(d, read, n - 1) {
          assert ComesFrom(d, read, layer, n - 1);
        } else {
          assert layer in Reindex(n - 1, slot);
          var k :| 0 <= k < |slot| && Reindex(n - 1, slot)[k] == layer;
          assert |slot| > 0;
          assert Drawn(d, n - 1);
        }
      }
    }
  }

  /** Every layer read for a drawn position appears in the composed tile, re-indexed. */
  lemma {:induction false} ComposedComplete(d: Decoder, read: (string, LayerMap) -> ReadResult, n: nat, p: nat, k: nat)
    requires p < n && k < |Slot(d, read, p)|
    ensures SubLayer(p * LayerIndexBlock + Slot(d, read, p)[k].layerIndex, Slot(d, read, p)[k].contents) in Composed(d, read, n)
    decreases n
  {
    if p < n - 1 {
      ComposedComplete(d, read, n - 1, p, k);
    } else {
      assert Reindex(p, Slot(d, read, p))[k] in Composed(d, read, n);
    }
  }

  /**
   * A hidden layer contributes nothing to the composed tile: with every
   * layer's own index below 65536, no composed index falls in its block.
   */
  lemma {:induction false} HiddenLayerSkipped(d: Decoder, read: (string, LayerMap) -> ReadResult, p: nat, n: nat)
    requires p < |d.layerIds| && d.layerIds[p] in d.invisible
    requires forall q, k :: 0 <= q < n && 0 <= k < |Slot(d, read, q)| ==> 0 <= Slot(d, read, q)[k].layerIndex < LayerIndexBlock
    ensures forall a :: 0 <= a < |Composed(d, read, n)| ==> Composed(d, read, n)[a].layerIndex / LayerIndexBlock != p
  {
    ComposedFromDrawn(d, read, n);
    forall a | 0 <= a < |Composed(d, read, n)|
      ensures Composed(d, read, n)[a].layerIndex / LayerIndexBlock != p
    {
      assert Composed(d, read, n)[a] in Composed(d, read, n);
      BlockOfDrawn(d, read, Composed(d, read, n)[a], n);
    }
  }

  /** The block a composed layer's index falls in is a drawn position. */
  lemma {:induction false} BlockOfDrawn(d: Decoder, read: (string, LayerMap) -> ReadResult, layer: SubLayer, n: nat)
    requires ComesFrom(d, read, layer, n)
    requires forall q, k :: 0 <= q < n && 0 <= k < |Slot(d, read, q)| ==> 0 <= Slot(d, read, q)[k].layerIndex < LayerIndexBlock
    ensures Drawn(d, layer.layerIndex / LayerIndexBlock)
  {
    var q, k :| 0 <= q < n && 0 <= k < |Slot(d, read, q)| && Drawn(d, q)
                && layer == SubLayer(q * LayerIndexBlock + Slot(d, read, q)[k].layerIndex, Slot(d, read, q)[k].contents);
    LayerIndexSplit(q, Slot(d, read, q)[k].layerIndex);
  }

  /** A composed index splits back into the position and the layer's own index. */
  lemma {:induction false} LayerIndexSplit(p: nat, local: int)
    requires 0 <= local < LayerIndexBlock
    ensures (p * LayerIndexBlock + local) / LayerIndexBlock == p
    ensures (p * LayerIndexBlock + local) % LayerIndexBlock == local
  {
  }

  /**
   * With every layer's own index below 65536, the composed indices never
   * decrease from one position's block to the next: layers are emitted in
   * layer-list order.
   */
  lemma {:induction false} ComposedOrdered(d: Decoder, read: (string, LayerMap) -> ReadResult, n: nat)
    requires forall p, k :: 0 <= p < n && 0 <= k < |Slot(d, read, p)| ==> 0 <= Slot(d, read, p)[k].layerIndex < LayerIndexBlock
    ensures forall a, b :: 0 <= a < b < |Composed(d, read, n)| ==>
              Composed(d, read, n)[a].layerIndex / LayerIndexBlock <= Composed(d, read, n)[b].layerIndex / LayerIndexBlock
    ensures forall a :: 0 <= a < |Composed(d, read, n)| ==> Composed(d, read, n)[a].layerIndex / LayerIndexBlock < n
    decreases n
  {
    if n > 0 {
      ComposedOrdered(d, read, n - 1);
      var prefix := Composed(d, read, n - 1);
      var block := Reindex(n - 1, Slot(d, read, n - 1));
      var all := Composed(d, read, n);
      assert all == prefix + block;
      forall k | 0 <= k < |block|
        ensures block[k].layerIndex / LayerIndexBlock == n - 1
      {
        LayerIndexSplit(n - 1, Slot(d, read, n - 1)[k].layerIndex);
      }
      forall a | 0 <= a < |all|
        ensures all[a].layerIndex / LayerIndexBlock < n
      {
        if a >= |prefix| { assert all[a] == block[a - |prefix|]; }
      }
      forall a, b | 0 <= a < b < |all|
        ensures all[a].layerIndex / LayerIndexBlock <= all[b].layerIndex / LayerIndexBlock
      {
        if b >= |prefix| {
          assert all[b] == block[b - |prefix|];
          if a >= |prefix| { assert all[a] == block[a - |prefix|]; }
        }
      }
    }
  }
}

=== FILE: data_input_stream.dfy ===
/**
 * The big-endian binary reader of the online NML 3D-model data source and
 * the record loops that parse its map-tile list and model LOD-tree
 * responses. Every loop ends at a key of -1; reads past the end of the
 * data yield zero bytes instead of failing.
 */
module DataInputStream {
  import opened Wrappers

  const TwoTo32: int := 0x1_0000_0000
  const TwoTo64: int := 0x1_0000_0000_0000_0000

  /** The widths of an int, a long long and a string length on the wire. */
  const IntBytes: nat := 4
  const LongLongBytes: nat := 8
  const LengthBytes: nat := 2

  /** A reader over `data`; `offset` is the next byte to read. */
  datatype Stream = Stream(data: seq<Byte>, offset: nat)

  ghost predicate Valid(s: Stream) {
    s.offset <= |s.data|
  }

  /** `readByte`: the next byte, or 0 without advancing at the end of the data. */
  function ReadByte(s: Stream): (r: (Byte, Stream))
    requires Valid(s)
    ensures Valid(r.1) && r.1.data == s.data
    ensures s.offset < |s.data| ==> r == (s.data[s.offset], Stream(s.data, s.offset + 1))
    ensures s.offset == |s.data| ==> r == (0, s)
  {
    if s.offset >= |s.data| then (0, s) else (s.data[s.offset], Stream(s.data, s.offset + 1))
  }

  function Pow256(n: nat): (r: nat)
    ensures r >= 1
  {
    if n == 0 then 1 else 256 * Pow256(n - 1)
  }

  /** The value of a byte string read most significant byte first. */
  function BigEndian(bytes: seq<Byte>): (v: nat)
    ensures v < Pow256(|bytes|)
  {
    if |bytes| == 0 then 0 else BigEndian(bytes[..|bytes| - 1]) * 256 + bytes[|bytes| - 1]
  }

  /**
   * `n` calls of `readByte` accumulated as `(value << 8) | byte`: the bytes
   * that are there, followed by a zero byte for every read past the end.
   */
  function ReadUnsigned(s: Stream, n: nat): (r: (nat, Stream))
    requires Valid(s)
    ensures Valid(r.1) && r.1.data == s.data
    ensures s.offset <= r.1.offset <= s.offset + n
    ensures s.offset + n <= |s.data| ==> r.1.offset == s.offset + n
    ensures s.offset + n > |s.data| ==> r.1.offset == |s.data|
  {
    var k := if s.offset + n <= |s.data| then n else |s.data| - s.offset;
    (BigEndian(s.data[s.offset..s.offset + k]) * Pow256(n - k), Stream(s.data, s.offset + k))
  }

  /** The closed form above is the byte-by-byte loop: one more read shifts in one more byte. */
  lemma {:induction false} ReadUnsignedStep(s: Stream, n: nat)
    requires Valid(s)
    ensures ReadUnsigned(s, n + 1).0 == ReadUnsigned(s, n).0 * 256 + ReadByte(ReadUnsigned(s, n).1).0
    ensures ReadUnsigned(s, n + 1).1 == ReadByte(ReadUnsigned(s, n).1).1
  {
    if s.offset + n + 1 <= |s.data| {
      assert s.data[s.offset..s.offset + n + 1][..n] == s.data[s.offset..s.offset + n];
    } else if s.offset + n <= |s.data| {
      assert s.offset + n == |s.data|;
    }
  }

  /** Reinterprets an unsigned bit pattern of `2^bits` values as two's complement. */
  function Signed(u: int, modulus: int): int {
    if 2 * u >= modulus then u - modulus else u
  }

  /** `readInt`: four bytes, big-endian, as a 32-bit two's-complement value. */
  function ReadInt(s: Stream): (r: (int, Stream))
    requires Valid(s)
    ensures Valid(r.1) && r.1.data == s.data
    ensures s.offset <= r.1.offset <= s.offset + 4
  {
    var (u, s1) := ReadUnsigned(s, IntBytes);
    (Signed(u, TwoTo32), s1)
  }

  /** `readLongLong`: eight bytes, big-endian, as a 64-bit two's-complement value. */
  function ReadLongLong(s: Stream): (r: (int, Stream))
    requires Valid(s)
    ensures Valid(r.1) && r.1.data == s.data
    ensures s.offset <= r.1.offset <= s.offset + 8
  {
    var (u, s1) := ReadUnsigned(s, LongLongBytes);
    (Signed(u, TwoTo64), s1)
  }

  /**
   * `readString`: a two-byte big-endian length, then that many bytes; an
   * overrunning length yields the empty string after the length bytes.
   */
  function ReadString(s: Stream): (r: (seq<Byte>, Stream))
    requires Valid(s)
    ensures Valid(r.1) && r.1.data == s.data && s.offset <= r.1.offset
    ensures r.1.offset == ReadUnsigned(s, 2).1.offset + |r.0|
    ensures |r.0| > 0 ==> |r.0| == ReadUnsigned(s, 2).0 && r.0 == s.data[ReadUnsigned(s, 2).1.offset..r.1.offset]
  {
    var (length, s1) := ReadUnsigned(s, LengthBytes);
    if s1.offset + length > |s1.data| then ([], s1)
    else (s1.data[s1.offset..s1.offset + length], Stream(s1.data, s1.offset + length))
  }

  /**
   * `readBytes` with the bounds check it evidently intends: all or nothing,
   * and the offset never moves backwards.
   */
  function ReadBytes(s: Stream, size: nat): (r: (seq<Byte>, Stream))
    requires Valid(s)
    ensures Valid(r.1) && r.1.data == s.data
    ensures s.offset + size <= |s.data| ==>
      r == (s.data[s.offset..s.offset + size], Stream(s.data, s.offset + size))
    ensures s.offset + size > |s.data| ==> r == ([], s)
  {
    if size > |s.data| - s.offset then ([], s)
    else (s.data[s.offset..s.offset + size], Stream(s.data, s.offset + size))
  }

  /** What the C++ reader does after its bounds check passed. */
  datatype RawRead = Slice(bytes: seq<Byte>, next: Stream) | ReversedRange(from: nat, to: nat)

  /**
   * `readBytes` as written: `_offset + size` is computed in 64-bit `size_t`
   * and wraps, so a huge size can pass the check and move the offset back.
   */
  function ReadBytesAsWritten(s: Stream, size: nat): (r: RawRead)
    requires Valid(s) && size < TwoTo64 && |s.data| < TwoTo64
    ensures size <= |s.data| - s.offset ==> r == Slice(ReadBytes(s, size).0, ReadBytes(s, size).1)
  {
    var end := (s.offset + size) % TwoTo64;
    if end > |s.data| then Slice([], s)
    else if end < s.offset then ReversedRange(s.offset, end)
    else Slice(s.data[s.offset..end], Stream(s.data, end))
  }

  /** The C++ conversion of an `int` length to `size_t`. */
  function SizeT(n: int): (r: nat)
    ensures r < TwoTo64
    ensures 0 <= n < TwoTo64 ==> r == n
  {
    n % TwoTo64
  }

  /**
   * A stream whose first four bytes are 0xFF: `readInt` yields -1 and
   * `readBytes(-1)` is let through by the wrapped check and would move the
   * offset from 4 back to 3; the corrected reader returns nothing.
   */
  lemma {:induction false} NegativeLengthWrapsGuard()
    ensures ReadInt(Stream([255, 255, 255, 255], 0)).0 == -1
    ensures ReadBytesAsWritten(ReadInt(Stream([255, 255, 255, 255], 0)).1, SizeT(-1)) == ReversedRange(4, 3)
    ensures ReadBytes(ReadInt(Stream([255, 255, 255, 255], 0)).1, SizeT(-1)) == ([], Stream([255, 255, 255, 255], 4))
  {
    var data: seq<Byte> := [255, 255, 255, 255];
    assert data == WriteUnsigned(4294967295, 4);
    Pow256Values();
    BigEndianOfWrite(4294967295, 4);
    assert data[0..4] == data;
  }

  // ---------------------------------------------------------------------
  // The wire format written out, as the partner of the reader.
  // ---------------------------------------------------------------------

  /** `bytes` sit in the data at the stream's offset. */
  ghost predicate At(s: Stream, bytes: seq<Byte>) {
    s.offset + |bytes| <= |s.data| && s.data[s.offset..s.offset + |bytes|] == bytes
  }

  function Skip(s: Stream, n: nat): Stream {
    Stream(s.data, s.offset + n)
  }

  lemma {:induction false} AtConcat(s: Stream, a: seq<Byte>, b: seq<Byte>)
    requires At(s, a + b)
    ensures At(s, a) && At(Skip(s, |a|), b)
  {
    assert s.data[s.offset..s.offset + |a|] == (a + b)[..|a|];
    assert s.data[s.offset + |a|..s.offset + |a| + |b|] == (a + b)[|a|..];
  }

  /** `n` bytes, most significant first. */
  function WriteUnsigned(v: nat, n: nat): (bytes: seq<Byte>)
    ensures |bytes| == n
  {
    if n == 0 then [] else WriteUnsigned(v / 256, n - 1) + [v % 256]
  }

  lemma {:induction false} BigEndianOfWrite(v: nat, n: nat)
    requires v < Pow256(n)
    ensures BigEndian(WriteUnsigned(v, n)) == v
    decreases n
  {
    if n > 0 {
      var w := WriteUnsigned(v, n);
      assert w[..n - 1] == WriteUnsigned(v / 256, n - 1);
      BigEndianOfWrite(v / 256, n - 1);
    }
  }

  lemma {:induction false} ReadWriteUnsigned(s: Stream, v: nat, n: nat)
    requires Valid(s) && v < Pow256(n) && At(s, WriteUnsigned(v, n))
    ensures ReadUnsigned(s, n) == (v, Skip(s, n))
  {
    BigEndianOfWrite(v, n);
  }

  /** The two's-complement bit pattern of `v`, the inverse of `Signed`. */
  function Unsigned(v: int, modulus: int): (u: int)
    requires -modulus <= 2 * v < modulus
    ensures 0 <= u < modulus && Signed(u, modulus) == v
  {
    if v < 0 then v + modulus else v
  }

  /** Four bytes of `v` modulo 2^32, that is, of its two's-complement pattern. */
  function WriteInt(v: int): (bytes: seq<Byte>)
    ensures |bytes| == 4
  {
    WriteUnsigned(v % TwoTo32, IntBytes)
  }

  /** Eight bytes of `v` modulo 2^64, that is, of its two's-complement pattern. */
  function WriteLongLong(v: int): (bytes: seq<Byte>)
    ensures |bytes| == 8
  {
    WriteUnsigned(v % TwoTo64, LongLongBytes)
  }

  /** A two-byte length, then the bytes; only a length below 65536 reads back. */
  function WriteString(str: seq<Byte>): (bytes: seq<Byte>)
    ensures |bytes| == 2 + |str|
  {
    WriteUnsigned(|str|, LengthBytes) + str
  }

  lemma {:induction false} Pow256Values()
    ensures Pow256(2) == 65536 && Pow256(4) == TwoTo32 && Pow256(8) == TwoTo64
  {
    assert Pow256(1) == 256;
    assert Pow256(2) == 65536;
    assert Pow256(3) == 16777216;
    assert Pow256(4) == TwoTo32;
    assert Pow256(5) == 256 * TwoTo32;
    assert Pow256(6) == 65536 * TwoTo32;
    assert Pow256(7) == 16777216 * TwoTo32;
  }

  lemma {:induction false} ReadWriteInt(s: Stream, v: int)
    requires Valid(s) && -TwoTo32 / 2 <= v < TwoTo32 / 2 && At(s, WriteInt(v))
    ensures ReadInt(s) == (v, Skip(s, 4))
  {
    Pow256Values();
    assert v % TwoTo32 == Unsigned(v, TwoTo32);
    ReadWriteUnsigned(s, Unsigned(v, TwoTo32), 4);
  }

  lemma {:induction false} ReadWriteLongLong(s: Stream, v: int)
    requires Valid(s) && -TwoTo64 / 2 <= v < TwoTo64 / 2 && At(s, WriteLongLong(v))
    ensures ReadLongLong(s) == (v, Skip(s, 8))
  {
    Pow256Values();
    assert v % TwoTo64 == Unsigned(v, TwoTo64);
    ReadWriteUnsigned(s, Unsigned(v, TwoTo64), 8);
  }

  lemma {:induction false} ReadWriteString(s: Stream, str: seq<Byte>)
    requires Valid(s) && |str| < 65536 && At(s, WriteString(str))
    ensures ReadString(s) == (str, Skip(s, 2 + |str|))
  {
    AtConcat(s, WriteUnsigned(|str|, 2), str);
    Pow256Values();
    ReadWriteUnsigned(s, |str|, 2);
  }

  // ---------------------------------------------------------------------
  // Record loops. Each reads a key, stops at -1, and otherwise reads the
  // rest of a record. A record that consumes no byte leaves the reader
  // exactly where it was, so the C++ loop would repeat it forever: that
  // outcome is None.
  // ---------------------------------------------------------------------

  predicate IsInt32(v: int) { -TwoTo32 / 2 <= v < TwoTo32 / 2 }
  predicate IsInt64(v: int) { -TwoTo64 / 2 <= v < TwoTo64 / 2 }

  /** One entry of the map-tile list; the doubles are kept as their raw 64-bit patterns. */
  datatype MapTileRecord = MapTileRecord(mapTileId: int, modelLodTreeId: int, xBits: int, yBits: int, zBits: int)

  function ReadMapTileRecord(id: int, s: Stream): (r: (MapTileRecord, Stream))
    requires Valid(s)
    ensures Valid(r.1) && r.1.data == s.data && s.offset <= r.1.offset
  {
    var (treeId, s1) := ReadLongLong(s);
    var (x, s2) := ReadLongLong(s1);
    var (y, s3) := ReadLongLong(s2);
    var (z, s4) := ReadLongLong(s3);
    (MapTileRecord(id, treeId, x, y, z), s4)
  }

  /** The `loadMapTiles` loop. */
  function ParseMapTiles(s: Stream): (r: Option<(seq<MapTileRecord>, Stream)>)
    requires Valid(s)
    ensures r.Some? ==> Valid(r.value.1) && r.value.1.data == s.data && s.offset < r.value.1.offset
    ensures r.Some? ==> forall i :: 0 <= i < |r.value.0| ==> r.value.0[i].mapTileId != -1
    decreases |s.data| - s.offset
  {
    var key := ReadLongLong(s);
    if key.0 == -1 then Some(([], key.1))
    else
      var next := ReadMapTileRecord(key.0, key.1);
      if next.1.offset == s.offset then None
      else
        var more := ParseMapTiles(next.1);
        if more.None? then None
        else Some(([next.0] + more.value.0, more.value.1))
  }

  function WriteMapTileRecord(r: MapTileRecord): (bytes: seq<Byte>)
    ensures |bytes| == 40
  {
    WriteLongLong(r.mapTileId) + WriteLongLong(r.modelLodTreeId) + WriteLongLong(r.xBits)
      + WriteLongLong(r.yBits) + WriteLongLong(r.zBits)
  }

  /** The list as the service writes it: the records, then the key -1. */
  function WriteMapTiles(recs: seq<MapTileRecord>): (bytes: seq<Byte>)
    ensures |bytes| == 40 * |recs| + 8
  {
    if |recs| == 0 then WriteLongLong(-1) else WriteMapTileRecord(recs[0]) + WriteMapTiles(recs[1..])
  }

  predicate WritableMapTile(r: MapTileRecord) {
    r.mapTileId != -1 && IsInt64(r.mapTileId) && IsInt64(r.modelLodTreeId)
      && IsInt64(r.xBits) && IsInt64(r.yBits) && IsInt64(r.zBits)
  }

  lemma {:induction false} LongLongThen(s: Stream, v: int, rest: seq<Byte>)
    requires Valid(s) && IsInt64(v) && At(s, WriteLongLong(v) + rest)
    ensures ReadLongLong(s) == (v, Skip(s, 8)) && At(Skip(s, 8), rest) && Valid(Skip(s, 8))
  {
    AtConcat(s, WriteLongLong(v), rest);
    ReadWriteLongLong(s, v);
  }

  lemma {:induction false} MapTileRecordThen(s: Stream, r: MapTileRecord, rest: seq<Byte>)
    requires Valid(s) && WritableMapTile(r)
    requires At(s, WriteMapTileRecord(r) + rest)
    ensures ReadLongLong(s) == (r.mapTileId, Skip(s, 8))
    ensures ReadMapTileRecord(r.mapTileId, Skip(s, 8)) == (r, Skip(s, 40)) && At(Skip(s, 40), rest)
  {
    var a := WriteLongLong(r.mapTileId);
    var b := WriteLongLong(r.modelLodTreeId);
    var c := WriteLongLong(r.xBits);
    var d := WriteLongLong(r.yBits);
    var e := WriteLongLong(r.zBits);
    Assoc5(a, b, c, d, e, rest);
    LongLongThen(s, r.mapTileId, b + (c + (d + (e + rest))));
    LongLongThen(Skip(s, 8), r.modelLodTreeId, c + (d + (e + rest)));
    assert Skip(Skip(s, 8), 8) == Skip(s, 16);
    LongLongThen(Skip(s, 16), r.xBits, d + (e + rest));
    assert Skip(Skip(s, 16), 8) == Skip(s, 24);
    LongLongThen(Skip(s, 24), r.yBits, e + rest);
    assert Skip(Skip(s, 24), 8) == Skip(s, 32);
    LongLongThen(Skip(s, 32), r.zBits, rest);
    assert Skip(Skip(s, 32), 8) == Skip(s, 40);
  }

  lemma Assoc4(a: seq<Byte>, b: seq<Byte>, c: seq<Byte>, d: seq<Byte>, rest: seq<Byte>)
    ensures a + b + c + d + rest == a + (b + (c + (d + rest)))
  {
  }

  lemma Assoc5(a: seq<Byte>, b: seq<Byte>, c: seq<Byte>, d: seq<Byte>, e: seq<Byte>, rest: seq<Byte>)
    ensures a + b + c + d + e + rest == a + (b + (c + (d + (e + rest))))
  {
  }

  /** The stream positioned at the `i`-th 40-byte record slot. */
  function Slot(s: Stream, i: nat): Stream {
    Skip(s, 40 * i)
  }

  /**
   * The records sit one after another at the stream's offset, followed by
   * the key -1.
   */
  ghost predicate MapTilesAt(s: Stream, recs: seq<MapTileRecord>) {
    && (forall i :: 0 <= i < |recs| ==> At(Slot(s, i), WriteMapTileRecord(recs[i])))
    && At(Slot(s, |recs|), WriteLongLong(-1))
  }

  lemma {:induction false} MapTilesAtOfWrite(s: Stream, recs: seq<MapTileRecord>)
    requires At(s, WriteMapTiles(recs))
    ensures MapTilesAt(s, recs)
    decreases |recs|
  {
    if |recs| > 0 {
      AtConcat(s, WriteMapTileRecord(recs[0]), WriteMapTiles(recs[1..]));
      MapTilesAtOfWrite(Skip(s, 40), recs[1..]);
      forall i | 0 <= i < |recs|
        ensures At(Slot(s, i), WriteMapTileRecord(recs[i]))
      {
        if i > 0 {
          assert Slot(s, i) == Slot(Skip(s, 40), i - 1);
          assert recs[i] == recs[1..][i - 1];
        }
      }
      assert Slot(s, |recs|) == Slot(Skip(s, 40), |recs| - 1);
    }
  }

  /** One turn of the loop: a record with a key other than -1, then the rest of the list. */
  lemma {:induction false} ParseMapTilesCons(s: Stream, r: MapTileRecord)
    requires Valid(s) && r.mapTileId != -1
    requires ReadLongLong(s) == (r.mapTileId, Skip(s, 8))
    requires ReadMapTileRecord(r.mapTileId, Skip(s, 8)) == (r, Skip(s, 40))
    requires Valid(Skip(s, 40))
    ensures ParseMapTiles(Skip(s, 40)).None? ==> ParseMapTiles(s).None?
    ensures ParseMapTiles(Skip(s, 40)).Some? ==>
              ParseMapTiles(s) == Some(([r] + ParseMapTiles(Skip(s, 40)).value.0, ParseMapTiles(Skip(s, 40)).value.1))
  {
  }

  /** The first record of a placed list is read and the loop carries on after it. */
  lemma {:induction false} ParseMapTilesHead(s: Stream, r: MapTileRecord)
    requires Valid(s) && WritableMapTile(r)
    requires At(s, WriteMapTileRecord(r))
    ensures Valid(Skip(s, 40))
    ensures ParseMapTiles(Skip(s, 40)).None? ==> ParseMapTiles(s).None?
    ensures ParseMapTiles(Skip(s, 40)).Some? ==>
              ParseMapTiles(s) == Some(([r] + ParseMapTiles(Skip(s, 40)).value.0, ParseMapTiles(Skip(s, 40)).value.1))
  {
    assert WriteMapTileRecord(r) + [] == WriteMapTileRecord(r);
    MapTileRecordThen(s, r, []);
    ParseMapTilesCons(s, r);
  }

  lemma {:induction false} MapTilesAtTail(s: Stream, recs: seq<MapTileRecord>)
    requires |recs| > 0 && MapTilesAt(s, recs)
    ensures MapTilesAt(Skip(s, 40), recs[1..])
  {
    var tail := recs[1..];
    forall i | 0 <= i < |tail|
      ensures At(Slot(Skip(s, 40), i), WriteMapTileRecord(tail[i]))
    {
      assert Slot(Skip(s, 40), i) == Slot(s, i + 1);
    }
    assert Slot(Skip(s, 40), |tail|) == Slot(s, |recs|);
  }

  lemma {:induction false} ParseMapTilesAt(s: Stream, recs: seq<MapTileRecord>)
    requires Valid(s)
    requires forall i :: 0 <= i < |recs| ==> WritableMapTile(recs[i])
    requires MapTilesAt(s, recs)
    ensures ParseMapTiles(s) == Some((recs, Skip(s, 40 * |recs| + 8)))
    decreases |recs|, 1
  {
    if |recs| == 0 {
      assert Slot(s, 0) == s;
      ParseMapTilesEnd(s);
      assert recs == [];
    } else {
      ParseMapTilesNext(s, recs);
    }
  }

  /** A non-empty list: its first record, then the rest read by the same loop. */
  lemma {:induction false} ParseMapTilesNext(s: Stream, recs: seq<MapTileRecord>)
    requires Valid(s) && |recs| > 0
    requires forall i :: 0 <= i < |recs| ==> WritableMapTile(recs[i])
    requires MapTilesAt(s, recs)
    ensures ParseMapTiles(s) == Some((recs, Skip(s, 40 * |recs| + 8)))
    decreases |recs|, 0
  {
    var tail := recs[1..];
    var end := Skip(s, 40 * |recs| + 8);
    assert Valid(Skip(s, 40)) && (ParseMapTiles(Skip(s, 40)).Some? ==>
             ParseMapTiles(s) == Some(([recs[0]] + ParseMapTiles(Skip(s, 40)).value.0, ParseMapTiles(Skip(s, 40)).value.1))) by {
      assert Slot(s, 0) == s;
      ParseMapTilesHead(s, recs[0]);
    }
    assert ParseMapTiles(Skip(s, 40)) == Some((tail, end)) by {
      MapTilesAtTail(s, recs);
      assert forall i :: 0 <= i < |tail| ==> WritableMapTile(tail[i]) by {
        forall i | 0 <= i < |tail| ensures WritableMapTile(tail[i]) {
          assert tail[i] == recs[i + 1];
        }
      }
      ParseMapTilesAt(Skip(s, 40), tail);
      assert Skip(Skip(s, 40), 40 * |tail| + 8) == end;
    }
    ParseMapTilesJoin(s, recs, end);
  }

  lemma {:induction false} ParseMapTilesJoin(s: Stream, recs: seq<MapTileRecord>, end: Stream)
    requires Valid(s) && Valid(Skip(s, 40)) && |recs| > 0
    requires ParseMapTiles(Skip(s, 40)) == Some((recs[1..], end))
    requires ParseMapTiles(Skip(s, 40)).Some? ==>
               ParseMapTiles(s) == Some(([recs[0]] + ParseMapTiles(Skip(s, 40)).value.0, ParseMapTiles(Skip(s, 40)).value.1))
    ensures ParseMapTiles(s) == Some((recs, end))
  {
    assert [recs[0]] + recs[1..] == recs;
  }

  /** The key -1 ends the list at once. */
  lemma {:induction false} ParseMapTilesEnd(s: Stream)
    requires Valid(s) && At(s, WriteLongLong(-1))
    ensures ParseMapTiles(s) == Some(([], Skip(s, 8)))
  {
    assert WriteLongLong(-1) + [] == WriteLongLong(-1);
    LongLongThen(s, -1, []);
  }

  /** The loop reads back exactly the list a writer of the format produced, up to its terminator. */
  lemma {:induction false} MapTilesRoundTrip(s: Stream, recs: seq<MapTileRecord>)
    requires Valid(s)
    requires forall i :: 0 <= i < |recs| ==> WritableMapTile(recs[i])
    requires At(s, WriteMapTiles(recs))
    ensures ParseMapTiles(s) == Some((recs, Skip(s, 40 * |recs| + 8)))
  {
    MapTilesAtOfWrite(s, recs);
    ParseMapTilesAt(s, recs);
  }

  // ---------------------------------------------------------------------
  // Any sequence of reads keeps the cursor inside the data.
  // ---------------------------------------------------------------------

  datatype ReadOp = OpByte | OpInt | OpLongLong | OpString | OpBytes(size: nat)

  function ApplyRead(s: Stream, op: ReadOp): (r: Stream)
    requires Valid(s)
    ensures Valid(r) && r.data == s.data && s.offset <= r.offset
  {
    match op
    case OpByte => ReadByte(s).1
    case OpInt => ReadInt(s).1
    case OpLongLong => ReadLongLong(s).1
    case OpString => ReadString(s).1
    case OpBytes(size) => ReadBytes(s, size).1
  }

  /** The cursor after a whole sequence of reads: never past the end, never backwards. */
  function RunReads(s: Stream, ops: seq<ReadOp>): (r: Stream)
    requires Valid(s)
    ensures Valid(r) && r.data == s.data && s.offset <= r.offset <= |s.data|
    decreases |ops|
  {
    if |ops| == 0 then s else RunReads(ApplyRead(s, ops[0]), ops[1..])
  }

  // ---------------------------------------------------------------------
  // The LOD tree response: the tree message, then three sentinel-ended
  // loops (proxies, mesh bindings, texture bindings).
  // ---------------------------------------------------------------------

  /** A loop's answer built as first item and rest is the answer for the whole list. */
  lemma {:induction false} SomeJoin<T>(r: Option<(seq<T>, Stream)>, items: seq<T>, end: Stream)
    requires |items| > 0 && r == Some(([items[0]] + items[1..], end))
    ensures r == Some((items, end))
  {
    assert [items[0]] + items[1..] == items;
  }

  /** A model proxy; `metaData` is the URL-encoded string as read, the position its raw double patterns. */
  datatype Proxy = Proxy(modelId: int, metaData: seq<Byte>, xBits: int, yBits: int, zBits: int)

  /** A mesh binding; `meshOp` holds the MeshOp message bytes when the record carried one. */
  datatype MeshBinding = MeshBinding(meshId: int, localId: seq<Byte>, meshOp: Option<seq<Byte>>)

  datatype TextureBinding = TextureBinding(textureId: int, level: int, localId: seq<Byte>)

  function ReadProxy(id: int, s: Stream): (r: (Proxy, Stream))
    requires Valid(s)
    ensures Valid(r.1) && r.1.data == s.data && s.offset <= r.1.offset
    ensures r.0.modelId == id
  {
    var (meta, s1) := ReadString(s);
    var (x, s2) := ReadLongLong(s1);
    var (y, s3) := ReadLongLong(s2);
    var (z, s4) := ReadLongLong(s3);
    (Proxy(id, meta, x, y, z), s4)
  }

  /** The proxies loop: ids until -1, in the order read. */
  function ParseProxies(s: Stream): (r: Option<(seq<Proxy>, Stream)>)
    requires Valid(s)
    ensures r.Some? ==> Valid(r.value.1) && r.value.1.data == s.data && s.offset < r.value.1.offset
    ensures r.Some? ==> forall i :: 0 <= i < |r.value.0| ==> r.value.0[i].modelId != -1
    decreases |s.data| - s.offset
  {
    var key := ReadInt(s);
    if key.0 == -1 then Some(([], key.1))
    else
      var next := ReadProxy(key.0, key.1);
      if next.1.offset == s.offset then None
      else
        var more := ParseProxies(next.1);
        if more.None? then None
        else Some(([next.0] + more.value.0, more.value.1))
  }

  /**
   * One mesh binding after its node id: a local id, a mesh id, and when
   * that id is -1 the real id followed by an int-length MeshOp message.
   */
  function ReadMeshBinding(s: Stream): (r: (MeshBinding, Stream))
    requires Valid(s)
    ensures Valid(r.1) && r.1.data == s.data && s.offset <= r.1.offset
    ensures r.0.meshOp.Some? <==> ReadLongLong(ReadString(s).1).0 == -1
  {
    var (localId, s1) := ReadString(s);
    var (meshId, s2) := ReadLongLong(s1);
    if meshId == -1 then ReadMeshOp(localId, s2) else (MeshBinding(meshId, localId, None), s2)
  }

  /** After the -1 marker: the real mesh id, then an int-length MeshOp message. */
  function ReadMeshOp(localId: seq<Byte>, s: Stream): (r: (MeshBinding, Stream))
    requires Valid(s)
    ensures Valid(r.1) && r.1.data == s.data && s.offset <= r.1.offset
    ensures r.0.meshOp.Some? && r.0.localId == localId
  {
    var (realId, s1) := ReadLongLong(s);
    var (size, s2) := ReadInt(s1);
    var (op, s3) := ReadBytes(s2, SizeT(size));
    (MeshBinding(realId, localId, Some(op)), s3)
  }

  /** The mesh-bindings loop: `(nodeId, binding)` pairs until node id -1. */
  function ParseMeshBindings(s: Stream): (r: Option<(seq<(int, MeshBinding)>, Stream)>)
    requires Valid(s)
    ensures r.Some? ==> Valid(r.value.1) && r.value.1.data == s.data && s.offset < r.value.1.offset
    ensures r.Some? ==> forall i :: 0 <= i < |r.value.0| ==> r.value.0[i].0 != -1
    decreases |s.data| - s.offset
  {
    var key := ReadInt(s);
    if key.0 == -1 then Some(([], key.1))
    else
      var next := ReadMeshBinding(key.1);
      if next.1.offset == s.offset then None
      else
        var more := ParseMeshBindings(next.1);
        if more.None? then None
        else Some(([(key.0, next.0)] + more.value.0, more.value.1))
  }

  function ReadTextureBinding(s: Stream): (r: (TextureBinding, Stream))
    requires Valid(s)
    ensures Valid(r.1) && r.1.data == s.data && s.offset <= r.1.offset
  {
    var (localId, s1) := ReadString(s);
    var (textureId, s2) := ReadLongLong(s1);
    var (level, s3) := ReadInt(s2);
    (TextureBinding(textureId, level, localId), s3)
  }

  /** The texture-bindings loop: `(nodeId, binding)` pairs until node id -1. */
  function ParseTextureBindings(s: Stream): (r: Option<(seq<(int, TextureBinding)>, Stream)>)
    requires Valid(s)
    ensures r.Some? ==> Valid(r.value.1) && r.value.1.data == s.data && s.offset < r.value.1.offset
    ensures r.Some? ==> forall i :: 0 <= i < |r.value.0| ==> r.value.0[i].0 != -1
    decreases |s.data| - s.offset
  {
    var key := ReadInt(s);
    if key.0 == -1 then Some(([], key.1))
    else
      var next := ReadTextureBinding(key.1);
      if next.1.offset == s.offset then None
      else
        var more := ParseTextureBindings(next.1);
        if more.None? then None
        else Some(([(key.0, next.0)] + more.value.0, more.value.1))
  }

  // ---------------------------------------------------------------------
  // The LOD tree records written out, as the partner of the loops above.
  // ---------------------------------------------------------------------

  lemma {:induction false} IntThen(s: Stream, v: int, rest: seq<Byte>)
    requires Valid(s) && IsInt32(v) && At(s, WriteInt(v) + rest)
    ensures ReadInt(s) == (v, Skip(s, 4)) && At(Skip(s, 4), rest) && Valid(Skip(s, 4))
  {
    AtConcat(s, WriteInt(v), rest);
    ReadWriteInt(s, v);
  }

  lemma {:induction false} StringThen(s: Stream, str: seq<Byte>, rest: seq<Byte>)
    requires Valid(s) && |str| < 65536 && At(s, WriteString(str) + rest)
    ensures ReadString(s) == (str, Skip(s, 2 + |str|)) && At(Skip(s, 2 + |str|), rest) && Valid(Skip(s, 2 + |str|))
  {
    AtConcat(s, WriteString(str), rest);
    ReadWriteString(s, str);
  }

  lemma {:induction false} BytesThen(s: Stream, bytes: seq<Byte>, rest: seq<Byte>)
    requires Valid(s) && At(s, bytes + rest)
    ensures ReadBytes(s, |bytes|) == (bytes, Skip(s, |bytes|)) && At(Skip(s, |bytes|), rest) && Valid(Skip(s, |bytes|))
  {
    AtConcat(s, bytes, rest);
  }

  /** A proxy the service can write: a string length that fits two bytes and 64-bit patterns. */
  predicate WritableProxy(p: Proxy) {
    p.modelId != -1 && IsInt32(p.modelId) && |p.metaData| < 65536 && IsInt64(p.xBits) && IsInt64(p.yBits) && IsInt64(p.zBits)
  }

  /** One proxy after its model id. */
  function WriteProxy(p: Proxy): (bytes: seq<Byte>)
    ensures |bytes| == 26 + |p.metaData|
  {
    WriteString(p.metaData) + WriteLongLong(p.xBits) + WriteLongLong(p.yBits) + WriteLongLong(p.zBits)
  }

  /** The proxies as the service writes them: model id and proxy each, then the key -1. */
  function WriteProxies(ps: seq<Proxy>): (bytes: seq<Byte>)
  {
    if |ps| == 0 then WriteInt(-1) else WriteInt(ps[0].modelId) + WriteProxy(ps[0]) + WriteProxies(ps[1..])
  }

  /** Every proxy of the list can be written. */
  predicate WritableProxies(ps: seq<Proxy>) {
    |ps| == 0 || (WritableProxy(ps[0]) && WritableProxies(ps[1..]))
  }

  lemma {:induction false} ProxyThen(s: Stream, p: Proxy, rest: seq<Byte>)
    requires Valid(s) && WritableProxy(p) && At(s, WriteProxy(p) + rest)
    ensures ReadProxy(p.modelId, s) == (p, Skip(s, |WriteProxy(p)|))
    ensures At(Skip(s, |WriteProxy(p)|), rest) && Valid(Skip(s, |WriteProxy(p)|))
  {
    var a := WriteString(p.metaData);
    var b := WriteLongLong(p.xBits);
    var c := WriteLongLong(p.yBits);
    var d := WriteLongLong(p.zBits);
    Assoc4(a, b, c, d, rest);
    var n := 2 + |p.metaData|;
    StringThen(s, p.metaData, b + (c + (d + rest)));
    LongLongThen(Skip(s, n), p.xBits, c + (d + rest));
    assert Skip(Skip(s, n), 8) == Skip(s, n + 8);
    LongLongThen(Skip(s, n + 8), p.yBits, d + rest);
    assert Skip(Skip(s, n + 8), 8) == Skip(s, n + 16);
    LongLongThen(Skip(s, n + 16), p.zBits, rest);
    assert Skip(Skip(s, n + 16), 8) == Skip(s, n + 24);
    assert ReadProxy(p.modelId, s) == (Proxy(p.modelId, p.metaData, p.xBits, p.yBits, p.zBits), Skip(s, n + 24));
  }

  /** One turn of the proxies loop: a model id other than -1, then a proxy that moves the cursor. */
  lemma {:induction false} ParseProxiesCons(s: Stream, p: Proxy, t: Stream, tail: seq<Proxy>, end: Stream)
    requires Valid(s) && Valid(t) && p.modelId != -1 && t.offset > s.offset
    requires ReadInt(s) == (p.modelId, Skip(s, 4)) && ReadProxy(p.modelId, Skip(s, 4)) == (p, t)
    requires ParseProxies(t) == Some((tail, end))
    ensures ParseProxies(s) == Some(([p] + tail, end))
  {
  }

  /** The first proxy of a written list reads back, and the rest of the list follows it. */
  lemma {:induction false} ProxiesHead(s: Stream, ps: seq<Proxy>, rest: seq<Byte>)
    requires Valid(s) && |ps| > 0 && WritableProxy(ps[0])
    requires At(s, WriteProxies(ps) + rest)
    ensures var t := Skip(s, 4 + |WriteProxy(ps[0])|);
            && Valid(t) && At(t, WriteProxies(ps[1..]) + rest)
            && ReadInt(s) == (ps[0].modelId, Skip(s, 4)) && ReadProxy(ps[0].modelId, Skip(s, 4)) == (ps[0], t)
            && |WriteProxies(ps)| == 4 + |WriteProxy(ps[0])| + |WriteProxies(ps[1..])|
  {
    var p := ps[0];
    var b := WriteProxy(p);
    var c := WriteProxies(ps[1..]);
    assert At(s, WriteInt(p.modelId) + (b + (c + rest))) && |WriteProxies(ps)| == 4 + |b| + |c| by {
      assert WriteProxies(ps) == WriteInt(p.modelId) + b + c;
      assert WriteInt(p.modelId) + b + c + rest == WriteInt(p.modelId) + (b + (c + rest));
    }
    IntThen(s, p.modelId, b + (c + rest));
    ProxyThen(Skip(s, 4), p, c + rest);
    assert Skip(Skip(s, 4), |b|) == Skip(s, 4 + |b|);
  }

  /** The rest of a written list starts right after its first item. */
  lemma {:induction false} ProxiesAtTail(s: Stream, ps: seq<Proxy>, rest: seq<Byte>)
    requires |ps| > 0 && At(s, WriteProxies(ps) + rest)
    ensures var t := Skip(s, 4 + |WriteProxy(ps[0])|);
            && Valid(t) && At(t, WriteProxies(ps[1..]) + rest)
            && |WriteProxies(ps)| == 4 + |WriteProxy(ps[0])| + |WriteProxies(ps[1..])|
  {
    var head := WriteInt(ps[0].modelId) + WriteProxy(ps[0]);
    var c := WriteProxies(ps[1..]);
    assert WriteProxies(ps) == head + c;
    assert WriteProxies(ps) + rest == head + (c + rest);
    AtConcat(s, head, c + rest);
  }

  /** The proxies loop reads back exactly the proxies written, in order, and stops after the -1. */
  lemma {:induction false} ProxiesRoundTrip(s: Stream, ps: seq<Proxy>, rest: seq<Byte>)
    requires Valid(s)
    requires WritableProxies(ps)
    requires At(s, WriteProxies(ps) + rest)
    ensures ParseProxies(s) == Some((ps, Skip(s, |WriteProxies(ps)|)))
    decreases |ps|
  {
    if |ps| == 0 {
      assert WriteProxies(ps) == WriteInt(-1);
      IntThen(s, -1, rest);
      assert ReadInt(s).0 == -1;
    } else {
      var t := Skip(s, 4 + |WriteProxy(ps[0])|);
      var end := Skip(t, |WriteProxies(ps[1..])|);
      assert ReadInt(s) == (ps[0].modelId, Skip(s, 4)) && ReadProxy(ps[0].modelId, Skip(s, 4)) == (ps[0], t) by {
        ProxiesHead(s, ps, rest);
      }
      ProxiesAtTail(s, ps, rest);
      ProxiesRoundTrip(t, ps[1..], rest);
      ParseProxiesCons(s, ps[0], t, ps[1..], end);
      SomeJoin(ParseProxies(s), ps, end);
      assert end == Skip(s, |WriteProxies(ps)|);
    }
  }

  /** A mesh binding the service can write: a plain id is never -1, a MeshOp length fits an int. */
  predicate WritableMeshBinding(b: MeshBinding) {
    && |b.localId| < 65536 && IsInt64(b.meshId)
    && (b.meshOp.None? ==> b.meshId != -1)
    && (b.meshOp.Some? ==> IsInt32(|b.meshOp.value|))
  }

  /**
   * One mesh binding after its node id: the local id, then either the mesh
   * id, or -1, the mesh id and the int-length MeshOp message.
   */
  function WriteMeshBinding(b: MeshBinding): (bytes: seq<Byte>)
  {
    match b.meshOp
    case None => WriteString(b.localId) + WriteLongLong(b.meshId)
    case Some(op) => WriteString(b.localId) + WriteLongLong(-1) + WriteLongLong(b.meshId) + WriteInt(|op|) + op
  }

  /**
   * A binding written either way reads back whole, and the cursor stops
   * right after it: after the mesh id, or after the MeshOp bytes.
   */
  lemma {:induction false} MeshBindingThen(s: Stream, b: MeshBinding, rest: seq<Byte>)
    requires Valid(s) && WritableMeshBinding(b) && At(s, WriteMeshBinding(b) + rest)
    ensures ReadMeshBinding(s) == (b, Skip(s, |WriteMeshBinding(b)|))
    ensures At(Skip(s, |WriteMeshBinding(b)|), rest) && Valid(Skip(s, |WriteMeshBinding(b)|))
  {
    if b.meshOp.None? {
      PlainMeshBindingThen(s, b, rest);
    } else {
      var op := b.meshOp.value;
      var after := WriteLongLong(b.meshId) + (WriteInt(|op|) + (op + rest));
      var s2 := Skip(s, 10 + |b.localId|);
      Assoc5(WriteString(b.localId), WriteLongLong(-1), WriteLongLong(b.meshId), WriteInt(|op|), op, rest);
      MarkerThen(s, b.localId, after);
      MeshOpThen(s2, b.meshId, op, rest);
      assert Skip(s2, 12 + |op|) == Skip(s, |WriteMeshBinding(b)|);
    }
  }

  lemma {:induction false} PlainMeshBindingThen(s: Stream, b: MeshBinding, rest: seq<Byte>)
    requires Valid(s) && WritableMeshBinding(b) && b.meshOp.None?
    requires At(s, WriteString(b.localId) + WriteLongLong(b.meshId) + rest)
    ensures ReadMeshBinding(s) == (b, Skip(s, 10 + |b.localId|))
    ensures At(Skip(s, 10 + |b.localId|), rest) && Valid(Skip(s, 10 + |b.localId|))
  {
    var n := 2 + |b.localId|;
    var c := WriteLongLong(b.meshId);
    assert WriteString(b.localId) + c + rest == WriteString(b.localId) + (c + rest);
    StringThen(s, b.localId, c + rest);
    LongLongThen(Skip(s, n), b.meshId, rest);
    assert Skip(Skip(s, n), 8) == Skip(s, n + 8);
  }

  /** A local id and the -1 marker read back, and the binding goes on to the MeshOp record. */
  lemma {:induction false} MarkerThen(s: Stream, localId: seq<Byte>, rest: seq<Byte>)
    requires Valid(s) && |localId| < 65536
    requires At(s, WriteString(localId) + (WriteLongLong(-1) + rest))
    ensures ReadMeshBinding(s) == ReadMeshOp(localId, Skip(s, 10 + |localId|))
    ensures At(Skip(s, 10 + |localId|), rest) && Valid(Skip(s, 10 + |localId|))
  {
    var n := 2 + |localId|;
    StringThen(s, localId, WriteLongLong(-1) + rest);
    LongLongThen(Skip(s, n), -1, rest);
    assert Skip(Skip(s, n), 8) == Skip(s, n + 8);
  }

  /** After the -1 marker: the mesh id, the MeshOp length and the MeshOp bytes read back. */
  lemma {:induction false} MeshOpThen(s: Stream, id: int, op: seq<Byte>, rest: seq<Byte>)
    requires Valid(s) && IsInt64(id) && IsInt32(|op|)
    requires At(s, WriteLongLong(id) + (WriteInt(|op|) + (op + rest)))
    ensures forall localId :: ReadMeshOp(localId, s) == (MeshBinding(id, localId, Some(op)), Skip(s, 12 + |op|))
    ensures At(Skip(s, 12 + |op|), rest) && Valid(Skip(s, 12 + |op|))
  {
    LongLongThen(s, id, WriteInt(|op|) + (op + rest));
    IntThen(Skip(s, 8), |op|, op + rest);
    assert Skip(Skip(s, 8), 4) == Skip(s, 12);
    BytesThen(Skip(s, 12), op, rest);
    assert Skip(Skip(s, 12), |op|) == Skip(s, 12 + |op|);
  }

  /** A node id the service writes before a binding: never -1. */
  predicate WritableNodeId(id: int) {
    id != -1 && IsInt32(id)
  }

  /** The mesh bindings as the service writes them: node id and binding each, then the key -1. */
  function WriteMeshBindings(entries: seq<(int, MeshBinding)>): (bytes: seq<Byte>)
  {
    if |entries| == 0 then WriteInt(-1)
    else WriteInt(entries[0].0) + WriteMeshBinding(entries[0].1) + WriteMeshBindings(entries[1..])
  }

  /** Every pair of the list can be written. */
  predicate WritableMeshBindings(entries: seq<(int, MeshBinding)>) {
    |entries| == 0 || (WritableNodeId(entries[0].0) && WritableMeshBinding(entries[0].1) && WritableMeshBindings(entries[1..]))
  }

  /** One turn of the mesh-bindings loop: a node id other than -1, then a binding that moves the cursor. */
  lemma {:induction false} ParseMeshBindingsCons(s: Stream, e: (int, MeshBinding), t: Stream,
                                                 tail: seq<(int, MeshBinding)>, end: Stream)
    requires Valid(s) && Valid(t) && e.0 != -1 && t.offset > s.offset
    requires ReadInt(s) == (e.0, Skip(s, 4)) && ReadMeshBinding(Skip(s, 4)) == (e.1, t)
    requires ParseMeshBindings(t) == Some((tail, end))
    ensures ParseMeshBindings(s) == Some(([e] + tail, end))
  {
  }

  lemma {:induction false} MeshBindingsUnfold(entries: seq<(int, MeshBinding)>, rest: seq<Byte>)
    requires |entries| > 0
    ensures WriteMeshBindings(entries) + rest
            == WriteInt(entries[0].0) + (WriteMeshBinding(entries[0].1) + (WriteMeshBindings(entries[1..]) + rest))
  {
    var a := WriteInt(entries[0].0);
    var b := WriteMeshBinding(entries[0].1);
    var c := WriteMeshBindings(entries[1..]);
    assert WriteMeshBindings(entries) == a + b + c;
    assert a + b + c + rest == a + (b + (c + rest));
  }

  /** The first pair of a written list reads back, and the rest of the list follows it. */
  lemma {:induction false} MeshBindingsHead(s: Stream, entries: seq<(int, MeshBinding)>, rest: seq<Byte>)
    requires Valid(s) && |entries| > 0
    requires WritableNodeId(entries[0].0) && WritableMeshBinding(entries[0].1)
    requires At(s, WriteMeshBindings(entries) + rest)
    ensures var t := Skip(s, 4 + |WriteMeshBinding(entries[0].1)|);
            && Valid(t) && At(t, WriteMeshBindings(entries[1..]) + rest)
            && ReadInt(s) == (entries[0].0, Skip(s, 4)) && ReadMeshBinding(Skip(s, 4)) == (entries[0].1, t)
            && |WriteMeshBindings(entries)| == 4 + |WriteMeshBinding(entries[0].1)| + |WriteMeshBindings(entries[1..])|
  {
    var e := entries[0];
    var b := WriteMeshBinding(e.1);
    var c := WriteMeshBindings(entries[1..]);
    MeshBindingsUnfold(entries, rest);
    IntThen(s, e.0, b + (c + rest));
    MeshBindingThen(Skip(s, 4), e.1, c + rest);
    assert Skip(Skip(s, 4), |b|) == Skip(s, 4 + |b|);
  }

  /** The rest of a written list starts right after its first item. */
  lemma {:induction false} MeshBindingsAtTail(s: Stream, entries: seq<(int, MeshBinding)>, rest: seq<Byte>)
    requires |entries| > 0 && At(s, WriteMeshBindings(entries) + rest)
    ensures var t := Skip(s, 4 + |WriteMeshBinding(entries[0].1)|);
            && Valid(t) && At(t, WriteMeshBindings(entries[1..]) + rest)
            && |WriteMeshBindings(entries)| == 4 + |WriteMeshBinding(entries[0].1)| + |WriteMeshBindings(entries[1..])|
  {
    var head := WriteInt(entries[0].0) + WriteMeshBinding(entries[0].1);
    var c := WriteMeshBindings(entries[1..]);
    assert WriteMeshBindings(entries) == head + c;
    assert WriteMeshBindings(entries) + rest == head + (c + rest);
    AtConcat(s, head, c + rest);
  }

  /** The mesh-bindings loop reads back exactly the pairs written, in order, and stops after the -1. */
  lemma {:induction false} MeshBindingsRoundTrip(s: Stream, entries: seq<(int, MeshBinding)>, rest: seq<Byte>)
    requires Valid(s)
    requires WritableMeshBindings(entries)
    requires At(s, WriteMeshBindings(entries) + rest)
    ensures ParseMeshBindings(s) == Some((entries, Skip(s, |WriteMeshBindings(entries)|)))
    decreases |entries|
  {
    if |entries| == 0 {
      assert WriteMeshBindings(entries) == WriteInt(-1);
      IntThen(s, -1, rest);
      assert ReadInt(s).0 == -1;
    } else {
      var t := Skip(s, 4 + |WriteMeshBinding(entries[0].1)|);
      var end := Skip(t, |WriteMeshBindings(entries[1..])|);
      assert ReadInt(s) == (entries[0].0, Skip(s, 4)) && ReadMeshBinding(Skip(s, 4)) == (entries[0].1, t) by {
        MeshBindingsHead(s, entries, rest);
      }
      MeshBindingsAtTail(s, entries, rest);
      MeshBindingsRoundTrip(t, entries[1..], rest);
      ParseMeshBindingsCons(s, entries[0], t, entries[1..], end);
      SomeJoin(ParseMeshBindings(s), entries, end);
      assert end == Skip(s, |WriteMeshBindings(entries)|);
    }
  }

  predicate WritableTextureBinding(b: TextureBinding) {
    |b.localId| < 65536 && IsInt64(b.textureId) && IsInt32(b.level)
  }

  /** One texture binding after its node id: local id, texture id, level. */
  function WriteTextureBinding(b: TextureBinding): (bytes: seq<Byte>)
    ensures |bytes| == 14 + |b.localId|
  {
    WriteString(b.localId) + WriteLongLong(b.textureId) + WriteInt(b.level)
  }

  lemma {:induction false} TextureBindingThen(s: Stream, b: TextureBinding, rest: seq<Byte>)
    requires Valid(s) && WritableTextureBinding(b) && At(s, WriteTextureBinding(b) + rest)
    ensures ReadTextureBinding(s) == (b, Skip(s, |WriteTextureBinding(b)|))
    ensures At(Skip(s, |WriteTextureBinding(b)|), rest) && Valid(Skip(s, |WriteTextureBinding(b)|))
  {
    var n := 2 + |b.localId|;
    var a := WriteString(b.localId);
    var c := WriteLongLong(b.textureId);
    var l := WriteInt(b.level);
    assert WriteTextureBinding(b) + rest == a + (c + (l + rest));
    StringThen(s, b.localId, c + (l + rest));
    LongLongThen(Skip(s, n), b.textureId, l + rest);
    assert Skip(Skip(s, n), 8) == Skip(s, n + 8);
    IntThen(Skip(s, n + 8), b.level, rest);
    assert Skip(Skip(s, n + 8), 4) == Skip(s, n + 12);
  }

  /** The texture bindings as the service writes them: node id and binding each, then the key -1. */
  function WriteTextureBindings(entries: seq<(int, TextureBinding)>): (bytes: seq<Byte>)
  {
    if |entries| == 0 then WriteInt(-1)
    else WriteInt(entries[0].0) + WriteTextureBinding(entries[0].1) + WriteTextureBindings(entries[1..])
  }

  /** Every pair of the list can be written. */
  predicate WritableTextureBindings(entries: seq<(int, TextureBinding)>) {
    |entries| == 0 || (WritableNodeId(entries[0].0) && WritableTextureBinding(entries[0].1) && WritableTextureBindings(entries[1..]))
  }

  /** One turn of the texture-bindings loop: a node id other than -1, then a binding that moves the cursor. */
  lemma {:induction false} ParseTextureBindingsCons(s: Stream, e: (int, TextureBinding), t: Stream,
                                                    tail: seq<(int, TextureBinding)>, end: Stream)
    requires Valid(s) && Valid(t) && e.0 != -1 && t.offset > s.offset
    requires ReadInt(s) == (e.0, Skip(s, 4)) && ReadTextureBinding(Skip(s, 4)) == (e.1, t)
    requires ParseTextureBindings(t) == Some((tail, end))
    ensures ParseTextureBindings(s) == Some(([e] + tail, end))
  {
  }

  /** The first pair of a written list reads back, and the rest of the list follows it. */
  lemma {:induction false} TextureBindingsHead(s: Stream, entries: seq<(int, TextureBinding)>, rest: seq<Byte>)
    requires Valid(s) && |entries| > 0
    requires WritableNodeId(entries[0].0) && WritableTextureBinding(entries[0].1)
    requires At(s, WriteTextureBindings(entries) + rest)
    ensures var t := Skip(s, 4 + |WriteTextureBinding(entries[0].1)|);
            && Valid(t) && At(t, WriteTextureBindings(entries[1..]) + rest)
            && ReadInt(s) == (entries[0].0, Skip(s, 4)) && ReadTextureBinding(Skip(s, 4)) == (entries[0].1, t)
            && |WriteTextureBindings(entries)| == 4 + |WriteTextureBinding(entries[0].1)| + |WriteTextureBindings(entries[1..])|
  {
    var e := entries[0];
    var b := WriteTextureBinding(e.1);
    var c := WriteTextureBindings(entries[1..]);
    assert WriteTextureBindings(entries) + rest == WriteInt(e.0) + (b + (c + rest));
    IntThen(s, e.0, b + (c + rest));
    TextureBindingThen(Skip(s, 4), e.1, c + rest);
    assert Skip(Skip(s, 4), |b|) == Skip(s, 4 + |b|);
  }

  /** The rest of a written list starts right after its first item. */
  lemma {:induction false} TextureBindingsAtTail(s: Stream, entries: seq<(int, TextureBinding)>, rest: seq<Byte>)
    requires |entries| > 0 && At(s, WriteTextureBindings(entries) + rest)
    ensures var t := Skip(s, 4 + |WriteTextureBinding(entries[0].1)|);
            && Valid(t) && At(t, WriteTextureBindings(entries[1..]) + rest)
            && |WriteTextureBindings(entries)| == 4 + |WriteTextureBinding(entries[0].1)| + |WriteTextureBindings(entries[1..])|
  {
    var head := WriteInt(entries[0].0) + WriteTextureBinding(entries[0].1);
    var c := WriteTextureBindings(entries[1..]);
    assert WriteTextureBindings(entries) == head + c;
    assert WriteTextureBindings(entries) + rest == head + (c + rest);
    AtConcat(s, head, c + rest);
  }

  /** The texture-bindings loop reads back exactly the pairs written, in order, and stops after the -1. */
  lemma {:induction false} TextureBindingsRoundTrip(s: Stream, entries: seq<(int, TextureBinding)>, rest: seq<Byte>)
    requires Valid(s)
    requires WritableTextureBindings(entries)
    requires At(s, WriteTextureBindings(entries) + rest)
    ensures ParseTextureBindings(s) == Some((entries, Skip(s, |WriteTextureBindings(entries)|)))
    decreases |entries|
  {
    if |entries| == 0 {
      assert WriteTextureBindings(entries) == WriteInt(-1);
      IntThen(s, -1, rest);
      assert ReadInt(s).0 == -1;
    } else {
      var t := Skip(s, 4 + |WriteTextureBinding(entries[0].1)|);
      var end := Skip(t, |WriteTextureBindings(entries[1..])|);
      assert ReadInt(s) == (entries[0].0, Skip(s, 4)) && ReadTextureBinding(Skip(s, 4)) == (entries[0].1, t) by {
        TextureBindingsHead(s, entries, rest);
      }
      TextureBindingsAtTail(s, entries, rest);
      TextureBindingsRoundTrip(t, entries[1..], rest);
      ParseTextureBindingsCons(s, entries[0], t, entries[1..], end);
      SomeJoin(ParseTextureBindings(s), entries, end);
      assert end == Skip(s, |WriteTextureBindings(entries)|);
    }
  }

  // The maps the loops fill.

  /** `proxyMap.emplace` over the list in order: an id already present keeps its first proxy. */
  function ProxyMap(proxies: seq<Proxy>): (m: map<int, Proxy>)
    ensures forall id :: id in m ==> m[id].modelId == id
    decreases |proxies|
  {
    if |proxies| == 0 then map[]
    else
      var m := ProxyMap(proxies[..|proxies| - 1]);
      var p := proxies[|proxies| - 1];
      if p.modelId in m then m else m[p.modelId := p]
  }

  /** The first proxy in the list with the given id. */
  function FirstWithId(proxies: seq<Proxy>, id: int): Option<Proxy>
    decreases |proxies|
  {
    if |proxies| == 0 then None
    else if proxies[0].modelId == id then Some(proxies[0])
    else FirstWithId(proxies[1..], id)
  }

  lemma {:induction false} FirstWithIdSnoc(proxies: seq<Proxy>, p: Proxy, id: int)
    ensures FirstWithId(proxies + [p], id) ==
      if FirstWithId(proxies, id).Some? then FirstWithId(proxies, id)
      else if p.modelId == id then Some(p) else None
    decreases |proxies|
  {
    if |proxies| == 0 {
      assert [p][1..] == [];
    } else {
      assert (proxies + [p])[1..] == proxies[1..] + [p];
      FirstWithIdSnoc(proxies[1..], p, id);
    }
  }

  /** The proxy map holds exactly the ids read, each with the first proxy read under it. */
  lemma {:induction false} ProxyMapFirstWins(proxies: seq<Proxy>)
    ensures forall id :: (id in ProxyMap(proxies)) == FirstWithId(proxies, id).Some?
    ensures forall id :: id in ProxyMap(proxies) ==> Some(ProxyMap(proxies)[id]) == FirstWithId(proxies, id)
    decreases |proxies|
  {
    if |proxies| > 0 {
      var init := proxies[..|proxies| - 1];
      var p := proxies[|proxies| - 1];
      assert init + [p] == proxies;
      ProxyMapFirstWins(init);
      forall id ensures FirstWithId(proxies, id) ==
        (if FirstWithId(init, id).Some? then FirstWithId(init, id) else if p.modelId == id then Some(p) else None)
      {
        FirstWithIdSnoc(init, p, id);
      }
    }
  }

  /** `bindingsMap[nodeId].push_back(binding)` over the list in order. */
  function GroupByNode<T>(entries: seq<(int, T)>): (m: map<int, seq<T>>)
    ensures forall node :: node in m ==> |m[node]| > 0
    decreases |entries|
  {
    if |entries| == 0 then map[]
    else
      var m := GroupByNode(entries[..|entries| - 1]);
      var e := entries[|entries| - 1];
      m[e.0 := (if e.0 in m then m[e.0] else []) + [e.1]]
  }

  /** The values listed under `node`, in list order. */
  function ValuesOf<T>(entries: seq<(int, T)>, node: int): seq<T>
    decreases |entries|
  {
    if |entries| == 0 then []
    else (if entries[0].0 == node then [entries[0].1] else []) + ValuesOf(entries[1..], node)
  }

  lemma {:induction false} ValuesOfSnoc<T>(entries: seq<(int, T)>, e: (int, T), node: int)
    ensures ValuesOf(entries + [e], node) == ValuesOf(entries, node) + (if e.0 == node then [e.1] else [])
    decreases |entries|
  {
    if |entries| == 0 {
      assert [e][1..] == [];
    } else {
      var h := if entries[0].0 == node then [entries[0].1] else [];
      var last := if e.0 == node then [e.1] else [];
      assert (entries + [e])[0] == entries[0];
      assert (entries + [e])[1..] == entries[1..] + [e];
      assert ValuesOf(entries + [e], node) == h + ValuesOf(entries[1..] + [e], node);
      ValuesOfSnoc(entries[1..], e, node);
      assert h + (ValuesOf(entries[1..], node) + last) == h + ValuesOf(entries[1..], node) + last;
    }
  }

  /**
   * Grouping keeps every binding, under its own node, in the order read,
   * and creates no empty group.
   */
  lemma {:induction false} GroupByNodeKeepsOrder<T>(entries: seq<(int, T)>)
    ensures forall node :: (node in GroupByNode(entries)) == (ValuesOf(entries, node) != [])
    ensures forall node :: node in GroupByNode(entries) ==> GroupByNode(entries)[node] == ValuesOf(entries, node)
    decreases |entries|
  {
    if |entries| > 0 {
      var init := entries[..|entries| - 1];
      var e := entries[|entries| - 1];
      assert init + [e] == entries;
      GroupByNodeKeepsOrder(init);
      forall node ensures ValuesOf(entries, node) == ValuesOf(init, node) + (if e.0 == node then [e.1] else []) {
        ValuesOfSnoc(init, e, node);
      }
    }
  }

  datatype LodTree = LodTree(
    treeMessage: seq<Byte>,
    proxies: map<int, Proxy>,
    meshBindings: map<int, seq<MeshBinding>>,
    textureBindings: map<int, seq<TextureBinding>>)

  /**
   * The decompressed LOD tree response: an int-length tree message, then
   * the three loops. None when one of the loops would never end.
   */
  function ParseLodTree(data: seq<Byte>): (r: Option<LodTree>)
    ensures r.Some? ==> forall id :: id in r.value.proxies ==> r.value.proxies[id].modelId == id
    ensures r.Some? ==> forall node :: node in r.value.meshBindings ==> |r.value.meshBindings[node]| > 0
  {
    var s0 := Stream(data, 0);
    var (size, s1) := ReadInt(s0);
    var (tree, s2) := ReadBytes(s1, SizeT(size));
    var proxies := ParseProxies(s2);
    if proxies.None? then None
    else
      var meshes := ParseMeshBindings(proxies.value.1);
      if meshes.None? then None
      else
        var textures := ParseTextureBindings(meshes.value.1);
        if textures.None? then None
        else
          Some(LodTree(tree, ProxyMap(proxies.value.0), GroupByNode(meshes.value.0), GroupByNode(textures.value.0)))
  }

  /**
   * The gzip envelope of a response: an optional leading long long (mesh
   * and texture responses), then an int-length compressed payload.
   */
  function Envelope(response: seq<Byte>, hasHeader: bool): (r: seq<Byte>)
    ensures |r| <= |response|
  {
    var s0 := Stream(response, 0);
    var s1 := if hasHeader then ReadLongLong(s0).1 else s0;
    var (size, s2) := ReadInt(s1);
    ReadBytes(s2, SizeT(size)).0
  }

  lemma {:induction false} EnvelopeRoundTrip(payload: seq<Byte>, rest: seq<Byte>)
    requires |payload| < TwoTo32 / 2
    ensures Envelope(WriteInt(|payload|) + payload + rest, false) == payload
  {
    var data := WriteInt(|payload|) + payload + rest;
    var s := Stream(data, 0);
    assert At(s, WriteInt(|payload|) + (payload + rest));
    AtConcat(s, WriteInt(|payload|), payload + rest);
    ReadWriteInt(s, |payload|);
    assert data[4..4 + |payload|] == payload;
  }
}

=== FILE: local_vector_data_source.dfy ===
/**
 * The element registry of a local vector data source: the spatial index as
 * a multiset of elements (bounds and projection are irrelevant to the
 * bookkeeping), the element-id counter, the ids assigned to elements, and
 * the added/removed notifications each operation fires.
 *
 * An element is a handle; a null element is None. Which data source an
 * element is attached to is the `attached` parameter.
 */
module LocalVectorDataSource {
  import opened Wrappers

  datatype Element = Element(handle: nat)

  /** The data source an element is attached to, if any. */
  type Attachment = Element -> Option<nat>

  /**
   * The notifications fired. Removed elements read back from the index come
   * in the index's own order, which is not modelled: they are a multiset.
   */
  datatype Notification =
    | ElementAdded(e: Element)
    | ElementsAdded(es: seq<Element>)
    | ElementRemoved(e: Element)
    | ElementsRemoved(removed: multiset<Element>)

  /** The data source's identity, spatial index contents, next element id and the ids it set. */
  datatype Source = Source(self: nat, index: multiset<Element>, nextId: int, ids: map<Element, int>)

  // ---------------------------------------------------------------------------
  // Argument checks
  // ---------------------------------------------------------------------------

  /** The element is attached to some data source (or, when `otherOnly`, to one other than `self`). */
  predicate Attached(attached: Attachment, self: nat, e: Element, otherOnly: bool) {
    attached(e).Some? && (!otherOnly || attached(e).value != self)
  }

  /** The InvalidArgument messages: add and addAll, setAll, and remove and removeAll each word it differently. */
  const AddAttachedMessage := "Element already attached to a datasource"
  const SetAllAttachedMessage := "Element already attached to a different datasource"
  const RemoveAttachedMessage := "Element attached to a different datasource"

  /**
   * The up-front check of a list: the first null element throws
   * NullArgument, the first attached one InvalidArgument with the caller's
   * message; otherwise the elements themselves.
   */
  function CheckAll(es: seq<Option<Element>>, attached: Attachment, self: nat, otherOnly: bool, message: string)
    : (r: Result<seq<Element>, SdkError>)
    ensures r.Success? <==> forall i :: 0 <= i < |es| ==> es[i].Some? && !Attached(attached, self, es[i].value, otherOnly)
    ensures r.Success? ==> |r.value| == |es| && forall i :: 0 <= i < |es| ==> es[i] == Some(r.value[i])
    ensures r.Failure? ==> r.error == NullArgument("Null element") || r.error == InvalidArgument(message)
    decreases |es|
  {
    if |es| == 0 then Success([])
    else if es[0].None? then Failure(NullArgument("Null element"))
    else if Attached(attached, self, es[0].value, otherOnly) then Failure(InvalidArgument(message))
    else
      match CheckAll(es[1..], attached, self, otherOnly, message)
      case Failure(err) =>
        assert exists i :: 1 <= i < |es| && !(es[i].Some? && !Attached(attached, self, es[i].value, otherOnly)) by {
          var j :| 0 <= j < |es[1..]| && !(es[1..][j].Some? && !Attached(attached, self, es[1..][j].value, otherOnly));
          assert es[j + 1] == es[1..][j];
        }
        Failure(err)
      case Success(rest) =>
        assert forall i :: 1 <= i < |es| ==> es[i] == es[1..][i - 1];
        Success([es[0].value] + rest)
  }

  // ---------------------------------------------------------------------------
  // add / addAll
  // ---------------------------------------------------------------------------

  /**
   * add: a null element throws NullArgument, an element attached to any
   * data source InvalidArgument; otherwise the element gets the next id and
   * joins the index, and one added-notification fires.
   */
  function Add(s: Source, e: Option<Element>, attached: Attachment): (r: Result<(Source, seq<Notification>), SdkError>)
    ensures e.None? ==> r.Failure? && r.error.NullArgument?
    ensures e.Some? && attached(e.value).Some? ==> r.Failure? && r.error.InvalidArgument?
    ensures e.Some? && attached(e.value).None? ==>
              && r.Success?
              && r.value.0.index == s.index + multiset{e.value}
              && r.value.0.ids == s.ids[e.value := s.nextId]
              && r.value.0.nextId == s.nextId + 1
              && r.value.1 == [ElementAdded(e.value)]
  {
    if e.None? then Failure(NullArgument("Null element"))
    else if attached(e.value).Some? then Failure(InvalidArgument(AddAttachedMessage))
    else Success((s.(index := s.index + multiset{e.value}, ids := s.ids[e.value := s.nextId], nextId := s.nextId + 1),
                  [ElementAdded(e.value)]))
  }

  /** Gives each element, in order, the next id; a later duplicate overwrites an earlier id. */
  function AssignIds(ids: map<Element, int>, nextId: int, es: seq<Element>): (r: map<Element, int>)
    ensures r.Keys == ids.Keys + set e | e in es
    ensures forall e :: e in ids && e !in es ==> r[e] == ids[e]
    decreases |es|
  {
    if |es| == 0 then ids
    else AssignIds(ids[es[0] := nextId], nextId + 1, es[1..])
  }

  /** An element that occurs only once in the list gets the counter value plus its position. */
  lemma {:induction false} AssignIdsPositions(ids: map<Element, int>, nextId: int, es: seq<Element>, i: nat)
    requires i < |es| && forall j :: 0 <= j < |es| && j != i ==> es[j] != es[i]
    ensures AssignIds(ids, nextId, es)[es[i]] == nextId + i
    decreases |es|
  {
    if i == 0 {
      AssignIdsKeeps(ids[es[0] := nextId], nextId + 1, es[1..], es[0]);
    } else {
      forall j | 0 <= j < |es[1..]| && j != i - 1
        ensures es[1..][j] != es[1..][i - 1]
      {
        assert es[1..][j] == es[j + 1];
      }
      AssignIdsPositions(ids[es[0] := nextId], nextId + 1, es[1..], i - 1);
    }
  }

  lemma {:induction false} AssignIdsKeeps(ids: map<Element, int>, nextId: int, es: seq<Element>, e: Element)
    requires e in ids && e !in es
    ensures AssignIds(ids, nextId, es)[e] == ids[e]
  {
  }

  /**
   * addAll: every element is checked before any is inserted; then each gets
   * the next id in input order, all join the index, and one
   * added-notification fires if the list is not empty.
   */
  function AddAll(s: Source, es: seq<Option<Element>>, attached: Attachment): (r: Result<(Source, seq<Notification>), SdkError>)
    ensures r.Success? <==> CheckAll(es, attached, s.self, false, AddAttachedMessage).Success?
    ensures r.Failure? ==> r.error == CheckAll(es, attached, s.self, false, AddAttachedMessage).error
    ensures r.Success? ==>
              var added := CheckAll(es, attached, s.self, false, AddAttachedMessage).value;
              && r.value.0.index == s.index + multiset(added)
              && r.value.0.nextId == s.nextId + |es|
              && r.value.0.ids == AssignIds(s.ids, s.nextId, added)
              && r.value.1 == (if |es| == 0 then [] else [ElementsAdded(added)])
  {
    match CheckAll(es, attached, s.self, false, AddAttachedMessage)
    case Failure(err) => Failure(err)
    case Success(added) =>
      Success((s.(index := s.index + multiset(added), ids := AssignIds(s.ids, s.nextId, added), nextId := s.nextId + |added|),
               if |added| == 0 then [] else [ElementsAdded(added)]))
  }

  // ---------------------------------------------------------------------------
  // setAll
  // ---------------------------------------------------------------------------

  /** setAll's loop: an old element is kept once; every other occurrence is new and gets the next id. */
  function SetAllLoop(es: seq<Element>, prior: set<Element>, ids: map<Element, int>, nextId: int)
    : (r: (set<Element>, seq<Element>, map<Element, int>, int))
    ensures r.0 == prior - set e | e in es
    ensures r.3 == nextId + |r.1|
    ensures forall e :: e in ids && e !in r.1 ==> e in r.2 && r.2[e] == ids[e]
    ensures forall e :: e in r.1 ==> e in es
    decreases |es|
  {
    if |es| == 0 then (prior, [], ids, nextId)
    else if es[0] in prior then SetAllLoop(es[1..], prior - {es[0]}, ids, nextId)
    else
      var rest := SetAllLoop(es[1..], prior, ids[es[0] := nextId], nextId + 1);
      (rest.0, [es[0]] + rest.1, rest.2, rest.3)
  }

  /** An occurrence is new iff the element is not an old one or occurred earlier in the list. */
  ghost predicate IsNewAt(es: seq<Element>, prior: set<Element>, i: int)
    requires 0 <= i < |es|
  {
    es[i] !in prior || exists j :: 0 <= j < i && es[j] == es[i]
  }

  /** The added list holds exactly the new occurrences, in input order. */
  ghost function NewOccurrences(es: seq<Element>, prior: set<Element>, i: nat): seq<Element>
    requires i <= |es|
    decreases |es| - i
  {
    if i == |es| then []
    else if IsNewAt(es, prior, i) then [es[i]] + NewOccurrences(es, prior, i + 1)
    else NewOccurrences(es, prior, i + 1)
  }

  /** The elements of the list before position i. */
  ghost function Before(es: seq<Element>, i: nat): set<Element>
    requires i <= |es|
  {
    set j | 0 <= j < i :: es[j]
  }

  /**
   * Run from position k with the old set less what was already seen, the
   * loop adds exactly the new occurrences from k on.
   */
  lemma {:induction false} SetAllLoopAdds(whole: seq<Element>, O: set<Element>, k: nat, ids: map<Element, int>, nextId: int)
    requires k <= |whole|
    ensures SetAllLoop(whole[k..], O - Before(whole, k), ids, nextId).1 == NewOccurrences(whole, O, k)
    decreases |whole| - k
  {
    if k < |whole| {
      var es := whole[k..];
      var prior := O - Before(whole, k);
      assert es[0] == whole[k] && es[1..] == whole[k + 1..];
      BeforeStep(whole, O, k);
      if whole[k] in prior {
        SetAllLoopAdds(whole, O, k + 1, ids, nextId);
      } else {
        SetAllLoopAdds(whole, O, k + 1, ids[whole[k] := nextId], nextId + 1);
      }
    }
  }

  /** One more position seen: the occurrence is new iff its element is not among the old ones still unseen. */
  lemma {:induction false} BeforeStep(whole: seq<Element>, O: set<Element>, k: nat)
    requires k < |whole|
    ensures IsNewAt(whole, O, k) <==> whole[k] !in O - Before(whole, k)
    ensures whole[k] in O - Before(whole, k) ==> (O - Before(whole, k)) - {whole[k]} == O - Before(whole, k + 1)
    ensures whole[k] !in O - Before(whole, k) ==> O - Before(whole, k) == O - Before(whole, k + 1)
  {
    assert Before(whole, k + 1) == Before(whole, k) + {whole[k]};
    assert whole[k] in Before(whole, k) <==> exists j :: 0 <= j < k && whole[j] == whole[k];
  }

  /** The result of setAll: the source, the elements it added, and the elements it removed. */
  datatype SetAllResult = SetAllResult(source: Source, added: seq<Element>, removed: set<Element>, notifications: seq<Notification>)

  /**
   * setAll: after checking every element (null: NullArgument; attached to
   * another data source: InvalidArgument), the index becomes exactly the new
   * list; old elements stay with their ids, every new occurrence gets the
   * next id in input order, and the old elements not in the list are
   * removed. Added and removed notifications fire only when non-empty.
   */
  function SetAll(s: Source, es: seq<Option<Element>>, attached: Attachment): (r: Result<SetAllResult, SdkError>)
    ensures r.Success? <==> CheckAll(es, attached, s.self, true, SetAllAttachedMessage).Success?
    ensures r.Failure? ==> r.error == CheckAll(es, attached, s.self, true, SetAllAttachedMessage).error
    ensures r.Success? ==>
              var elements := CheckAll(es, attached, s.self, true, SetAllAttachedMessage).value;
              var prior := set e | e in s.index;
              && r.value.source.index == multiset(elements)
              && r.value.removed == prior - set e | e in elements
              && r.value.source.nextId == s.nextId + |r.value.added|
              && (forall e :: e in s.ids && e !in r.value.added ==> e in r.value.source.ids && r.value.source.ids[e] == s.ids[e])
              && r.value.source.self == s.self
              && r.value.notifications ==
                   (if |r.value.added| > 0 then [ElementsAdded(r.value.added)] else [])
                   + (if r.value.removed != {} then [ElementsRemoved(multiset(r.value.removed))] else [])
  {
    match CheckAll(es, attached, s.self, true, SetAllAttachedMessage)
    case Failure(err) => Failure(err)
    case Success(elements) =>
      var prior := set e | e in s.index;
      var loop := SetAllLoop(elements, prior, s.ids, s.nextId);
      var notes := (if |loop.1| > 0 then [ElementsAdded(loop.1)] else [])
                   + (if loop.0 != {} then [ElementsRemoved(multiset(loop.0))] else []);
      Success(SetAllResult(s.(index := multiset(elements), ids := loop.2, nextId := loop.3), loop.1, loop.0, notes))
  }

  /** setAll adds exactly the occurrences that are not old elements or repeat an earlier one, in order. */
  lemma {:induction false} SetAllAddsNew(s: Source, es: seq<Option<Element>>, attached: Attachment)
    requires SetAll(s, es, attached).Success?
    ensures var elements := CheckAll(es, attached, s.self, true, SetAllAttachedMessage).value;
            SetAll(s, es, attached).value.added == NewOccurrences(elements, set e | e in s.index, 0)
  {
    var elements := CheckAll(es, attached, s.self, true, SetAllAttachedMessage).value;
    var O := set e | e in s.index;
    SetAllLoopAdds(elements, O, 0, s.ids, s.nextId);
    assert elements[0..] == elements;
    assert O - Before(elements, 0) == O;
  }

  /** With no repeated elements, no occurrence of an old element is new. */
  lemma {:induction false} NoNewOccurrences(es: seq<Element>, prior: set<Element>, k: nat)
    requires k <= |es|
    requires forall i :: 0 <= i < |es| ==> es[i] in prior
    requires forall i, j :: 0 <= i < j < |es| ==> es[i] != es[j]
    ensures NewOccurrences(es, prior, k) == []
    decreases |es| - k
  {
    if k < |es| {
      NoNewOccurrences(es, prior, k + 1);
    }
  }

  /** Setting the same list of distinct elements twice: the second call adds and removes nothing. */
  lemma {:induction false} SetAllTwice(s: Source, es: seq<Option<Element>>, attached: Attachment)
    requires SetAll(s, es, attached).Success?
    requires var elements := CheckAll(es, attached, s.self, true, SetAllAttachedMessage).value;
             forall i, j :: 0 <= i < j < |elements| ==> elements[i] != elements[j]
    ensures var once := SetAll(s, es, attached).value.source;
            var twice := SetAll(once, es, attached);
            && twice.Success? && twice.value.added == [] && twice.value.removed == {}
            && twice.value.notifications == [] && twice.value.source.index == once.index
  {
    var elements := CheckAll(es, attached, s.self, true, SetAllAttachedMessage).value;
    var once := SetAll(s, es, attached).value.source;
    SetAllAddsNew(once, es, attached);
    assert forall i :: 0 <= i < |elements| ==> elements[i] in multiset(elements);
    NoNewOccurrences(elements, set e | e in once.index, 0);
  }

  // ---------------------------------------------------------------------------
  // remove / removeAll / clear
  // ---------------------------------------------------------------------------

  /**
   * remove: null throws NullArgument, an element of another data source
   * InvalidArgument; otherwise one occurrence leaves the index, and the
   * result (and the one notification) says whether it was there.
   */
  function Remove(s: Source, e: Option<Element>, attached: Attachment): (r: Result<(Source, bool, seq<Notification>), SdkError>)
    ensures e.None? ==> r.Failure? && r.error.NullArgument?
    ensures e.Some? && Attached(attached, s.self, e.value, true) ==> r.Failure? && r.error.InvalidArgument?
    ensures e.Some? && !Attached(attached, s.self, e.value, true) ==>
              && r.Success?
              && (r.value.1 <==> e.value in s.index)
              && r.value.0 == s.(index := s.index - multiset{e.value})
              && r.value.2 == (if r.value.1 then [ElementRemoved(e.value)] else [])
  {
    if e.None? then Failure(NullArgument("Null element"))
    else if Attached(attached, s.self, e.value, true) then Failure(InvalidArgument(RemoveAttachedMessage))
    else
      var removed := e.value in s.index;
      Success((s.(index := s.index - multiset{e.value}), removed, if removed then [ElementRemoved(e.value)] else []))
  }

  /** Adding an element and removing it again restores the index and reports the removal. */
  lemma {:induction false} AddThenRemove(s: Source, e: Element, attached: Attachment, attachedAfter: Attachment)
    requires attached(e).None?
    requires !Attached(attachedAfter, s.self, e, true)
    ensures var added := Add(s, Some(e), attached).value.0;
            var removed := Remove(added, Some(e), attachedAfter);
            removed.Success? && removed.value.1 && removed.value.0.index == s.index
  {
    assert s.index + multiset{e} - multiset{e} == s.index;
  }

  /** removeAll's loop: each element still in the index loses one occurrence and is reported. */
  function RemoveEach(index: multiset<Element>, es: seq<Element>): (r: (multiset<Element>, seq<Element>))
    ensures multiset(r.1) == multiset(es) * index
    ensures r.0 == index - multiset(es)
    ensures r.0 == index - multiset(r.1)
    ensures |r.1| <= |es|
    decreases |es|
  {
    if |es| == 0 then (index, [])
    else if es[0] in index then
      var rest := RemoveEach(index - multiset{es[0]}, es[1..]);
      assert multiset([es[0]] + rest.1) == multiset{es[0]} + multiset(rest.1);
      RemoveFirstStep(index, es);
      (rest.0, [es[0]] + rest.1)
    else
      SkipFirstStep(index, es);
      RemoveEach(index, es[1..])
  }

  /** Removing a head element that is in the index: the common part and the remainder. */
  lemma {:induction false} RemoveFirstStep(index: multiset<Element>, es: seq<Element>)
    requires |es| > 0 && es[0] in index
    ensures multiset(es) * index == multiset{es[0]} + multiset(es[1..]) * (index - multiset{es[0]})
    ensures index - multiset(es) == (index - multiset{es[0]}) - multiset(es[1..])
    ensures index - multiset(es) * index == index - multiset(es)
  {
    assert es == [es[0]] + es[1..];
    assert multiset(es) == multiset{es[0]} + multiset(es[1..]);
    var a := es[0];
    forall x ensures (multiset(es) * index)[x] == (multiset{a} + multiset(es[1..]) * (index - multiset{a}))[x] {
    }
    forall x ensures (index - multiset(es))[x] == ((index - multiset{a}) - multiset(es[1..]))[x] {
    }
    forall x ensures (index - multiset(es) * index)[x] == (index - multiset(es))[x] {
    }
  }

  /** Skipping a head element that is not in the index changes neither the common part nor the remainder. */
  lemma {:induction false} SkipFirstStep(index: multiset<Element>, es: seq<Element>)
    requires |es| > 0 && es[0] !in index
    ensures multiset(es) * index == multiset(es[1..]) * index
    ensures index - multiset(es) == index - multiset(es[1..])
  {
    assert es == [es[0]] + es[1..];
    assert multiset(es) == multiset{es[0]} + multiset(es[1..]);
    forall x ensures (multiset(es) * index)[x] == (multiset(es[1..]) * index)[x] {
    }
    forall x ensures (index - multiset(es))[x] == (index - multiset(es[1..]))[x] {
    }
  }

  /**
   * Every element was removed exactly when the list, counted with
   * multiplicity, is contained in the index: a consequence of the loop's
   * contract.
   */
  lemma RemoveEachAll(index: multiset<Element>, es: seq<Element>)
    ensures |RemoveEach(index, es).1| == |es| <==> multiset(es) <= index
  {
  }

  /**
   * removeAll: every element is checked first; then each still in the
   * index is removed once; the result says whether all were removed, and
   * one notification lists the removed ones when there are any.
   */
  function RemoveAll(s: Source, es: seq<Option<Element>>, attached: Attachment): (r: Result<(Source, bool, seq<Notification>), SdkError>)
    ensures r.Success? <==> CheckAll(es, attached, s.self, true, RemoveAttachedMessage).Success?
    ensures r.Failure? ==> r.error == CheckAll(es, attached, s.self, true, RemoveAttachedMessage).error
    ensures r.Success? ==>
              var elements := CheckAll(es, attached, s.self, true, RemoveAttachedMessage).value;
              && (r.value.1 <==> multiset(elements) <= s.index)
              && r.value.0.index == s.index - multiset(elements)
              && r.value.0 == s.(index := r.value.0.index)
              && (r.value.2 == [] <==> forall i :: 0 <= i < |elements| ==> elements[i] !in s.index)
              && (r.value.2 != [] ==> r.value.2 == [ElementsRemoved(multiset(elements) * s.index)])
  {
    match CheckAll(es, attached, s.self, true, RemoveAttachedMessage)
    case Failure(err) => Failure(err)
    case Success(elements) =>
      var loop := RemoveEach(s.index, elements);
      RemoveEachAll(s.index, elements);
      RemoveEachEmpty(s.index, elements);
      Success((s.(index := loop.0), |loop.1| == |elements|,
               if |loop.1| > 0 then [ElementsRemoved(multiset(loop.1))] else []))
  }

  /** The loop removes nothing exactly when no listed element is in the index. */
  lemma {:induction false} RemoveEachEmpty(index: multiset<Element>, es: seq<Element>)
    ensures RemoveEach(index, es).1 == [] <==> forall i :: 0 <= i < |es| ==> es[i] !in index
    decreases |es|
  {
    if |es| > 0 && es[0] in index {
      assert RemoveEach(index, es).1 == [es[0]] + RemoveEach(index - multiset{es[0]}, es[1..]).1;
    } else if |es| > 0 {
      RemoveEachEmpty(index, es[1..]);
      assert RemoveEach(index, es) == RemoveEach(index, es[1..]);
      NoneInTail(index, es);
    }
  }

  /** With the head out of the index, no listed element is in it iff none of the tail is. */
  lemma {:induction false} NoneInTail(index: multiset<Element>, es: seq<Element>)
    requires |es| > 0 && es[0] !in index
    ensures (forall i :: 0 <= i < |es| ==> es[i] !in index) <==> (forall i :: 0 <= i < |es[1..]| ==> es[1..][i] !in index)
  {
    assert forall i :: 1 <= i < |es| ==> es[i] == es[1..][i - 1];
  }

  /** clear: the index empties; a removed-notification with its old contents fires only if it held something. */
  function Clear(s: Source): (r: (Source, seq<Notification>))
    ensures r.0.index == multiset{} && r.0.nextId == s.nextId && r.0.ids == s.ids
    ensures r.1 == [] <==> s.index == multiset{}
    ensures r.1 != [] ==> r.1 == [ElementsRemoved(s.index)]
  {
    (s.(index := multiset{}), if s.index == multiset{} then [] else [ElementsRemoved(s.index)])
  }
}

=== FILE: mb_vector_tile_decoder.dfy ===
/**
 * The style bookkeeping of the Mapbox vector tile decoder: the style
 * parameters a style declares (each with a default and, for enum
 * parameters, a key-to-value table), the values the application set, the
 * reconciliation of those values when the style changes, and the small
 * per-asset-package cache of symbolizer contexts.
 *
 * Style loading (CartoCSS, XML and project parsing), asset access and the
 * number parsing and formatting of boost::lexical_cast are parameters.
 */
module MBVectorTileDecoder {
  import opened Wrappers

  /** At most this many asset packages keep a symbolizer context. */
  const MaxAssetPackageSymbolizerContexts: nat := 2

  /** mvt::Value: empty, boolean, 64-bit integer, floating point (as a real) or string. */
  datatype Value = Blank | VBool(b: bool) | VLong(n: int) | VDouble(d: real) | VString(s: string)

  /** Two values hold the same alternative of the variant (`which()` agrees). */
  predicate SameKind(a: Value, b: Value) {
    && (a.Blank? <==> b.Blank?)
    && (a.VBool? <==> b.VBool?)
    && (a.VLong? <==> b.VLong?)
    && (a.VDouble? <==> b.VDouble?)
  }

  /** One entry of an enum parameter's table, in the table's iteration order. */
  datatype EnumEntry = EnumEntry(key: string, value: Value)

  /** A style parameter: its default and its enum table (empty for a plain parameter). */
  datatype Parameter = Parameter(defaultValue: Value, enumMap: seq<EnumEntry>)

  type StyleParams = map<string, Parameter>

  /** The value an enum key maps to, if the key is in the table. */
  function EnumLookup(entries: seq<EnumEntry>, key: string): (r: Option<Value>)
    ensures r.None? <==> forall i :: 0 <= i < |entries| ==> entries[i].key != key
    ensures r.Some? ==> exists i :: 0 <= i < |entries| && entries[i] == EnumEntry(key, r.value)
    decreases |entries|
  {
    if |entries| == 0 then None
    else if entries[0].key == key then Some(entries[0].value)
    else
      var r := EnumLookup(entries[1..], key);
      assert forall i :: 1 <= i < |entries| ==> entries[i] == entries[1..][i - 1];
      r
  }

  /** The first key (in table order) whose value equals `v`. */
  function FirstKeyWith(entries: seq<EnumEntry>, v: Value): (r: Option<string>)
    ensures r.None? <==> forall i :: 0 <= i < |entries| ==> entries[i].value != v
    ensures r.Some? ==> exists i :: 0 <= i < |entries| && entries[i] == EnumEntry(r.value, v)
                          && forall j :: 0 <= j < i ==> entries[j].value != v
    decreases |entries|
  {
    if |entries| == 0 then None
    else if entries[0].value == v then Some(entries[0].key)
    else
      var r := FirstKeyWith(entries[1..], v);
      assert forall i :: 1 <= i < |entries| ==> entries[i] == entries[1..][i - 1];
      if r.Some? then
        assert exists i :: 1 <= i < |entries| && entries[i] == EnumEntry(r.value, v)
                             && forall j :: 0 <= j < i ==> entries[j].value != v by {
          var i :| 0 <= i < |entries[1..]| && entries[1..][i] == EnumEntry(r.value, v)
                   && forall j :: 0 <= j < i ==> entries[1..][j].value != v;
          assert forall j :: 1 <= j < i + 1 ==> entries[j] == entries[1..][j - 1];
        }
        r
      else r
  }

  /** The entries map distinct keys to distinct values. */
  predicate EnumInjective(entries: seq<EnumEntry>) {
    forall i, j :: 0 <= i < |entries| && 0 <= j < |entries| && entries[i].value == entries[j].value ==> entries[i].key == entries[j].key
  }

  /**
   * Whether a value set by the application still fits a parameter: one of
   * its enum values for an enum parameter, otherwise a value of the same
   * kind as the default.
   */
  predicate Fits(p: Parameter, v: Value) {
    if |p.enumMap| > 0 then exists i :: 0 <= i < |p.enumMap| && p.enumMap[i].value == v
    else SameKind(p.defaultValue, v)
  }

  // ---------------------------------------------------------------------------
  // Style sets and the decoder state
  // ---------------------------------------------------------------------------

  datatype AssetPackage = AssetPackage(id: nat)

  /** A CartoCSS style set (source text) or a compiled style set (an asset name in a package). */
  datatype StyleSet =
    | CartoCSSStyleSet(cartoCSS: string, assetPackage: Option<AssetPackage>)
    | CompiledStyleSet(styleAssetName: string, assetPackage: Option<AssetPackage>)

  /**
   * The style loaders: the CartoCSS loader, asset access, the XML style
   * parser and the CartoCSS project loader. Each gives the style's
   * parameters, or None when it throws (or, for assets, finds nothing).
   */
  datatype StyleEnv = StyleEnv(
    loadCartoCSS: (Option<AssetPackage>, string, bool) -> Option<StyleParams>,
    loadAsset: (AssetPackage, string) -> Option<seq<bv8>>,
    parseXml: seq<bv8> -> Option<StyleParams>,
    loadProject: (Option<AssetPackage>, string, bool) -> Option<StyleParams>)

  /**
   * The decoder: the current style set and its parameters, the parameter
   * values in force, the parameters the application set, the asset packages
   * that own a symbolizer context, and the CartoCSS layer-name flag.
   */
  datatype Decoder = Decoder(
    styleSet: StyleSet,
    params: StyleParams,
    values: map<string, Value>,
    updated: set<string>,
    contexts: set<Option<AssetPackage>>,
    layerNamesIgnored: bool)

  function EndsWith(s: string, suffix: string): bool {
    |suffix| <= |s| && s[|s| - |suffix|..] == suffix
  }

  /** The style-loading half of updateCurrentStyleSet, with its error classes. */
  function LoadStyle(styleSet: StyleSet, layerNamesIgnored: bool, env: StyleEnv): (r: Result<StyleParams, SdkError>)
    ensures styleSet.CompiledStyleSet? && styleSet.styleAssetName == "" ==> r.Failure? && r.error.InvalidArgument?
    ensures styleSet.CompiledStyleSet? && styleSet.styleAssetName != "" && styleSet.assetPackage.None? ==> r.Failure? && r.error.GenericError?
    ensures styleSet.CartoCSSStyleSet? ==> r.Failure? == env.loadCartoCSS(styleSet.assetPackage, styleSet.cartoCSS, layerNamesIgnored).None?
    ensures r.Success? && styleSet.CompiledStyleSet? ==> EndsWith(styleSet.styleAssetName, ".xml") || EndsWith(styleSet.styleAssetName, ".json")
  {
    match styleSet
    case CartoCSSStyleSet(css, pkg) =>
      (match env.loadCartoCSS(pkg, css, layerNamesIgnored)
       case None => Failure(ParseError("CartoCSS style parsing failed"))
       case Some(params) => Success(params))
    case CompiledStyleSet(name, pkg) =>
      if name == "" then Failure(InvalidArgument("Could not find any styles in the style set"))
      else if pkg.None? || env.loadAsset(pkg.value, name).None? then Failure(GenericError("Failed to load style description asset"))
      else if EndsWith(name, ".xml") then
        (match env.parseXml(env.loadAsset(pkg.value, name).value)
         case None => Failure(ParseError("Style element XML parsing failed"))
         case Some(params) => Success(params))
      else if EndsWith(name, ".json") then
        (match env.loadProject(pkg, name, layerNamesIgnored)
         case None => Failure(GenericError("CartoCSS style loading failed"))
         case Some(params) => Success(params))
      else Failure(GenericError("Failed to detect style asset type"))
  }

  // ---------------------------------------------------------------------------
  // The symbolizer context cache
  // ---------------------------------------------------------------------------

  /**
   * Makes sure the style's asset package owns a context: a package not yet
   * present is added, after clearing the cache when it is already full.
   */
  function AddContext(contexts: set<Option<AssetPackage>>, pkg: Option<AssetPackage>): (r: set<Option<AssetPackage>>)
    ensures |contexts| <= MaxAssetPackageSymbolizerContexts ==> |r| <= MaxAssetPackageSymbolizerContexts
    ensures pkg in r
    ensures pkg in contexts ==> r == contexts
    ensures pkg !in contexts && |contexts| < MaxAssetPackageSymbolizerContexts ==> r == contexts + {pkg}
    ensures pkg !in contexts && |contexts| >= MaxAssetPackageSymbolizerContexts ==> r == {pkg}
  {
    var kept := if pkg !in contexts && |contexts| >= MaxAssetPackageSymbolizerContexts then {} else contexts;
    kept + {pkg}
  }

  // ---------------------------------------------------------------------------
  // Reconciliation of parameter values
  // ---------------------------------------------------------------------------

  /** An application-set value that carries over to a new style. */
  predicate Survives(params: StyleParams, values: map<string, Value>, updated: set<string>, name: string)
    requires name in params
  {
    name in updated && name in values && Fits(params[name], values[name])
  }

  /** The value map after a style change: survivors keep their value, everything else its default. */
  function ReconciledValues(params: StyleParams, values: map<string, Value>, updated: set<string>): map<string, Value> {
    ReconciledOn(params, values, updated, params.Keys)
  }

  /** The application-set parameters after a style change: the survivors. */
  function Survivors(params: StyleParams, values: map<string, Value>, updated: set<string>): set<string> {
    SurvivorsIn(params, values, updated, params.Keys)
  }

  /** ReconciledValues restricted to the parameters in `done`. */
  function ReconciledOn(params: StyleParams, values: map<string, Value>, updated: set<string>, done: set<string>): map<string, Value>
    requires done <= params.Keys
  {
    map name | name in done :: if Survives(params, values, updated, name) then values[name] else params[name].defaultValue
  }

  /** Survivors restricted to the parameters in `done`. */
  function SurvivorsIn(params: StyleParams, values: map<string, Value>, updated: set<string>, done: set<string>): set<string>
    requires done <= params.Keys
  {
    set name | name in done && Survives(params, values, updated, name)
  }

  /**
   * The reconciliation loop of updateCurrentStyleSet: one pass over the new
   * style's parameters, building the new value map and updated set.
   */
  method Reconcile(params: StyleParams, values: map<string, Value>, updated: set<string>)
    returns (newValues: map<string, Value>, newUpdated: set<string>)
    ensures newValues == ReconciledValues(params, values, updated)
    ensures newUpdated == Survivors(params, values, updated)
  {
    newValues, newUpdated := map[], {};
    var todo := params.Keys;
    assert ReconciledOn(params, values, updated, {}) == map[];
    assert SurvivorsIn(params, values, updated, {}) == {};
    while todo != {}
      invariant todo <= params.Keys
      invariant newValues == ReconciledOn(params, values, updated, params.Keys - todo)
      invariant newUpdated == SurvivorsIn(params, values, updated, params.Keys - todo)
      decreases |todo|
    {
      var name :| name in todo;
      var valid := false;
      if name in updated && name in values {
        valid := CheckFits(params[name], values[name]);
      }
      ReconcileStep(params, values, updated, params.Keys - todo, name);
      if valid {
        newValues := newValues[name := values[name]];
        newUpdated := newUpdated + {name};
      } else {
        newValues := newValues[name := params[name].defaultValue];
      }
      assert params.Keys - (todo - {name}) == (params.Keys - todo) + {name};
      todo := todo - {name};
    }
    assert params.Keys - todo == params.Keys;
  }

  /** One more parameter reconciled: its entry is added and it joins the survivors iff it survives. */
  lemma {:induction false} ReconcileStep(params: StyleParams, values: map<string, Value>, updated: set<string>, done: set<string>, name: string)
    requires done <= params.Keys && name in params && name !in done
    ensures ReconciledOn(params, values, updated, done + {name})
              == ReconciledOn(params, values, updated, done)[name := if Survives(params, values, updated, name) then values[name] else params[name].defaultValue]
    ensures SurvivorsIn(params, values, updated, done + {name})
              == SurvivorsIn(params, values, updated, done) + (if Survives(params, values, updated, name) then {name} else {})
  {
  }

  /** The validity test of the loop: the value has the default's kind, or appears in the enum table when there is one. */
  method CheckFits(p: Parameter, v: Value) returns (valid: bool)
    ensures valid <==> Fits(p, v)
  {
    valid := SameKind(p.defaultValue, v);
    if |p.enumMap| > 0 {
      valid := false;
      var i := 0;
      while i < |p.enumMap|
        invariant 0 <= i <= |p.enumMap|
        invariant valid <==> exists j :: 0 <= j < i && p.enumMap[j].value == v
      {
        if p.enumMap[i].value == v {
          valid := true;
        }
        i := i + 1;
      }
    }
  }

  /**
   * The decoder's invariant: a value for exactly the style's parameters,
   * every application-set value fitting its parameter, every other one at
   * its default.
   */
  ghost predicate Consistent(d: Decoder) {
    && d.values.Keys == d.params.Keys
    && d.updated <= d.params.Keys
    && (forall name :: name in d.params && name in d.updated ==> Fits(d.params[name], d.values[name]))
    && (forall name :: name in d.params && name !in d.updated ==> d.values[name] == d.params[name].defaultValue)
  }

  /** Reconciling against the style the decoder already has changes nothing. */
  lemma {:induction false} ReconcileFixpoint(d: Decoder)
    requires Consistent(d)
    ensures ReconciledValues(d.params, d.values, d.updated) == d.values
    ensures Survivors(d.params, d.values, d.updated) == d.updated
  {
  }

  /**
   * updateCurrentStyleSet: load the style (nothing changes when that
   * throws), make sure the style's package owns a context, and reconcile
   * the parameter values against the new parameters.
   */
  function UpdateCurrentStyleSet(d: Decoder, styleSet: StyleSet, env: StyleEnv): (r: Result<Decoder, SdkError>)
    ensures r.Failure? <==> LoadStyle(styleSet, d.layerNamesIgnored, env).Failure?
    ensures r.Success? ==> Consistent(r.value)
    ensures r.Success? ==> r.value.styleSet == styleSet && r.value.params == LoadStyle(styleSet, d.layerNamesIgnored, env).value
    ensures r.Success? ==> r.value.contexts == AddContext(d.contexts, styleSet.assetPackage)
    ensures r.Success? ==> forall name :: name in r.value.updated <==>
              name in r.value.params && name in d.updated && name in d.values && Fits(r.value.params[name], d.values[name])
    ensures r.Success? ==> forall name :: name in r.value.updated ==> r.value.values[name] == d.values[name]
  {
    match LoadStyle(styleSet, d.layerNamesIgnored, env)
    case Failure(e) => Failure(e)
    case Success(params) =>
      Success(d.(styleSet := styleSet, params := params,
                 values := ReconciledValues(params, d.values, d.updated),
                 updated := Survivors(params, d.values, d.updated),
                 contexts := AddContext(d.contexts, styleSet.assetPackage)))
  }

  /** Re-applying the current style keeps every value the application set. */
  lemma {:induction false} ReapplyKeepsValues(d: Decoder, env: StyleEnv)
    requires Consistent(d)
    requires LoadStyle(d.styleSet, d.layerNamesIgnored, env) == Success(d.params)
    ensures UpdateCurrentStyleSet(d, d.styleSet, env).Success?
    ensures UpdateCurrentStyleSet(d, d.styleSet, env).value.values == d.values
    ensures UpdateCurrentStyleSet(d, d.styleSet, env).value.updated == d.updated
  {
    ReconcileFixpoint(d);
  }

  /** The constructors: a null style set throws NullArgument; otherwise the style is applied to an empty decoder. */
  function Create(styleSet: Option<StyleSet>, env: StyleEnv): (r: Result<Decoder, SdkError>)
    ensures styleSet.None? ==> r.Failure? && r.error.NullArgument?
    ensures r.Success? ==> Consistent(r.value) && r.value.updated == {} && |r.value.contexts| == 1
    ensures r.Success? ==> forall name :: name in r.value.params ==> r.value.values[name] == r.value.params[name].defaultValue
  {
    if styleSet.None? then Failure(NullArgument("Null styleSet"))
    else
      var empty := Decoder(styleSet.value, map[], map[], {}, {}, false);
      UpdateCurrentStyleSet(empty, styleSet.value, env)
  }

  /** setCompiledStyleSet / setCartoCSSStyleSet: a null style set throws NullArgument. */
  function SetStyleSet(d: Decoder, styleSet: Option<StyleSet>, env: StyleEnv): (r: Result<Decoder, SdkError>)
    ensures styleSet.None? ==> r.Failure? && r.error.NullArgument?
    ensures |d.contexts| <= MaxAssetPackageSymbolizerContexts && r.Success? ==> |r.value.contexts| <= MaxAssetPackageSymbolizerContexts
    ensures r.Success? ==> Consistent(r.value) && r.value.styleSet == styleSet.value
  {
    if styleSet.None? then Failure(NullArgument("Null styleSet"))
    else UpdateCurrentStyleSet(d, styleSet.value, env)
  }

  // ---------------------------------------------------------------------------
  // Parameter access
  // ---------------------------------------------------------------------------

  /** getStyleParameters: every parameter name of the current style, once each. */
  method StyleParameters(d: Decoder) returns (names: seq<string>)
    ensures forall name :: name in names <==> name in d.params
    ensures forall i, j :: 0 <= i < j < |names| ==> names[i] != names[j]
    ensures |names| == |d.params.Keys|
  {
    names := [];
    var todo := d.params.Keys;
    while todo != {}
      invariant todo <= d.params.Keys
      invariant forall name :: name in names <==> name in d.params && name !in todo
      invariant forall i, j :: 0 <= i < j < |names| ==> names[i] != names[j]
      invariant |names| + |todo| == |d.params.Keys|
      decreases |todo|
    {
      var name :| name in todo;
      names := names + [name];
      todo := todo - {name};
    }
  }

  /** boost::lexical_cast to and from text for the numeric kinds. */
  datatype Conversions = Conversions(
    parseLong: string -> Option<int>,
    parseDouble: string -> Option<real>,
    formatLong: int -> string,
    formatDouble: real -> string)

  /** lexical_cast<std::string>: booleans print as "1" and "0", blanks as "". */
  function Format(v: Value, conv: Conversions): string {
    match v
    case Blank => ""
    case VBool(b) => if b then "1" else "0"
    case VLong(n) => conv.formatLong(n)
    case VDouble(x) => conv.formatDouble(x)
    case VString(s) => s
  }

  /** The value in force for a parameter: the stored one, else the default. */
  function CurrentValue(d: Decoder, name: string): Value
    requires name in d.params
  {
    if name in d.values then d.values[name] else d.params[name].defaultValue
  }

  /**
   * getStyleParameter: InvalidArgument for an unknown parameter; an enum
   * parameter reports the first key mapping to the value in force (or ""),
   * a plain one the value's text.
   */
  function GetStyleParameter(d: Decoder, name: string, conv: Conversions): (r: Result<string, SdkError>)
    ensures name !in d.params <==> r.Failure?
    ensures r.Failure? ==> r.error.InvalidArgument?
    ensures r.Success? && |d.params[name].enumMap| > 0 ==>
              var entries := d.params[name].enumMap;
              if exists i :: 0 <= i < |entries| && entries[i].value == CurrentValue(d, name)
              then exists i :: 0 <= i < |entries| && entries[i] == EnumEntry(r.value, CurrentValue(d, name))
                                 && forall j :: 0 <= j < i ==> entries[j].value != CurrentValue(d, name)
              else r.value == ""
  {
    if name !in d.params then Failure(InvalidArgument("Could not find parameter"))
    else
      var p := d.params[name];
      var v := CurrentValue(d, name);
      if |p.enumMap| > 0 then
        (match FirstKeyWith(p.enumMap, v)
         case Some(key) => Success(key)
         case None => Success(""))
      else Success(Format(v, conv))
  }

  /**
   * The text-to-value conversion of a plain parameter, by the kind of its
   * default: "true"/"false" (and lexical_cast's "1"/"0") for booleans, the
   * number parsers for numbers, the text itself for strings; a blank
   * default stays blank. None when lexical_cast throws.
   */
  function Convert(defaultValue: Value, text: string, conv: Conversions): (r: Option<Value>)
    ensures r.Some? ==> SameKind(defaultValue, r.value)
    ensures defaultValue.VString? ==> r == Some(VString(text))
    ensures defaultValue.VBool? ==> (r.Some? <==> text in {"true", "false", "1", "0"})
  {
    match defaultValue
    case Blank => Some(Blank)
    case VBool(_) =>
      if text == "true" || text == "1" then Some(VBool(true))
      else if text == "false" || text == "0" then Some(VBool(false))
      else None
    case VLong(_) => (match conv.parseLong(text) case Some(n) => Some(VLong(n)) case None => None)
    case VDouble(_) => (match conv.parseDouble(text) case Some(x) => Some(VDouble(x)) case None => None)
    case VString(_) => Some(VString(text))
  }

  /**
   * setStyleParameter: false and no change for an unknown parameter or an
   * enum key not in the table; otherwise the converted value is stored and
   * the parameter marked as set. A failed number conversion is the
   * exception lexical_cast throws.
   */
  function SetStyleParameter(d: Decoder, name: string, text: string, conv: Conversions): (r: Result<(bool, Decoder), SdkError>)
    ensures name !in d.params ==> r == Success((false, d))
    ensures name in d.params && |d.params[name].enumMap| > 0 ==> r.Success?
    ensures name in d.params && |d.params[name].enumMap| > 0 && EnumLookup(d.params[name].enumMap, text).None? ==>
              r == Success((false, d))
    ensures name in d.params && |d.params[name].enumMap| > 0 && EnumLookup(d.params[name].enumMap, text).Some? ==>
              r == Success((true, d.(values := d.values[name := EnumLookup(d.params[name].enumMap, text).value],
                                      updated := d.updated + {name})))
    ensures r.Failure? ==> r.error.GenericError? && Convert(d.params[name].defaultValue, text, conv).None?
    ensures r.Success? && r.value.0 ==> r.value.1.updated == d.updated + {name} && r.value.1.params == d.params
    ensures r.Success? && !r.value.0 ==> r.value.1 == d
  {
    if name !in d.params then Success((false, d))
    else
      var p := d.params[name];
      if |p.enumMap| > 0 then
        (match EnumLookup(p.enumMap, text)
         case None => Success((false, d))
         case Some(v) => Success((true, d.(values := d.values[name := v], updated := d.updated + {name}))))
      else
        (match Convert(p.defaultValue, text, conv)
         case None => Failure(GenericError("bad lexical cast"))
         case Some(v) => Success((true, d.(values := d.values[name := v], updated := d.updated + {name}))))
  }

  /** setStyleParameter keeps the decoder's invariant. */
  lemma {:induction false} SetStyleParameterConsistent(d: Decoder, name: string, text: string, conv: Conversions)
    requires Consistent(d)
    ensures var r := SetStyleParameter(d, name, text, conv);
            r.Success? ==> Consistent(r.value.1)
  {
    var r := SetStyleParameter(d, name, text, conv);
    if r.Success? && r.value.0 && |d.params[name].enumMap| > 0 {
      var v := EnumLookup(d.params[name].enumMap, text).value;
      var i :| 0 <= i < |d.params[name].enumMap| && d.params[name].enumMap[i] == EnumEntry(text, v);
      assert d.params[name].enumMap[i].value == v;
    }
  }

  /** An enum key that was set reads back as itself when the table's values are distinct. */
  lemma {:induction false} EnumSetThenGet(d: Decoder, name: string, key: string, conv: Conversions)
    requires name in d.params && EnumInjective(d.params[name].enumMap)
    requires EnumLookup(d.params[name].enumMap, key).Some?
    ensures var r := SetStyleParameter(d, name, key, conv);
            r.Success? && r.value.0 && GetStyleParameter(r.value.1, name, conv) == Success(key)
  {
    var entries := d.params[name].enumMap;
    var v := EnumLookup(entries, key).value;
    var i :| 0 <= i < |entries| && entries[i] == EnumEntry(key, v);
    var r := SetStyleParameter(d, name, key, conv);
    assert CurrentValue(r.value.1, name) == v;
    var k := FirstKeyWith(entries, v);
    var j :| 0 <= j < |entries| && entries[j] == EnumEntry(k.value, v);
    assert entries[i].value == entries[j].value;
  }

  /** A string parameter reads back exactly the text that was set. */
  lemma {:induction false} StringSetThenGet(d: Decoder, name: string, text: string, conv: Conversions)
    requires name in d.params && |d.params[name].enumMap| == 0 && d.params[name].defaultValue.VString?
    ensures var r := SetStyleParameter(d, name, text, conv);
            r.Success? && r.value.0 && GetStyleParameter(r.value.1, name, conv) == Success(text)
  {
  }

  /** A boolean parameter set to "true" or "false" reads back as "1" or "0". */
  lemma {:induction false} BoolSetThenGet(d: Decoder, name: string, conv: Conversions)
    requires name in d.params && |d.params[name].enumMap| == 0 && d.params[name].defaultValue.VBool?
    ensures var r := SetStyleParameter(d, name, "true", conv);
            r.Success? && GetStyleParameter(r.value.1, name, conv) == Success("1")
    ensures var r := SetStyleParameter(d, name, "false", conv);
            r.Success? && GetStyleParameter(r.value.1, name, conv) == Success("0")
  {
  }
}

=== FILE: osrm_routing_proxy.dfy ===
/**
 * The OSRM routing proxy: instruction-code translation and the way both
 * CalculateRoute variants turn OSRM instructions into SDK routing
 * instructions, folding the ones they skip into the previous instruction.
 * The geometry decoder (DecodeGeometry) is Polyline.DecodeOsrm.
 */
module OsrmRoutingProxy {
  import opened Wrappers
  import opened Routing
  import Polyline

  // ---------------------------------------------------------------------------
  // Instruction codes
  // ---------------------------------------------------------------------------

  /**
   * osrm::Instruction::Type as far as the translation switch names it; any
   * other value of the enumeration is Other. The numeric values of the
   * enumeration are defined in a header that is not part of this model.
   */
  datatype InstructionType =
    | NoTurnCode
    | GoStraightCode
    | TurnSlightRightCode
    | TurnRightCode
    | TurnSharpRightCode
    | UTurnCode
    | TurnSlightLeftCode
    | TurnLeftCode
    | TurnSharpLeftCode
    | ReachViaLocationCode
    | HeadOnCode
    | EnterRoundaboutCode
    | LeaveRoundaboutCode
    | StayOnRoundaboutCode
    | EnterAgainstAllowedDirectionCode
    | LeaveAgainstAllowedDirectionCode
    | ReachedYourDestinationCode
    | Other(code: int)
  {
    predicate IsRight() { this == TurnSlightRightCode || this == TurnRightCode || this == TurnSharpRightCode }
    predicate IsLeft() { this == TurnSlightLeftCode || this == TurnLeftCode || this == TurnSharpLeftCode }
  }

  /**
   * TranslateInstructionCode: the pair (found, action). The three right turns
   * collapse to TurnRight, the three left turns to TurnLeft; a code the
   * switch does not name gives false and leaves the action as it was.
   */
  function TranslateInstructionCode(code: InstructionType, action: RoutingAction): (r: (bool, RoutingAction))
    ensures r.0 <==> !code.Other?
    ensures !r.0 ==> r.1 == action
    ensures r.0 ==> (r.1 == TurnRight <==> code.IsRight())
    ensures r.0 ==> (r.1 == TurnLeft <==> code.IsLeft())
    ensures r.0 ==> r.1 != StartAtEndOfStreet
  {
    match code
    case NoTurnCode => (true, NoTurn)
    case GoStraightCode => (true, GoStraight)
    case TurnSlightRightCode => (true, TurnRight)
    case TurnRightCode => (true, TurnRight)
    case TurnSharpRightCode => (true, TurnRight)
    case UTurnCode => (true, UTurn)
    case TurnSlightLeftCode => (true, TurnLeft)
    case TurnLeftCode => (true, TurnLeft)
    case TurnSharpLeftCode => (true, TurnLeft)
    case ReachViaLocationCode => (true, ReachViaLocation)
    case HeadOnCode => (true, HeadOn)
    case EnterRoundaboutCode => (true, EnterRoundabout)
    case LeaveRoundaboutCode => (true, LeaveRoundabout)
    case StayOnRoundaboutCode => (true, StayOnRoundabout)
    case EnterAgainstAllowedDirectionCode => (true, EnterAgainstAllowedDirection)
    case LeaveAgainstAllowedDirectionCode => (true, LeaveAgainstAllowedDirection)
    case ReachedYourDestinationCode => (true, Finish)
    case Other(_) => (false, action)
  }

  /** Every routing action except StartAtEndOfStreet is the translation of some OSRM code. */
  lemma {:induction false} TranslationReachesActions(a: RoutingAction)
    requires a != StartAtEndOfStreet
    ensures exists code :: TranslateInstructionCode(code, NoTurn) == (true, a)
  {
    var code := match a
      case NoTurn => NoTurnCode
      case GoStraight => GoStraightCode
      case TurnRight => TurnRightCode
      case UTurn => UTurnCode
      case TurnLeft => TurnLeftCode
      case ReachViaLocation => ReachViaLocationCode
      case HeadOn => HeadOnCode
      case EnterRoundabout => EnterRoundaboutCode
      case LeaveRoundabout => LeaveRoundaboutCode
      case StayOnRoundabout => StayOnRoundaboutCode
      case Finish => ReachedYourDestinationCode
      case EnterAgainstAllowedDirection => EnterAgainstAllowedDirectionCode
      case LeaveAgainstAllowedDirection => LeaveAgainstAllowedDirectionCode
      case StartAtEndOfStreet => NoTurnCode;
    assert TranslateInstructionCode(code, NoTurn) == (true, a);
  }

  // ---------------------------------------------------------------------------
  // Merging skipped instructions into the previous one
  // ---------------------------------------------------------------------------

  /**
   * A source instruction after translation: the instruction it would become
   * and whether it is emitted (otherwise its time and distance go to the
   * previous emitted instruction).
   */
  datatype Candidate = Candidate(emit: bool, instr: RoutingInstruction)

  /** The part of an instruction merging never changes. */
  predicate SameHead(a: RoutingInstruction, b: RoutingInstruction) {
    a.action == b.action && a.pointIndex == b.pointIndex && a.streetName == b.streetName
  }

  /** The instructions of the emitted candidates, in order. */
  function Emitted(cands: seq<Candidate>): (r: seq<RoutingInstruction>)
    ensures |r| <= |cands|
  {
    if |cands| == 0 then []
    else (if cands[0].emit then [cands[0].instr] else []) + Emitted(cands[1..])
  }

  /** Each emitted instruction is the instruction of an emitting candidate. */
  lemma {:induction false} EmittedFrom(cands: seq<Candidate>, m: nat)
    requires m < |Emitted(cands)|
    ensures exists j :: 0 <= j < |cands| && cands[j].emit && cands[j].instr == Emitted(cands)[m]
  {
    var tail := Emitted(cands[1..]);
    if cands[0].emit && m == 0 {
      assert cands[0].instr == Emitted(cands)[m];
    } else {
      var m' := if cands[0].emit then m - 1 else m;
      assert Emitted(cands)[m] == tail[m'];
      EmittedFrom(cands[1..], m');
      var j :| 0 <= j < |cands[1..]| && cands[1..][j].emit && cands[1..][j].instr == tail[m'];
      assert cands[j + 1] == cands[1..][j];
    }
  }

  /** Total time of all candidates, emitted or not. */
  function CandidateTime(cands: seq<Candidate>): real {
    if |cands| == 0 then 0.0 else cands[0].instr.time + CandidateTime(cands[1..])
  }

  /** Total distance of all candidates, emitted or not. */
  function CandidateDistance(cands: seq<Candidate>): real {
    if |cands| == 0 then 0.0 else cands[0].instr.distance + CandidateDistance(cands[1..])
  }

  lemma {:induction false} TotalsOfSnoc(instrs: seq<RoutingInstruction>, x: RoutingInstruction)
    ensures TotalTime(instrs + [x]) == TotalTime(instrs) + x.time
    ensures TotalDistance(instrs + [x]) == TotalDistance(instrs) + x.distance
  {
    assert (instrs + [x])[..|instrs|] == instrs;
  }

  /** Processes one candidate. */
  function MergeStep(acc: seq<RoutingInstruction>, c: Candidate): (r: seq<RoutingInstruction>)
    ensures |r| == if c.emit then |acc| + 1 else |acc|
    ensures c.emit ==> r[|acc|] == c.instr
  {
    if c.emit then acc + [c.instr] else AddToLast(acc, c.instr.time, c.instr.distance)
  }

  /**
   * The instruction loop: candidates in order, each emitted or added to the
   * last instruction so far. Instructions already built keep their action,
   * point index and street; the emitted candidates follow them in order; and
   * once there is a previous instruction no time or distance is lost.
   */
  function MergeAll(acc: seq<RoutingInstruction>, cands: seq<Candidate>): (r: seq<RoutingInstruction>)
    ensures |r| == |acc| + |Emitted(cands)|
    decreases |cands|
  {
    if |cands| == 0 then acc
    else MergeAll(MergeStep(acc, cands[0]), cands[1..])
  }

  /** Once there is a previous instruction, merging loses no time and no distance. */
  lemma {:induction false} MergeAllTotals(acc: seq<RoutingInstruction>, cands: seq<Candidate>)
    requires |acc| > 0
    ensures TotalTime(MergeAll(acc, cands)) == TotalTime(acc) + CandidateTime(cands)
    ensures TotalDistance(MergeAll(acc, cands)) == TotalDistance(acc) + CandidateDistance(cands)
    decreases |cands|
  {
    if |cands| > 0 {
      var c := cands[0];
      var next := MergeStep(acc, c);
      if c.emit {
        TotalsOfSnoc(acc, c.instr);
      } else {
        AddToLastTotals(acc, c.instr.time, c.instr.distance);
      }
      MergeAllTotals(next, cands[1..]);
    }
  }

  /** An instruction built before the loop keeps its action, point index and street. */
  lemma {:induction false} MergeAllKeepsAt(acc: seq<RoutingInstruction>, cands: seq<Candidate>, k: nat)
    requires k < |acc|
    ensures SameHead(MergeAll(acc, cands)[k], acc[k])
    decreases |cands|
  {
    if |cands| > 0 {
      var next := MergeStep(acc, cands[0]);
      MergeAllKeepsAt(next, cands[1..], k);
      assert SameHead(next[k], acc[k]);
    }
  }

  /** The m-th emitted candidate lands right after the instructions built before the loop. */
  lemma {:induction false} MergeAllEmitsAt(acc: seq<RoutingInstruction>, cands: seq<Candidate>, m: nat)
    requires m < |Emitted(cands)|
    ensures SameHead(MergeAll(acc, cands)[|acc| + m], Emitted(cands)[m])
    decreases |cands|
  {
    var next := MergeStep(acc, cands[0]);
    var tail := cands[1..];
    var r := MergeAll(next, tail);
    assert MergeAll(acc, cands) == r;
    var e := Emitted(cands);
    assert e == (if cands[0].emit then [cands[0].instr] else []) + Emitted(tail);
    if cands[0].emit && m == 0 {
      MergeAllKeepsAt(next, tail, |acc|);
      assert e[0] == next[|acc|];
    } else if cands[0].emit {
      MergeAllEmitsAt(next, tail, m - 1);
      assert e[m] == Emitted(tail)[m - 1];
      assert |next| + (m - 1) == |acc| + m;
    } else {
      MergeAllEmitsAt(next, tail, m);
      assert e[m] == Emitted(tail)[m];
      assert |next| + m == |acc| + m;
    }
  }

  lemma {:induction false} MergeAllKeepsPrefix(acc: seq<RoutingInstruction>, cands: seq<Candidate>)
    ensures forall k :: 0 <= k < |acc| ==> SameHead(MergeAll(acc, cands)[k], acc[k])
  {
    forall k | 0 <= k < |acc| {
      MergeAllKeepsAt(acc, cands, k);
    }
  }

  lemma {:induction false} MergeAllEmits(acc: seq<RoutingInstruction>, cands: seq<Candidate>)
    ensures forall m :: 0 <= m < |Emitted(cands)| ==> SameHead(MergeAll(acc, cands)[|acc| + m], Emitted(cands)[m])
  {
    forall m | 0 <= m < |Emitted(cands)| {
      MergeAllEmitsAt(acc, cands, m);
    }
  }

  /** Every instruction MergeAll returns carries the head of an earlier or an emitted instruction. */
  lemma {:induction false} MergeAllHeads(acc: seq<RoutingInstruction>, cands: seq<Candidate>, k: nat)
    requires k < |MergeAll(acc, cands)|
    ensures (k < |acc| && SameHead(MergeAll(acc, cands)[k], acc[k]))
         || (exists j :: 0 <= j < |cands| && cands[j].emit && SameHead(MergeAll(acc, cands)[k], cands[j].instr))
  {
    var r := MergeAll(acc, cands);
    if k < |acc| {
      MergeAllKeepsAt(acc, cands, k);
    } else {
      var m := k - |acc|;
      MergeAllEmitsAt(acc, cands, m);
      EmittedFrom(cands, m);
      var j :| 0 <= j < |cands| && cands[j].emit && cands[j].instr == Emitted(cands)[m];
      assert r[k] == r[|acc| + m];
      assert SameHead(r[k], cands[j].instr);
    }
  }

  // ---------------------------------------------------------------------------
  // CalculateRoute over the native route finder
  // ---------------------------------------------------------------------------

  /** One instruction as osrm::Result reports it. */
  datatype OsrmInstruction = OsrmInstruction(
    kind: InstructionType, geometryIndex: nat, address: string, distance: real, time: real)

  /** One leg (between consecutive request points) as the route finder returns it. */
  datatype Leg<P> = Leg(failed: bool, geometry: seq<P>, instructions: seq<OsrmInstruction>)

  datatype Route<P> = Route(points: seq<P>, instructions: seq<RoutingInstruction>)

  /**
   * The native translation of one instruction: NoTurn and StayOnRoundabout
   * (including untranslated codes, which stay NoTurn) are not emitted,
   * Finish on a leg other than the last becomes ReachViaLocation, and the
   * point index is the leg's first point plus the geometry index.
   */
  function NativeCandidate(instr: OsrmInstruction, firstPoint: nat, lastLeg: bool): (c: Candidate)
    ensures c.emit ==> c.instr.action != NoTurn && c.instr.action != StayOnRoundabout
    ensures c.emit && !lastLeg ==> c.instr.action != Finish
    ensures c.emit <==> TranslateInstructionCode(instr.kind, NoTurn).1 !in {NoTurn, StayOnRoundabout}
    ensures c.instr.pointIndex == firstPoint + instr.geometryIndex
    ensures c.instr.time == instr.time && c.instr.distance == instr.distance
  {
    var action := TranslateInstructionCode(instr.kind, NoTurn).1;
    var action' := if action == Finish && !lastLeg then ReachViaLocation else action;
    Candidate(action != NoTurn && action != StayOnRoundabout,
              RoutingInstruction(action', firstPoint + instr.geometryIndex, instr.address, instr.distance, instr.time))
  }

  function NativeCandidates(instrs: seq<OsrmInstruction>, firstPoint: nat, lastLeg: bool): (r: seq<Candidate>)
    ensures |r| == |instrs|
    ensures forall j :: 0 <= j < |r| ==> r[j] == NativeCandidate(instrs[j], firstPoint, lastLeg)
  {
    if |instrs| == 0 then [] else [NativeCandidate(instrs[0], firstPoint, lastLeg)] + NativeCandidates(instrs[1..], firstPoint, lastLeg)
  }

  /**
   * One leg of the assembly loop. A leg without instructions is skipped
   * entirely, points included; otherwise its geometry is appended and its
   * instructions merged, indexed from the leg's first point.
   */
  function AddLeg<P>(route: Route<P>, leg: Leg<P>, lastLeg: bool): (r: Route<P>)
    ensures |leg.instructions| == 0 ==> r == route
    ensures |leg.instructions| > 0 ==> r.points == route.points + leg.geometry
    ensures |r.instructions| >= |route.instructions|
    ensures forall k :: 0 <= k < |route.instructions| ==> SameHead(r.instructions[k], route.instructions[k])
    ensures |leg.instructions| > 0 ==>
              var emitted := Emitted(NativeCandidates(leg.instructions, |route.points|, lastLeg));
              && |r.instructions| == |route.instructions| + |emitted|
              && forall m :: 0 <= m < |emitted| ==> SameHead(r.instructions[|route.instructions| + m], emitted[m])
  {
    if |leg.instructions| == 0 then route
    else
      var cands := NativeCandidates(leg.instructions, |route.points|, lastLeg);
      MergeAllKeepsPrefix(route.instructions, cands);
      MergeAllEmits(route.instructions, cands);
      Route(route.points + leg.geometry, MergeAll(route.instructions, cands))
  }

  /** No instruction of the list is NoTurn or StayOnRoundabout. */
  predicate NoSkippedActions(instrs: seq<RoutingInstruction>) {
    forall k :: 0 <= k < |instrs| ==> instrs[k].action != NoTurn && instrs[k].action != StayOnRoundabout
  }

  /** No instruction of the list is Finish. */
  predicate NoFinish(instrs: seq<RoutingInstruction>) {
    forall k :: 0 <= k < |instrs| ==> instrs[k].action != Finish
  }

  /** The route after the first `n` legs, where leg |legs| - 1 is the last one. */
  function BuildRoute<P>(legs: seq<Leg<P>>, n: nat): (r: Route<P>)
    requires n <= |legs|
    ensures NoSkippedActions(r.instructions)
    ensures n < |legs| ==> NoFinish(r.instructions)
  {
    if n == 0 then Route([], [])
    else
      var prev := BuildRoute(legs, n - 1);
      var r := AddLeg(prev, legs[n - 1], n == |legs|);
      AddLegKeepsActions(prev, legs[n - 1], n == |legs|);
      r
  }

  /** The actions AddLeg produces are old ones or those of emitted native candidates. */
  lemma {:induction false} AddLegKeepsActions<P>(route: Route<P>, leg: Leg<P>, lastLeg: bool)
    requires NoSkippedActions(route.instructions)
    requires !lastLeg ==> NoFinish(route.instructions)
    ensures NoSkippedActions(AddLeg(route, leg, lastLeg).instructions)
    ensures !lastLeg ==> NoFinish(AddLeg(route, leg, lastLeg).instructions)
  {
    if |leg.instructions| > 0 {
      var cands := NativeCandidates(leg.instructions, |route.points|, lastLeg);
      var r := MergeAll(route.instructions, cands);
      forall k | 0 <= k < |r|
        ensures r[k].action != NoTurn && r[k].action != StayOnRoundabout
        ensures !lastLeg ==> r[k].action != Finish
      {
        MergeAllHeads(route.instructions, cands, k);
      }
    }
  }

  /** Some leg failed to route. */
  predicate AnyFailed<P>(legs: seq<Leg<P>>) {
    exists i :: 0 <= i < |legs| && legs[i].failed
  }

  /**
   * CalculateRoute with the native route finder. A failed leg throws before
   * anything is assembled. Otherwise no NoTurn or StayOnRoundabout
   * instruction survives, and every Finish comes from the last leg: the
   * instructions built from the earlier legs keep their actions in the final
   * route and none of them is Finish.
   */
  function CalculateRoute<P>(legs: seq<Leg<P>>): (r: Result<Route<P>, SdkError>)
    ensures r.Failure? <==> AnyFailed(legs)
    ensures r.Success? ==> NoSkippedActions(r.value.instructions)
    ensures r.Success? && |legs| > 0 ==>
              var before := BuildRoute(legs, |legs| - 1).instructions;
              && |before| <= |r.value.instructions|
              && forall k :: 0 <= k < |before| ==> r.value.instructions[k].action != Finish
  {
    if AnyFailed(legs) then Failure(GenericError("Routing failed"))
    else
      var r := BuildRoute(legs, |legs|);
      assert |legs| > 0 ==> r == AddLeg(BuildRoute(legs, |legs| - 1), legs[|legs| - 1], true);
      Success(r)
  }

  /**
   * Every emitted instruction of a leg points at the leg's own geometry: its
   * index is the number of points of the earlier legs plus its geometry
   * index.
   */
  lemma {:induction false} PointIndexOffset<P>(route: Route<P>, leg: Leg<P>, lastLeg: bool, m: nat)
    requires |leg.instructions| > 0
    requires m < |Emitted(NativeCandidates(leg.instructions, |route.points|, lastLeg))|
    ensures exists j :: 0 <= j < |leg.instructions| &&
              AddLeg(route, leg, lastLeg).instructions[|route.instructions| + m].pointIndex
                == |route.points| + leg.instructions[j].geometryIndex
  {
    var r := AddLeg(route, leg, lastLeg);
    var cands := NativeCandidates(leg.instructions, |route.points|, lastLeg);
    var e := Emitted(cands);
    assert SameHead(r.instructions[|route.instructions| + m], e[m]);
    EmittedFrom(cands, m);
    var j :| 0 <= j < |cands| && cands[j].emit && cands[j].instr == e[m];
    assert cands[j] == NativeCandidate(leg.instructions[j], |route.points|, lastLeg);
    assert r.instructions[|route.instructions| + m].pointIndex == |route.points| + leg.instructions[j].geometryIndex;
  }

  /**
   * Time is conserved across a leg once an instruction exists to absorb the
   * skipped ones: the route's total time grows by the leg's total time.
   */
  lemma {:induction false} AddLegKeepsTime<P>(route: Route<P>, leg: Leg<P>, lastLeg: bool)
    requires |route.instructions| > 0
    ensures TotalTime(AddLeg(route, leg, lastLeg).instructions)
              == TotalTime(route.instructions) + CandidateTime(NativeCandidates(leg.instructions, |route.points|, lastLeg))
  {
    var cands := NativeCandidates(leg.instructions, |route.points|, lastLeg);
    if |leg.instructions| == 0 {
      assert cands == [];
    } else {
      MergeAllTotals(route.instructions, cands);
    }
  }

  // ---------------------------------------------------------------------------
  // CalculateRoute over the OSRM HTTP API
  // ---------------------------------------------------------------------------

  /** One entry of "route_instructions": code, street, distance, point index, time. */
  datatype HttpInstruction = HttpInstruction(
    code: InstructionType, streetName: string, distance: real, pointIndex: int, time: real)

  /**
   * The HTTP translation of one instruction: emitted exactly when the code
   * translates (so a NoTurn code IS emitted here), with the point index taken
   * from the response as it is.
   */
  function HttpCandidate(instr: HttpInstruction): (c: Candidate)
    ensures c.emit <==> !instr.code.Other?
    ensures c.instr.pointIndex == instr.pointIndex
    ensures c.instr.time == instr.time && c.instr.distance == instr.distance
  {
    var t := TranslateInstructionCode(instr.code, NoTurn);
    Candidate(t.0, RoutingInstruction(t.1, instr.pointIndex, instr.streetName, instr.distance, instr.time))
  }

  function HttpCandidates(instrs: seq<HttpInstruction>): (r: seq<Candidate>)
    ensures |r| == |instrs|
    ensures forall j :: 0 <= j < |r| ==> r[j] == HttpCandidate(instrs[j])
  {
    if |instrs| == 0 then [] else [HttpCandidate(instrs[0])] + HttpCandidates(instrs[1..])
  }

  /**
   * CalculateRoute against an OSRM server, from the parsed response: a status
   * other than 0 or 200 throws; the geometry is decoded; instructions with
   * an untranslatable code are folded into the previous one. A geometry that
   * ends in the middle of a value is a ParseError here (the C++ reads past
   * the end of the string).
   */
  function CalculateRouteHttp(status: int, geometry: seq<Byte>, instrs: seq<HttpInstruction>)
    : (r: Result<Route<Polyline.Point>, SdkError>)
    ensures r.Failure? <==> (status != 0 && status != 200) || Polyline.DecodeOsrm(geometry).None?
    ensures r.Success? ==> r.value.points == Polyline.DecodeOsrm(geometry).value
    ensures r.Success? ==> |r.value.instructions| == |Emitted(HttpCandidates(instrs))|
    ensures r.Success? ==> forall k :: 0 <= k < |r.value.instructions| ==>
              exists j :: 0 <= j < |instrs| && !instrs[j].code.Other? &&
                r.value.instructions[k].pointIndex == instrs[j].pointIndex
  {
    if status != 0 && status != 200 then Failure(GenericError("Routing failed"))
    else match Polyline.DecodeOsrm(geometry)
      case None => Failure(ParseError("Bad encoded polyline"))
      case Some(points) =>
        var cands := HttpCandidates(instrs);
        var out := MergeAll([], cands);
        forall k | 0 <= k < |out|
          ensures exists j :: 0 <= j < |instrs| && !instrs[j].code.Other? && out[k].pointIndex == instrs[j].pointIndex
        {
          HttpInstructionOrigin(instrs, k);
        }
        Success(Route(points, out))
  }

  /** Every instruction the HTTP variant emits has the point index of a translatable source instruction. */
  lemma {:induction false} HttpInstructionOrigin(instrs: seq<HttpInstruction>, k: nat)
    requires k < |MergeAll([], HttpCandidates(instrs))|
    ensures exists j :: 0 <= j < |instrs| && !instrs[j].code.Other? &&
              MergeAll([], HttpCandidates(instrs))[k].pointIndex == instrs[j].pointIndex
  {
    var cands := HttpCandidates(instrs);
    MergeAllHeads([], cands, k);
    var j :| 0 <= j < |cands| && cands[j].emit && SameHead(MergeAll([], cands)[k], cands[j].instr);
    assert cands[j] == HttpCandidate(instrs[j]);
  }

  /**
   * The two variants differ on NoTurn: the HTTP variant emits a NoTurn
   * instruction that the native variant folds away.
   */
  lemma {:induction false} VariantsDifferOnNoTurn()
    ensures HttpCandidate(HttpInstruction(NoTurnCode, "", 1.0, 0, 1.0)).emit
    ensures !NativeCandidate(OsrmInstruction(NoTurnCode, 0, "", 1.0, 1.0), 0, true).emit
  {
  }
}

=== FILE: package_tile_mask.dfy ===
/**
 * Package tile masks: the set of tiles an offline map package covers, stored
 * as a pre-order quadtree bit string (two bits per node: "has children" and
 * "inside") and serialised with a base64 alphabet.
 */
module PackageTileMask {
  import opened Wrappers
  import opened Tiles

  // ---------------------------------------------------------------------
  // Base64 layer: six bits per character, most significant bit first.
  // ---------------------------------------------------------------------

  /** Marker the decode table stores for characters outside the alphabet. */
  const NotPresent: nat := 255

  /** The mask string: a `std::string`, one byte per `char`. */
  type ByteString = seq<Byte>

  /** The byte values of '+', '/', '-' and '_'. */
  const Plus: Byte := 43
  const Slash: Byte := 47
  const Minus: Byte := 45
  const Underscore: Byte := 95

  /** Decode table lookup on the byte value (`static_cast<unsigned char>`). */
  function DecodeChar(b: Byte): (v: nat)
    ensures v < 64 || v == NotPresent
    ensures v == NotPresent <==> !(b == Plus || b == Minus || b == Slash || b == Underscore
                                  || 48 <= b <= 57 || 65 <= b <= 90 || 97 <= b <= 122)
  {
    if b == 43 || b == 45 then 62            // '+' and the URL-safe '-'
    else if b == 47 || b == 95 then 63       // '/' and the URL-safe '_'
    else if 48 <= b <= 57 then b - 48 + 52   // '0'..'9'
    else if 65 <= b <= 90 then b - 65        // 'A'..'Z'
    else if 97 <= b <= 122 then b - 97 + 26  // 'a'..'z'
    else NotPresent
  }

  /** Encode table: A-Z, a-z, 0-9, '+', '/'. */
  function EncodeChar(v: nat): (c: Byte)
    requires v < 64
    ensures DecodeChar(c) == v
  {
    if v < 26 then 65 + v
    else if v < 52 then 97 + v - 26
    else if v < 62 then 48 + v - 52
    else if v == 62 then Plus
    else Slash
  }

  /** The `n` low bits of `v`, most significant first: `(v >> i) & 1` for i = n-1 down to 0. */
  function LowBits(v: nat, n: nat): (bits: seq<bool>)
    ensures |bits| == n
  {
    if n == 0 then [] else LowBits(v / 2, n - 1) + [v % 2 == 1]
  }

  /** The value of a bit string read most significant bit first. */
  function BitsValue(bits: seq<bool>): (v: nat)
    ensures v < Pow2(|bits|)
  {
    if |bits| == 0 then 0
    else 2 * BitsValue(bits[..|bits| - 1]) + (if bits[|bits| - 1] then 1 else 0)
  }

  lemma {:induction false} LowBitsOfValue(bits: seq<bool>)
    ensures LowBits(BitsValue(bits), |bits|) == bits
  {
    if |bits| > 0 {
      var init := bits[..|bits| - 1];
      LowBitsOfValue(init);
      assert bits == init + [bits[|bits| - 1]];
    }
  }

  lemma {:induction false} SixBitsOfValue(bits: seq<bool>)
    requires |bits| == 6
    ensures BitsValue(bits) < 64
    ensures LowBits(BitsValue(bits), 6) == bits
  {
    LowBitsOfValue(bits);
  }

  function DecodeBase64(s: ByteString): (bits: seq<bool>)
    ensures |bits| == 6 * |s|
  {
    if |s| == 0 then [] else LowBits(DecodeChar(s[0]), 6) + DecodeBase64(s[1..])
  }

  /** Appends `false` until the length is a multiple of 24. */
  function PadTo24(bits: seq<bool>): (padded: seq<bool>)
    ensures |padded| % 24 == 0
    ensures |bits| <= |padded| < |bits| + 24
    ensures padded[..|bits|] == bits
    ensures forall i :: |bits| <= i < |padded| ==> !padded[i]
    decreases 23 - (|bits| + 23) % 24
  {
    if |bits| % 24 == 0 then bits else PadTo24(bits + [false])
  }

  function EncodeSixBitGroups(bits: seq<bool>): (s: ByteString)
    requires |bits| % 6 == 0
    ensures |s| == |bits| / 6
  {
    if |bits| == 0 then []
    else
      SixBitsOfValue(bits[..6]);
      [EncodeChar(BitsValue(bits[..6]))] + EncodeSixBitGroups(bits[6..])
  }

  function EncodeBase64(bits: seq<bool>): (s: ByteString)
    ensures |s| % 4 == 0
  {
    EncodeSixBitGroups(PadTo24(bits))
  }

  lemma {:induction false} DecodeEncodeGroups(bits: seq<bool>)
    requires |bits| % 6 == 0
    ensures DecodeBase64(EncodeSixBitGroups(bits)) == bits
    decreases |bits|
  {
    if |bits| > 0 {
      SixBitsOfValue(bits[..6]);
      DecodeEncodeGroups(bits[6..]);
      assert bits == bits[..6] + bits[6..];
    }
  }

  /** Decoding an encoded bit string gives the bits back, followed only by padding. */
  lemma {:induction false} Base64RoundTrip(bits: seq<bool>)
    ensures DecodeBase64(EncodeBase64(bits)) == PadTo24(bits)
    ensures DecodeBase64(EncodeBase64(bits))[..|bits|] == bits
  {
    var padded := PadTo24(bits);
    DecodeEncodeGroups(padded);
    var d := DecodeBase64(EncodeBase64(bits));
    assert d == padded by { assert EncodeBase64(bits) == EncodeSixBitGroups(padded); }
    assert padded[..|bits|] == bits;
  }

  /** `getURLSafeStringValue`: '+' becomes '-' and '/' becomes '_'. */
  function UrlSafe(s: ByteString): (u: ByteString)
    ensures |u| == |s|
    ensures forall i :: 0 <= i < |u| ==> u[i] != Plus && u[i] != Slash
    ensures forall i :: 0 <= i < |u| ==> (s[i] != Plus && s[i] != Slash ==> u[i] == s[i])
  {
    if |s| == 0 then [] else [UrlSafeChar(s[0])] + UrlSafe(s[1..])
  }

  function UrlSafeChar(c: Byte): Byte {
    if c == Plus then Minus else if c == Slash then Underscore else c
  }

  /** The decode table maps '-' like '+' and '_' like '/'. */
  lemma {:induction false} UrlSafeCharDecodes(c: Byte)
    ensures DecodeChar(UrlSafeChar(c)) == DecodeChar(c)
  {
  }

  /** The URL-safe string decodes to the same bits as the plain one. */
  lemma {:induction false} UrlSafeDecodesAlike(s: ByteString)
    ensures DecodeBase64(UrlSafe(s)) == DecodeBase64(s)
  {
    if |s| > 0 {
      UrlSafeDecodesAlike(s[1..]);
      UrlSafeCharDecodes(s[0]);
      var u := UrlSafe(s);
      assert u[0] == UrlSafeChar(s[0]) && u[1..] == UrlSafe(s[1..]);
    }
  }

  // ---------------------------------------------------------------------
  // Quadtree layer.
  // ---------------------------------------------------------------------

  /**
   * A quadtree node. `subNodes` is empty (the four null pointers of the
   * source) or holds the four children in the order (dx, dy) = (0,0),
   * (1,0), (0,1), (1,1), which is `Child(tile, i)`.
   */
  datatype TileNode = TileNode(tile: MapTile, inside: bool, subNodes: seq<TileNode>)

  const RootTile: MapTile := MapTile(0, 0, 0, 0)

  ghost predicate WellFormed(n: TileNode)
    decreases n
  {
    (|n.subNodes| == 0 || |n.subNodes| == 4) &&
    forall i :: 0 <= i < |n.subNodes| ==>
      n.subNodes[i].tile == Child(n.tile, i) && WellFormed(n.subNodes[i])
  }

  /** Pre-order encoding; a node whose children encode to nothing is a leaf. */
  function EncodeNode(n: TileNode): (bits: seq<bool>)
    ensures |bits| >= 2 && bits[1] == n.inside
    decreases n, 1
  {
    var data := EncodeNodes(n.subNodes);
    if |data| == 0 then [false, n.inside] else [true, n.inside] + data
  }

  function EncodeNodes(ns: seq<TileNode>): (bits: seq<bool>)
    ensures |bits| == 0 <==> |ns| == 0
    decreases ns, 0
  {
    if |ns| == 0 then [] else EncodeNode(ns[0]) + EncodeNodes(ns[1..])
  }

  /** Decodes one node for `tile`; None where the bit string runs out. */
  function DecodeNode(bits: seq<bool>, tile: MapTile): (r: Option<(TileNode, seq<bool>)>)
    ensures r.Some? ==> |r.value.1| + 2 <= |bits| && r.value.1 == bits[|bits| - |r.value.1|..]
    ensures r.Some? ==> r.value.0.tile == tile && WellFormed(r.value.0)
    decreases |bits|, 0
  {
    if |bits| < 2 then None
    else if !bits[0] then Some((TileNode(tile, bits[1], []), bits[2..]))
    else
      match DecodeChildren(bits[2..], tile, 0)
      case None => None
      case Some((children, rest)) => Some((TileNode(tile, bits[1], children), rest))
  }

  /** Decodes children `i..3` of `parent`, in order. */
  function DecodeChildren(bits: seq<bool>, parent: MapTile, i: nat): (r: Option<(seq<TileNode>, seq<bool>)>)
    requires i <= 4
    ensures r.Some? ==> |r.value.1| <= |bits| && r.value.1 == bits[|bits| - |r.value.1|..]
    ensures r.Some? ==> |r.value.0| == 4 - i
    ensures r.Some? ==> forall j :: 0 <= j < |r.value.0| ==>
      r.value.0[j].tile == Child(parent, i + j) && WellFormed(r.value.0[j])
    decreases |bits|, 5 - i
  {
    if i == 4 then Some(([], bits))
    else
      match DecodeNode(bits, Child(parent, i))
      case None => None
      case Some((child, rest)) =>
        match DecodeChildren(rest, parent, i + 1)
        case None => None
        case Some((siblings, rest2)) => Some(([child] + siblings, rest2))
  }

  lemma {:induction false} EncodeDecodeNode(n: TileNode, rest: seq<bool>)
    requires WellFormed(n)
    ensures DecodeNode(EncodeNode(n) + rest, n.tile) == Some((n, rest))
    decreases n, 1
  {
    var data := EncodeNodes(n.subNodes);
    if |n.subNodes| == 0 {
      assert EncodeNode(n) + rest == [false, n.inside] + rest;
    } else {
      assert EncodeNode(n) + rest == [true, n.inside] + (data + rest);
      assert n.subNodes[0..] == n.subNodes;
      EncodeDecodeChildren(n, 0, rest);
    }
  }

  lemma {:induction false} DecodeChildrenStep(bits: seq<bool>, parent: MapTile, i: nat, child: TileNode, rest: seq<bool>,
                           siblings: seq<TileNode>, rest2: seq<bool>)
    requires i < 4
    requires DecodeNode(bits, Child(parent, i)) == Some((child, rest))
    requires DecodeChildren(rest, parent, i + 1) == Some((siblings, rest2))
    ensures DecodeChildren(bits, parent, i) == Some(([child] + siblings, rest2))
  {
  }

  /** Children `i..3` of a well-formed inner node encode and decode back to themselves. */
  lemma {:induction false} EncodeDecodeChildren(parent: TileNode, i: nat, rest: seq<bool>)
    requires WellFormed(parent) && |parent.subNodes| == 4 && i <= 4
    ensures DecodeChildren(EncodeNodes(parent.subNodes[i..]) + rest, parent.tile, i) == Some((parent.subNodes[i..], rest))
    decreases parent, 0, 4 - i
  {
    var ns := parent.subNodes[i..];
    if i == 4 {
      assert ns == [];
      assert EncodeNodes(ns) + rest == rest;
    } else {
      var child := parent.subNodes[i];
      var tail := parent.subNodes[i + 1..];
      assert ns[0] == child && ns[1..] == tail;
      EncodeDecodeChildren(parent, i + 1, rest);
      var tailBits := EncodeNodes(tail) + rest;
      var bits := EncodeNodes(ns) + rest;
      assert bits == EncodeNode(child) + tailBits by {
        assert EncodeNodes(ns) == EncodeNode(child) + EncodeNodes(tail);
        Assoc(EncodeNode(child), EncodeNodes(tail), rest);
      }
      assert child.tile == Child(parent.tile, i) && WellFormed(child);
      EncodeDecodeNode(child, tailBits);
      DecodeChildrenStep(bits, parent.tile, i, child, tailBits, tail, rest);
      assert [child] + tail == ns;
    }
  }

  lemma Assoc(a: seq<bool>, b: seq<bool>, c: seq<bool>)
    ensures a + b + c == a + (b + c)
  {
  }

  lemma {:induction false} DecodeChildrenSplit(bits: seq<bool>, parent: MapTile, i: nat)
    requires i < 4 && DecodeChildren(bits, parent, i).Some?
    ensures DecodeNode(bits, Child(parent, i)).Some?
    ensures DecodeChildren(DecodeNode(bits, Child(parent, i)).value.1, parent, i + 1).Some?
    ensures DecodeChildren(bits, parent, i).value ==
      ([DecodeNode(bits, Child(parent, i)).value.0]
         + DecodeChildren(DecodeNode(bits, Child(parent, i)).value.1, parent, i + 1).value.0,
       DecodeChildren(DecodeNode(bits, Child(parent, i)).value.1, parent, i + 1).value.1)
  {
  }

  lemma {:induction false} DecodeNodeSplit(bits: seq<bool>, tile: MapTile)
    requires DecodeNode(bits, tile).Some?
    ensures bits[0] ==> (DecodeChildren(bits[2..], tile, 0).Some? &&
      DecodeNode(bits, tile).value ==
        (TileNode(tile, bits[1], DecodeChildren(bits[2..], tile, 0).value.0), DecodeChildren(bits[2..], tile, 0).value.1))
    ensures !bits[0] ==> DecodeNode(bits, tile).value == (TileNode(tile, bits[1], []), bits[2..])
  {
  }

  /** The other direction: a decoded node re-encodes to exactly the bits it consumed. */
  lemma {:induction false} DecodeEncodeNode(bits: seq<bool>, tile: MapTile)
    requires DecodeNode(bits, tile).Some?
    ensures EncodeNode(DecodeNode(bits, tile).value.0) + DecodeNode(bits, tile).value.1 == bits
    decreases |bits|, 1
  {
    DecodeNodeSplit(bits, tile);
    if bits[0] {
      DecodeEncodeInner(bits, tile);
    } else {
      var node := TileNode(tile, bits[1], []);
      assert EncodeNodes(node.subNodes) == [];
      assert EncodeNode(node) == [false, bits[1]];
      assert bits == [false, bits[1]] + bits[2..];
    }
  }

  lemma {:induction false} DecodeEncodeInner(bits: seq<bool>, tile: MapTile)
    requires |bits| >= 2 && bits[0] && DecodeChildren(bits[2..], tile, 0).Some?
    ensures EncodeNodes(DecodeChildren(bits[2..], tile, 0).value.0) != []
    ensures [true, bits[1]] + EncodeNodes(DecodeChildren(bits[2..], tile, 0).value.0)
            + DecodeChildren(bits[2..], tile, 0).value.1 == bits
    decreases |bits|, 0
  {
    DecodeEncodeChildren(bits[2..], tile, 0);
    var r := DecodeChildren(bits[2..], tile, 0).value;
    PrefixThen([true, bits[1]], EncodeNodes(r.0), r.1, bits);
  }

  /** A prefix of `whole` followed by two pieces that make up the remainder is `whole` itself. */
  lemma PrefixThen(a: seq<bool>, b: seq<bool>, c: seq<bool>, whole: seq<bool>)
    requires |a| <= |whole| && whole[..|a|] == a && b + c == whole[|a|..]
    ensures a + b + c == whole
  {
    assert a + b + c == a + (b + c);
    assert whole == whole[..|a|] + whole[|a|..];
  }

  lemma {:induction false} DecodeEncodeChildren(bits: seq<bool>, parent: MapTile, i: nat)
    requires i <= 4 && DecodeChildren(bits, parent, i).Some?
    ensures EncodeNodes(DecodeChildren(bits, parent, i).value.0) + DecodeChildren(bits, parent, i).value.1 == bits
    decreases |bits|, 5 - i
  {
    if i < 4 {
      DecodeChildrenSplit(bits, parent, i);
      var (child, rest) := DecodeNode(bits, Child(parent, i)).value;
      DecodeEncodeNode(bits, Child(parent, i));
      DecodeEncodeChildren(rest, parent, i + 1);
      var (siblings, rest2) := DecodeChildren(rest, parent, i + 1).value;
      var ns := [child] + siblings;
      assert DecodeChildren(bits, parent, i).value == (ns, rest2);
      assert EncodeNodes(ns) == EncodeNode(child) + EncodeNodes(siblings) by {
        assert ns[0] == child && ns[1..] == siblings;
      }
      Assoc(EncodeNode(child), EncodeNodes(siblings), rest2);
    }
  }

  /**
   * `BuildTileNode`: a node is inside when its tile is in the set; inside
   * nodes above the clip zoom get four children, which are dropped again
   * when none of them has children and all of them are inside.
   */
  function BuildNode(tileSet: set<MapTile>, tile: MapTile, clipZoom: int): (n: TileNode)
    ensures n.tile == tile && n.inside == (tile in tileSet)
    ensures |n.subNodes| > 0 ==> n.inside && tile.zoom < clipZoom
    ensures !n.inside || tile.zoom >= clipZoom ==> n.subNodes == []
    ensures WellFormed(n)
    decreases clipZoom - tile.zoom
  {
    var inside := tile in tileSet;
    if !inside || tile.zoom >= clipZoom then TileNode(tile, inside, [])
    else
      var children := BuildChildren(tileSet, tile, clipZoom);
      var deep := exists i :: 0 <= i < 4 && |children[i].subNodes| > 0;
      var full := forall i :: 0 <= i < 4 ==> children[i].inside;
      if !deep && full then TileNode(tile, true, []) else TileNode(tile, true, children)
  }

  function BuildChildren(tileSet: set<MapTile>, tile: MapTile, clipZoom: int): (cs: seq<TileNode>)
    requires tile.zoom < clipZoom
    ensures |cs| == 4
    ensures forall i :: 0 <= i < 4 ==> cs[i] == BuildNode(tileSet, Child(tile, i), clipZoom)
    decreases clipZoom - tile.zoom, 0
  {
    [BuildNode(tileSet, Child(tile, 0), clipZoom), BuildNode(tileSet, Child(tile, 1), clipZoom),
     BuildNode(tileSet, Child(tile, 2), clipZoom), BuildNode(tileSet, Child(tile, 3), clipZoom)]
  }

  // ---------------------------------------------------------------------
  // The mask object.
  // ---------------------------------------------------------------------

  datatype Mask = Mask(stringValue: ByteString, root: TileNode, maxZoomLevel: int)

  datatype TileStatus = Full | Missing

  /** `max(0, zoom of every tile)`. */
  function MaxZoom(tiles: seq<MapTile>): (z: int)
    ensures z >= 0
    ensures forall i :: 0 <= i < |tiles| ==> tiles[i].zoom <= z
    ensures z == 0 || exists i :: 0 <= i < |tiles| && tiles[i].zoom == z
  {
    if |tiles| == 0 then 0
    else
      var m := MaxZoom(tiles[..|tiles| - 1]);
      var last := tiles[|tiles| - 1].zoom;
      if last > m then last else m
  }

  /** The tile-list constructor: build the tree, then serialise it. */
  function FromTiles(tiles: seq<MapTile>, clipZoom: int): (m: Mask)
    ensures m.root.tile == RootTile && WellFormed(m.root)
    ensures m.root.inside <==> RootTile in tiles
    ensures m.maxZoomLevel == MaxZoom(tiles)
  {
    var root := BuildNode((set t | t in tiles), RootTile, clipZoom);
    Mask(EncodeBase64(EncodeNode(root)), root, MaxZoom(tiles))
  }

  /** The string constructor; None where decoding would read past the end of the bits. */
  function FromString(s: ByteString, maxZoom: int): (r: Option<Mask>)
    ensures r.Some? ==> r.value.stringValue == s && r.value.maxZoomLevel == maxZoom
    ensures r.Some? ==> r.value.root.tile == RootTile && WellFormed(r.value.root)
  {
    match DecodeNode(DecodeBase64(s), RootTile)
    case None => None
    case Some((root, _)) => Some(Mask(s, root, maxZoom))
  }

  /** A mask serialised from a tile list reads back as the same tree. */
  lemma {:induction false} StringRoundTrip(tiles: seq<MapTile>, clipZoom: int, maxZoom: int)
    ensures FromString(FromTiles(tiles, clipZoom).stringValue, maxZoom)
         == Some(Mask(FromTiles(tiles, clipZoom).stringValue, FromTiles(tiles, clipZoom).root, maxZoom))
  {
    var m := FromTiles(tiles, clipZoom);
    TreeStringRoundTrip(m.root, maxZoom);
  }

  /** Any well-formed tree rooted at tile 0/0/0 survives serialisation and the string constructor. */
  lemma {:induction false} TreeStringRoundTrip(root: TileNode, maxZoom: int)
    requires root.tile == RootTile && WellFormed(root)
    ensures FromString(EncodeBase64(EncodeNode(root)), maxZoom) == Some(Mask(EncodeBase64(EncodeNode(root)), root, maxZoom))
  {
    var bits := EncodeNode(root);
    Base64RoundTrip(bits);
    var padded := PadTo24(bits);
    assert padded == bits + padded[|bits|..];
    EncodeDecodeNode(root, padded[|bits|..]);
  }

  /** C++ `/` on int: truncation toward zero. */
  function TruncHalf(v: int): int {
    if v >= 0 then v / 2 else -((-v) / 2)
  }

  function FindChild(ns: seq<TileNode>, tile: MapTile): (r: Option<TileNode>)
    ensures r.Some? ==> r.value in ns && r.value.tile == tile
    ensures r.None? ==> forall i :: 0 <= i < |ns| ==> ns[i].tile != tile
  {
    if |ns| == 0 then None
    else if ns[0].tile == tile then Some(ns[0])
    else FindChild(ns[1..], tile)
  }

  /**
   * `findTileNode`: the node of the tile itself, or the nearest inside
   * ancestor leaf that stands for it, or None.
   */
  function FindTileNode(root: TileNode, tile: MapTile): (r: Option<TileNode>)
    requires tile.zoom >= 0
    ensures tile.zoom == 0 ==> (r.Some? <==> tile.x == 0 && tile.y == 0)
    ensures r.Some? && tile.zoom > 0 && r.value.tile != tile ==> r.value.inside
    decreases tile.zoom
  {
    if tile.zoom == 0 then
      if tile.x == 0 && tile.y == 0 then Some(root) else None
    else
      match FindTileNode(root, MapTile(TruncHalf(tile.x), TruncHalf(tile.y), tile.zoom - 1, tile.frameNr))
      case None => None
      case Some(parent) =>
        match FindChild(parent.subNodes, tile)
        case Some(node) => Some(node)
        case None => if parent.inside then Some(parent) else None
  }

  function GetTileStatus(m: Mask, tile: MapTile): (s: TileStatus)
    requires tile.zoom >= 0
    ensures s == Full <==>
      tile.zoom <= m.maxZoomLevel && FindTileNode(m.root, tile).Some? && FindTileNode(m.root, tile).value.inside
  {
    match FindTileNode(m.root, tile)
    case Some(node) => if tile.zoom <= m.maxZoomLevel && node.inside then Full else Missing
    case None => Missing
  }

  // ---------------------------------------------------------------------
  // Lookup in a mask built from a tile list.
  // ---------------------------------------------------------------------

  /** The tile and every ancestor up to zoom 0 are in the set. */
  ghost predicate AncestorsIn(tileSet: set<MapTile>, t: MapTile)
    requires t.zoom >= 0
  {
    forall k: nat :: k <= t.zoom ==> Ancestor(t, k) in tileSet
  }

  /**
   * `n` is what a lookup of `t` may answer in the tree built from `tileSet`:
   * the built node of `t` itself, or of an inside leaf ancestor standing for
   * it; either way no deeper than the clip zoom (or the root).
   */
  ghost predicate Stands(tileSet: set<MapTile>, clipZoom: int, t: MapTile, n: TileNode) {
    && 0 <= n.tile.zoom <= t.zoom
    && (n.tile.zoom <= clipZoom || n.tile.zoom == 0)
    && n.tile == Ancestor(t, t.zoom - n.tile.zoom)
    && n == BuildNode(tileSet, n.tile, clipZoom)
    && (n.tile.zoom < t.zoom ==> n.inside && n.subNodes == [])
  }

  /** One level of findTileNode: the lookup below the parent's answer. */
  function LookupStep(pr: Option<TileNode>, tile: MapTile): (r: Option<TileNode>)
    ensures pr.None? ==> r.None?
  {
    match pr
    case None => None
    case Some(parent) =>
      match FindChild(parent.subNodes, tile)
      case Some(node) => Some(node)
      case None => if parent.inside then Some(parent) else None
  }

  lemma {:induction false} FindTileNodeStep(root: TileNode, t: MapTile)
    requires t.zoom > 0 && t.x >= 0 && t.y >= 0
    ensures FindTileNode(root, t) == LookupStep(FindTileNode(root, Parent(t)), t)
  {
    assert MapTile(TruncHalf(t.x), TruncHalf(t.y), t.zoom - 1, t.frameNr) == Parent(t);
  }

  lemma {:induction false} AncestorsInParent(tileSet: set<MapTile>, t: MapTile)
    requires t.zoom > 0 && AncestorsIn(tileSet, t)
    ensures AncestorsIn(tileSet, Parent(t)) && t in tileSet
  {
    assert Ancestor(t, 0) == t;
    forall k: nat | k <= t.zoom - 1 ensures Ancestor(Parent(t), k) in tileSet {
      AncestorOfParent(t, k);
    }
  }

  /** Below an inside leaf that stands for the parent, the lookup keeps answering that leaf. */
  lemma {:induction false} StepFromLeaf(tileSet: set<MapTile>, clipZoom: int, t: MapTile, pn: TileNode)
    requires t.zoom > 0 && Stands(tileSet, clipZoom, Parent(t), pn)
    requires pn.subNodes == [] && pn.inside
    ensures LookupStep(Some(pn), t) == Some(pn)
    ensures Stands(tileSet, clipZoom, t, pn)
  {
    AncestorOfParent(t, Parent(t).zoom - pn.tile.zoom);
  }

  /** Below the parent's own inner node, the lookup answers the built node of the tile. */
  lemma {:induction false} StepIntoChild(tileSet: set<MapTile>, clipZoom: int, t: MapTile, pn: TileNode)
    requires t.zoom > 0 && t.frameNr == 0 && Stands(tileSet, clipZoom, Parent(t), pn)
    requires pn.tile == Parent(t) && pn.subNodes != []
    ensures LookupStep(Some(pn), t) == Some(BuildNode(tileSet, t, clipZoom))
    ensures Stands(tileSet, clipZoom, t, BuildNode(tileSet, t, clipZoom))
  {
    var p := Parent(t);
    var cs := BuildChildren(tileSet, p, clipZoom);
    assert pn.subNodes == cs;
    ChildOfParent(t);
    var i := t.x % 2 + 2 * (t.y % 2);
    assert cs[i].tile == t;
    var node := FindChild(cs, t).value;
    var j :| 0 <= j < 4 && cs[j] == node;
    assert Ancestor(t, 0) == t;
  }

  /** One level of the lookup keeps the answer standing for the tile. */
  lemma {:induction false} StepStands(tileSet: set<MapTile>, clipZoom: int, t: MapTile, pr: Option<TileNode>)
    requires t.zoom > 0 && t.frameNr == 0
    requires pr.Some? ==> Stands(tileSet, clipZoom, Parent(t), pr.value)
    ensures var r := LookupStep(pr, t);
            && (r.Some? ==> Stands(tileSet, clipZoom, t, r.value))
            && (pr.Some? && pr.value.inside && t in tileSet ==> r.Some? && r.value.inside)
  {
    if pr.Some? {
      var pn := pr.value;
      if pn.tile.zoom < Parent(t).zoom {
        StepFromLeaf(tileSet, clipZoom, t, pn);
      } else {
        assert pn.tile == Parent(t);
        if pn.subNodes == [] {
          if pn.inside {
            StepFromLeaf(tileSet, clipZoom, t, pn);
          }
        } else {
          StepIntoChild(tileSet, clipZoom, t, pn);
        }
      }
    }
  }

  /**
   * findTileNode on a built tree answers with a node that stands for the
   * tile, and finds an inside node whenever the tile and all its ancestors
   * are in the set.
   */
  lemma {:induction false} FindInBuilt(tileSet: set<MapTile>, clipZoom: int, t: MapTile)
    requires t.zoom >= 0 && t.frameNr == 0 && 0 <= t.x < Pow2(t.zoom) && 0 <= t.y < Pow2(t.zoom)
    ensures var r := FindTileNode(BuildNode(tileSet, RootTile, clipZoom), t);
            && (r.Some? ==> Stands(tileSet, clipZoom, t, r.value))
            && (AncestorsIn(tileSet, t) ==> r.Some? && r.value.inside)
    decreases t.zoom
  {
    var root := BuildNode(tileSet, RootTile, clipZoom);
    if t.zoom == 0 {
      assert t == RootTile && Ancestor(t, 0) == t;
    } else {
      var p := Parent(t);
      FindInBuilt(tileSet, clipZoom, p);
      FindTileNodeStep(root, t);
      StepStands(tileSet, clipZoom, t, FindTileNode(root, p));
      if AncestorsIn(tileSet, t) {
        AncestorsInParent(tileSet, t);
      }
    }
  }

  /** Climbing i levels and then j more is climbing i + j levels. */
  lemma {:induction false} AncestorAdd(t: MapTile, i: nat, j: nat)
    ensures Ancestor(Ancestor(t, i), j) == Ancestor(t, i + j)
    decreases j
  {
    if j > 0 {
      AncestorAdd(t, i, j - 1);
    }
  }

  /**
   * An inside leaf above the clip zoom was collapsed from four inside
   * leaves: every tile below it, down to the clip zoom, is in the set.
   */
  lemma {:induction false} InsideLeafCovers(tileSet: set<MapTile>, clipZoom: int, a: MapTile, t: MapTile)
    requires 0 <= a.zoom <= t.zoom <= clipZoom
    requires a == Ancestor(t, t.zoom - a.zoom)
    requires BuildNode(tileSet, a, clipZoom).inside && BuildNode(tileSet, a, clipZoom).subNodes == []
    ensures t in tileSet
    decreases t.zoom - a.zoom
  {
    if a.zoom < t.zoom {
      var c := Ancestor(t, t.zoom - a.zoom - 1);
      assert Parent(c) == a;
      ChildOfParent(c);
      var i := c.x % 2 + 2 * (c.y % 2);
      var cs := BuildChildren(tileSet, a, clipZoom);
      assert cs[i] == BuildNode(tileSet, c, clipZoom);
      assert cs[i].inside && cs[i].subNodes == [];
      InsideLeafCovers(tileSet, clipZoom, c, t);
    }
  }

  function Min(a: int, b: int): int {
    if a <= b then a else b
  }

  /** getTileStatus on a mask built from a tile list: a tile listed together with all its ancestors is FULL. */
  lemma {:induction false} GetTileStatusListed(tiles: seq<MapTile>, clipZoom: int, t: MapTile)
    requires t.zoom >= 0 && t.frameNr == 0 && 0 <= t.x < Pow2(t.zoom) && 0 <= t.y < Pow2(t.zoom)
    requires AncestorsIn((set u | u in tiles), t)
    ensures GetTileStatus(FromTiles(tiles, clipZoom), t) == Full
  {
    var tileSet := set u | u in tiles;
    FindInBuilt(tileSet, clipZoom, t);
    assert Ancestor(t, 0) in tileSet;
    var i :| 0 <= i < |tiles| && tiles[i] == t;
  }

  /** An inside node standing for a tile means the tile's ancestor at the clip zoom is in the set. */
  lemma {:induction false} StandsListed(tileSet: set<MapTile>, clipZoom: int, t: MapTile, n: TileNode)
    requires t.zoom >= 0 && Stands(tileSet, clipZoom, t, n) && n.inside
    ensures Ancestor(t, t.zoom - Min(t.zoom, if clipZoom > 0 then clipZoom else 0)) in tileSet
  {
    var c := Min(t.zoom, if clipZoom > 0 then clipZoom else 0);
    var target := Ancestor(t, t.zoom - c);
    if n.tile.zoom < c {
      AncestorAdd(t, t.zoom - c, c - n.tile.zoom);
      InsideLeafCovers(tileSet, clipZoom, n.tile, target);
    }
  }

  /** An inside answer of the lookup means the tile's ancestor at the clip zoom is in the set. */
  lemma {:induction false} InsideAnswerListed(tileSet: set<MapTile>, clipZoom: int, t: MapTile)
    requires t.zoom >= 0 && t.frameNr == 0 && 0 <= t.x < Pow2(t.zoom) && 0 <= t.y < Pow2(t.zoom)
    requires var r := FindTileNode(BuildNode(tileSet, RootTile, clipZoom), t); r.Some? && r.value.inside
    ensures Ancestor(t, t.zoom - Min(t.zoom, if clipZoom > 0 then clipZoom else 0)) in tileSet
  {
    FindInBuilt(tileSet, clipZoom, t);
    StandsListed(tileSet, clipZoom, t, FindTileNode(BuildNode(tileSet, RootTile, clipZoom), t).value);
  }

  /**
   * The converse: a FULL tile is no deeper than the listed tiles, and its
   * ancestor at the clip zoom (the tile itself when not deeper) is listed.
   */
  lemma {:induction false} GetTileStatusFull(tiles: seq<MapTile>, clipZoom: int, t: MapTile)
    requires t.zoom >= 0 && t.frameNr == 0 && 0 <= t.x < Pow2(t.zoom) && 0 <= t.y < Pow2(t.zoom)
    requires GetTileStatus(FromTiles(tiles, clipZoom), t) == Full
    ensures t.zoom <= MaxZoom(tiles)
    ensures Ancestor(t, t.zoom - Min(t.zoom, if clipZoom > 0 then clipZoom else 0)) in tiles
  {
    InsideAnswerListed((set u | u in tiles), clipZoom, t);
  }
}

=== FILE: polyline.dfy ===
/**
 * The encoded-polyline codecs of the routing proxies: Valhalla's `Shape5Decoder`
 * and `encode` (precision 1e-6, latitude first) and OSRM's `DecodeGeometry`.
 * Coordinates are the integer micro-degree layer; the scaling by 1e-6 to
 * floating point is left out. Integers are unbounded.
 */
module Polyline {
  import opened Wrappers

  const BadPolyline: string := "Bad encoded polyline"

  /** A point as the integer pair `(lon, lat)`, in micro-degrees. */
  type Point = (int, int)

  /** The value of a byte as a signed 8-bit C++ `char`. */
  function Code(c: Byte): (r: int)
    ensures -128 <= r < 128
    ensures c < 128 ==> r == c
  {
    if c >= 128 then c - 256 else c
  }

  /** `serialize`'s first step: the sign folded into the lowest bit. */
  function ZigZag(n: int): (u: nat)
    ensures (u % 2 == 1) == (n < 0)
  {
    if n < 0 then -2 * n - 1 else 2 * n
  }

  /** The decoders' `result & 1 ? ~(result >> 1) : (result >> 1)`. */
  function UnZigZag(u: nat): (n: int)
    ensures ZigZag(n) == u
  {
    if u % 2 == 1 then -(u / 2) - 1 else u / 2
  }

  lemma {:induction false} ZigZagRoundTrip(n: int)
    ensures UnZigZag(ZigZag(n)) == n
  {
  }

  // ---------------------------------------------------------------------
  // Encoding
  // ---------------------------------------------------------------------

  /**
   * Five-bit chunks, least significant first, each offset by 63; every chunk
   * but the last carries the continuation bit 0x20.
   */
  function EncodeVarint(u: nat): (cs: seq<Byte>)
    ensures |cs| > 0
    decreases u
  {
    if u >= 32 then [32 + u % 32 + 63] + EncodeVarint(u / 32)
    else [u + 63]
  }

  /** The `serialize` lambda. */
  function Serialize(n: int): (cs: seq<Byte>)
    ensures |cs| > 0 && Printable(cs)
    ensures forall j :: 0 <= j < |cs| - 1 ==> cs[j] >= 95
    ensures cs[|cs| - 1] < 95
  {
    EncodeVarintShape(ZigZag(n));
    EncodeVarint(ZigZag(n))
  }

  /** The loop of `encode`, after the previous point `(lastLon, lastLat)`. */
  function EncodeFrom(points: seq<Point>, lastLon: int, lastLat: int): (cs: seq<Byte>)
    ensures |points| > 0 ==> |cs| >= 2 * |points|
    decreases |points|
  {
    if |points| == 0 then []
    else
      var (lon, lat) := points[0];
      Serialize(lat - lastLat) + Serialize(lon - lastLon) + EncodeFrom(points[1..], lon, lat)
  }

  function Encode(points: seq<Point>): (cs: seq<Byte>)
    ensures |cs| == 0 <==> |points| == 0
  {
    EncodeFrom(points, 0, 0)
  }

  /** Bytes in 63..126, the only ones the encoder writes. */
  ghost predicate Printable(cs: seq<Byte>) {
    forall j :: 0 <= j < |cs| ==> 63 <= cs[j] <= 126
  }

  /**
   * Every chunk is a byte in 63..126; all but the last carry the
   * continuation bit, so they lie in 95..126, and the last lies below 95.
   */
  lemma {:induction false} EncodeVarintShape(u: nat)
    ensures Printable(EncodeVarint(u))
    ensures forall j :: 0 <= j < |EncodeVarint(u)| - 1 ==> EncodeVarint(u)[j] >= 95
    ensures EncodeVarint(u)[|EncodeVarint(u)| - 1] < 95
    decreases u
  {
    if u >= 32 {
      EncodeVarintShape(u / 32);
    }
  }

  lemma {:induction false} EncodeIsPrintable(points: seq<Point>, lastLon: int, lastLat: int)
    ensures Printable(EncodeFrom(points, lastLon, lastLat))
    decreases |points|
  {
    if |points| > 0 {
      var (lon, lat) := points[0];
      EncodeVarintShape(ZigZag(lat - lastLat));
      EncodeVarintShape(ZigZag(lon - lastLon));
      EncodeIsPrintable(points[1..], lon, lat);
    }
  }

  // ---------------------------------------------------------------------
  // Valhalla decoding. A decoder position `i` indexes the encoded bytes.
  // ---------------------------------------------------------------------

  /**
   * `Shape5Decoder::next` before the zig-zag step, from position `i`: the
   * value and the position after it. None is the "Bad encoded polyline"
   * throw, raised when the input ends inside a value.
   */
  function NextValue(cs: seq<Byte>, i: nat): (r: Option<(nat, nat)>)
    requires i <= |cs|
    ensures r.None? <==> forall j :: i <= j < |cs| ==> Code(cs[j]) - 63 >= 32
    ensures r.Some? ==> i < r.value.1 <= |cs|
    decreases |cs| - i
  {
    if i == |cs| then None
    else
      var b := Code(cs[i]) - 63;
      if b >= 32 then
        var more := NextValue(cs, i + 1);
        if more.None? then None else Some((b % 32 + 32 * more.value.0, more.value.1))
      else Some((b % 32, i + 1))
  }

  /** `decode` from position `i`: `pop` until the input is used up; `pop` reads latitude, then longitude. */
  function DecodeFrom(cs: seq<Byte>, i: nat, lon: int, lat: int): (r: Result<seq<Point>, string>)
    requires i <= |cs|
    ensures r.Success? && i < |cs| ==> |r.value| > 0
    ensures r.Failure? ==> r.error == BadPolyline
    decreases |cs| - i
  {
    if i == |cs| then Success([])
    else
      var a := NextValue(cs, i);
      if a.None? then Failure(BadPolyline)
      else
        var b := NextValue(cs, a.value.1);
        if b.None? then Failure(BadPolyline)
        else
          var lat' := lat + UnZigZag(a.value.0);
          var lon' := lon + UnZigZag(b.value.0);
          var rest := DecodeFrom(cs, b.value.1, lon', lat');
          if rest.Failure? then rest else Success([(lon', lat')] + rest.value)
  }

  function Decode(cs: seq<Byte>): (r: Result<seq<Point>, string>)
    ensures r.Success? ==> (|r.value| == 0 <==> |cs| == 0)
    ensures r.Failure? ==> r.error == BadPolyline
  {
    DecodeFrom(cs, 0, 0, 0)
  }

  /** `bytes` sit in `cs` at position `i`. */
  ghost predicate At(cs: seq<Byte>, i: nat, bytes: seq<Byte>) {
    i + |bytes| <= |cs| && cs[i..i + |bytes|] == bytes
  }

  lemma {:induction false} AtConcat(cs: seq<Byte>, i: nat, a: seq<Byte>, b: seq<Byte>)
    requires At(cs, i, a + b)
    ensures At(cs, i, a) && At(cs, i + |a|, b)
  {
    assert cs[i..i + |a|] == (a + b)[..|a|];
    assert cs[i + |a|..i + |a| + |b|] == (a + b)[|a|..];
  }

  lemma {:induction false} VarintRoundTrip(u: nat, cs: seq<Byte>, i: nat)
    requires At(cs, i, EncodeVarint(u))
    ensures NextValue(cs, i) == Some((u, i + |EncodeVarint(u)|))
    decreases u
  {
    var e := EncodeVarint(u);
    assert cs[i] == e[0];
    if u >= 32 {
      AtConcat(cs, i, [e[0]], EncodeVarint(u / 32));
      VarintRoundTrip(u / 32, cs, i + 1);
    }
  }

  /** One `pop` of the decoder when both values are there. */
  lemma {:induction false} DecodeFromCons(cs: seq<Byte>, i: nat, lon: int, lat: int, u: nat, j: nat, v: nat, k: nat)
    requires i < |cs| && NextValue(cs, i) == Some((u, j)) && j <= |cs| && NextValue(cs, j) == Some((v, k))
    ensures k <= |cs|
    ensures DecodeFrom(cs, i, lon, lat) == (
      var rest := DecodeFrom(cs, k, lon + UnZigZag(v), lat + UnZigZag(u));
      if rest.Failure? then rest else Success([(lon + UnZigZag(v), lat + UnZigZag(u))] + rest.value))
  {
  }

  /** The encoding of `points`, value by value, sits in `cs` from position `i` to the end. */
  ghost predicate EncodedAt(cs: seq<Byte>, i: nat, points: seq<Point>, lon: int, lat: int)
    decreases |points|
  {
    if |points| == 0 then i == |cs|
    else
      var (x, y) := points[0];
      && At(cs, i, Serialize(y - lat))
      && At(cs, i + |Serialize(y - lat)|, Serialize(x - lon))
      && EncodedAt(cs, i + |Serialize(y - lat)| + |Serialize(x - lon)|, points[1..], x, y)
  }

  lemma {:induction false} EncodedAtOfEncode(points: seq<Point>, lon: int, lat: int, cs: seq<Byte>, i: nat)
    requires i + |EncodeFrom(points, lon, lat)| == |cs| && At(cs, i, EncodeFrom(points, lon, lat))
    ensures EncodedAt(cs, i, points, lon, lat)
    decreases |points|
  {
    if |points| > 0 {
      var j := i + |Serialize(points[0].1 - lat)|;
      var k := j + |Serialize(points[0].0 - lon)|;
      EncodeFromAt(points, lon, lat, cs, i);
      EncodedAtOfEncode(points[1..], points[0].0, points[0].1, cs, k);
      EncodedAtFold(cs, i, j, k, points, lon, lat);
    }
  }

  /** The encoding of a non-empty list, taken apart where it sits. */
  lemma {:induction false} EncodeFromAt(points: seq<Point>, lon: int, lat: int, cs: seq<Byte>, i: nat)
    requires |points| > 0 && At(cs, i, EncodeFrom(points, lon, lat))
    ensures var e1 := Serialize(points[0].1 - lat);
            var e2 := Serialize(points[0].0 - lon);
            var tail := EncodeFrom(points[1..], points[0].0, points[0].1);
            && |EncodeFrom(points, lon, lat)| == |e1| + |e2| + |tail|
            && At(cs, i, e1) && At(cs, i + |e1|, e2) && At(cs, i + |e1| + |e2|, tail)
  {
    var e1 := Serialize(points[0].1 - lat);
    var e2 := Serialize(points[0].0 - lon);
    var tail := EncodeFrom(points[1..], points[0].0, points[0].1);
    assert EncodeFrom(points, lon, lat) == e1 + e2 + tail;
    AtConcat(cs, i, e1 + e2, tail);
    AtConcat(cs, i, e1, e2);
  }

  /** EncodedAt for a non-empty list, put together from its parts. */
  lemma {:induction false} EncodedAtFold(cs: seq<Byte>, i: nat, j: nat, k: nat, points: seq<Point>, lon: int, lat: int)
    requires |points| > 0 && j == i + |Serialize(points[0].1 - lat)| && k == j + |Serialize(points[0].0 - lon)|
    requires At(cs, i, Serialize(points[0].1 - lat)) && At(cs, j, Serialize(points[0].0 - lon))
    requires EncodedAt(cs, k, points[1..], points[0].0, points[0].1)
    ensures EncodedAt(cs, i, points, lon, lat)
  {
  }

  /** The decoder's value reader finds the zig-zagged deltas of `points` one after another from `i`. */
  ghost predicate ValuesAt(cs: seq<Byte>, i: nat, points: seq<Point>, lon: int, lat: int)
    requires i <= |cs|
    decreases |points|
  {
    if |points| == 0 then i == |cs|
    else
      var (x, y) := points[0];
      var a := NextValue(cs, i);
      && a.Some? && a.value.0 == ZigZag(y - lat)
      && var b := NextValue(cs, a.value.1);
      && b.Some? && b.value.0 == ZigZag(x - lon)
      && ValuesAt(cs, b.value.1, points[1..], x, y)
  }

  lemma {:induction false} ValuesAtOfEncodedAt(cs: seq<Byte>, i: nat, points: seq<Point>, lon: int, lat: int)
    requires i <= |cs| && EncodedAt(cs, i, points, lon, lat)
    ensures ValuesAt(cs, i, points, lon, lat)
    decreases |points|
  {
    if |points| > 0 {
      var j := i + |Serialize(points[0].1 - lat)|;
      var k := j + |Serialize(points[0].0 - lon)|;
      EncodedAtUnfold(cs, i, points, lon, lat);
      ValuesAtOfEncodedAt(cs, k, points[1..], points[0].0, points[0].1);
      ValuesAtOfHead(cs, i, j, k, points, lon, lat);
    }
  }

  /** EncodedAt for a non-empty list, taken apart. */
  lemma {:induction false} EncodedAtUnfold(cs: seq<Byte>, i: nat, points: seq<Point>, lon: int, lat: int)
    requires |points| > 0 && EncodedAt(cs, i, points, lon, lat)
    ensures var j := i + |Serialize(points[0].1 - lat)|;
            && At(cs, i, Serialize(points[0].1 - lat))
            && At(cs, j, Serialize(points[0].0 - lon))
            && EncodedAt(cs, j + |Serialize(points[0].0 - lon)|, points[1..], points[0].0, points[0].1)
  {
  }

  /** The value reader finds one serialized delta where it sits. */
  lemma {:induction false} SerializedAt(cs: seq<Byte>, i: nat, n: int)
    requires At(cs, i, Serialize(n))
    ensures i + |Serialize(n)| <= |cs| && NextValue(cs, i) == Some((ZigZag(n), i + |Serialize(n)|))
  {
    VarintRoundTrip(ZigZag(n), cs, i);
  }

  /** ValuesAt for a non-empty list, from where its first two deltas are serialized and the rest. */
  lemma {:induction false} ValuesAtOfHead(cs: seq<Byte>, i: nat, j: nat, k: nat, points: seq<Point>, lon: int, lat: int)
    requires |points| > 0 && j == i + |Serialize(points[0].1 - lat)| && k == j + |Serialize(points[0].0 - lon)|
    requires At(cs, i, Serialize(points[0].1 - lat)) && At(cs, j, Serialize(points[0].0 - lon))
    requires k <= |cs| && ValuesAt(cs, k, points[1..], points[0].0, points[0].1)
    ensures ValuesAt(cs, i, points, lon, lat)
  {
    assert NextValue(cs, i) == Some((ZigZag(points[0].1 - lat), j)) by { SerializedAt(cs, i, points[0].1 - lat); }
    assert NextValue(cs, j) == Some((ZigZag(points[0].0 - lon), k)) by { SerializedAt(cs, j, points[0].0 - lon); }
    ValuesAtCons(cs, i, j, k, points, lon, lat);
  }

  /** ValuesAt for a non-empty list, from its first two values and the rest. */
  lemma {:induction false} ValuesAtCons(cs: seq<Byte>, i: nat, j: nat, k: nat, points: seq<Point>, lon: int, lat: int)
    requires i <= j <= k <= |cs| && |points| > 0
    requires NextValue(cs, i) == Some((ZigZag(points[0].1 - lat), j))
    requires NextValue(cs, j) == Some((ZigZag(points[0].0 - lon), k))
    requires ValuesAt(cs, k, points[1..], points[0].0, points[0].1)
    ensures ValuesAt(cs, i, points, lon, lat)
  {
  }

  /** The decoder returns exactly the points whose deltas it reads. */
  lemma {:induction false} DecodeValuesAt(cs: seq<Byte>, i: nat, points: seq<Point>, lon: int, lat: int)
    requires i <= |cs| && ValuesAt(cs, i, points, lon, lat)
    ensures DecodeFrom(cs, i, lon, lat) == Success(points)
    decreases |points|
  {
    if |points| > 0 {
      var (x, y) := points[0];
      var a := NextValue(cs, i);
      var b := NextValue(cs, a.value.1);
      DecodeFromCons(cs, i, lon, lat, a.value.0, a.value.1, b.value.0, b.value.1);
      ZigZagRoundTrip(y - lat);
      ZigZagRoundTrip(x - lon);
      DecodeValuesAt(cs, b.value.1, points[1..], x, y);
      assert [(x, y)] + points[1..] == points;
    }
  }

  lemma {:induction false} DecodeEncode(points: seq<Point>)
    ensures Decode(Encode(points)) == Success(points)
  {
    var cs := Encode(points);
    assert cs[0..|cs|] == cs;
    EncodedAtOfEncode(points, 0, 0, cs, 0);
    ValuesAtOfEncodedAt(cs, 0, points, 0, 0);
    DecodeValuesAt(cs, 0, points, 0, 0);
  }

  // ---------------------------------------------------------------------
  // OSRM decoding
  // ---------------------------------------------------------------------

  /**
   * One value of `DecodeGeometry`. `b` is unsigned there, so a byte below 63
   * wraps to a huge value and continues the number instead of ending it.
   * The C++ reads past the string when the input ends inside a value; that
   * undefined read is None here.
   */
  function NextValueOsrm(cs: seq<Byte>, i: nat): (r: Option<(nat, nat)>)
    requires i <= |cs|
    ensures r.None? <==> forall j :: i <= j < |cs| ==> !(0 <= Code(cs[j]) - 63 < 32)
    ensures r.Some? ==> i < r.value.1 <= |cs|
    decreases |cs| - i
  {
    if i == |cs| then None
    else
      var b := Code(cs[i]) - 63;
      if b < 0 || b >= 32 then
        var more := NextValueOsrm(cs, i + 1);
        if more.None? then None else Some((b % 32 + 32 * more.value.0, more.value.1))
      else Some((b, i + 1))
  }

  /** `DecodeGeometry` from position `i`, with the running `(lon, lat)`. */
  function DecodeOsrmFrom(cs: seq<Byte>, i: nat, lon: int, lat: int): (r: Option<seq<Point>>)
    requires i <= |cs|
    ensures r.Some? && i < |cs| ==> |r.value| > 0
    decreases |cs| - i
  {
    if i == |cs| then Some([])
    else
      var a := NextValueOsrm(cs, i);
      if a.None? then None
      else
        var b := NextValueOsrm(cs, a.value.1);
        if b.None? then None
        else
          var lat' := lat + UnZigZag(a.value.0);
          var lon' := lon + UnZigZag(b.value.0);
          var rest := DecodeOsrmFrom(cs, b.value.1, lon', lat');
          if rest.None? then None else Some([(lon', lat')] + rest.value)
  }

  function DecodeOsrm(cs: seq<Byte>): (r: Option<seq<Point>>)
    ensures r.Some? ==> (|r.value| == 0 <==> |cs| == 0)
  {
    DecodeOsrmFrom(cs, 0, 0, 0)
  }

  /** On bytes 63..126 the two value readers agree. */
  lemma {:induction false} NextValuesAgree(cs: seq<Byte>, i: nat)
    requires i <= |cs| && Printable(cs)
    ensures NextValueOsrm(cs, i) == NextValue(cs, i)
    decreases |cs| - i
  {
    if i < |cs| {
      var b := Code(cs[i]) - 63;
      assert 0 <= b < 64;
      if b >= 32 {
        NextValuesAgree(cs, i + 1);
      }
    }
  }

  /** On anything the encoder produced, the OSRM decoder reads the same points as Valhalla's. */
  lemma {:induction false} DecodersAgree(cs: seq<Byte>, i: nat, lon: int, lat: int)
    requires i <= |cs| && Printable(cs)
    ensures DecodeOsrmFrom(cs, i, lon, lat) == DecodeFrom(cs, i, lon, lat).ToOption()
    decreases |cs| - i, 1
  {
    if i < |cs| {
      NextValuesAgree(cs, i);
      var a := NextValue(cs, i);
      if a.Some? {
        NextValuesAgree(cs, a.value.1);
        var b := NextValue(cs, a.value.1);
        if b.Some? {
          DecodersAgreePoint(cs, i, lon, lat);
        }
      }
    }
  }

  /** DecodersAgree where the next two values are read: both decoders emit the same point. */
  lemma {:induction false} DecodersAgreePoint(cs: seq<Byte>, i: nat, lon: int, lat: int)
    requires i < |cs| && Printable(cs)
    requires NextValue(cs, i).Some? && NextValue(cs, NextValue(cs, i).value.1).Some?
    requires NextValueOsrm(cs, i) == NextValue(cs, i)
    requires NextValueOsrm(cs, NextValue(cs, i).value.1) == NextValue(cs, NextValue(cs, i).value.1)
    ensures DecodeOsrmFrom(cs, i, lon, lat) == DecodeFrom(cs, i, lon, lat).ToOption()
    decreases |cs| - i, 0
  {
    var a := NextValue(cs, i);
    var b := NextValue(cs, a.value.1);
    var lat' := lat + UnZigZag(a.value.0);
    var lon' := lon + UnZigZag(b.value.0);
    DecodeFromCons(cs, i, lon, lat, a.value.0, a.value.1, b.value.0, b.value.1);
    DecodeOsrmFromCons(cs, i, lon, lat, a.value.0, a.value.1, b.value.0, b.value.1);
    DecodersAgree(cs, b.value.1, lon', lat');
  }

  /** One step of the OSRM decoder when both values are there. */
  lemma {:induction false} DecodeOsrmFromCons(cs: seq<Byte>, i: nat, lon: int, lat: int, u: nat, j: nat, v: nat, k: nat)
    requires i < |cs| && NextValueOsrm(cs, i) == Some((u, j)) && j <= |cs| && NextValueOsrm(cs, j) == Some((v, k))
    ensures k <= |cs|
    ensures DecodeOsrmFrom(cs, i, lon, lat) == (
      var rest := DecodeOsrmFrom(cs, k, lon + UnZigZag(v), lat + UnZigZag(u));
      if rest.None? then None else Some([(lon + UnZigZag(v), lat + UnZigZag(u))] + rest.value))
  {
  }

  lemma {:induction false} OsrmDecodeEncode(points: seq<Point>)
    ensures DecodeOsrm(Encode(points)) == Some(points)
  {
    EncodeIsPrintable(points, 0, 0);
    DecodersAgree(Encode(points), 0, 0, 0);
    DecodeEncode(points);
  }

  /**
   * A space (byte 32) ends a Valhalla value but continues an OSRM one: the
   * two decoders part ways on bytes below 63.
   */
  lemma {:induction false} SpaceSplitsDecoders()
    ensures NextValue([32, 63], 0) == Some((1, 1))
    ensures NextValueOsrm([32, 63], 0) == Some((1, 2))
  {
  }
}

=== FILE: raster_tile_layer.dfy ===
/**
 * What is specific to the raster tile layer: reading a pixel of a tile
 * bitmap with clamping, cutting the part of an ancestor's bitmap that
 * covers a deeper tile, turning a decoded bitmap into a renderer tile, and
 * the load step of its fetch task.
 *
 * Image decoding, cropping, scaling and RGBA conversion belong to the
 * Bitmap class, which is not part of this model: they are parameters.
 */
module RasterTileLayer {
  import opened Wrappers
  import opened Tiles
  import opened TileCache
  import opened TileLayer
  import VtTile

  // ---------------------------------------------------------------------------
  // readTileBitmapColor (integer coordinates)
  // ---------------------------------------------------------------------------

  /** An RGBA colour, one byte per channel. */
  datatype Color = Color(r: bv8, g: bv8, b: bv8, a: bv8)

  function Clamp(v: int, lo: int, hi: int): (r: int)
    requires lo <= hi
    ensures lo <= r <= hi
    ensures lo <= v <= hi ==> r == v
    ensures v < lo ==> r == lo
    ensures v > hi ==> r == hi
  {
    if v < lo then lo else if v > hi then hi else v
  }

  lemma {:induction false} MulLeft(a: int, b: int, c: int)
    requires 0 <= a <= b && c >= 0
    ensures a * c <= b * c
  {
  }

  /** The pixel index (y * width + x) of an in-range pixel lies inside the bitmap. */
  lemma {:induction false} PixelInRange(w: int, h: int, x: int, y: int, bpp: int)
    requires w > 0 && h > 0 && 0 <= x < w && 0 <= y < h && bpp > 0
    ensures 0 <= (y * w + x) * bpp && (y * w + x) * bpp + bpp <= w * h * bpp
  {
    var i := y * w + x;
    MulLeft(y, h - 1, w);
    MulAddRight(h - 1, 1, w);
    assert i + 1 <= h * w;
    MulLeft(i + 1, h * w, bpp);
    MulAddRight(i, 1, bpp);
    MulNonNeg(y, w);
    MulNonNeg(i, bpp);
    MulComm(h, w);
  }

  /**
   * The colour of pixel (x, y), y counted from the top: both coordinates are
   * clamped into the bitmap and the row is flipped, since rows are stored
   * bottom-up. Grayscale repeats its byte in r, g and b; formats without
   * alpha read as opaque.
   */
  function ReadTileBitmapColor(b: VtTile.TileBitmap, x: int, y: int): (c: Color)
    requires VtTile.WellFormed(b)
    ensures b.format.Grayscale? ==> c.r == c.g == c.b && c.a == 255
    ensures b.format.Rgb? ==> c.a == 255
  {
    var cx := Clamp(x, 0, b.width - 1);
    var cy := b.height - 1 - Clamp(y, 0, b.height - 1);
    var bpp := VtTile.BytesPerPixel(b.format);
    PixelInRange(b.width, b.height, cx, cy, bpp);
    var i := (cy * b.width + cx) * bpp;
    match b.format
    case Grayscale => Color(b.data[i], b.data[i], b.data[i], 255)
    case Rgb => Color(b.data[i], b.data[i + 1], b.data[i + 2], 255)
    case Rgba => Color(b.data[i], b.data[i + 1], b.data[i + 2], b.data[i + 3])
  }

  /** The bytes of the pixel in stored row `row` and column `col`, for a pixel inside the bitmap. */
  function StoredPixel(b: VtTile.TileBitmap, col: int, row: int): (px: seq<bv8>)
    requires VtTile.WellFormed(b) && 0 <= col < b.width && 0 <= row < b.height
    ensures |px| == VtTile.BytesPerPixel(b.format)
  {
    var bpp := VtTile.BytesPerPixel(b.format);
    PixelInRange(b.width, b.height, col, row, bpp);
    b.data[(row * b.width + col) * bpp..(row * b.width + col) * bpp + bpp]
  }

  /** Inside the bitmap, the read colour is the stored pixel of the flipped row, widened to RGBA. */
  lemma {:induction false} ReadInside(b: VtTile.TileBitmap, x: int, y: int)
    requires VtTile.WellFormed(b) && 0 <= x < b.width && 0 <= y < b.height
    ensures var px := StoredPixel(b, x, b.height - 1 - y);
            var c := ReadTileBitmapColor(b, x, y);
            match b.format
            case Grayscale => c == Color(px[0], px[0], px[0], 255)
            case Rgb => c == Color(px[0], px[1], px[2], 255)
            case Rgba => c == Color(px[0], px[1], px[2], px[3])
  {
    var row := b.height - 1 - y;
    assert Clamp(x, 0, b.width - 1) == x && Clamp(y, 0, b.height - 1) == y;
    PixelInRange(b.width, b.height, x, row, VtTile.BytesPerPixel(b.format));
  }

  /** Outside the bitmap, reading gives the colour of the nearest edge pixel. */
  lemma {:induction false} ReadClampsOutside(b: VtTile.TileBitmap, x: int, y: int)
    requires VtTile.WellFormed(b)
    ensures ReadTileBitmapColor(b, x, y) == ReadTileBitmapColor(b, Clamp(x, 0, b.width - 1), Clamp(y, 0, b.height - 1))
  {
  }

  // ---------------------------------------------------------------------------
  // Bitmaps and CreateVectorTile
  // ---------------------------------------------------------------------------

  /** The SDK's bitmap colour formats; any other format is converted to RGBA. */
  datatype ColorFormat = GrayscaleColor | RgbColor | RgbaColor | OtherColorFormat(code: int)

  /** A decoded bitmap: colour format, size and pixel data. */
  datatype Bitmap = Bitmap(format: ColorFormat, width: int, height: int, pixels: seq<bv8>)

  /** The renderer bitmap format a colour format becomes. */
  function TileFormat(f: ColorFormat): VtTile.BitmapFormat {
    match f
    case GrayscaleColor => VtTile.Grayscale
    case RgbColor => VtTile.Rgb
    case RgbaColor => VtTile.Rgba
    case OtherColorFormat(_) => VtTile.Rgba
  }

  /** Pixel data laid out for its own colour format (bytes per pixel of the renderer format). */
  predicate BitmapWellFormed(bm: Bitmap) {
    && bm.width > 0 && bm.height > 0
    && (!bm.format.OtherColorFormat? ==> |bm.pixels| == bm.width * bm.height * VtTile.BytesPerPixel(TileFormat(bm.format)))
  }

  /**
   * CreateVectorTile: one tile bitmap of the bitmap's size, in the matching
   * renderer format, holding the bitmap's own pixels, or its RGBA
   * conversion for any other colour format; the tile carries the map tile's id.
   */
  function CreateVectorTile(tile: MapTile, bm: Bitmap, toRgba: Bitmap -> seq<bv8>): (t: VtTile.Tile)
    ensures t.id == VtTile.VtTileId(tile.zoom, tile.x, tile.y)
    ensures |t.bitmaps| == 1
    ensures t.bitmaps[0].width == bm.width && t.bitmaps[0].height == bm.height
    ensures t.bitmaps[0].format == TileFormat(bm.format)
    ensures !bm.format.OtherColorFormat? ==> t.bitmaps[0].data == bm.pixels
    ensures bm.format.OtherColorFormat? ==> t.bitmaps[0].data == toRgba(bm)
  {
    var data := if bm.format.OtherColorFormat? then toRgba(bm) else bm.pixels;
    VtTile.Tile(VtTile.VtTileId(tile.zoom, tile.x, tile.y), [VtTile.TileBitmap(TileFormat(bm.format), bm.width, bm.height, data)])
  }

  /** A well-formed bitmap (with a size-preserving RGBA conversion) gives a well-formed tile bitmap. */
  lemma {:induction false} CreateVectorTileWellFormed(tile: MapTile, bm: Bitmap, toRgba: Bitmap -> seq<bv8>)
    requires BitmapWellFormed(bm)
    requires bm.format.OtherColorFormat? ==> |toRgba(bm)| == bm.width * bm.height * 4
    ensures VtTile.WellFormed(CreateVectorTile(tile, bm, toRgba).bitmaps[0])
  {
  }

  // ---------------------------------------------------------------------------
  // ExtractSubTile
  // ---------------------------------------------------------------------------

  /** A crop rectangle: origin and size in pixels. */
  datatype Rect = Rect(x: int, y: int, w: int, h: int)

  /** The rectangle lies inside a width x height bitmap and is not empty. */
  predicate InsideBitmap(r: Rect, width: int, height: int) {
    0 <= r.x && 0 <= r.y && r.w >= 1 && r.h >= 1 && r.x + r.w <= width && r.y + r.h <= height
  }

  function Max(a: int, b: int): int {
    if a >= b then a else b
  }

  /**
   * The part of an ancestor's bitmap that covers a tile `deltaZoom` levels
   * deeper: origin `(size * (coord & (2^dz - 1))) >> dz`, size `size >> dz`
   * but at least one pixel, in unbounded arithmetic.
   */
  function SubTileRect(subTile: MapTile, deltaZoom: nat, width: int, height: int): (r: Rect)
    requires width >= 1 && height >= 1
    ensures InsideBitmap(r, width, height)
  {
    var p := Pow2(deltaZoom);
    var mx := MaskCoord(subTile.x, deltaZoom);
    var my := MaskCoord(subTile.y, deltaZoom);
    SubRangeInside(width, mx, p);
    SubRangeInside(height, my, p);
    Rect(width * mx / p, height * my / p, Max(width / p, 1), Max(height / p, 1))
  }

  /**
   * Cell m of size/p-wide cells starts inside [0, size) and, at least one
   * pixel wide, still ends inside it.
   */
  lemma {:induction false} SubRangeInside(size: int, m: int, p: int)
    requires size >= 1 && p >= 1 && 0 <= m < p
    ensures 0 <= size * m / p && size * m / p + Max(size / p, 1) <= size
  {
    var sm := size * m;
    var a := sm / p;
    var q := size / p;
    MulNonNeg(size, m);
    DivFloor(sm, p);
    DivFloor(size, p);
    DivNonNeg(sm, p);
    if q >= 1 {
      WideCell(size, m, p, a, q);
    } else {
      NarrowCell(size, m, p, a);
    }
  }

  /** With cells at least a pixel wide, cell m still ends inside [0, size). */
  lemma {:induction false} WideCell(size: int, m: int, p: int, a: int, q: int)
    requires size >= 1 && p >= 1 && 0 <= m < p && q >= 1
    requires a * p <= size * m && q * p <= size
    ensures a + q <= size
  {
    MulAddRight(a, q, p);
    MulSucc(size, m);
    MulLeft(m + 1, p, size);
    DivideBoth(a + q, size, p);
  }

  /** With cells narrower than a pixel, cell m starts before the last pixel. */
  lemma {:induction false} NarrowCell(size: int, m: int, p: int, a: int)
    requires size >= 1 && p >= 1 && 0 <= m < p
    requires a * p <= size * m
    ensures a + 1 <= size
  {
    MulLeft(m, p - 1, size);
    MulSucc(size, p - 1);
    DivideBothStrict(a, size, p);
  }

  lemma {:induction false} DivNonNeg(x: int, p: int)
    requires x >= 0 && p >= 1
    ensures x / p >= 0
  {
  }

  lemma {:induction false} MulComm(a: int, b: int)
    ensures a * b == b * a
  {
  }

  lemma {:induction false} MulNonNeg(a: int, b: int)
    requires a >= 0 && b >= 0
    ensures a * b >= 0
  {
  }

  /** Floor division by a positive divisor: (x / p) * p <= x < (x / p) * p + p. */
  lemma {:induction false} DivFloor(x: int, p: int)
    requires p >= 1
    ensures (x / p) * p <= x < (x / p) * p + p
  {
  }

  lemma {:induction false} MulSucc(a: int, b: int)
    ensures a * (b + 1) == a * b + a
  {
  }

  lemma {:induction false} MulAddRight(a: int, b: int, c: int)
    ensures (a + b) * c == a * c + b * c
  {
  }

  lemma {:induction false} DivideBoth(a: int, b: int, p: int)
    requires p >= 1 && a * p <= b * p
    ensures a <= b
  {
    if a > b {
      assert (b + 1) * p == b * p + p;
      MulLeft(b + 1, a, p);
    }
  }

  lemma {:induction false} DivideBothStrict(a: int, b: int, p: int)
    requires p >= 1 && a * p < b * p
    ensures a < b
  {
    if a >= b {
      MulLeft(b, a, p);
    }
  }

  /**
   * ExtractSubTile: crop the covering part of the ancestor's bitmap and
   * scale it back to the full bitmap size. The pixel data of a crop and of
   * a scaling come from the Bitmap class, which is not part of this model:
   * they are parameters. A sub-bitmap keeps its parent's colour format and
   * has the rectangle's size; a resized one keeps the format and has the
   * size asked for.
   */
  function ExtractSubTile(subTile: MapTile, tile: MapTile, bm: Bitmap,
                          crop: (Bitmap, Rect) -> seq<bv8>, resize: (Bitmap, int, int) -> seq<bv8>): (r: Bitmap)
    requires subTile.zoom >= tile.zoom && bm.width >= 1 && bm.height >= 1
    ensures r.format == bm.format && r.width == bm.width && r.height == bm.height
    ensures exists rect :: InsideBitmap(rect, bm.width, bm.height)
                           && r.pixels == resize(Bitmap(bm.format, rect.w, rect.h, crop(bm, rect)), bm.width, bm.height)
  {
    var rect := SubTileRect(subTile, subTile.zoom - tile.zoom, bm.width, bm.height);
    var sub := Bitmap(bm.format, rect.w, rect.h, crop(bm, rect));
    Bitmap(bm.format, bm.width, bm.height, resize(sub, bm.width, bm.height))
  }

  // --- As written: the origin product is computed in 32 bits ---
  // Bitmap::getWidth is not part of this model, so both of its plausible
  // return types are modelled: `int` (signed product, taken to wrap as
  // two's complement, then an arithmetic shift) and `unsigned int` (product
  // modulo 2^32, then a logical shift).

  const TwoTo31: int := 0x8000_0000
  const TwoTo32: int := 0x1_0000_0000

  /** Two's-complement wrap of an integer into 32 bits. */
  function Wrap32(v: int): (r: int)
    ensures -TwoTo31 <= r < TwoTo31
    ensures -TwoTo31 <= v < TwoTo31 ==> r == v
  {
    (v + TwoTo31) % TwoTo32 - TwoTo31
  }

  /**
   * The crop origin as the code computes it: `int` product, wrapped, then
   * an arithmetic right shift (floor division by 2^dz).
   */
  function SubTileOriginAsWritten(size: int, coord: int, deltaZoom: nat): int {
    Wrap32(size * MaskCoord(coord, deltaZoom)) / Pow2(deltaZoom)
  }

  /**
   * The crop origin when getWidth returns `unsigned int`: the product is
   * reduced modulo 2^32 and shifted logically.
   */
  function SubTileOriginUnsigned(size: nat, coord: int, deltaZoom: nat): (r: nat)
    ensures r < TwoTo32
  {
    var product := size * MaskCoord(coord, deltaZoom);
    var p := Pow2(deltaZoom);
    ShiftedLowWordFits(product, p);
    product % TwoTo32 / p
  }

  /** A 32-bit word shifted right still fits in 32 bits. */
  lemma ShiftedLowWordFits(product: int, p: int)
    requires p >= 1
    ensures 0 <= product % TwoTo32 / p < TwoTo32
  {
    var low := product % TwoTo32;
    assert 0 <= low < TwoTo32;
    assert low / p <= low;
  }

  /**
   * A 512-pixel raster tile shown 24 levels below the tile that holds its
   * data (x = 2^24 - 1): the product 512 * (2^24 - 1) = 2^33 - 512 does not
   * fit in 32 bits. As `int` the origin comes out as -1, outside the bitmap;
   * as `unsigned int` it comes out as 255, inside but in the wrong cell. The
   * intended origin is 511, the last column.
   */
  lemma {:induction false} SubTileOriginOverflows()
    ensures Pow2(24) == 0x100_0000
    ensures SubTileOriginAsWritten(512, 0xff_ffff, 24) == -1
    ensures SubTileOriginUnsigned(512, 0xff_ffff, 24) == 255
    ensures SubTileRect(MapTile(0xff_ffff, 0, 24, 0), 24, 512, 512).x == 511
  {
    Pow2Value24();
    assert MaskCoord(0xff_ffff, 24) == 0xff_ffff;
  }

  lemma {:induction false} Pow2Value24()
    ensures Pow2(24) == 0x100_0000
  {
    assert Pow2(8) == 256;
    assert Pow2(16) == 256 * 256 by { Pow2Add(8, 8); }
    Pow2Add(16, 8);
  }

  lemma {:induction false} Pow2Add(a: nat, b: nat)
    ensures Pow2(a + b) == Pow2(a) * Pow2(b)
    decreases b
  {
    if b > 0 {
      Pow2Add(a, b - 1);
    }
  }

  /**
   * Where the 32-bit product does not overflow, both readings of the code
   * give the unbounded origin.
   */
  lemma {:induction false} SubTileOriginAgrees(size: int, coord: int, deltaZoom: nat)
    requires 0 <= size * MaskCoord(coord, deltaZoom) < TwoTo31
    ensures SubTileOriginAsWritten(size, coord, deltaZoom) == size * MaskCoord(coord, deltaZoom) / Pow2(deltaZoom)
    ensures size >= 0 ==> SubTileOriginUnsigned(size, coord, deltaZoom) == size * MaskCoord(coord, deltaZoom) / Pow2(deltaZoom)
  {
  }

  // ---------------------------------------------------------------------------
  // FetchTask::loadTile
  // ---------------------------------------------------------------------------

  /**
   * What loadTile consults: the data source, the image decoder (None when
   * the data is not an image), the pixels of a crop and of a scaling, RGBA
   * conversion, the
   * resident size of a tile, and the current time.
   */
  datatype LoadEnv = LoadEnv(
    source: MapTile -> SourceTile,
    decodeBitmap: seq<bv8> -> Option<Bitmap>,
    crop: (Bitmap, Rect) -> seq<bv8>,
    resize: (Bitmap, int, int) -> seq<bv8>,
    toRgba: Bitmap -> seq<bv8>,
    residentSize: VtTile.Tile -> nat,
    now: int)

  /**
   * The bitmap for the task's tile: the decoded one when the serving tile is
   * the task's own, otherwise the covering part of the ancestor's, scaled
   * back to the decoded size.
   */
  function TileBitmapFor(env: LoadEnv, task: FetchTask, servingTile: MapTile, bm: Bitmap): (r: Bitmap)
    ensures r.format == bm.format && r.width == bm.width && r.height == bm.height
    ensures servingTile == task.tile ==> r == bm
    ensures servingTile != task.tile && task.tile.zoom >= servingTile.zoom && bm.width >= 1 && bm.height >= 1 ==>
              r == ExtractSubTile(task.tile, servingTile, bm, env.crop, env.resize)
  {
    if servingTile != task.tile && task.tile.zoom >= servingTile.zoom && bm.width >= 1 && bm.height >= 1 then
      ExtractSubTile(task.tile, servingTile, bm, env.crop, env.resize)
    else bm
  }

  /**
   * loadTile for a raster task: the first data-source tile that is not
   * replace-with-parent is the only one loaded; a decodable image is cut to
   * the task tile when it came from an ancestor, turned into a renderer tile
   * and stored under the task tile's id in the task's tier unless the task
   * was invalidated; the refresh flag is set whenever the image decoded.
   */
  function LoadTile(env: LoadEnv, task: FetchTask,
                    visibleCache: Cache<TileId, CachedTile>, preloadingCache: Cache<TileId, CachedTile>): (r: LoadOutcome)
    ensures var i := ServingIndex(env.source, task.dataSourceTiles);
            r.LoadThrew? <==> i < |task.dataSourceTiles| && env.source(task.dataSourceTiles[i]).SourceThrew?
    ensures var i := ServingIndex(env.source, task.dataSourceTiles);
            r.LoadReturned? && r.refresh <==>
              && i < |task.dataSourceTiles|
              && env.source(task.dataSourceTiles[i]).TileData?
              && env.decodeBitmap(env.source(task.dataSourceTiles[i]).data).Some?
    ensures r.LoadReturned? && (!r.refresh || task.invalidated) ==>
              r.visibleCache == visibleCache && r.preloadingCache == preloadingCache
    ensures r.LoadReturned? && task.preloading ==> r.visibleCache == visibleCache
    ensures r.LoadReturned? && !task.preloading ==> r.preloadingCache == preloadingCache
  {
    var tiles := task.dataSourceTiles;
    var i := ServingIndex(env.source, tiles);
    if i == |tiles| then LoadReturned(false, visibleCache, preloadingCache)
    else
      match env.source(tiles[i])
      case SourceThrew => LoadThrew
      case TileData(data, maxAge) =>
        (match env.decodeBitmap(data)
         case None => LoadReturned(false, visibleCache, preloadingCache)
         case Some(bm) =>
           if task.invalidated then LoadReturned(true, visibleCache, preloadingCache)
           else
             var vtTile := CreateVectorTile(task.tile, TileBitmapFor(env, task, tiles[i], bm), env.toRgba);
             var key := TileId(task.tile);
             var size := ExtraTileFootprint + env.residentSize(vtTile);
             if task.preloading then LoadReturned(true, visibleCache, Store(preloadingCache, key, RasterTile(vtTile), size, maxAge, env.now))
             else LoadReturned(true, Store(visibleCache, key, RasterTile(vtTile), size, maxAge, env.now), preloadingCache))
      case _ => LoadReturned(false, visibleCache, preloadingCache)
  }

  /**
   * A stored tile: when the serving tile's image decodes and the task is
   * not invalidated, the task's tier holds a raster tile with the task
   * tile's id under the task tile's key, valid until now + maxAge, and no
   * other entry of that tier changes.
   */
  lemma {:induction false} LoadTileStores(env: LoadEnv, task: FetchTask,
                       visibleCache: Cache<TileId, CachedTile>, preloadingCache: Cache<TileId, CachedTile>)
    requires !task.invalidated
    requires var i := ServingIndex(env.source, task.dataSourceTiles);
             && i < |task.dataSourceTiles|
             && env.source(task.dataSourceTiles[i]).TileData?
             && env.decodeBitmap(env.source(task.dataSourceTiles[i]).data).Some?
    ensures var i := ServingIndex(env.source, task.dataSourceTiles);
            var src := env.source(task.dataSourceTiles[i]);
            var key := TileId(task.tile);
            var r := LoadTile(env, task, visibleCache, preloadingCache);
            var before := if task.preloading then preloadingCache else visibleCache;
            var after := if task.preloading then r.preloadingCache else r.visibleCache;
            var bm := env.decodeBitmap(src.data).value;
            && r.LoadReturned? && r.refresh
            && key in after && after[key].value.RasterTile?
            && after[key].value.tile.id == VtTile.VtTileId(task.tile.zoom, task.tile.x, task.tile.y)
            && after[key].value == RasterTile(CreateVectorTile(task.tile, TileBitmapFor(env, task, task.dataSourceTiles[i], bm), env.toRgba))
            && after[key].size == ExtraTileFootprint + env.residentSize(after[key].value.tile)
            && (forall t :: Valid(after, key, t) <==> src.maxAge < 0 || t < env.now + src.maxAge)
            && (forall k :: k in before && k != key ==> k in after && after[k] == before[k])
  {
  }

  /** The raster layer's own tile is served exactly when the first data-source tile is the task's tile. */
  lemma {:induction false} ServedTileIsTaskTile(env: LoadEnv, task: FetchTask, minZoom: int, maxZoom: int, bm: Bitmap)
    requires task.dataSourceTiles == DataSourceTiles(task.tile, minZoom, maxZoom)
    requires minZoom <= task.tile.zoom <= maxZoom
    ensures |task.dataSourceTiles| > 0 && task.dataSourceTiles[0] == task.tile
    ensures TileBitmapFor(env, task, task.dataSourceTiles[0], bm) == bm
  {
  }
}

=== FILE: routing.dfy ===
/**
 * The routing result vocabulary shared by the Valhalla and OSRM proxies: the
 * SDK's RoutingAction enumeration and the RoutingInstruction record that a
 * route is made of.
 */
module Routing {

  datatype RoutingAction =
    | NoTurn
    | GoStraight
    | TurnRight
    | UTurn
    | TurnLeft
    | ReachViaLocation
    | HeadOn
    | EnterRoundabout
    | LeaveRoundabout
    | StayOnRoundabout
    | StartAtEndOfStreet
    | Finish
    | EnterAgainstAllowedDirection
    | LeaveAgainstAllowedDirection

  /**
   * One instruction of a route. The turn angle and azimuth the SDK computes
   * from projected floating-point geometry are not part of this model;
   * distance and time are exact reals.
   */
  datatype RoutingInstruction = RoutingInstruction(
    action: RoutingAction,
    pointIndex: int,
    streetName: string,
    distance: real,
    time: real)

  /** Sum of the times of a list of instructions. */
  function TotalTime(instrs: seq<RoutingInstruction>): real {
    if |instrs| == 0 then 0.0 else TotalTime(instrs[..|instrs| - 1]) + instrs[|instrs| - 1].time
  }

  /** Sum of the distances of a list of instructions. */
  function TotalDistance(instrs: seq<RoutingInstruction>): real {
    if |instrs| == 0 then 0.0 else TotalDistance(instrs[..|instrs| - 1]) + instrs[|instrs| - 1].distance
  }

  /**
   * Folds a skipped instruction into the one emitted before it: its time and
   * distance are added to the last instruction, or dropped when there is none.
   */
  function AddToLast(instrs: seq<RoutingInstruction>, time: real, distance: real): (r: seq<RoutingInstruction>)
    ensures |r| == |instrs|
    ensures forall k :: 0 <= k < |r| ==>
              && r[k].action == instrs[k].action
              && r[k].pointIndex == instrs[k].pointIndex
              && r[k].streetName == instrs[k].streetName
    ensures forall k :: 0 <= k < |r| - 1 ==> r[k] == instrs[k]
  {
    if |instrs| == 0 then instrs
    else
      var last := instrs[|instrs| - 1];
      instrs[..|instrs| - 1] + [last.(time := last.time + time, distance := last.distance + distance)]
  }

  /** Nothing is lost when there is a previous instruction: the totals grow by exactly what was added. */
  lemma {:induction false} AddToLastTotals(instrs: seq<RoutingInstruction>, time: real, distance: real)
    requires |instrs| > 0
    ensures TotalTime(AddToLast(instrs, time, distance)) == TotalTime(instrs) + time
    ensures TotalDistance(AddToLast(instrs, time, distance)) == TotalDistance(instrs) + distance
  {
    var r := AddToLast(instrs, time, distance);
    assert r[..|r| - 1] == instrs[..|instrs| - 1];
  }
}

=== FILE: routing_service_config.dfy ===
/**
 * The offline Valhalla routing service's own state: the routing profile,
 * the JSON routing configuration addressed by dot-separated parameter
 * paths, and the cached list of routing package databases. Routing itself
 * and the package manager are not part of this model.
 */
module PackageManagerValhallaRoutingService {
  import opened Wrappers

  /** A JSON value; numbers are kept as integers, which is all the path logic needs. */
  datatype Json =
    | JNull
    | JBool(b: bool)
    | JNumber(n: int)
    | JString(s: string)
    | JArray(items: seq<Json>)
    | JObject(fields: map<string, Json>)

  /** Member lookup on an object: a missing key reads as null. */
  function Member(fields: map<string, Json>, key: string): (r: Json)
    ensures key !in fields ==> r == JNull
  {
    if key in fields then fields[key] else JNull
  }

  // ---------------------------------------------------------------------------
  // Splitting a parameter path
  // ---------------------------------------------------------------------------

  /** Splits on every '.', keeping empty pieces: "a..b" gives ["a", "", "b"], "" gives [""]. */
  function Split(s: string): (keys: seq<string>)
    ensures |keys| >= 1
    ensures forall i :: 0 <= i < |keys| ==> '.' !in keys[i]
    decreases |s|
  {
    if |s| == 0 then [""]
    else
      var rest := Split(s[1..]);
      if s[0] == '.' then [""] + rest
      else [[s[0]] + rest[0]] + rest[1..]
  }

  /** Joins pieces with '.' between them. */
  function Join(keys: seq<string>): string
    requires |keys| >= 1
    decreases |keys|
  {
    if |keys| == 1 then keys[0] else keys[0] + "." + Join(keys[1..])
  }

  /** Splitting loses nothing: joining the pieces gives the path back. */
  lemma {:induction false} JoinSplit(s: string)
    ensures Join(Split(s)) == s
    decreases |s|
  {
    if |s| > 0 {
      JoinSplit(s[1..]);
      var rest := Split(s[1..]);
      if s[0] == '.' {
        assert Join([""] + rest) == "" + "." + Join(rest);
      } else if |rest| == 1 {
        assert Split(s) == [[s[0]] + rest[0]];
      } else {
        var keys := Split(s);
        assert keys[1..] == rest[1..];
        assert Join(rest) == rest[0] + "." + Join(rest[1..]);
      }
      assert s == [s[0]] + s[1..];
    }
  }

  /** Pieces without dots split back into themselves. */
  lemma {:induction false} SplitJoin(keys: seq<string>)
    requires |keys| >= 1 && forall i :: 0 <= i < |keys| ==> '.' !in keys[i]
    ensures Split(Join(keys)) == keys
    decreases |keys|, |keys[0]|
  {
    if |keys| == 1 {
      SplitNoDot(keys[0]);
    } else if |keys[0]| == 0 {
      SplitJoin(keys[1..]);
      assert Join(keys) == "." + Join(keys[1..]);
      assert Join(keys)[1..] == Join(keys[1..]);
    } else {
      var k0 := keys[0];
      var shorter := [k0[1..]] + keys[1..];
      assert forall i :: 1 <= i < |shorter| ==> shorter[i] == keys[i];
      assert '.' !in shorter[0] by { assert forall c :: c in k0[1..] ==> c in k0; }
      SplitJoin(shorter);
      assert Join(keys)[1..] == Join(shorter);
      assert Join(keys)[0] == k0[0];
      assert k0 == [k0[0]] + k0[1..];
    }
  }

  lemma {:induction false} SplitNoDot(s: string)
    requires '.' !in s
    ensures Split(s) == [s]
    decreases |s|
  {
    if |s| > 0 {
      assert '.' !in s[1..] by { assert forall c :: c in s[1..] ==> c in s; }
      SplitNoDot(s[1..]);
      assert s == [s[0]] + s[1..];
    }
  }

  // ---------------------------------------------------------------------------
  // get / set along a key path
  // ---------------------------------------------------------------------------

  /**
   * getConfigurationParameter's walk: at each key the current value must be
   * an object (else the answer is null); the member (null when missing)
   * becomes the current value.
   */
  function GetPath(v: Json, keys: seq<string>): (r: Json)
    ensures |keys| > 0 && !v.JObject? ==> r == JNull
    decreases |keys|
  {
    if |keys| == 0 then v
    else if !v.JObject? then JNull
    else GetPath(Member(v.fields, keys[0]), keys[1..])
  }

  /**
   * setConfigurationParameter's walk: a non-object on the way is replaced by
   * an empty object, a missing member is created, and the last one is
   * assigned the value.
   */
  function SetPath(v: Json, keys: seq<string>, value: Json): (r: Json)
    ensures |keys| > 0 ==> r.JObject? && keys[0] in r.fields
    ensures |keys| > 0 && v.JObject? ==> forall k :: k in v.fields && k != keys[0] ==> k in r.fields && r.fields[k] == v.fields[k]
    ensures |keys| > 0 && v.JObject? ==> r.fields.Keys == v.fields.Keys + {keys[0]}
    ensures |keys| > 0 && !v.JObject? ==> r.fields.Keys == {keys[0]}
    decreases |keys|
  {
    if |keys| == 0 then value
    else
      var fields := if v.JObject? then v.fields else map[];
      JObject(fields[keys[0] := SetPath(Member(fields, keys[0]), keys[1..], value)])
  }

  /** Reading a path right after writing it gives the value written. */
  lemma {:induction false} GetAfterSet(v: Json, keys: seq<string>, value: Json)
    ensures GetPath(SetPath(v, keys, value), keys) == value
    decreases |keys|
  {
    if |keys| > 0 {
      var fields := if v.JObject? then v.fields else map[];
      GetAfterSet(Member(fields, keys[0]), keys[1..], value);
    }
  }

  /**
   * Every value along the first `depth` keys of the path is an object: the
   * intermediates whose siblings a write keeps.
   */
  ghost predicate ObjectsAlong(v: Json, keys: seq<string>, depth: nat)
    requires depth <= |keys|
    decreases depth
  {
    v.JObject? && (depth == 0 || ObjectsAlong(Member(v.fields, keys[0]), keys[1..], depth - 1))
  }

  /**
   * Writing one path leaves every other path that leaves it at position
   * `j` untouched, provided the values along the shared part were objects.
   */
  lemma {:induction false} GetAfterSetOther(v: Json, keys: seq<string>, other: seq<string>, j: nat, value: Json)
    requires j < |keys| && j < |other| && keys[..j] == other[..j] && keys[j] != other[j]
    requires ObjectsAlong(v, keys, j)
    ensures GetPath(SetPath(v, keys, value), other) == GetPath(v, other)
    decreases j
  {
    if j > 0 {
      assert keys[0] == other[0] by { assert keys[..j][0] == other[..j][0]; }
      assert keys[1..][..j - 1] == other[1..][..j - 1] by {
        assert keys[1..][..j - 1] == keys[..j][1..] && other[1..][..j - 1] == other[..j][1..];
      }
      GetAfterSetOther(Member(v.fields, keys[0]), keys[1..], other[1..], j - 1, value);
    }
  }

  // ---------------------------------------------------------------------------
  // The service
  // ---------------------------------------------------------------------------

  /** A routing package database handle. */
  datatype Database = Database(handle: nat)

  datatype Service = Service(profile: string, configuration: Json, cachedDatabases: seq<Database>)

  /** The constructor: a null package manager throws NullArgument; the profile starts as "pedestrian". */
  function Create(packageManagerPresent: bool, defaultConfiguration: Json): (r: Result<Service, SdkError>)
    ensures !packageManagerPresent <==> r.Failure?
    ensures r.Failure? ==> r.error.NullArgument?
    ensures r.Success? ==> r.value.profile == "pedestrian" && r.value.configuration == defaultConfiguration
                           && r.value.cachedDatabases == []
  {
    if !packageManagerPresent then Failure(NullArgument("Null packageManager"))
    else Success(Service("pedestrian", defaultConfiguration, []))
  }

  function SetProfile(s: Service, profile: string): (r: Service)
    ensures r.profile == profile
    ensures r.configuration == s.configuration && r.cachedDatabases == s.cachedDatabases
  {
    s.(profile := profile)
  }

  /** getConfigurationParameter: the value at the dot-separated path, null where the path leaves the objects. */
  function GetConfigurationParameter(s: Service, param: string): (r: Json)
    ensures !s.configuration.JObject? ==> r == JNull
  {
    GetPath(s.configuration, Split(param))
  }

  /** setConfigurationParameter: writes the value at the dot-separated path; nothing but the configuration changes. */
  function SetConfigurationParameter(s: Service, param: string, value: Json): (r: Service)
    ensures r.configuration.JObject?
    ensures r.profile == s.profile && r.cachedDatabases == s.cachedDatabases
  {
    s.(configuration := SetPath(s.configuration, Split(param), value))
  }

  /** get after set of the same parameter returns the value set. */
  lemma {:induction false} GetAfterSetParameter(s: Service, param: string, value: Json)
    ensures GetConfigurationParameter(SetConfigurationParameter(s, param, value), param) == value
  {
    GetAfterSet(s.configuration, Split(param), value);
  }

  /**
   * matchRoute / calculateRoute: a null request throws NullArgument;
   * otherwise the databases of the installed routing packages become the
   * cached list the route is computed with.
   */
  function PrepareRouting<Request>(s: Service, request: Option<Request>, packageDatabases: seq<Database>)
    : (r: Result<Service, SdkError>)
    ensures request.None? <==> r.Failure?
    ensures r.Failure? ==> r.error.NullArgument?
    ensures r.Success? ==> r.value.cachedDatabases == packageDatabases
                           && r.value.profile == s.profile && r.value.configuration == s.configuration
  {
    if request.None? then Failure(NullArgument("Null request"))
    else Success(s.(cachedDatabases := packageDatabases))
  }

  /** The package manager's change notification empties the cached database list. */
  function OnPackagesChanged(s: Service): (r: Service)
    ensures r.cachedDatabases == []
    ensures r.profile == s.profile && r.configuration == s.configuration
  {
    s.(cachedDatabases := [])
  }
}

=== FILE: thread_pool.dfy ===
/**
 * CancelableThreadPool as a single-threaded state machine. The queue is a
 * priority queue of task records; workers are records with a busy flag and
 * the priority of the task they run. Threads, the mutex and the condition
 * variable are not modelled: each operation is one critical section.
 */
module CancelableThreadPool {

  const DefaultPriority: int := 0

  /** Tasks are identified by an id; their bodies are not part of the model. */
  type TaskId = nat

  datatype TaskRecord = TaskRecord(task: TaskId, priority: int, sequence: int)

  /**
   * TaskRecord::operator<: a record ranks below another when its priority is
   * lower, or, at equal priority, when it was submitted later. The queue
   * hands out the record nothing ranks above.
   */
  predicate Below(a: TaskRecord, b: TaskRecord) {
    if a.priority != b.priority then a.priority < b.priority else a.sequence > b.sequence
  }

  /** Index i holds the top of the queue: no record ranks above it. */
  predicate IsTop(queue: seq<TaskRecord>, i: int) {
    0 <= i < |queue| && forall j :: 0 <= j < |queue| ==> !Below(queue[i], queue[j])
  }

  datatype Worker = Worker(id: nat, busy: bool, currentPriority: int)

  datatype Pool = Pool(
    poolSize: int,
    taskCount: int,
    stop: bool,
    queue: seq<TaskRecord>,
    workers: seq<Worker>,
    threads: nat,
    nextWorkerId: nat,
    canceled: set<TaskId>)

  /**
   * What every reachable pool satisfies: one thread per worker, queued
   * sequence numbers distinct and below the task counter, worker ids
   * distinct and below the id allocator.
   */
  ghost predicate Valid(p: Pool) {
    && p.threads == |p.workers|
    && p.taskCount >= 0
    && (forall i :: 0 <= i < |p.queue| ==> 0 <= p.queue[i].sequence < p.taskCount)
    && (forall i, j :: 0 <= i < |p.queue| && 0 <= j < |p.queue| && i != j ==> p.queue[i].sequence != p.queue[j].sequence)
    && (forall i :: 0 <= i < |p.workers| ==> p.workers[i].id < p.nextWorkerId)
    && (forall i, j :: 0 <= i < |p.workers| && 0 <= j < |p.workers| && i != j ==> p.workers[i].id != p.workers[j].id)
  }

  /** The constructor: no workers, no tasks, pool size 0. */
  function Init(): (p: Pool)
    ensures Valid(p) && !p.stop && |p.queue| == 0 && |p.workers| == 0
  {
    Pool(0, 0, false, [], [], 0, 0, {})
  }

  /** A new idle worker with a fresh id, and its thread. */
  function AddWorker(p: Pool): (r: Pool)
    requires Valid(p)
    ensures Valid(r)
    ensures r.workers == p.workers + [Worker(p.nextWorkerId, false, DefaultPriority)]
    ensures r.queue == p.queue && r.poolSize == p.poolSize && r.stop == p.stop
    ensures r.taskCount == p.taskCount && r.canceled == p.canceled
  {
    p.(workers := p.workers + [Worker(p.nextWorkerId, false, DefaultPriority)],
       threads := p.threads + 1,
       nextWorkerId := p.nextWorkerId + 1)
  }

  /**
   * The createWorker scan of execute: true exactly when every worker is busy
   * with a task of strictly lower priority (so also when there is no worker).
   */
  method AllBusyBelow(workers: seq<Worker>, priority: int) returns (create: bool)
    ensures create <==> forall i :: 0 <= i < |workers| ==> workers[i].busy && workers[i].currentPriority < priority
  {
    create := true;
    var i := 0;
    while i < |workers|
      invariant 0 <= i <= |workers|
      invariant forall k :: 0 <= k < i ==> workers[k].busy && workers[k].currentPriority < priority
    {
      if !workers[i].busy || workers[i].currentPriority >= priority {
        create := false;
        return;
      }
      i := i + 1;
    }
  }

  /**
   * execute(task, priority): a canceled task, or any task after stop, is
   * dropped. Otherwise the record (task, priority, taskCount) joins the
   * queue, the counter advances, and a worker is added when every existing
   * worker is busy with lower-priority work.
   */
  method Execute(p: Pool, task: TaskId, priority: int) returns (r: Pool)
    requires Valid(p)
    ensures Valid(r)
    ensures task in p.canceled || p.stop ==> r == p
    ensures !(task in p.canceled || p.stop) ==>
              && r.queue == p.queue + [TaskRecord(task, priority, p.taskCount)]
              && r.taskCount == p.taskCount + 1
              && r.poolSize == p.poolSize && r.stop == p.stop && r.canceled == p.canceled
              && |p.workers| <= |r.workers| <= |p.workers| + 1
              && r.workers[..|p.workers|] == p.workers
              && (|r.workers| == |p.workers| + 1 <==>
                    forall i :: 0 <= i < |p.workers| ==> p.workers[i].busy && p.workers[i].currentPriority < priority)
  {
    if task in p.canceled || p.stop {
      return p;
    }
    r := p.(queue := p.queue + [TaskRecord(task, priority, p.taskCount)], taskCount := p.taskCount + 1);
    assert Valid(r) by {
      forall i | 0 <= i < |r.queue|
        ensures 0 <= r.queue[i].sequence < r.taskCount
      {
        if i < |p.queue| {
          assert r.queue[i] == p.queue[i];
        }
      }
    }
    var create := AllBusyBelow(p.workers, priority);
    if create {
      r := AddWorker(r);
    }
    assert r.workers[..|p.workers|] == p.workers;
  }

  /** Adds `count` workers. */
  method AddWorkers(p: Pool, count: nat) returns (r: Pool)
    requires Valid(p)
    ensures Valid(r)
    ensures |r.workers| == |p.workers| + count && r.workers[..|p.workers|] == p.workers
    ensures r.queue == p.queue && r.poolSize == p.poolSize && r.stop == p.stop
    ensures r.taskCount == p.taskCount && r.canceled == p.canceled
  {
    r := p;
    var i := 0;
    while i < count
      invariant 0 <= i <= count
      invariant Valid(r)
      invariant |r.workers| == |p.workers| + i && r.workers[..|p.workers|] == p.workers
      invariant r.queue == p.queue && r.poolSize == p.poolSize && r.stop == p.stop
      invariant r.taskCount == p.taskCount && r.canceled == p.canceled
    {
      var before := r.workers;
      r := AddWorker(r);
      assert r.workers[..|p.workers|] == before[..|p.workers|];
      i := i + 1;
    }
  }

  /**
   * setPoolSize(n): does nothing after stop; otherwise adds one worker for
   * each step from the old pool size up to n (none when n is not larger)
   * and records n. Workers are never removed here.
   */
  method SetPoolSize(p: Pool, n: int) returns (r: Pool)
    requires Valid(p)
    ensures Valid(r)
    ensures p.stop ==> r == p
    ensures !p.stop ==>
              && r.poolSize == n
              && |r.workers| == |p.workers| + (if n > p.poolSize then n - p.poolSize else 0)
              && r.workers[..|p.workers|] == p.workers
              && r.queue == p.queue && r.canceled == p.canceled && r.taskCount == p.taskCount
  {
    if p.stop {
      return p;
    }
    r := AddWorkers(p, if n > p.poolSize then n - p.poolSize else 0);
    r := r.(poolSize := n);
  }

  /** The index of the queue's top record; the queue must not be empty. */
  method TopIndex(queue: seq<TaskRecord>) returns (t: nat)
    requires |queue| > 0
    ensures IsTop(queue, t)
  {
    t := 0;
    var i := 1;
    while i < |queue|
      invariant 0 <= t < i <= |queue|
      invariant forall j :: 0 <= j < i ==> !Below(queue[t], queue[j])
    {
      if Below(queue[t], queue[i]) {
        t := i;
      }
      i := i + 1;
    }
  }

  /** The queue without the record at index i. */
  function RemoveAt(queue: seq<TaskRecord>, i: nat): (r: seq<TaskRecord>)
    requires i < |queue|
    ensures |r| == |queue| - 1
    ensures multiset(r) + multiset{queue[i]} == multiset(queue)
  {
    assert queue == queue[..i] + [queue[i]] + queue[i + 1..];
    queue[..i] + queue[i + 1..]
  }

  /**
   * getNextTask: false on an empty queue; otherwise the top record leaves
   * the queue and its task and priority are returned.
   */
  method GetNextTask(p: Pool) returns (r: Pool, found: bool, task: TaskId, priority: int)
    requires Valid(p)
    ensures Valid(r)
    ensures found <==> |p.queue| > 0
    ensures !found ==> r == p && priority == DefaultPriority
    ensures found ==> exists t :: IsTop(p.queue, t) && p.queue[t].task == task && p.queue[t].priority == priority
                                  && multiset(r.queue) + multiset{p.queue[t]} == multiset(p.queue)
    ensures r.workers == p.workers && r.stop == p.stop && r.poolSize == p.poolSize && r.canceled == p.canceled
  {
    if |p.queue| == 0 {
      return p, false, 0, DefaultPriority;
    }
    var t := TopIndex(p.queue);
    r := p.(queue := RemoveAt(p.queue, t));
    found, task, priority := true, p.queue[t].task, p.queue[t].priority;
    assert Valid(r) by {
      assert forall i :: 0 <= i < |r.queue| ==> r.queue[i] == (if i < t then p.queue[i] else p.queue[i + 1]);
    }
  }

  /**
   * Dequeue order: a record is never handed out while another record of
   * higher priority, or of equal priority and earlier submission, waits.
   */
  lemma {:induction false} TopOrder(queue: seq<TaskRecord>, t: nat, j: nat)
    requires IsTop(queue, t) && j < |queue|
    ensures queue[j].priority <= queue[t].priority
    ensures queue[j].priority == queue[t].priority ==> queue[t].sequence <= queue[j].sequence
  {
    assert !Below(queue[t], queue[j]);
  }

  /** With distinct sequence numbers the top record is unique. */
  lemma {:induction false} TopIsUnique(p: Pool, t: nat, u: nat)
    requires Valid(p) && IsTop(p.queue, t) && IsTop(p.queue, u)
    ensures t == u
  {
    assert !Below(p.queue[t], p.queue[u]) && !Below(p.queue[u], p.queue[t]);
  }

  /** The task ids of a queue's records. */
  function TasksOf(queue: seq<TaskRecord>): set<TaskId> {
    set i | 0 <= i < |queue| :: queue[i].task
  }

  lemma {:induction false} TasksOfRemoveAt(queue: seq<TaskRecord>, t: nat)
    requires t < |queue|
    ensures TasksOf(RemoveAt(queue, t)) + {queue[t].task} == TasksOf(queue)
  {
    var rest := RemoveAt(queue, t);
    assert forall k :: 0 <= k < |rest| ==> rest[k] == (if k < t then queue[k] else queue[k + 1]);
    forall x | x in TasksOf(queue)
      ensures x in TasksOf(rest) + {queue[t].task}
    {
      var k :| 0 <= k < |queue| && queue[k].task == x;
      if k < t {
        assert rest[k].task == x;
      } else if k > t {
        assert rest[k - 1].task == x;
      }
    }
  }

  /**
   * cancelAll: pops every queued record, in queue order, and cancels its
   * task. Tasks already taken by a worker are not touched.
   */
  method CancelAll(p: Pool) returns (r: Pool)
    requires Valid(p)
    ensures Valid(r)
    ensures |r.queue| == 0
    ensures r.canceled == p.canceled + TasksOf(p.queue)
    ensures r.workers == p.workers && r.stop == p.stop && r.poolSize == p.poolSize && r.taskCount == p.taskCount
  {
    r := p;
    var size := |p.queue|;
    var i := 0;
    while i < size
      invariant 0 <= i <= size && |r.queue| == size - i
      invariant Valid(r)
      invariant r.canceled + TasksOf(r.queue) == p.canceled + TasksOf(p.queue)
      invariant p.canceled <= r.canceled
      invariant r.workers == p.workers && r.stop == p.stop && r.poolSize == p.poolSize && r.taskCount == p.taskCount
    {
      var t := TopIndex(r.queue);
      CancelOneValid(r, t);
      r := CancelOne(r, t);
      i := i + 1;
    }
  }

  /** One step of cancelAll: the record at `t` leaves the queue and its task is canceled. */
  function CancelOne(p: Pool, t: nat): Pool
    requires t < |p.queue|
  {
    p.(queue := RemoveAt(p.queue, t), canceled := p.canceled + {p.queue[t].task})
  }

  lemma {:induction false} CancelOneValid(p: Pool, t: nat)
    requires Valid(p) && t < |p.queue|
    ensures Valid(CancelOne(p, t))
    ensures CancelOne(p, t).canceled + TasksOf(CancelOne(p, t).queue) == p.canceled + TasksOf(p.queue)
  {
    var rest := RemoveAt(p.queue, t);
    assert forall k :: 0 <= k < |rest| ==> rest[k] == p.queue[Skip(k, t)];
    forall i, j | 0 <= i < |rest| && 0 <= j < |rest| && i != j
      ensures rest[i].sequence != rest[j].sequence
    {
      assert Skip(i, t) != Skip(j, t);
    }
    TasksOfRemoveAt(p.queue, t);
  }

  /** Index k of a sequence with position t removed, as an index of the original. */
  function Skip(k: nat, t: nat): (j: nat)
    ensures j == k || j == k + 1
    ensures k < t <==> j < t
  {
    if k < t then k else k + 1
  }

  /**
   * deinit: sets stop, cancels every queued task, and forgets all workers
   * and threads (the threads are detached).
   */
  method Deinit(p: Pool) returns (r: Pool)
    requires Valid(p)
    ensures Valid(r)
    ensures r.stop && |r.queue| == 0 && |r.workers| == 0 && r.threads == 0
    ensures r.canceled == p.canceled + TasksOf(p.queue)
  {
    r := CancelAll(p.(stop := true));
    r := r.(workers := [], threads := 0);
  }

  /** After deinit, execute and setPoolSize change nothing. */
  method StoppedPoolIgnoresCalls(p: Pool, task: TaskId, priority: int, n: int) returns (a: Pool, b: Pool)
    requires Valid(p)
    ensures a.stop && b.stop
    ensures a.queue == [] && a.workers == [] && b.queue == [] && b.workers == []
  {
    var d := Deinit(p);
    a := Execute(d, task, priority);
    b := SetPoolSize(d, n);
  }

  /**
   * shouldTerminateWorker: true when stopped. With more threads than the
   * pool size, the worker (found by identity) and its thread are removed and
   * the answer is true. Otherwise the answer is false and nothing changes.
   */
  method ShouldTerminateWorker(p: Pool, workerId: nat) returns (r: Pool, terminate: bool)
    requires Valid(p)
    ensures Valid(r)
    ensures p.stop ==> terminate && r == p
    ensures !p.stop && p.threads <= p.poolSize ==> !terminate && r == p
    ensures !p.stop && p.threads > p.poolSize ==>
              && terminate
              && r.queue == p.queue && r.poolSize == p.poolSize && r.stop == p.stop
              && (forall i :: 0 <= i < |r.workers| ==> r.workers[i].id != workerId)
              && (forall w :: w in p.workers && w.id != workerId ==> w in r.workers)
              && (forall w :: w in r.workers ==> w in p.workers)
              && |r.workers| == |p.workers| - (if exists i :: 0 <= i < |p.workers| && p.workers[i].id == workerId then 1 else 0)
  {
    if p.stop {
      return p, true;
    }
    if p.threads <= p.poolSize {
      return p, false;
    }
    terminate := true;
    r := p;
    var index := 0;
    while index < |p.workers|
      invariant 0 <= index <= |p.workers|
      invariant forall k :: 0 <= k < index ==> p.workers[k].id != workerId
    {
      if p.workers[index].id == workerId {
        DropWorkerSpec(p, index);
        r := DropWorker(p, index);
        return;
      }
      index := index + 1;
    }
  }

  /** The pool without the worker at `index` and its thread. */
  function DropWorker(p: Pool, index: nat): Pool
    requires index < |p.workers| && p.threads == |p.workers|
  {
    p.(workers := p.workers[..index] + p.workers[index + 1..], threads := p.threads - 1)
  }

  /** Dropping the worker with a given id removes exactly that worker. */
  lemma {:induction false} DropWorkerSpec(p: Pool, index: nat)
    requires Valid(p) && index < |p.workers|
    ensures Valid(DropWorker(p, index))
    ensures forall i :: 0 <= i < |DropWorker(p, index).workers| ==> DropWorker(p, index).workers[i].id != p.workers[index].id
    ensures forall w :: w in p.workers && w.id != p.workers[index].id ==> w in DropWorker(p, index).workers
    ensures forall w :: w in DropWorker(p, index).workers ==> w in p.workers
    ensures |DropWorker(p, index).workers| == |p.workers| - 1
  {
    var ws := DropWorker(p, index).workers;
    assert forall k :: 0 <= k < |ws| ==> ws[k] == (if k < index then p.workers[k] else p.workers[k + 1]);
    assert p.workers == p.workers[..index] + [p.workers[index]] + p.workers[index + 1..];
  }

  /** Worker ids are distinct, so the worker with a given id sits at one index. */
  function SetWorkerState(workers: seq<Worker>, workerId: nat, busy: bool, priority: int): (r: seq<Worker>)
    ensures |r| == |workers|
    ensures forall i :: 0 <= i < |r| ==> r[i].id == workers[i].id
    ensures forall i :: 0 <= i < |r| && workers[i].id == workerId ==> r[i].busy == busy && r[i].currentPriority == priority
    ensures forall i :: 0 <= i < |r| && workers[i].id != workerId ==> r[i] == workers[i]
  {
    if |workers| == 0 then []
    else
      var w := workers[0];
      [if w.id == workerId then w.(busy := busy, currentPriority := priority) else w]
        + SetWorkerState(workers[1..], workerId, busy, priority)
  }

  datatype WorkerOutcome = Exited | Running(task: TaskId, priority: int) | Waiting

  /**
   * One pass of the worker loop: exit when stopped; otherwise take the next
   * task and mark the worker busy with its priority; with nothing queued,
   * ask whether to terminate, else wait for a notification.
   */
  method WorkerStep(p: Pool, workerId: nat) returns (r: Pool, outcome: WorkerOutcome)
    requires Valid(p)
    ensures Valid(r)
    ensures p.stop ==> outcome == Exited && r == p
    ensures !p.stop && |p.queue| > 0 ==>
              && outcome.Running?
              && (exists t :: IsTop(p.queue, t) && p.queue[t].task == outcome.task && p.queue[t].priority == outcome.priority)
              && |r.queue| == |p.queue| - 1
              && forall i :: 0 <= i < |r.workers| && r.workers[i].id == workerId ==>
                   r.workers[i].busy && r.workers[i].currentPriority == outcome.priority
    ensures !p.stop && |p.queue| == 0 ==> !outcome.Running?
  {
    if p.stop {
      return p, Exited;
    }
    var found, task, priority;
    r, found, task, priority := GetNextTask(p);
    if found {
      assert |multiset(r.queue)| + 1 == |multiset(p.queue)|;
      r := r.(workers := SetWorkerState(r.workers, workerId, true, priority));
      return r, Running(task, priority);
    }
    var terminate;
    r, terminate := ShouldTerminateWorker(r, workerId);
    outcome := if terminate then Exited else Waiting;
  }

  /** The worker finished its task: idle again, back at the default priority. */
  function FinishTask(p: Pool, workerId: nat): (r: Pool)
    requires Valid(p)
    ensures Valid(r)
    ensures forall i :: 0 <= i < |r.workers| && r.workers[i].id == workerId ==>
              !r.workers[i].busy && r.workers[i].currentPriority == DefaultPriority
    ensures r.queue == p.queue && |r.workers| == |p.workers|
  {
    p.(workers := SetWorkerState(p.workers, workerId, false, DefaultPriority))
  }
}

=== FILE: tile_cache.dfy ===
/**
 * The keyed tile caches of the tile layers, as the abstract store the layers
 * use: exists, valid, get, put, move, invalidate, invalidate_all, keys and
 * clear. The cache implementation itself (LRU order, capacity eviction) is
 * not part of this model; time is an explicit `now` argument.
 */
module TileCache {
  import opened Wrappers

  /** A cached value, its cost, and the time it stops being valid, if any. */
  datatype Entry<V> = Entry(value: V, size: nat, expiresAt: Option<int>)

  type Cache<K, V> = map<K, Entry<V>>

  predicate Exists<K, V>(c: Cache<K, V>, k: K) {
    k in c
  }

  /** An entry is valid while it exists and its expiry time, if any, lies in the future. */
  predicate Valid<K, V>(c: Cache<K, V>, k: K, now: int)
    ensures Valid(c, k, now) ==> Exists(c, k)
  {
    k in c && (c[k].expiresAt.None? || now < c[k].expiresAt.value)
  }

  /** `get` / `read`: the value if present. Marking the entry as recently used is not modelled. */
  function Get<K, V>(c: Cache<K, V>, k: K): (r: Option<V>)
    ensures r.Some? <==> Exists(c, k)
    ensures r.Some? ==> r.value == c[k].value
  {
    if k in c then Some(c[k].value) else None
  }

  /** `put`: stores a fresh entry with no expiry, replacing any previous one. */
  function Put<K, V>(c: Cache<K, V>, k: K, v: V, size: nat): (r: Cache<K, V>)
    ensures forall now :: Valid(r, k, now)
    ensures Get(r, k) == Some(v)
    ensures r.Keys == c.Keys + {k}
    ensures forall k' :: k' in c && k' != k ==> r[k'] == c[k']
  {
    c[k := Entry(v, size, None)]
  }

  /** `invalidate(k, t)`: the entry, if present, expires at t. */
  function Invalidate<K, V>(c: Cache<K, V>, k: K, t: int): (r: Cache<K, V>)
    ensures r.Keys == c.Keys
    ensures k in c ==> forall now :: Valid(r, k, now) <==> now < t
    ensures forall k' :: k' in c && k' != k ==> r[k'] == c[k']
  {
    if k in c then c[k := c[k].(expiresAt := Some(t))] else c
  }

  /** `invalidate_all(t)`: every entry expires at t; nothing is removed. */
  function InvalidateAll<K, V>(c: Cache<K, V>, t: int): (r: Cache<K, V>)
    ensures r.Keys == c.Keys
    ensures forall k, now :: k in r && now >= t ==> !Valid(r, k, now)
    ensures forall k :: k in r ==> r[k].value == c[k].value
  {
    map k | k in c :: c[k].(expiresAt := Some(t))
  }

  /**
   * `move(k, other)`: the entry leaves this cache and lands in the other one,
   * unchanged; a missing key moves nothing.
   */
  function Move<K, V>(src: Cache<K, V>, dst: Cache<K, V>, k: K): (r: (Cache<K, V>, Cache<K, V>))
    ensures k in src ==> r.0 == src - {k} && r.1 == dst[k := src[k]]
    ensures k !in src ==> r == (src, dst)
  {
    if k in src then (src - {k}, dst[k := src[k]]) else (src, dst)
  }

  /** Moving never loses or invents a key: the union of the two key sets is unchanged. */
  lemma {:induction false} MoveKeepsKeys<K, V>(src: Cache<K, V>, dst: Cache<K, V>, k: K)
    ensures Move(src, dst, k).0.Keys + Move(src, dst, k).1.Keys == src.Keys + dst.Keys
    ensures k in src ==> k !in Move(src, dst, k).0 && k in Move(src, dst, k).1
  {
  }

  function Keys<K, V>(c: Cache<K, V>): set<K> {
    c.Keys
  }

  function Clear<K, V>(c: Cache<K, V>): (r: Cache<K, V>)
    ensures Keys(r) == {}
  {
    map[]
  }
}

=== FILE: tile_layer.dfy ===
/**
 * The state of a tile layer and the operations that change it: the two tile
 * caches (visible and preloading), the registry of in-flight fetch tasks,
 * the tasks handed to the tile thread pool, and the per-frame draw list.
 *
 * The vector and raster layers share this state machine; they differ in how
 * a tile is keyed (LayerKind), in what a cache entry holds, and in how a
 * fetched tile is loaded (modules VectorTileLayer and RasterTileLayer).
 * Time is an explicit argument; threads are not modelled, so every
 * operation runs to completion before the next one starts.
 */
module TileLayer {
  import opened Wrappers
  import opened Tiles
  import opened TileCache
  import opened TileSearch
  import VtTile

  /** Priority added to preloading fetches. */
  const PreloadingPriorityOffset: int := -2
  /** Fixed bookkeeping cost added to every cached tile's size. */
  const ExtraTileFootprint: nat := 4096

  /** A vector layer, with or without tile-map (animation) mode, or a raster layer. */
  datatype LayerKind = VectorLayer(useTileMapMode: bool) | RasterLayer

  /**
   * The key a tile is cached and registered under: VectorTileLayer::getTileId
   * (frame number dropped in tile-map mode) or MapTile::getTileId.
   */
  function CacheKey(kind: LayerKind, tile: MapTile): TileId {
    if kind.VectorLayer? && kind.useTileMapMode then TileId(WithFrame(tile, 0)) else TileId(tile)
  }

  /** The tile a new fetch task is created for: vector layers always load frame 0. */
  function TaskTile(kind: LayerKind, tile: MapTile): (r: MapTile)
    ensures r.x == tile.x && r.y == tile.y && r.zoom == tile.zoom
  {
    if kind.VectorLayer? then WithFrame(tile, 0) else tile
  }

  // ---------------------------------------------------------------------------
  // Fetch tasks
  // ---------------------------------------------------------------------------

  /** FetchTaskBase: the requested tile, the data-source tiles to try, and its flags. */
  datatype FetchTask = FetchTask(
    tile: MapTile,
    preloading: bool,
    dataSourceTiles: seq<MapTile>,
    started: bool,
    canceled: bool,
    invalidated: bool)

  /**
   * The FetchTaskBase constructor's list: the tile and then each ancestor
   * down to zoom 0, keeping those whose zoom the data source serves.
   */
  function DataSourceTiles(tile: MapTile, minZoom: int, maxZoom: int): (r: seq<MapTile>)
    ensures forall i :: 0 <= i < |r| ==> minZoom <= r[i].zoom <= maxZoom
    ensures minZoom <= tile.zoom <= maxZoom ==> |r| > 0 && r[0] == tile
    ensures |r| <= (if tile.zoom > 0 then tile.zoom else 0) + 1
    decreases if tile.zoom > 0 then tile.zoom else 0
  {
    var here := if minZoom <= tile.zoom <= maxZoom then [tile] else [];
    if tile.zoom <= 0 then here else here + DataSourceTiles(Parent(tile), minZoom, maxZoom)
  }

  /** `t` is the ancestor of `tile` at t's zoom, reached by climbing no further than zoom 0. */
  ghost predicate IsSelfOrAncestor(t: MapTile, tile: MapTile) {
    t.zoom <= tile.zoom && (t.zoom >= 0 || t == tile) && Ancestor(tile, tile.zoom - t.zoom) == t
  }

  /** Every listed tile is `tile` or one of its ancestors, at a zoom in [minZoom, maxZoom]. */
  ghost predicate AncestorsInRange(r: seq<MapTile>, tile: MapTile, minZoom: int, maxZoom: int) {
    forall i :: 0 <= i < |r| ==> IsSelfOrAncestor(r[i], tile) && minZoom <= r[i].zoom <= maxZoom
  }

  predicate ZoomsDecreasing(r: seq<MapTile>) {
    forall i, j :: 0 <= i < j < |r| ==> r[i].zoom > r[j].zoom
  }

  /** Every ancestor of `tile` (itself included) at a zoom in [minZoom, maxZoom] is listed. */
  ghost predicate ContainsAncestorsInRange(r: seq<MapTile>, tile: MapTile, minZoom: int, maxZoom: int) {
    forall k: nat :: k <= tile.zoom && minZoom <= tile.zoom - k <= maxZoom ==> Ancestor(tile, k) in r
  }

  /**
   * The data-source list holds exactly the tile and its ancestors whose zoom
   * lies in [minZoom, maxZoom], in strictly decreasing zoom.
   */
  lemma DataSourceTilesSpec(tile: MapTile, minZoom: int, maxZoom: int)
    ensures AncestorsInRange(DataSourceTiles(tile, minZoom, maxZoom), tile, minZoom, maxZoom)
    ensures ZoomsDecreasing(DataSourceTiles(tile, minZoom, maxZoom))
    ensures ContainsAncestorsInRange(DataSourceTiles(tile, minZoom, maxZoom), tile, minZoom, maxZoom)
  {
    DataSourceTilesAncestors(tile, minZoom, maxZoom);
    DataSourceTilesDecreasing(tile, minZoom, maxZoom);
    DataSourceTilesComplete(tile, minZoom, maxZoom);
  }

  lemma {:induction false} DataSourceTilesAncestors(tile: MapTile, minZoom: int, maxZoom: int)
    decreases if tile.zoom > 0 then tile.zoom else 0
    ensures AncestorsInRange(DataSourceTiles(tile, minZoom, maxZoom), tile, minZoom, maxZoom)
  {
    assert Ancestor(tile, 0) == tile;
    if tile.zoom > 0 {
      var p := Parent(tile);
      DataSourceTilesAncestors(p, minZoom, maxZoom);
      var rest := DataSourceTiles(p, minZoom, maxZoom);
      forall i | 0 <= i < |rest|
        ensures IsSelfOrAncestor(rest[i], tile)
      {
        assert IsSelfOrAncestor(rest[i], p);
        AncestorOfParent(tile, p.zoom - rest[i].zoom);
      }
      var here := if minZoom <= tile.zoom <= maxZoom then [tile] else [];
      assert DataSourceTiles(tile, minZoom, maxZoom) == here + rest;
    }
  }

  lemma {:induction false} DataSourceTilesDecreasing(tile: MapTile, minZoom: int, maxZoom: int)
    decreases if tile.zoom > 0 then tile.zoom else 0
    ensures ZoomsDecreasing(DataSourceTiles(tile, minZoom, maxZoom))
  {
    if tile.zoom > 0 {
      var p := Parent(tile);
      DataSourceTilesDecreasing(p, minZoom, maxZoom);
      DataSourceTilesAncestors(p, minZoom, maxZoom);
      var rest := DataSourceTiles(p, minZoom, maxZoom);
      assert forall i :: 0 <= i < |rest| ==> rest[i].zoom < tile.zoom by {
        forall i | 0 <= i < |rest| ensures rest[i].zoom < tile.zoom {
          assert IsSelfOrAncestor(rest[i], p);
        }
      }
      var here := if minZoom <= tile.zoom <= maxZoom then [tile] else [];
      assert DataSourceTiles(tile, minZoom, maxZoom) == here + rest;
    }
  }

  lemma {:induction false} DataSourceTilesComplete(tile: MapTile, minZoom: int, maxZoom: int)
    decreases if tile.zoom > 0 then tile.zoom else 0
    ensures ContainsAncestorsInRange(DataSourceTiles(tile, minZoom, maxZoom), tile, minZoom, maxZoom)
  {
    var r := DataSourceTiles(tile, minZoom, maxZoom);
    assert Ancestor(tile, 0) == tile;
    if tile.zoom > 0 {
      var p := Parent(tile);
      DataSourceTilesComplete(p, minZoom, maxZoom);
      var rest := DataSourceTiles(p, minZoom, maxZoom);
      var here := if minZoom <= tile.zoom <= maxZoom then [tile] else [];
      assert r == here + rest;
      forall k: nat | k <= tile.zoom && minZoom <= tile.zoom - k <= maxZoom
        ensures Ancestor(tile, k) in r
      {
        if k > 0 {
          AncestorOfParent(tile, k - 1);
          assert Ancestor(p, k - 1) in rest;
        }
      }
    }
  }

  // ---------------------------------------------------------------------------
  // Layer state
  // ---------------------------------------------------------------------------

  /** One frame of a vector tile's tile map: the frame number and its decoded tile. */
  datatype FrameTile = FrameTile(frameNr: int, tile: VtTile.Tile)

  /**
   * A cache entry: a vector layer's TileInfo (its tile map and, when an
   * event listener needs it, the raw tile data) or a raster layer's tile.
   */
  datatype CachedTile =
    | TileInfo(tileMap: seq<FrameTile>, data: Option<seq<bv8>>)
    | RasterTile(tile: VtTile.Tile)

  /** TileDrawData: the id to draw at, the tile, its cache key and whether it is a preloading tile. */
  datatype DrawData = DrawData(vtTileId: VtTile.VtTileId, tile: VtTile.Tile, tileId: TileId, preloading: bool)

  /** A task handed to the tile thread pool, by index into the layer's task list. */
  datatype Submission = Submission(task: nat, priority: int)

  /** The layer state; `hasPool` says whether `_tileThreadPool` is set (the layer has components). */
  datatype Layer = Layer(
    kind: LayerKind,
    policy: SubstitutionPolicy,
    limits: SearchLimits,
    sourceMinZoom: int,
    sourceMaxZoom: int,
    updatePriority: int,
    hasPool: bool,
    visibleCache: Cache<TileId, CachedTile>,
    preloadingCache: Cache<TileId, CachedTile>,
    tasks: seq<FetchTask>,
    fetching: map<TileId, nat>,
    submitted: seq<Submission>,
    tempDrawDatas: seq<DrawData>,
    visibleTileIds: seq<TileId>)

  /** Every registered and every submitted task is one the layer created. */
  ghost predicate Consistent(s: Layer) {
    && (forall id :: id in s.fetching ==> s.fetching[id] < |s.tasks|)
    && (forall i :: 0 <= i < |s.submitted| ==> s.submitted[i].task < |s.tasks|)
  }

  function CacheOf(s: Layer, preloadingCache: bool): Cache<TileId, CachedTile> {
    if preloadingCache then s.preloadingCache else s.visibleCache
  }

  /** tileExists as seen by the substitution search. */
  function Cached(s: Layer): CacheTest {
    (t: MapTile, p: bool) => Exists(CacheOf(s, p), CacheKey(s.kind, t))
  }

  /** tileValid (exists and not expired) as seen by the substitution search. */
  function ValidAt(s: Layer, now: int): CacheTest {
    (t: MapTile, p: bool) => Valid(CacheOf(s, p), CacheKey(s.kind, t), now)
  }

  /** Every key held by either cache. */
  function CachedKeys(s: Layer): set<TileId> {
    s.visibleCache.Keys + s.preloadingCache.Keys
  }

  /** A key is being fetched or is held by one of the caches. */
  predicate Covered(s: Layer, id: TileId) {
    id in s.fetching || id in CachedKeys(s)
  }

  /** The update priority, lowered by the offset for preloading fetches. */
  function FetchPriority(s: Layer, preloadingTile: bool): int {
    if preloadingTile then s.updatePriority + PreloadingPriorityOffset else s.updatePriority
  }

  // ---------------------------------------------------------------------------
  // fetchTile
  // ---------------------------------------------------------------------------

  /**
   * fetchTile: nothing when a task for the key is in flight; when not forced
   * (invalidated) and a valid copy is cached, a visible request promotes the
   * preloading copy to the visible cache and otherwise only touches it;
   * else a new task is registered under the key, and handed to the thread
   * pool when the layer has one (without a pool it stays in flight unrun).
   */
  function FetchTile(s: Layer, tile: MapTile, preloadingTile: bool, invalidated: bool, now: int): (r: Layer)
    ensures var id := CacheKey(s.kind, tile);
            id in s.fetching ==> r == s
    ensures var id := CacheKey(s.kind, tile);
            id !in s.fetching && !invalidated && Valid(s.preloadingCache, id, now) ==>
              && r.tasks == s.tasks && r.fetching == s.fetching && r.submitted == s.submitted
              && (preloadingTile ==> r == s)
              && (!preloadingTile ==> && id !in r.preloadingCache && id in r.visibleCache
                                      && r.visibleCache[id] == s.preloadingCache[id])
    ensures var id := CacheKey(s.kind, tile);
            id !in s.fetching && !invalidated && !Valid(s.preloadingCache, id, now) && Valid(s.visibleCache, id, now) ==>
              r == s
    ensures var id := CacheKey(s.kind, tile);
            id !in s.fetching && (invalidated || (!Valid(s.preloadingCache, id, now) && !Valid(s.visibleCache, id, now))) ==>
              && r.visibleCache == s.visibleCache && r.preloadingCache == s.preloadingCache
              && |r.tasks| == |s.tasks| + 1 && r.tasks[..|s.tasks|] == s.tasks
              && r.tasks[|s.tasks|].tile == TaskTile(s.kind, tile)
              && r.tasks[|s.tasks|].preloading == preloadingTile
              && !r.tasks[|s.tasks|].started && !r.tasks[|s.tasks|].canceled && !r.tasks[|s.tasks|].invalidated
              && r.fetching == s.fetching[id := |s.tasks|]
              && r.submitted == s.submitted + (if s.hasPool then [Submission(|s.tasks|, FetchPriority(s, preloadingTile))] else [])
    ensures CachedKeys(r) == CachedKeys(s)
    ensures Covered(r, CacheKey(s.kind, tile))
    ensures r.kind == s.kind && r.tempDrawDatas == s.tempDrawDatas && r.visibleTileIds == s.visibleTileIds
    ensures Consistent(s) ==> Consistent(r)
  {
    var id := CacheKey(s.kind, tile);
    if id in s.fetching then s
    else if !invalidated && Valid(s.preloadingCache, id, now) then
      if !preloadingTile then
        var moved := Move(s.preloadingCache, s.visibleCache, id);
        s.(preloadingCache := moved.0, visibleCache := moved.1)
      else s
    else if !invalidated && Valid(s.visibleCache, id, now) then s
    else
      var taskTile := TaskTile(s.kind, tile);
      var task := FetchTask(taskTile, preloadingTile, DataSourceTiles(taskTile, s.sourceMinZoom, s.sourceMaxZoom),
                            false, false, false);
      s.(tasks := s.tasks + [task],
         fetching := s.fetching[id := |s.tasks|],
         submitted := if s.hasPool then s.submitted + [Submission(|s.tasks|, FetchPriority(s, preloadingTile))]
                      else s.submitted)
  }

  /**
   * A second identical fetch changes nothing: the first either registered a
   * task for the key or left a valid copy where the second finds it.
   */
  lemma {:induction false} FetchTileIdempotent(s: Layer, tile: MapTile, preloadingTile: bool, invalidated: bool, now: int)
    ensures var once := FetchTile(s, tile, preloadingTile, invalidated, now);
            FetchTile(once, tile, preloadingTile, invalidated, now) == once
  {
  }

  // ---------------------------------------------------------------------------
  // tilesChanged
  // ---------------------------------------------------------------------------

  /** Marks every task currently in the registry invalidated. */
  function InvalidateRegistered(s: Layer): (r: seq<FetchTask>)
    ensures |r| == |s.tasks|
    ensures forall i :: 0 <= i < |r| ==>
              r[i] == if i in s.fetching.Values then s.tasks[i].(invalidated := true) else s.tasks[i]
  {
    seq(|s.tasks|, i requires 0 <= i < |s.tasks| =>
      if i in s.fetching.Values then s.tasks[i].(invalidated := true) else s.tasks[i])
  }

  /**
   * tilesChanged: in-flight tasks are invalidated; with removeTiles both
   * caches are emptied, otherwise every visible entry expires now and the
   * preloading cache is emptied. The trailing refresh is a redraw request.
   */
  function TilesChanged(s: Layer, removeTiles: bool, now: int): (r: Layer)
    ensures |r.tasks| == |s.tasks|
    ensures forall i :: 0 <= i < |s.tasks| && i in s.fetching.Values ==> r.tasks[i].invalidated
    ensures forall i :: 0 <= i < |s.tasks| ==>
              && r.tasks[i].tile == s.tasks[i].tile && r.tasks[i].started == s.tasks[i].started
              && r.tasks[i].canceled == s.tasks[i].canceled
    ensures removeTiles ==> r.visibleCache == map[] && r.preloadingCache == map[]
    ensures !removeTiles ==> r.visibleCache.Keys == s.visibleCache.Keys && r.preloadingCache == map[]
    ensures forall id, t :: t >= now ==> !Valid(r.visibleCache, id, t) && !Valid(r.preloadingCache, id, t)
    ensures r.fetching == s.fetching && r.submitted == s.submitted
    ensures Consistent(s) ==> Consistent(r)
  {
    var tasks := InvalidateRegistered(s);
    if removeTiles then s.(tasks := tasks, visibleCache := Clear(s.visibleCache), preloadingCache := Clear(s.preloadingCache))
    else s.(tasks := tasks, visibleCache := InvalidateAll(s.visibleCache, now), preloadingCache := Clear(s.preloadingCache))
  }

  /** After tilesChanged, fetching any tile that is not already in flight creates a new task. */
  lemma {:induction false} TilesChangedForcesFetch(s: Layer, removeTiles: bool, now: int, tile: MapTile, preloadingTile: bool, later: int)
    requires later >= now
    requires CacheKey(s.kind, tile) !in s.fetching
    ensures var changed := TilesChanged(s, removeTiles, now);
            |FetchTile(changed, tile, preloadingTile, false, later).tasks| == |s.tasks| + 1
  {
  }

  // ---------------------------------------------------------------------------
  // fetch task cancel and run
  // ---------------------------------------------------------------------------

  /**
   * FetchTaskBase::cancel: before the task starts, mark it canceled and
   * remove the registry entry of its own tile id; after, nothing.
   */
  function CancelTask(s: Layer, h: nat): (r: Layer)
    requires h < |s.tasks|
    ensures (r.tasks, r.fetching) == CancelEntry(s.tasks, s.fetching, h)
    ensures s.tasks[h].started ==> r == s
    ensures !s.tasks[h].started ==>
              && r.tasks == s.tasks[h := s.tasks[h].(canceled := true)]
              && r.fetching == s.fetching - {TileId(s.tasks[h].tile)}
              && r.visibleCache == s.visibleCache && r.preloadingCache == s.preloadingCache
              && r.submitted == s.submitted
    ensures Consistent(s) ==> Consistent(r)
  {
    var c := CancelEntry(s.tasks, s.fetching, h);
    s.(tasks := c.0, fetching := c.1)
  }

  /** cancel on the task list and registry alone. */
  function CancelEntry(tasks: seq<FetchTask>, fetching: map<TileId, nat>, h: nat): (r: (seq<FetchTask>, map<TileId, nat>))
    requires h < |tasks|
  {
    if tasks[h].started then (tasks, fetching)
    else (tasks[h := tasks[h].(canceled := true)], fetching - {TileId(tasks[h].tile)})
  }

  /** What the layer's loadTile did: threw, or returned its refresh flag and the caches it left. */
  datatype LoadOutcome =
    | LoadThrew
    | LoadReturned(refresh: bool, visibleCache: Cache<TileId, CachedTile>, preloadingCache: Cache<TileId, CachedTile>)

  /**
   * The data source's answer for one tile: no TileData, a marker to use the
   * parent instead, TileData without payload, a payload with its max age in
   * milliseconds (negative: never expires), or an exception.
   */
  datatype SourceTile =
    | NoTileData
    | ReplaceWithParent
    | NullPayload
    | TileData(data: seq<bv8>, maxAge: int)
    | SourceThrew

  /** The index of the first data-source tile not answered with replace-with-parent, or the list length. */
  function ServingIndex(source: MapTile -> SourceTile, tiles: seq<MapTile>): (i: nat)
    ensures i <= |tiles|
    ensures forall j :: 0 <= j < i ==> source(tiles[j]).ReplaceWithParent?
    ensures i < |tiles| ==> !source(tiles[i]).ReplaceWithParent?
    decreases |tiles|
  {
    if |tiles| == 0 || !source(tiles[0]).ReplaceWithParent? then 0
    else
      var rest := ServingIndex(source, tiles[1..]);
      assert forall j :: 0 < j <= rest ==> tiles[j] == tiles[1..][j - 1];
      1 + rest
  }

  /** The cache `put` followed, for a non-negative max age, by `invalidate(now + maxAge)`. */
  function Store(c: Cache<TileId, CachedTile>, key: TileId, info: CachedTile, size: nat, maxAge: int, now: int)
    : (r: Cache<TileId, CachedTile>)
    ensures Get(r, key) == Some(info)
    ensures forall t :: Valid(r, key, t) <==> maxAge < 0 || t < now + maxAge
    ensures r.Keys == c.Keys + {key}
    ensures forall k :: k in c && k != key ==> r[k] == c[k]
  {
    var put := Put(c, key, info, size);
    if maxAge >= 0 then Invalidate(put, key, now + maxAge) else put
  }

  /** The task as loadTile sees it: started. */
  function StartedTask(s: Layer, h: nat): FetchTask
    requires h < |s.tasks|
  {
    s.tasks[h].(started := true)
  }

  /**
   * FetchTaskBase::run with the layer's loadTile outcome: a canceled task
   * does nothing; otherwise the task is marked started, the load's cache
   * writes are kept (none when it threw), the task's tile id leaves the
   * registry, and a redraw is requested iff the load reported a refresh for
   * a non-preloading task. The second component is that redraw request.
   */
  function RunTask(s: Layer, h: nat, outcome: LoadOutcome): (r: (Layer, bool))
    requires h < |s.tasks|
    ensures s.tasks[h].canceled ==> r == (s, false)
    ensures !s.tasks[h].canceled ==>
              && r.0.tasks == s.tasks[h := StartedTask(s, h)]
              && r.0.fetching == s.fetching - {TileId(s.tasks[h].tile)}
              && (outcome.LoadThrew? ==> r.0.visibleCache == s.visibleCache && r.0.preloadingCache == s.preloadingCache)
              && (r.1 <==> outcome.LoadReturned? && outcome.refresh && !s.tasks[h].preloading)
    ensures Consistent(s) ==> Consistent(r.0)
  {
    var task := s.tasks[h];
    if task.canceled then (s, false)
    else
      var started := s.(tasks := s.tasks[h := StartedTask(s, h)]);
      var loaded := match outcome
        case LoadThrew => started
        case LoadReturned(_, vis, pre) => started.(visibleCache := vis, preloadingCache := pre);
      var refresh := outcome.LoadReturned? && outcome.refresh && !task.preloading;
      (loaded.(fetching := loaded.fetching - {TileId(task.tile)}), refresh)
  }

  /** Once a task has run, cancel no longer touches it or the registry. */
  lemma {:induction false} CancelAfterRunIsNoop(s: Layer, h: nat, outcome: LoadOutcome)
    requires h < |s.tasks| && !s.tasks[h].canceled
    ensures CancelTask(RunTask(s, h, outcome).0, h) == RunTask(s, h, outcome).0
  {
  }

  /** A task canceled before it starts never loads: running it afterwards changes nothing. */
  lemma {:induction false} RunAfterCancelSkips(s: Layer, h: nat, outcome: LoadOutcome)
    requires h < |s.tasks| && !s.tasks[h].started
    ensures RunTask(CancelTask(s, h), h, outcome) == (CancelTask(s, h), false)
  {
  }

  // ---------------------------------------------------------------------------
  // calculateDrawData
  // ---------------------------------------------------------------------------

  /**
   * The vt tile id a substitute is drawn at: the visible tile's id, or for a
   * deeper (child) substitute its own coordinates moved into the visible
   * tile's world copy (`dx = x >> zoom`, `x + (dx << childZoom)`).
   */
  function DrawTileId(visTile: MapTile, closest: MapTile): (r: VtTile.VtTileId)
    requires visTile.zoom >= 0
  {
    if closest.zoom > visTile.zoom then
      var dx := visTile.x / Pow2(visTile.zoom);
      var dy := visTile.y / Pow2(visTile.zoom);
      VtTile.VtTileId(closest.zoom, closest.x + dx * Pow2(closest.zoom), closest.y + dy * Pow2(closest.zoom))
    else VtTile.VtTileId(visTile.zoom, visTile.x, visTile.y)
  }

  /** A child substitute from the base world is drawn in the same world copy as the visible tile. */
  lemma {:induction false} DrawTileIdSameWorld(visTile: MapTile, closest: MapTile)
    requires visTile.zoom >= 0 && closest.zoom > visTile.zoom
    requires 0 <= closest.x < Pow2(closest.zoom) && 0 <= closest.y < Pow2(closest.zoom)
    ensures var id := DrawTileId(visTile, closest);
            && id.zoom == closest.zoom
            && id.x / Pow2(closest.zoom) == visTile.x / Pow2(visTile.zoom)
            && id.y / Pow2(closest.zoom) == visTile.y / Pow2(visTile.zoom)
            && id.x % Pow2(closest.zoom) == closest.x && id.y % Pow2(closest.zoom) == closest.y
  {
    var p := Pow2(closest.zoom);
    var id := DrawTileId(visTile, closest);
    DivOfOffset(closest.x, visTile.x / Pow2(visTile.zoom), p);
    DivOfOffset(closest.y, visTile.y / Pow2(visTile.zoom), p);
  }

  lemma {:induction false} DivOfOffset(a: int, d: int, p: int)
    requires p > 0 && 0 <= a < p
    ensures (a + d * p) / p == d && (a + d * p) % p == a
  {
    var q := (a + d * p) / p;
    var m := (a + d * p) % p;
    assert q * p + m == a + d * p;
    assert (d - q) * p == m - a;
    if d - q >= 1 {
      MulAtLeast(d - q, p);
    } else if d - q <= -1 {
      MulAtLeast(q - d, p);
    }
  }

  lemma {:induction false} MulAtLeast(x: int, p: int)
    requires x >= 1 && p > 0
    ensures x * p >= p
  {
  }

  /** The entry calculateDrawData reads: the visible copy if there is one, else the preloading copy. */
  function DrawSource(s: Layer, id: TileId): (r: Option<CachedTile>)
    ensures r.Some? <==> id in s.visibleCache || id in s.preloadingCache
  {
    if id in s.visibleCache then Some(s.visibleCache[id].value)
    else if id in s.preloadingCache then Some(s.preloadingCache[id].value)
    else None
  }

  /** The first tile of a tile map with the given frame number (std::map::find). */
  function FindFrame(tileMap: seq<FrameTile>, frameNr: int): (r: Option<VtTile.Tile>)
    ensures r.Some? <==> exists i :: 0 <= i < |tileMap| && tileMap[i].frameNr == frameNr
    ensures r.Some? ==> exists i :: 0 <= i < |tileMap| && tileMap[i] == FrameTile(frameNr, r.value)
  {
    if |tileMap| == 0 then None
    else if tileMap[0].frameNr == frameNr then Some(tileMap[0].tile)
    else
      var rest := FindFrame(tileMap[1..], frameNr);
      assert forall i :: 0 < i < |tileMap| ==> tileMap[i] == tileMap[1..][i - 1];
      rest
  }

  /**
   * The tile calculateDrawData would draw for a cache entry: a raster entry
   * always, a vector entry only when its tile map has the frame (the
   * closest tile's frame in tile-map mode, frame 0 otherwise).
   */
  function DrawableTile(kind: LayerKind, entry: CachedTile, closest: MapTile): Option<VtTile.Tile> {
    match entry
    case RasterTile(tile) => if kind.RasterLayer? then Some(tile) else None
    case TileInfo(tileMap, _) =>
      if kind.VectorLayer? then FindFrame(tileMap, if kind.useTileMapMode then closest.frameNr else 0) else None
  }

  /**
   * calculateDrawData: appends one draw datum for the substitute when its
   * cache entry (visible first) has something drawable; nothing else changes.
   */
  function CalculateDrawData(s: Layer, req: DrawRequest): (r: Layer)
    requires req.visTile.zoom >= 0
    ensures r == s.(tempDrawDatas := r.tempDrawDatas)
    ensures var id := CacheKey(s.kind, req.closest);
            var src := DrawSource(s, id);
            && (src.Some? && DrawableTile(s.kind, src.value, req.closest).Some? ==>
                  r.tempDrawDatas == s.tempDrawDatas
                    + [DrawData(DrawTileId(req.visTile, req.closest), DrawableTile(s.kind, src.value, req.closest).value, id, req.preloading)])
            && (src.None? || DrawableTile(s.kind, src.value, req.closest).None? ==> r == s)
  {
    var id := CacheKey(s.kind, req.closest);
    match DrawSource(s, id)
    case None => s
    case Some(entry) =>
      match DrawableTile(s.kind, entry, req.closest)
      case None => s
      case Some(tile) =>
        s.(tempDrawDatas := s.tempDrawDatas + [DrawData(DrawTileId(req.visTile, req.closest), tile, id, req.preloading)])
  }

  // ---------------------------------------------------------------------------
  // findTiles
  // ---------------------------------------------------------------------------

  /** Every tile of a tile list has a non-negative zoom. */
  predicate ZoomsNonNegative(tiles: seq<MapTile>) {
    forall i :: 0 <= i < |tiles| ==> tiles[i].zoom >= 0
  }

  /** Every draw request is drawn at a tile with a non-negative zoom. */
  predicate EffectZoomsNonNegative(effects: seq<Effect>) {
    forall i :: 0 <= i < |effects| ==> (effects[i].Draw? ==> effects[i].req.visTile.zoom >= 0)
  }

  /** Carries out findTiles' calls for one tile, in order. */
  function ApplyEffects(s: Layer, effects: seq<Effect>, now: int): (r: Layer)
    requires EffectZoomsNonNegative(effects)
    ensures CachedKeys(r) == CachedKeys(s)
    ensures s.fetching.Keys <= r.fetching.Keys
    ensures r.kind == s.kind && r.policy == s.policy && r.limits == s.limits
    ensures |s.tempDrawDatas| <= |r.tempDrawDatas| && r.tempDrawDatas[..|s.tempDrawDatas|] == s.tempDrawDatas
    ensures Consistent(s) ==> Consistent(r)
    decreases |effects|
  {
    if |effects| == 0 then s
    else
      var next := match effects[0]
        case Draw(req) => CalculateDrawData(s, req)
        case Fetch(tile, preloading, invalidated) => FetchTile(s, tile, preloading, invalidated, now);
      var r := ApplyEffects(next, effects[1..], now);
      assert r.tempDrawDatas[..|s.tempDrawDatas|] == r.tempDrawDatas[..|next.tempDrawDatas|][..|s.tempDrawDatas|];
      r
  }

  /** The calls findTiles makes for one visible tile against the current caches. */
  function TileEffects(s: Layer, visTile: MapTile, preloadingTiles: bool, now: int): (r: seq<Effect>)
    requires visTile.zoom >= 0
    ensures EffectZoomsNonNegative(r)
  {
    FindTileDrawsFor(Cached(s), ValidAt(s, now), visTile, preloadingTiles, s.policy, s.limits);
    FindTile(Cached(s), ValidAt(s, now), visTile, preloadingTiles, s.policy, s.limits)
  }

  /** findTiles: each visible tile in turn, each seeing the caches the previous ones left. */
  function FindTiles(s: Layer, visTiles: seq<MapTile>, preloadingTiles: bool, now: int): (r: Layer)
    requires ZoomsNonNegative(visTiles)
    ensures CachedKeys(r) == CachedKeys(s)
    ensures s.fetching.Keys <= r.fetching.Keys
    ensures r.kind == s.kind && r.policy == s.policy && r.limits == s.limits
    ensures |s.tempDrawDatas| <= |r.tempDrawDatas| && r.tempDrawDatas[..|s.tempDrawDatas|] == s.tempDrawDatas
    ensures Consistent(s) ==> Consistent(r)
    decreases |visTiles|
  {
    if |visTiles| == 0 then s
    else
      var next := ApplyEffects(s, TileEffects(s, visTiles[0], preloadingTiles, now), now);
      var r := FindTiles(next, visTiles[1..], preloadingTiles, now);
      assert r.tempDrawDatas[..|s.tempDrawDatas|] == r.tempDrawDatas[..|next.tempDrawDatas|][..|s.tempDrawDatas|];
      r
  }

  /** Each tile of the list, folded into the base world, is being fetched or is cached. */
  ghost predicate CoversAll(s: Layer, tiles: seq<MapTile>)
    requires ZoomsNonNegative(tiles)
  {
    forall i :: 0 <= i < |tiles| ==> Covered(s, CacheKey(s.kind, MaskTile(tiles[i])))
  }

  /** A fetch effect leaves its tile covered, and later effects never uncover it. */
  lemma {:induction false} ApplyEffectsCovers(s: Layer, effects: seq<Effect>, now: int, j: nat)
    requires EffectZoomsNonNegative(effects)
    requires j < |effects| && effects[j].Fetch?
    ensures Covered(ApplyEffects(s, effects, now), CacheKey(s.kind, effects[j].tile))
    decreases |effects|
  {
    var next := match effects[0]
      case Draw(req) => CalculateDrawData(s, req)
      case Fetch(tile, preloading, invalidated) => FetchTile(s, tile, preloading, invalidated, now);
    assert ApplyEffects(s, effects, now) == ApplyEffects(next, effects[1..], now);
    if j > 0 {
      assert effects[1..][j - 1] == effects[j];
      ApplyEffectsCovers(next, effects[1..], now, j - 1);
    }
  }

  /** After findTiles' calls for one visible tile, that tile is being fetched or is cached. */
  lemma {:induction false} TileEffectsCover(s: Layer, visTile: MapTile, preloadingTiles: bool, now: int)
    requires visTile.zoom >= 0
    ensures Covered(ApplyEffects(s, TileEffects(s, visTile, preloadingTiles, now), now), CacheKey(s.kind, MaskTile(visTile)))
  {
    var tile := MaskTile(visTile);
    var effects := TileEffects(s, visTile, preloadingTiles, now);
    if !Cached(s)(tile, preloadingTiles) && !Cached(s)(tile, !preloadingTiles) {
      FindTileMiss(Cached(s), ValidAt(s, now), visTile, preloadingTiles, s.policy, s.limits);
      ApplyEffectsCovers(s, effects, now, |effects| - 1);
    }
  }

  /** After findTiles, every tile of the list is being fetched or is cached. */
  lemma {:induction false} FindTilesCovers(s: Layer, visTiles: seq<MapTile>, preloadingTiles: bool, now: int)
    requires ZoomsNonNegative(visTiles)
    ensures CoversAll(FindTiles(s, visTiles, preloadingTiles, now), visTiles)
    decreases |visTiles|
  {
    if |visTiles| > 0 {
      var next := ApplyEffects(s, TileEffects(s, visTiles[0], preloadingTiles, now), now);
      TileEffectsCover(s, visTiles[0], preloadingTiles, now);
      FindTilesCovers(next, visTiles[1..], preloadingTiles, now);
      var r := FindTiles(s, visTiles, preloadingTiles, now);
      assert r == FindTiles(next, visTiles[1..], preloadingTiles, now);
      forall i | 0 <= i < |visTiles|
        ensures Covered(r, CacheKey(s.kind, MaskTile(visTiles[i])))
      {
        if i > 0 {
          assert visTiles[1..][i - 1] == visTiles[i];
        }
      }
    }
  }

  /** loadData's parent pre-fetch: the parent of each tile above zoom 0, as a preloading fetch. */
  function FetchParents(s: Layer, tiles: seq<MapTile>, now: int): (r: Layer)
    requires ZoomsNonNegative(tiles)
    ensures CachedKeys(r) == CachedKeys(s)
    ensures s.fetching.Keys <= r.fetching.Keys
    ensures r.kind == s.kind && r.tempDrawDatas == s.tempDrawDatas
    ensures forall i :: 0 <= i < |tiles| && tiles[i].zoom > 0 ==> Covered(r, CacheKey(s.kind, Parent(MaskTile(tiles[i]))))
    ensures Consistent(s) ==> Consistent(r)
    decreases |tiles|
  {
    if |tiles| == 0 then s
    else
      var next := if tiles[0].zoom > 0 then FetchTile(s, Parent(MaskTile(tiles[0])), true, false, now) else s;
      var r := FetchParents(next, tiles[1..], now);
      assert forall i :: 0 < i < |tiles| ==> tiles[i] == tiles[1..][i - 1];
      r
  }

  // ---------------------------------------------------------------------------
  // refreshDrawData
  // ---------------------------------------------------------------------------

  /** The cache keys of the non-preloading draw data. */
  function DrawnIds(draws: seq<DrawData>): (r: set<TileId>)
    decreases |draws|
  {
    if |draws| == 0 then {}
    else
      var last := draws[|draws| - 1];
      DrawnIds(draws[..|draws| - 1]) + (if last.preloading then {} else {last.tileId})
  }

  /** A key is drawn exactly when some non-preloading draw datum carries it. */
  lemma {:induction false} DrawnIdsSpec(draws: seq<DrawData>, k: TileId)
    ensures k in DrawnIds(draws) <==> exists i :: 0 <= i < |draws| && !draws[i].preloading && draws[i].tileId == k
    decreases |draws|
  {
    if |draws| > 0 {
      var init := draws[..|draws| - 1];
      DrawnIdsSpec(init, k);
      assert forall i :: 0 <= i < |init| ==> init[i] == draws[i];
    }
  }

  /**
   * The cache moves of refreshDrawData: a drawn key held only by the
   * preloading cache moves to the visible cache, then every visible entry
   * that was not drawn moves to the preloading cache.
   */
  method RefreshCaches(vis: Cache<TileId, CachedTile>, pre: Cache<TileId, CachedTile>, draws: seq<DrawData>)
    returns (v: Cache<TileId, CachedTile>, p: Cache<TileId, CachedTile>)
    ensures forall k :: k in v <==> k in DrawnIds(draws) && (k in vis || k in pre)
    ensures forall k :: k in v ==> v[k] == if k in vis then vis[k] else pre[k]
    ensures forall k :: k in p <==> if k in DrawnIds(draws) then k in vis && k in pre else k in vis || k in pre
    ensures forall k :: k in p ==> p[k] == if k !in DrawnIds(draws) && k in vis then vis[k] else pre[k]
  {
    var v1, p1, unused := PromoteDrawn(vis, pre, draws);
    v, p := DemoteUnused(v1, p1, unused);
  }

  /** The first loop of the cache moves: drawn keys held only by the preloading cache become visible. */
  method PromoteDrawn(vis: Cache<TileId, CachedTile>, pre: Cache<TileId, CachedTile>, draws: seq<DrawData>)
    returns (v: Cache<TileId, CachedTile>, p: Cache<TileId, CachedTile>, unused: set<TileId>)
    ensures unused == vis.Keys - DrawnIds(draws)
    ensures forall k :: k in v <==> k in vis || (k in DrawnIds(draws) && k in pre)
    ensures forall k :: k in v ==> v[k] == if k in vis then vis[k] else pre[k]
    ensures forall k :: k in p <==> k in pre && (k in vis || k !in DrawnIds(draws))
    ensures forall k :: k in p ==> p[k] == pre[k]
  {
    v, p := vis, pre;
    unused := vis.Keys;
    var i := 0;
    while i < |draws|
      invariant 0 <= i <= |draws|
      invariant unused == vis.Keys - DrawnIds(draws[..i])
      invariant forall k :: k in v <==> k in vis || (k in DrawnIds(draws[..i]) && k in pre)
      invariant forall k :: k in v ==> v[k] == if k in vis then vis[k] else pre[k]
      invariant forall k :: k in p <==> k in pre && (k in vis || k !in DrawnIds(draws[..i]))
      invariant forall k :: k in p ==> p[k] == pre[k]
    {
      assert draws[..i + 1][..i] == draws[..i];
      var d := draws[i];
      if !d.preloading {
        unused := unused - {d.tileId};
        if d.tileId !in v && d.tileId in p {
          var moved := Move(p, v, d.tileId);
          p, v := moved.0, moved.1;
        }
      }
      i := i + 1;
    }
    assert draws[..|draws|] == draws;
  }

  /** The second loop of the cache moves: every visible entry that was not drawn moves to the preloading cache. */
  method DemoteUnused(vis: Cache<TileId, CachedTile>, pre: Cache<TileId, CachedTile>, unused: set<TileId>)
    returns (v: Cache<TileId, CachedTile>, p: Cache<TileId, CachedTile>)
    requires unused <= vis.Keys
    ensures forall k :: k in v <==> k in vis && k !in unused
    ensures forall k :: k in v ==> v[k] == vis[k]
    ensures forall k :: k in p <==> k in pre || k in unused
    ensures forall k :: k in p ==> p[k] == if k in unused then vis[k] else pre[k]
  {
    v, p := vis, pre;
    var todo := unused;
    while todo != {}
      invariant todo <= unused
      invariant forall k :: k in v <==> k in vis && (k !in unused || k in todo)
      invariant forall k :: k in v ==> v[k] == vis[k]
      invariant forall k :: k in p <==> k in pre || (k in unused && k !in todo)
      invariant forall k :: k in p ==> p[k] == if k in unused && k !in todo then vis[k] else pre[k]
      decreases |todo|
    {
      var k :| k in todo;
      var moved := Move(v, p, k);
      v, p := moved.0, moved.1;
      todo := todo - {k};
    }
  }

  /** Some registered task is for visible (not preloading) tiles. */
  predicate HasVisibleFetch(s: Layer) {
    exists i | 0 <= i < |s.tasks| :: i in s.fetching.Values && !s.tasks[i].preloading
  }

  /**
   * refreshDrawData: moves tiles between the caches, hands the draw list to
   * the renderer unless a synchronized refresh still waits for visible
   * tiles (the second result, None when withheld), records the drawn tile
   * ids and clears the draw list.
   */
  method RefreshDrawData(s: Layer, synchronizedRefresh: bool) returns (r: Layer, handed: Option<seq<DrawData>>)
    ensures handed.None? <==> synchronizedRefresh && HasVisibleFetch(s)
    ensures handed.Some? ==> handed.value == s.tempDrawDatas
    ensures CachedKeys(r) == CachedKeys(s)
    ensures forall k :: k in r.visibleCache <==> k in DrawnIds(s.tempDrawDatas) && k in CachedKeys(s)
    ensures forall k :: k in r.preloadingCache && k !in DrawnIds(s.tempDrawDatas) ==>
              r.preloadingCache[k] == if k in s.visibleCache then s.visibleCache[k] else s.preloadingCache[k]
    ensures |r.visibleTileIds| == |s.tempDrawDatas|
    ensures forall i :: 0 <= i < |r.visibleTileIds| ==> r.visibleTileIds[i] == s.tempDrawDatas[i].tileId
    ensures r == s.(visibleCache := r.visibleCache, preloadingCache := r.preloadingCache,
                    visibleTileIds := r.visibleTileIds, tempDrawDatas := [])
    ensures Consistent(s) ==> Consistent(r)
  {
    var v, p := RefreshCaches(s.visibleCache, s.preloadingCache, s.tempDrawDatas);
    handed := if synchronizedRefresh && HasVisibleFetch(s) then None else Some(s.tempDrawDatas);
    var ids := seq(|s.tempDrawDatas|, i requires 0 <= i < |s.tempDrawDatas| => s.tempDrawDatas[i].tileId);
    r := s.(visibleCache := v, preloadingCache := p, visibleTileIds := ids, tempDrawDatas := []);
  }

  // ---------------------------------------------------------------------------
  // loadData
  // ---------------------------------------------------------------------------

  /** Every registered task is unstarted and was registered under its own tile id. */
  ghost predicate RegistryAligned(s: Layer) {
    forall id :: id in s.fetching ==>
      s.fetching[id] < |s.tasks| && TileId(s.tasks[s.fetching[id]].tile) == id && !s.tasks[s.fetching[id]].started
  }

  /**
   * A task removes exactly the key it was registered under iff the layer is
   * raster, in tile-map mode, or the tile is frame 0: a vector layer outside
   * tile-map mode registers frame-n tiles under their own id but its tasks
   * remove the frame-0 id.
   */
  lemma {:induction false} RegistryKeyMatches(kind: LayerKind, tile: MapTile)
    ensures TileId(TaskTile(kind, tile)) == CacheKey(kind, tile)
            <==> kind.RasterLayer? || kind.useTileMapMode || tile.frameNr == 0
  {
    if kind.VectorLayer? && !kind.useTileMapMode && tile.frameNr != 0 {
      assert TileId(TaskTile(kind, tile)).tile.frameNr != CacheKey(kind, tile).tile.frameNr;
    }
  }

  /** `after` is `before`, possibly canceled since. */
  predicate OnlyCanceled(before: FetchTask, after: FetchTask) {
    after == before.(canceled := after.canceled) && (before.canceled ==> after.canceled)
  }

  /**
   * loadData's first step: cancel every task in the registry. Unstarted
   * tasks become canceled and drop their tile id from the registry; when
   * every task was registered under its own tile id the registry ends empty.
   */
  method CancelAll(s: Layer) returns (r: Layer)
    requires Consistent(s)
    ensures Consistent(r)
    ensures |r.tasks| == |s.tasks|
    ensures forall i :: 0 <= i < |s.tasks| ==> OnlyCanceled(s.tasks[i], r.tasks[i])
    ensures forall id :: id in s.fetching && !s.tasks[s.fetching[id]].started ==> r.tasks[s.fetching[id]].canceled
    ensures r.fetching.Keys <= s.fetching.Keys
    ensures RegistryAligned(s) ==> r.fetching == map[]
    ensures r == s.(tasks := r.tasks, fetching := r.fetching)
  {
    var tasks, fetching := CancelRegistered(s);
    r := s.(tasks := tasks, fetching := fetching);
  }

  /** The loop of CancelAll: the tasks and registry once every registered task was visited. */
  method CancelRegistered(s: Layer) returns (tasks: seq<FetchTask>, fetching: map<TileId, nat>)
    requires Consistent(s)
    ensures |tasks| == |s.tasks|
    ensures forall i :: 0 <= i < |s.tasks| ==> OnlyCanceled(s.tasks[i], tasks[i])
    ensures forall id :: id in s.fetching && !s.tasks[s.fetching[id]].started ==> tasks[s.fetching[id]].canceled
    ensures forall id :: id in fetching ==> id in s.fetching && fetching[id] == s.fetching[id]
    ensures RegistryAligned(s) ==> fetching == map[]
  {
    tasks, fetching := s.tasks, s.fetching;
    var ids := s.fetching.Keys;
    while ids != {}
      invariant CancelProgress(s, tasks, fetching, ids)
      decreases |ids|
    {
      var id :| id in ids;
      CancelStep(s, tasks, fetching, ids, id);
      var h := s.fetching[id];
      tasks, fetching := CancelEntry(tasks, fetching, h).0, CancelEntry(tasks, fetching, h).1;
      ids := ids - {id};
    }
    assert fetching.Keys == {} ==> fetching == map[];
  }

  /** CancelRegistered's loop invariant: the ids outside `ids` were visited. */
  ghost predicate CancelProgress(s: Layer, tasks: seq<FetchTask>, fetching: map<TileId, nat>, ids: set<TileId>) {
    && Consistent(s)
    && ids <= s.fetching.Keys
    && |tasks| == |s.tasks|
    && (forall i :: 0 <= i < |s.tasks| ==> OnlyCanceled(s.tasks[i], tasks[i]))
    && (forall id :: id in s.fetching && id !in ids && !s.tasks[s.fetching[id]].started ==>
          tasks[s.fetching[id]].canceled)
    && (forall id :: id in fetching ==> id in s.fetching && fetching[id] == s.fetching[id])
    && (RegistryAligned(s) ==> fetching.Keys == ids)
  }

  /** Visiting one id keeps CancelRegistered's invariant. */
  lemma {:induction false} CancelStep(s: Layer, tasks: seq<FetchTask>, fetching: map<TileId, nat>, ids: set<TileId>, id: TileId)
    requires CancelProgress(s, tasks, fetching, ids) && id in ids
    ensures s.fetching[id] < |tasks|
    ensures CancelProgress(s, CancelEntry(tasks, fetching, s.fetching[id]).0,
                           CancelEntry(tasks, fetching, s.fetching[id]).1, ids - {id})
  {
    var h := s.fetching[id];
    assert OnlyCanceled(s.tasks[h], tasks[h]);
    var (t2, f2) := CancelEntry(tasks, fetching, h);
    if RegistryAligned(s) {
      assert TileId(tasks[h].tile) == id && !tasks[h].started;
      assert f2.Keys == ids - {id};
    }
    forall i | 0 <= i < |s.tasks| ensures OnlyCanceled(s.tasks[i], t2[i]) {
      assert OnlyCanceled(s.tasks[i], tasks[i]);
    }
  }

  /** What loadData is given: the view's verdicts and tile lists (calculateVisibleTiles is a parameter). */
  datatype LoadInput = LoadInput(
    drawn: bool,
    visTiles: seq<MapTile>,
    preloadingTiles: seq<MapTile>,
    preloading: bool,
    synchronizedRefresh: bool,
    now: int)

  /**
   * loadData: cancel the registry's tasks; when the layer is drawn, find the
   * visible tiles and, with preloading, the preloading tiles and the parents
   * of both; finally refresh the draw data.
   */
  method LoadData(s: Layer, input: LoadInput) returns (r: Layer, handed: Option<seq<DrawData>>)
    requires Consistent(s)
    requires ZoomsNonNegative(input.visTiles) && ZoomsNonNegative(input.preloadingTiles)
    ensures Consistent(r)
    ensures CachedKeys(r) == CachedKeys(s)
    ensures r.tempDrawDatas == []
    ensures input.drawn ==> CoversAll(r, input.visTiles)
    ensures input.drawn && input.preloading ==> CoversAll(r, input.preloadingTiles)
    ensures input.drawn && input.preloading ==>
              forall i :: 0 <= i < |input.visTiles| && input.visTiles[i].zoom > 0 ==>
                Covered(r, CacheKey(s.kind, Parent(MaskTile(input.visTiles[i]))))
    ensures !input.drawn ==> |r.tasks| == |s.tasks| && r.visibleTileIds == []
  {
    var cancelled := CancelAll(s);
    var found := cancelled.(tempDrawDatas := []);
    if input.drawn {
      found := FindVisible(found, input);
    }
    var before := found;
    r, handed := RefreshDrawData(found, input.synchronizedRefresh);
    if input.drawn {
      CoversAllGrows(before, r, input.visTiles);
      if input.preloading {
        CoversAllGrows(before, r, input.preloadingTiles);
        ParentsCoveredGrow(before, r, input.visTiles);
      }
    }
  }

  /** The drawn half of loadData: the visible tiles, then with preloading the preloading tiles and all parents. */
  method FindVisible(s: Layer, input: LoadInput) returns (r: Layer)
    requires Consistent(s)
    requires ZoomsNonNegative(input.visTiles) && ZoomsNonNegative(input.preloadingTiles)
    ensures Consistent(r) && r.kind == s.kind
    ensures CachedKeys(r) == CachedKeys(s) && s.fetching.Keys <= r.fetching.Keys
    ensures CoversAll(r, input.visTiles)
    ensures input.preloading ==> CoversAll(r, input.preloadingTiles)
    ensures input.preloading ==> ParentsCovered(r, input.visTiles)
  {
    r := FindTiles(s, input.visTiles, false, input.now);
    FindTilesCovers(s, input.visTiles, false, input.now);
    if input.preloading {
      r := FindPreloading(r, input.visTiles, input.preloadingTiles, input.now);
    }
  }

  /** The preloading half: the preloading tiles, then the parents of the visible and preloading tiles. */
  method FindPreloading(s: Layer, visTiles: seq<MapTile>, preloadingTiles: seq<MapTile>, now: int) returns (r: Layer)
    requires Consistent(s) && ZoomsNonNegative(visTiles) && ZoomsNonNegative(preloadingTiles)
    requires CoversAll(s, visTiles)
    ensures Consistent(r) && r.kind == s.kind
    ensures CachedKeys(r) == CachedKeys(s) && s.fetching.Keys <= r.fetching.Keys
    ensures CoversAll(r, visTiles) && CoversAll(r, preloadingTiles)
    ensures ParentsCovered(r, visTiles)
  {
    var afterPreloading := FindTiles(s, preloadingTiles, true, now);
    FindTilesCovers(s, preloadingTiles, true, now);
    CoversAllGrows(s, afterPreloading, visTiles);
    var all := visTiles + preloadingTiles;
    r := FetchParents(afterPreloading, all, now);
    CoversAllGrows(afterPreloading, r, visTiles);
    CoversAllGrows(afterPreloading, r, preloadingTiles);
    forall i | 0 <= i < |visTiles| && visTiles[i].zoom > 0
      ensures Covered(r, CacheKey(r.kind, Parent(MaskTile(visTiles[i]))))
    {
      assert all[i] == visTiles[i];
    }
  }

  /** Every visible tile above zoom 0 has its parent fetched or cached. */
  ghost predicate ParentsCovered(s: Layer, tiles: seq<MapTile>)
    requires ZoomsNonNegative(tiles)
  {
    forall i :: 0 <= i < |tiles| && tiles[i].zoom > 0 ==> Covered(s, CacheKey(s.kind, Parent(MaskTile(tiles[i]))))
  }

  lemma {:induction false} ParentsCoveredGrow(s: Layer, t: Layer, tiles: seq<MapTile>)
    requires ZoomsNonNegative(tiles)
    requires t.kind == s.kind && CachedKeys(t) == CachedKeys(s) && s.fetching.Keys <= t.fetching.Keys
    requires ParentsCovered(s, tiles)
    ensures ParentsCovered(t, tiles)
  {
  }

  /** Coverage survives any step that keeps the cached keys and does not shrink the registry. */
  lemma {:induction false} CoversAllGrows(s: Layer, t: Layer, tiles: seq<MapTile>)
    requires ZoomsNonNegative(tiles)
    requires t.kind == s.kind && CachedKeys(t) == CachedKeys(s) && s.fetching.Keys <= t.fetching.Keys
    requires CoversAll(s, tiles)
    ensures CoversAll(t, tiles)
  {
  }
}

=== FILE: tile_search.dfy ===
/**
 * The cache-independent decisions of the tile layer: which cached tile can
 * stand in for a missing one (findParentTile, findChildTiles and the
 * per-tile part of findTiles), the order tiles are requested in (sortTiles)
 * and which tiles a view needs (calculateVisibleTilesRecursive).
 *
 * Cache contents are seen through a predicate `cached(tile, preloadingCache)`
 * and the geometric tests of the view through predicates on tiles, so every
 * decision here is exact while projection and floating-point geometry stay
 * outside the model.
 */
module TileSearch {
  import opened Tiles

  /** TILE_SUBSTITUTION_POLICY_ALL, _VISIBLE and _NONE. */
  datatype SubstitutionPolicy = SubstituteAll | SubstituteVisible | SubstituteNone

  /** One calculateDrawData call: draw `closest` in place of `visTile`. */
  datatype DrawRequest = DrawRequest(visTile: MapTile, closest: MapTile, preloading: bool)

  /** What findTiles asks of the layer for one tile, in call order. */
  datatype Effect =
    | Draw(req: DrawRequest)
    | Fetch(tile: MapTile, preloading: bool, invalidated: bool)

  /** `cached(tile, preloadingCache)`: tileExists on the visible (false) or preloading (true) cache. */
  type CacheTest = (MapTile, bool) -> bool

  /** `d` lies `m` levels below `t` in the quadtree. */
  ghost predicate IsDescendant(d: MapTile, t: MapTile, m: nat) {
    d.zoom == t.zoom + m && Ancestor(d, m) == t
  }

  // ---------------------------------------------------------------------------
  // Parent substitution
  // ---------------------------------------------------------------------------

  /**
   * findParentTile: walks up at most `depth` levels (never above zoom 0) and
   * draws the first cached ancestor. The result is (found, draw requests).
   */
  function FindParentTile(cached: CacheTest, visTile: MapTile, tile: MapTile, depth: int,
                          preloadingCache: bool, preloadingTile: bool): (r: (bool, seq<DrawRequest>))
    decreases depth
    ensures |r.1| == if r.0 then 1 else 0
    ensures tile.zoom <= 0 || depth <= 0 ==> !r.0
  {
    if tile.zoom <= 0 || depth <= 0 then (false, [])
    else
      var parent := Parent(tile);
      if cached(parent, preloadingCache) then (true, [DrawRequest(visTile, parent, preloadingTile)])
      else FindParentTile(cached, visTile, parent, depth - 1, preloadingCache, preloadingTile)
  }

  /** The ancestor k levels up is cached and none below it is: the one findParentTile stops at. */
  ghost predicate NearestCachedAncestor(cached: CacheTest, tile: MapTile, k: nat, preloadingCache: bool) {
    && 1 <= k <= tile.zoom
    && cached(Ancestor(tile, k), preloadingCache)
    && forall j: nat :: 1 <= j < k ==> !cached(Ancestor(tile, j), preloadingCache)
  }

  /** Some ancestor 1..depth levels up (and at zoom 0 or deeper) is cached. */
  ghost predicate HasCachedAncestor(cached: CacheTest, tile: MapTile, depth: int, preloadingCache: bool) {
    exists k: nat :: 1 <= k <= depth && k <= tile.zoom && cached(Ancestor(tile, k), preloadingCache)
  }

  /**
   * findParentTile succeeds exactly when a cached ancestor exists within
   * reach, and then draws the nearest one.
   */
  lemma {:induction false} FindParentTileNearest(cached: CacheTest, visTile: MapTile, tile: MapTile, depth: int,
                                                 preloadingCache: bool, preloadingTile: bool)
    decreases depth
    ensures var r := FindParentTile(cached, visTile, tile, depth, preloadingCache, preloadingTile);
            && (r.0 <==> HasCachedAncestor(cached, tile, depth, preloadingCache))
            && (r.0 ==> exists k: nat :: k <= depth && NearestCachedAncestor(cached, tile, k, preloadingCache)
                          && r.1[0] == DrawRequest(visTile, Ancestor(tile, k), preloadingTile))
  {
    FindParentTileFinds(cached, visTile, tile, depth, preloadingCache, preloadingTile);
    FindParentTileDrawsNearest(cached, visTile, tile, depth, preloadingCache, preloadingTile);
  }

  lemma {:induction false} FindParentTileFinds(cached: CacheTest, visTile: MapTile, tile: MapTile, depth: int,
                                               preloadingCache: bool, preloadingTile: bool)
    decreases depth
    ensures var r := FindParentTile(cached, visTile, tile, depth, preloadingCache, preloadingTile);
            r.0 <==> HasCachedAncestor(cached, tile, depth, preloadingCache)
  {
    if tile.zoom <= 0 || depth <= 0 {
      return;
    }
    var parent := Parent(tile);
    assert Ancestor(tile, 1) == parent;
    if cached(parent, preloadingCache) {
      return;
    }
    FindParentTileFinds(cached, visTile, parent, depth - 1, preloadingCache, preloadingTile);
    if HasCachedAncestor(cached, tile, depth, preloadingCache) {
      var k: nat :| 1 <= k <= depth && k <= tile.zoom && cached(Ancestor(tile, k), preloadingCache);
      AncestorOfParent(tile, k - 1);
    }
    if HasCachedAncestor(cached, parent, depth - 1, preloadingCache) {
      var k: nat :| 1 <= k <= depth - 1 && k <= parent.zoom && cached(Ancestor(parent, k), preloadingCache);
      AncestorOfParent(tile, k);
    }
  }

  lemma {:induction false} FindParentTileDrawsNearest(cached: CacheTest, visTile: MapTile, tile: MapTile, depth: int,
                                                      preloadingCache: bool, preloadingTile: bool)
    decreases depth
    ensures var r := FindParentTile(cached, visTile, tile, depth, preloadingCache, preloadingTile);
            r.0 ==> exists k: nat :: k <= depth && NearestCachedAncestor(cached, tile, k, preloadingCache)
                      && r.1[0] == DrawRequest(visTile, Ancestor(tile, k), preloadingTile)
  {
    if tile.zoom <= 0 || depth <= 0 {
      return;
    }
    var parent := Parent(tile);
    assert Ancestor(tile, 1) == parent;
    if cached(parent, preloadingCache) {
      assert NearestCachedAncestor(cached, tile, 1, preloadingCache);
      return;
    }
    var r := FindParentTile(cached, visTile, parent, depth - 1, preloadingCache, preloadingTile);
    FindParentTileDrawsNearest(cached, visTile, parent, depth - 1, preloadingCache, preloadingTile);
    if r.0 {
      var k: nat :| k <= depth - 1 && NearestCachedAncestor(cached, parent, k, preloadingCache)
                    && r.1[0] == DrawRequest(visTile, Ancestor(parent, k), preloadingTile);
      AncestorOfParent(tile, k);
      forall j: nat | 1 <= j < k + 1
        ensures !cached(Ancestor(tile, j), preloadingCache)
      {
        AncestorOfParent(tile, j - 1);
      }
      assert NearestCachedAncestor(cached, tile, k + 1, preloadingCache);
    }
  }

  // ---------------------------------------------------------------------------
  // Child substitution
  // ---------------------------------------------------------------------------

  /**
   * findChildTiles: for each child in order 0..3, draw it if cached, otherwise
   * look one level further down while depth remains. The number of requests
   * is the count the source returns.
   */
  function FindChildTiles(cached: CacheTest, visTile: MapTile, tile: MapTile, depth: int,
                          preloadingCache: bool, preloadingTile: bool): (r: seq<DrawRequest>)
    decreases depth, 5
    ensures depth <= 0 ==> r == []
  {
    if depth <= 0 then [] else ChildrenFrom(cached, visTile, tile, 0, depth, preloadingCache, preloadingTile)
  }

  /** The requests for children n..3 of `tile`. */
  function ChildrenFrom(cached: CacheTest, visTile: MapTile, tile: MapTile, n: nat, depth: int,
                        preloadingCache: bool, preloadingTile: bool): seq<DrawRequest>
    requires n <= 4 && depth > 0
    decreases depth, 4 - n
  {
    if n == 4 then []
    else
      ChildPart(cached, visTile, tile, n, depth, preloadingCache, preloadingTile)
      + ChildrenFrom(cached, visTile, tile, n + 1, depth, preloadingCache, preloadingTile)
  }

  /** The requests contributed by child n: itself when cached, else its own cached descendants. */
  function ChildPart(cached: CacheTest, visTile: MapTile, tile: MapTile, n: nat, depth: int,
                     preloadingCache: bool, preloadingTile: bool): seq<DrawRequest>
    requires n < 4 && depth > 0
    decreases depth, 0
  {
    var child := Child(tile, n);
    if cached(child, preloadingCache) then [DrawRequest(visTile, child, preloadingTile)]
    else FindChildTiles(cached, visTile, child, depth - 1, preloadingCache, preloadingTile)
  }

  /**
   * `d` is a cached descendant within `depth` levels and no tile strictly
   * between `tile` and `d` is cached: the tiles findChildTiles stops at.
   */
  ghost predicate TopmostCachedBelow(cached: CacheTest, tile: MapTile, d: MapTile, depth: int, preloadingCache: bool) {
    exists m: nat :: 1 <= m <= depth && TopmostAt(cached, tile, d, m, preloadingCache)
  }

  /** `d` is cached, `m` levels below `tile`, with nothing cached in between. */
  ghost predicate TopmostAt(cached: CacheTest, tile: MapTile, d: MapTile, m: nat, preloadingCache: bool) {
    && IsDescendant(d, tile, m)
    && cached(d, preloadingCache)
    && forall j: nat :: 1 <= j < m ==> !cached(Ancestor(d, j), preloadingCache)
  }

  /** Every request is for `visTile` with flag `preloadingTile` and draws a topmost cached descendant. */
  ghost predicate AllTopmost(cached: CacheTest, visTile: MapTile, tile: MapTile, rs: seq<DrawRequest>, depth: int,
                             preloadingCache: bool, preloadingTile: bool) {
    forall i :: 0 <= i < |rs| ==>
      && rs[i].visTile == visTile && rs[i].preloading == preloadingTile
      && TopmostCachedBelow(cached, tile, rs[i].closest, depth, preloadingCache)
  }

  /** Some cached tile lies 1..depth levels below `tile`. */
  ghost predicate HasCachedDescendant(cached: CacheTest, tile: MapTile, depth: int, preloadingCache: bool) {
    exists d: MapTile, m: nat :: 1 <= m <= depth && IsDescendant(d, tile, m) && cached(d, preloadingCache)
  }

  /** A descendant of child `c` is a descendant of `c`'s parent one level further down. */
  lemma {:induction false} DescendantOfChild(d: MapTile, c: MapTile, m: nat)
    requires IsDescendant(d, c, m)
    ensures IsDescendant(d, Parent(c), m + 1)
  {
  }

  /** Every request of findChildTiles is for the visible tile, and draws a topmost cached descendant. */
  lemma {:induction false} FindChildTilesSound(cached: CacheTest, visTile: MapTile, tile: MapTile, depth: int,
                                               preloadingCache: bool, preloadingTile: bool)
    decreases depth, 5
    ensures AllTopmost(cached, visTile, tile, FindChildTiles(cached, visTile, tile, depth, preloadingCache, preloadingTile),
                       depth, preloadingCache, preloadingTile)
  {
    if depth > 0 {
      ChildrenFromSound(cached, visTile, tile, 0, depth, preloadingCache, preloadingTile);
    }
  }

  lemma {:induction false} ChildrenFromSound(cached: CacheTest, visTile: MapTile, tile: MapTile, n: nat, depth: int,
                                             preloadingCache: bool, preloadingTile: bool)
    requires n <= 4 && depth > 0
    decreases depth, 4 - n
    ensures AllTopmost(cached, visTile, tile, ChildrenFrom(cached, visTile, tile, n, depth, preloadingCache, preloadingTile),
                       depth, preloadingCache, preloadingTile)
  {
    if n < 4 {
      ChildPartSound(cached, visTile, tile, n, depth, preloadingCache, preloadingTile);
      ChildrenFromSound(cached, visTile, tile, n + 1, depth, preloadingCache, preloadingTile);
    }
  }

  lemma {:induction false} ChildPartSound(cached: CacheTest, visTile: MapTile, tile: MapTile, n: nat, depth: int,
                                          preloadingCache: bool, preloadingTile: bool)
    requires n < 4 && depth > 0
    decreases depth, 0
    ensures AllTopmost(cached, visTile, tile, ChildPart(cached, visTile, tile, n, depth, preloadingCache, preloadingTile),
                       depth, preloadingCache, preloadingTile)
  {
    var child := Child(tile, n);
    var r := ChildPart(cached, visTile, tile, n, depth, preloadingCache, preloadingTile);
    if cached(child, preloadingCache) {
      assert Ancestor(child, 1) == Parent(child);
      assert TopmostAt(cached, tile, child, 1, preloadingCache);
    } else {
      FindChildTilesSound(cached, visTile, child, depth - 1, preloadingCache, preloadingTile);
      forall i | 0 <= i < |r|
        ensures TopmostCachedBelow(cached, tile, r[i].closest, depth, preloadingCache)
      {
        var d := r[i].closest;
        assert TopmostCachedBelow(cached, child, d, depth - 1, preloadingCache);
        var m: nat :| 1 <= m <= depth - 1 && TopmostAt(cached, child, d, m, preloadingCache);
        DescendantOfChild(d, child, m);
        assert Ancestor(d, m) == child;
        assert TopmostAt(cached, tile, d, m + 1, preloadingCache);
      }
    }
  }

  /** findChildTiles misses no topmost cached descendant. */
  lemma {:induction false} FindChildTilesComplete(cached: CacheTest, visTile: MapTile, tile: MapTile, depth: int,
                                                  preloadingCache: bool, preloadingTile: bool, d: MapTile)
    requires TopmostCachedBelow(cached, tile, d, depth, preloadingCache)
    decreases depth, 5
    ensures exists req :: req in FindChildTiles(cached, visTile, tile, depth, preloadingCache, preloadingTile) && req.closest == d
  {
    var m: nat :| 1 <= m <= depth && TopmostAt(cached, tile, d, m, preloadingCache);
    var c := Ancestor(d, m - 1);
    ChildOfParent(c);
    var n := c.x % 2 + 2 * (c.y % 2);
    assert c == Child(tile, n);
    var part := ChildPart(cached, visTile, tile, n, depth, preloadingCache, preloadingTile);
    if m == 1 {
      assert part[0].closest == d;
    } else {
      assert !cached(c, preloadingCache);
      assert TopmostAt(cached, c, d, m - 1, preloadingCache);
      FindChildTilesComplete(cached, visTile, c, depth - 1, preloadingCache, preloadingTile, d);
    }
    assert exists req :: req in part && req.closest == d;
    var i :| 0 <= i < |part| && part[i].closest == d;
    ChildrenFromContains(cached, visTile, tile, 0, n, depth, preloadingCache, preloadingTile);
    assert part[i] in part;
    assert part[i] in FindChildTiles(cached, visTile, tile, depth, preloadingCache, preloadingTile);
  }

  /** The part of child n sits inside the requests for children n0..3 whenever n0 <= n. */
  lemma {:induction false} ChildrenFromContains(cached: CacheTest, visTile: MapTile, tile: MapTile, n0: nat, n: nat,
                                                depth: int, preloadingCache: bool, preloadingTile: bool)
    requires n0 <= n < 4 && depth > 0
    decreases n - n0
    ensures forall x :: x in ChildPart(cached, visTile, tile, n, depth, preloadingCache, preloadingTile) ==>
              x in ChildrenFrom(cached, visTile, tile, n0, depth, preloadingCache, preloadingTile)
  {
    if n0 < n {
      ChildrenFromContains(cached, visTile, tile, n0 + 1, n, depth, preloadingCache, preloadingTile);
    }
  }

  /** A cached descendant always has a topmost cached tile on its way up. */
  lemma {:induction false} TopmostExists(cached: CacheTest, tile: MapTile, d: MapTile, m: nat, depth: int,
                                         preloadingCache: bool)
    requires 1 <= m <= depth && IsDescendant(d, tile, m) && cached(d, preloadingCache)
    decreases m
    ensures exists e :: TopmostCachedBelow(cached, tile, e, depth, preloadingCache)
  {
    var c := Ancestor(d, m - 1);
    if cached(c, preloadingCache) {
      assert Ancestor(c, 1) == Parent(c);
      assert TopmostAt(cached, tile, c, 1, preloadingCache);
      assert TopmostCachedBelow(cached, tile, c, depth, preloadingCache);
    } else {
      assert m > 1;
      assert IsDescendant(d, c, m - 1);
      TopmostExists(cached, c, d, m - 1, depth - 1, preloadingCache);
      var e :| TopmostCachedBelow(cached, c, e, depth - 1, preloadingCache);
      var m': nat :| 1 <= m' <= depth - 1 && TopmostAt(cached, c, e, m', preloadingCache);
      DescendantOfChild(e, c, m');
      assert Ancestor(e, m') == c;
      assert TopmostAt(cached, tile, e, m' + 1, preloadingCache);
      assert TopmostCachedBelow(cached, tile, e, depth, preloadingCache);
    }
  }

  /** findChildTiles counts at least one tile exactly when some cached tile lies within reach below. */
  lemma {:induction false} FindChildTilesFinds(cached: CacheTest, visTile: MapTile, tile: MapTile, depth: int,
                            preloadingCache: bool, preloadingTile: bool)
    ensures |FindChildTiles(cached, visTile, tile, depth, preloadingCache, preloadingTile)| > 0
            <==> HasCachedDescendant(cached, tile, depth, preloadingCache)
  {
    var r := FindChildTiles(cached, visTile, tile, depth, preloadingCache, preloadingTile);
    FindChildTilesSound(cached, visTile, tile, depth, preloadingCache, preloadingTile);
    if |r| > 0 {
      assert TopmostCachedBelow(cached, tile, r[0].closest, depth, preloadingCache);
      var m: nat :| 1 <= m <= depth && TopmostAt(cached, tile, r[0].closest, m, preloadingCache);
      assert IsDescendant(r[0].closest, tile, m) && cached(r[0].closest, preloadingCache);
    }
    if HasCachedDescendant(cached, tile, depth, preloadingCache) {
      var d: MapTile, m: nat :| 1 <= m <= depth && IsDescendant(d, tile, m) && cached(d, preloadingCache);
      TopmostExists(cached, tile, d, m, depth, preloadingCache);
      var e :| TopmostCachedBelow(cached, tile, e, depth, preloadingCache);
      FindChildTilesComplete(cached, visTile, tile, depth, preloadingCache, preloadingTile, e);
    }
  }

  // ---------------------------------------------------------------------------
  // findTiles, one visible tile at a time
  // ---------------------------------------------------------------------------

  /** `tile & ((1 << zoom) - 1)` on both coordinates: the tile folded into the base world copy. */
  function MaskTile(t: MapTile): (r: MapTile)
    requires t.zoom >= 0
    ensures r.zoom == t.zoom && r.frameNr == t.frameNr
    ensures 0 <= r.x < Pow2(t.zoom) && 0 <= r.y < Pow2(t.zoom)
  {
    MapTile(MaskCoord(t.x, t.zoom), MaskCoord(t.y, t.zoom), t.zoom, t.frameNr)
  }

  /** The caches tried for substitutes, in order: false is the visible cache, true the preloading one. */
  function PolicyCaches(policy: SubstitutionPolicy, preloadingTile: bool): (r: seq<bool>)
    ensures policy == SubstituteAll ==> r == [false, true]
    ensures policy == SubstituteVisible ==> r == if preloadingTile then [false, true] else [false]
    ensures policy == SubstituteNone ==> r == []
  {
    match policy
    case SubstituteAll => [false, true]
    case SubstituteVisible => if preloadingTile then [false, true] else [false]
    case SubstituteNone => []
  }

  /** The substitute-search limits of the layer. */
  datatype SearchLimits = SearchLimits(lastFrameNr: int, maxOverzoom: int, maxUnderzoom: int)

  /** Some substitute exists in one cache: the previous-frame tile, an ancestor or a descendant within reach. */
  ghost predicate HasSubstitute(cached: CacheTest, tile: MapTile, limits: SearchLimits, preloadingCache: bool) {
    || cached(WithFrame(tile, limits.lastFrameNr), preloadingCache)
    || HasCachedAncestor(cached, tile, limits.maxOverzoom, preloadingCache)
    || HasCachedDescendant(cached, tile, limits.maxUnderzoom, preloadingCache)
  }

  /** The substitutes found in one cache: previous frame, else parent, else children. */
  function SearchCache(cached: CacheTest, visTile: MapTile, tile: MapTile, limits: SearchLimits,
                       preloadingCache: bool, preloadingTile: bool): seq<DrawRequest>
  {
    var prevFrameTile := WithFrame(tile, limits.lastFrameNr);
    if cached(prevFrameTile, preloadingCache) then [DrawRequest(visTile, prevFrameTile, preloadingTile)]
    else
      var parent := if tile.zoom > 0 then FindParentTile(cached, visTile, tile, limits.maxOverzoom, preloadingCache, preloadingTile)
                    else (false, []);
      if parent.0 then parent.1
      else FindChildTiles(cached, visTile, tile, limits.maxUnderzoom, preloadingCache, preloadingTile)
  }

  /**
   * One cache yields requests exactly when it holds a substitute, and every
   * request draws a tile present in that cache.
   */
  lemma {:induction false} SearchCacheSpec(cached: CacheTest, visTile: MapTile, tile: MapTile, limits: SearchLimits,
                        preloadingCache: bool, preloadingTile: bool)
    ensures var r := SearchCache(cached, visTile, tile, limits, preloadingCache, preloadingTile);
            && (|r| > 0 <==> HasSubstitute(cached, tile, limits, preloadingCache))
            && forall i :: 0 <= i < |r| ==>
                 r[i].visTile == visTile && r[i].preloading == preloadingTile && cached(r[i].closest, preloadingCache)
  {
    var r := SearchCache(cached, visTile, tile, limits, preloadingCache, preloadingTile);
    FindParentTileNearest(cached, visTile, tile, limits.maxOverzoom, preloadingCache, preloadingTile);
    FindChildTilesFinds(cached, visTile, tile, limits.maxUnderzoom, preloadingCache, preloadingTile);
    FindChildTilesSound(cached, visTile, tile, limits.maxUnderzoom, preloadingCache, preloadingTile);
    var c := FindChildTiles(cached, visTile, tile, limits.maxUnderzoom, preloadingCache, preloadingTile);
    forall i | 0 <= i < |c|
      ensures cached(c[i].closest, preloadingCache)
    {
      assert TopmostCachedBelow(cached, tile, c[i].closest, limits.maxUnderzoom, preloadingCache);
    }
  }

  /** Cache `c` is the first in the list that holds a substitute. */
  ghost predicate FirstWithSubstitute(cached: CacheTest, tile: MapTile, limits: SearchLimits, caches: seq<bool>, c: int) {
    && 0 <= c < |caches|
    && HasSubstitute(cached, tile, limits, caches[c])
    && forall c' :: 0 <= c' < c ==> !HasSubstitute(cached, tile, limits, caches[c'])
  }

  /** The caches in order until the first one that yields: the loop over preloadingCaches. */
  function SubstituteSearch(cached: CacheTest, visTile: MapTile, tile: MapTile, limits: SearchLimits,
                            caches: seq<bool>, preloadingTile: bool): seq<DrawRequest>
    decreases |caches|
  {
    if |caches| == 0 then []
    else
      var found := SearchCache(cached, visTile, tile, limits, caches[0], preloadingTile);
      if |found| > 0 then found
      else SubstituteSearch(cached, visTile, tile, limits, caches[1..], preloadingTile)
  }

  /**
   * The search takes every request from the first cache in the list that
   * holds a substitute, and finds nothing when none does.
   */
  lemma {:induction false} SubstituteSearchFirst(cached: CacheTest, visTile: MapTile, tile: MapTile, limits: SearchLimits,
                                                 caches: seq<bool>, preloadingTile: bool)
    decreases |caches|
    ensures var r := SubstituteSearch(cached, visTile, tile, limits, caches, preloadingTile);
            && (|r| > 0 <==> exists c :: 0 <= c < |caches| && HasSubstitute(cached, tile, limits, caches[c]))
            && forall c :: FirstWithSubstitute(cached, tile, limits, caches, c) ==>
                 r == SearchCache(cached, visTile, tile, limits, caches[c], preloadingTile)
  {
    if |caches| > 0 {
      var rest := caches[1..];
      SearchCacheSpec(cached, visTile, tile, limits, caches[0], preloadingTile);
      SubstituteSearchFirst(cached, visTile, tile, limits, rest, preloadingTile);
      assert forall c :: 0 < c < |caches| ==> caches[c] == rest[c - 1];
      forall c | FirstWithSubstitute(cached, tile, limits, caches, c) && c > 0
        ensures FirstWithSubstitute(cached, tile, limits, rest, c - 1)
      {
      }
      if exists c :: 0 <= c < |caches| && HasSubstitute(cached, tile, limits, caches[c]) {
        var c :| 0 <= c < |caches| && HasSubstitute(cached, tile, limits, caches[c]);
        if c > 0 && !HasSubstitute(cached, tile, limits, caches[0]) {
          assert HasSubstitute(cached, tile, limits, rest[c - 1]);
        }
      }
    }
  }


  /**
   * findTiles for one visible tile: on an exact hit in either cache, draw it
   * and re-fetch it (invalidated) only when valid in neither; on a miss, draw
   * the substitutes and fetch the tile.
   */
  function FindTile(cached: CacheTest, valid: CacheTest, visTile: MapTile, preloadingTile: bool,
                    policy: SubstitutionPolicy, limits: SearchLimits): (r: seq<Effect>)
    requires visTile.zoom >= 0
    ensures |r| >= 1
  {
    var tile := MaskTile(visTile);
    if cached(tile, preloadingTile) || cached(tile, !preloadingTile) then
      [Draw(DrawRequest(visTile, tile, preloadingTile))]
      + (if !valid(tile, preloadingTile) && !valid(tile, !preloadingTile) then [Fetch(tile, preloadingTile, true)] else [])
    else
      var subs := SubstituteSearch(cached, visTile, tile, limits, PolicyCaches(policy, preloadingTile), preloadingTile);
      seq(|subs|, i requires 0 <= i < |subs| => Draw(subs[i])) + [Fetch(tile, preloadingTile, false)]
  }

  /** An exact hit: one draw of the tile itself, then a forced re-fetch only if neither cache holds it valid. */
  lemma {:induction false} FindTileHit(cached: CacheTest, valid: CacheTest, visTile: MapTile, preloadingTile: bool,
                    policy: SubstitutionPolicy, limits: SearchLimits)
    requires visTile.zoom >= 0
    requires var tile := MaskTile(visTile); cached(tile, preloadingTile) || cached(tile, !preloadingTile)
    ensures var tile := MaskTile(visTile);
            var r := FindTile(cached, valid, visTile, preloadingTile, policy, limits);
            && r[0] == Draw(DrawRequest(visTile, tile, preloadingTile))
            && (|r| == 2 <==> !valid(tile, preloadingTile) && !valid(tile, !preloadingTile))
            && (|r| == 1 || r[1] == Fetch(tile, preloadingTile, true))
  {
  }

  /**
   * A miss: every effect but the last draws a substitute for `visTile` taken
   * from the first policy cache that has one, there is a substitute exactly
   * when some policy cache holds one, and the last effect is a plain fetch.
   */
  lemma {:induction false} FindTileMiss(cached: CacheTest, valid: CacheTest, visTile: MapTile, preloadingTile: bool,
                     policy: SubstitutionPolicy, limits: SearchLimits)
    requires visTile.zoom >= 0
    requires var tile := MaskTile(visTile); !cached(tile, preloadingTile) && !cached(tile, !preloadingTile)
    ensures var tile := MaskTile(visTile);
            var caches := PolicyCaches(policy, preloadingTile);
            var r := FindTile(cached, valid, visTile, preloadingTile, policy, limits);
            && r[|r| - 1] == Fetch(tile, preloadingTile, false)
            && (|r| > 1 <==> exists c :: 0 <= c < |caches| && HasSubstitute(cached, tile, limits, caches[c]))
            && forall c :: FirstWithSubstitute(cached, tile, limits, caches, c) ==>
                 forall i :: 0 <= i < |r| - 1 ==>
                   && r[i].Draw? && r[i].req.visTile == visTile && r[i].req.preloading == preloadingTile
                   && cached(r[i].req.closest, caches[c])
  {
    var tile := MaskTile(visTile);
    var caches := PolicyCaches(policy, preloadingTile);
    SubstituteSearchFirst(cached, visTile, tile, limits, caches, preloadingTile);
    forall c | 0 <= c < |caches|
      ensures var s := SearchCache(cached, visTile, tile, limits, caches[c], preloadingTile);
              forall i :: 0 <= i < |s| ==>
                s[i].visTile == visTile && s[i].preloading == preloadingTile && cached(s[i].closest, caches[c])
    {
      SearchCacheSpec(cached, visTile, tile, limits, caches[c], preloadingTile);
    }
  }

  /** Every request is drawn at `visTile` with the flag `preloadingTile`. */
  predicate RequestsFor(rs: seq<DrawRequest>, visTile: MapTile, preloadingTile: bool) {
    forall i :: 0 <= i < |rs| ==> rs[i].visTile == visTile && rs[i].preloading == preloadingTile
  }

  /** Every draw effect is drawn at `visTile` with the flag `preloadingTile`. */
  predicate DrawsFor(effects: seq<Effect>, visTile: MapTile, preloadingTile: bool) {
    forall i :: 0 <= i < |effects| && effects[i].Draw? ==>
      effects[i].req.visTile == visTile && effects[i].req.preloading == preloadingTile
  }

  /** Every request a substitute search returns is for `visTile`, with its preloading flag. */
  lemma {:induction false} SubstituteSearchFor(cached: CacheTest, visTile: MapTile, tile: MapTile, limits: SearchLimits,
                                               caches: seq<bool>, preloadingTile: bool)
    decreases |caches|
    ensures RequestsFor(SubstituteSearch(cached, visTile, tile, limits, caches, preloadingTile), visTile, preloadingTile)
  {
    if |caches| > 0 {
      SearchCacheSpec(cached, visTile, tile, limits, caches[0], preloadingTile);
      SubstituteSearchFor(cached, visTile, tile, limits, caches[1..], preloadingTile);
    }
  }

  /** Every draw findTiles issues for a visible tile is drawn at that tile, with its preloading flag. */
  lemma {:induction false} FindTileDrawsFor(cached: CacheTest, valid: CacheTest, visTile: MapTile, preloadingTile: bool,
                         policy: SubstitutionPolicy, limits: SearchLimits)
    requires visTile.zoom >= 0
    ensures DrawsFor(FindTile(cached, valid, visTile, preloadingTile, policy, limits), visTile, preloadingTile)
  {
    var tile := MaskTile(visTile);
    var subs := SubstituteSearch(cached, visTile, tile, limits, PolicyCaches(policy, preloadingTile), preloadingTile);
    SubstituteSearchFor(cached, visTile, tile, limits, PolicyCaches(policy, preloadingTile), preloadingTile);
    assert RequestsFor(subs, visTile, preloadingTile);
  }

  /** Policy NONE never substitutes: the only effect of a miss is the fetch. */
  lemma {:induction false} NoSubstitutionOnlyFetches(cached: CacheTest, valid: CacheTest, visTile: MapTile, preloadingTile: bool,
                                  limits: SearchLimits)
    requires visTile.zoom >= 0
    requires var tile := MaskTile(visTile); !cached(tile, preloadingTile) && !cached(tile, !preloadingTile)
    ensures FindTile(cached, valid, visTile, preloadingTile, SubstituteNone, limits)
            == [Fetch(MaskTile(visTile), preloadingTile, false)]
  {
  }

  // ---------------------------------------------------------------------------
  // sortTiles
  // ---------------------------------------------------------------------------

  /** (parent substitution level, child substitution level, distance to the camera). */
  datatype SortKey = SortKey(parentLevel: int, childLevel: int, distance: real)

  /** The lexicographic order of std::tuple's operator<, non-strict. */
  predicate KeyLe(a: SortKey, b: SortKey) {
    a.parentLevel < b.parentLevel
    || (a.parentLevel == b.parentLevel
        && (a.childLevel < b.childLevel || (a.childLevel == b.childLevel && a.distance <= b.distance)))
  }

  /**
   * The key sortTiles tags a tile with: whether its parent is in either
   * cache, whether any child is, and its camera distance (supplied, since it
   * is computed from projected floating-point geometry).
   */
  function TileSortKey(cached: CacheTest, distance: MapTile -> real, t: MapTile, preloadingTiles: bool): (k: SortKey)
    ensures k.parentLevel == 1 <==> cached(Parent(t), preloadingTiles) || cached(Parent(t), !preloadingTiles)
    ensures k.childLevel == 1 <==> exists n :: 0 <= n < 4 && (cached(Child(t, n), preloadingTiles) || cached(Child(t, n), !preloadingTiles))
    ensures 0 <= k.parentLevel <= 1 && 0 <= k.childLevel <= 1 && k.distance == distance(t)
  {
    var parent := Parent(t);
    var parentLevel := if cached(parent, preloadingTiles) || cached(parent, !preloadingTiles) then 1 else 0;
    var childCached := exists n :: 0 <= n < 4 && (cached(Child(t, n), preloadingTiles) || cached(Child(t, n), !preloadingTiles));
    SortKey(parentLevel, if childCached then 1 else 0, distance(t))
  }

  ghost predicate SortedBy(s: seq<MapTile>, key: MapTile -> SortKey) {
    forall i, j :: 0 <= i < j < |s| ==> KeyLe(key(s[i]), key(s[j]))
  }

  /** Inserts `t` before the first element with a larger key. */
  function InsertByKey(t: MapTile, s: seq<MapTile>, key: MapTile -> SortKey): (r: seq<MapTile>)
    requires SortedBy(s, key)
    ensures multiset(r) == multiset(s) + multiset{t}
    ensures SortedBy(r, key)
  {
    if |s| == 0 then [t]
    else if KeyLe(key(t), key(s[0])) then [t] + s
    else
      SortedTail(s, key);
      var rest := InsertByKey(t, s[1..], key);
      InsertAfterHead(t, s, key, rest);
      [s[0]] + rest
  }

  lemma {:induction false} SortedTail(s: seq<MapTile>, key: MapTile -> SortKey)
    requires |s| > 0 && SortedBy(s, key)
    ensures SortedBy(s[1..], key)
  {
    forall i, j | 0 <= i < j < |s[1..]| ensures KeyLe(key(s[1..][i]), key(s[1..][j])) {
      assert s[1..][i] == s[i + 1] && s[1..][j] == s[j + 1];
    }
  }

  /** The step of InsertByKey that keeps the head: `t` sorted into the tail goes after it. */
  lemma {:induction false} InsertAfterHead(t: MapTile, s: seq<MapTile>, key: MapTile -> SortKey, rest: seq<MapTile>)
    requires |s| > 0 && SortedBy(s, key) && !KeyLe(key(t), key(s[0]))
    requires multiset(rest) == multiset(s[1..]) + multiset{t} && SortedBy(rest, key)
    ensures multiset([s[0]] + rest) == multiset(s) + multiset{t}
    ensures SortedBy([s[0]] + rest, key)
  {
    assert s == [s[0]] + s[1..];
    forall i | 0 <= i < |rest| ensures KeyLe(key(s[0]), key(rest[i])) {
      assert rest[i] in multiset(rest);
      if rest[i] != t {
        assert rest[i] in multiset(s[1..]);
        assert rest[i] in s[1..];
      }
    }
    var r := [s[0]] + rest;
    forall i, j | 0 <= i < j < |r| ensures KeyLe(key(r[i]), key(r[j])) {
      if i > 0 {
        assert r[i] == rest[i - 1] && r[j] == rest[j - 1];
      } else {
        assert r[j] == rest[j - 1];
      }
    }
  }

  /**
   * sortTiles: the tiles reordered by ascending key. std::sort does not fix
   * the order of equal keys; this model keeps their input order.
   */
  function SortTiles(tiles: seq<MapTile>, key: MapTile -> SortKey): (r: seq<MapTile>)
    ensures multiset(r) == multiset(tiles)
    ensures SortedBy(r, key)
  {
    if |tiles| == 0 then []
    else
      assert tiles == tiles[..|tiles| - 1] + [tiles[|tiles| - 1]];
      InsertByKey(tiles[|tiles| - 1], SortTiles(tiles[..|tiles| - 1], key), key)
  }

  // ---------------------------------------------------------------------------
  // calculateVisibleTilesRecursive
  // ---------------------------------------------------------------------------

  /**
   * The view-dependent tests of the recursion. `inDataExtent` is applied to
   * the flipped tile, `wantsSubdivide` is the zoom-distance test, and
   * `targetZoom` is the already clamped target tile zoom.
   */
  datatype ViewTests = ViewTests(
    inDataExtent: MapTile -> bool,
    inPreloadingFrustum: MapTile -> bool,
    inVisibleFrustum: MapTile -> bool,
    wantsSubdivide: MapTile -> bool,
    minZoom: int,
    targetZoom: int)

  /** The tile in data-source orientation: wrapped into the base world and y flipped. */
  function FlippedTile(t: MapTile): (r: MapTile)
    requires t.zoom >= 0
    ensures 0 <= r.x < Pow2(t.zoom) && 0 <= r.y < Pow2(t.zoom) && r.zoom == t.zoom
  {
    var mask := Pow2(t.zoom) - 1;
    MapTile(MaskCoord(t.x, t.zoom), mask - MaskCoord(t.y, t.zoom), t.zoom, 0)
  }

  /** The decision to split a tile further, after the min-zoom and target-zoom overrides. */
  function Subdivide(view: ViewTests, t: MapTile): (b: bool)
    ensures t.zoom < view.minZoom ==> b
    ensures view.minZoom <= t.zoom && view.targetZoom <= t.zoom ==> !b
  {
    if view.minZoom > t.zoom then true
    else if view.targetZoom <= t.zoom then false
    else view.wantsSubdivide(t)
  }

  /** A tile the recursion emits: reachable, inside the data and the preloading frustum, and not split. */
  ghost predicate IsLeaf(view: ViewTests, t: MapTile) {
    && 0 <= t.zoom <= MaxSupportedZoomLevel
    && view.inDataExtent(FlippedTile(t))
    && view.inPreloadingFrustum(t)
    && !Subdivide(view, t)
  }

  /** calculateVisibleTilesRecursive from `tile`: (visible tiles, preloading tiles) in emission order. */
  function VisibleTiles(view: ViewTests, tile: MapTile): (r: (seq<MapTile>, seq<MapTile>))
    requires tile.zoom >= 0
    decreases MaxSupportedZoomLevel + 1 - tile.zoom
  {
    if tile.zoom > MaxSupportedZoomLevel then ([], [])
    else if !view.inDataExtent(FlippedTile(tile)) then ([], [])
    else if !view.inPreloadingFrustum(tile) then ([], [])
    else if Subdivide(view, tile) then
      var r0 := VisibleTiles(view, Child(tile, 0));
      var r1 := VisibleTiles(view, Child(tile, 1));
      var r2 := VisibleTiles(view, Child(tile, 2));
      var r3 := VisibleTiles(view, Child(tile, 3));
      (r0.0 + r1.0 + r2.0 + r3.0, r0.1 + r1.1 + r2.1 + r3.1)
    else if view.inVisibleFrustum(tile) then ([tile], [])
    else ([], [tile])
  }

  function Max(a: int, b: int): int {
    if a >= b then a else b
  }

  /**
   * Every tile of `ts` is a leaf below `tile`, in the visible frustum exactly
   * when `visible`, and no deeper than max(tile zoom, minZoom, targetZoom).
   */
  ghost predicate LeavesBelow(view: ViewTests, tile: MapTile, ts: seq<MapTile>, visible: bool) {
    forall t :: t in ts ==>
      && IsLeaf(view, t)
      && view.inVisibleFrustum(t) == visible
      && tile.zoom <= t.zoom <= Max(tile.zoom, Max(view.minZoom, view.targetZoom))
      && IsDescendant(t, tile, t.zoom - tile.zoom)
  }

  /** Leaves below a subdivided child are leaves below the tile itself. */
  lemma {:induction false} LeavesBelowParent(view: ViewTests, tile: MapTile, n: nat, ts: seq<MapTile>, visible: bool)
    requires n < 4 && Subdivide(view, tile)
    requires LeavesBelow(view, Child(tile, n), ts, visible)
    ensures LeavesBelow(view, tile, ts, visible)
  {
    var c := Child(tile, n);
    forall t | t in ts
      ensures tile.zoom <= t.zoom <= Max(tile.zoom, Max(view.minZoom, view.targetZoom))
      ensures IsDescendant(t, tile, t.zoom - tile.zoom)
    {
      DescendantOfChild(t, c, t.zoom - c.zoom);
    }
  }

  /**
   * calculateVisibleTilesRecursive emits only leaves: every emitted tile has
   * zoom in [minZoom, MAX_SUPPORTED_ZOOM_LEVEL], lies below the start tile,
   * is not split further (which never happens at or above the target zoom),
   * is no deeper than the start, minZoom and target zooms require, and goes
   * to the visible list exactly when it is in the visible frustum.
   */
  lemma {:induction false} VisibleTilesAreLeaves(view: ViewTests, tile: MapTile)
    requires tile.zoom >= 0
    decreases MaxSupportedZoomLevel + 1 - tile.zoom
    ensures LeavesBelow(view, tile, VisibleTiles(view, tile).0, true)
    ensures LeavesBelow(view, tile, VisibleTiles(view, tile).1, false)
  {
    if tile.zoom > MaxSupportedZoomLevel || !view.inDataExtent(FlippedTile(tile)) || !view.inPreloadingFrustum(tile) {
      return;
    }
    if Subdivide(view, tile) {
      forall n | 0 <= n < 4
        ensures LeavesBelow(view, tile, VisibleTiles(view, Child(tile, n)).0, true)
        ensures LeavesBelow(view, tile, VisibleTiles(view, Child(tile, n)).1, false)
      {
        VisibleTilesAreLeaves(view, Child(tile, n));
        LeavesBelowParent(view, tile, n, VisibleTiles(view, Child(tile, n)).0, true);
        LeavesBelowParent(view, tile, n, VisibleTiles(view, Child(tile, n)).1, false);
      }
    } else {
      assert Ancestor(tile, 0) == tile;
    }
  }
}

=== FILE: tiles.dfy ===
/**
 * Map tiles of the quadtree tiling scheme: a tile at zoom z covers one of
 * 2^z x 2^z cells. Tile x/y values outside [0, 2^z) denote the repeated
 * copies of the world used by seamless horizontal panning.
 */
module Tiles {

  /** Highest zoom level the SDK ever asks tiles for. */
  const MaxSupportedZoomLevel: int := 24

  datatype MapTile = MapTile(x: int, y: int, zoom: int, frameNr: int)

  /** Tile identity used as a cache key. Wrapping the whole tile makes it injective. */
  datatype TileId = TileId(tile: MapTile)

  function Pow2(n: nat): (r: nat)
    ensures r >= 1
  {
    if n == 0 then 1 else 2 * Pow2(n - 1)
  }

  /** The tile one level up: coordinates shifted right by one bit (floor division). */
  function Parent(t: MapTile): (p: MapTile)
    ensures p.zoom == t.zoom - 1 && p.frameNr == t.frameNr
    ensures 2 * p.x <= t.x < 2 * p.x + 2 && 2 * p.y <= t.y < 2 * p.y + 2
  {
    MapTile(t.x / 2, t.y / 2, t.zoom - 1, t.frameNr)
  }

  /** Child n (0..3) one level down; bit 0 of n selects x, bit 1 selects y. */
  function Child(t: MapTile, n: nat): (c: MapTile)
    requires n < 4
    ensures c.zoom == t.zoom + 1 && c.frameNr == t.frameNr
    ensures Parent(c) == t
  {
    MapTile(2 * t.x + n % 2, 2 * t.y + n / 2, t.zoom + 1, t.frameNr)
  }

  /** The same tile in another animation frame. */
  function WithFrame(t: MapTile, frameNr: int): MapTile {
    MapTile(t.x, t.y, t.zoom, frameNr)
  }

  /** `tile & ((1 << zoom) - 1)`: the coordinate folded into [0, 2^zoom). */
  function MaskCoord(v: int, zoom: nat): (r: int)
    ensures 0 <= r < Pow2(zoom)
  {
    v % Pow2(zoom)
  }

  /** The ancestor `k` levels up, as k applications of Parent. */
  function Ancestor(t: MapTile, k: nat): (a: MapTile)
    ensures a.zoom == t.zoom - k && a.frameNr == t.frameNr
  {
    if k == 0 then t else Parent(Ancestor(t, k - 1))
  }

  lemma {:induction false} ChildrenAreDistinct(t: MapTile, i: nat, j: nat)
    requires i < 4 && j < 4
    ensures Child(t, i) == Child(t, j) <==> i == j
  {
    if Child(t, i) == Child(t, j) {
      assert i % 2 == j % 2 && i / 2 == j / 2;
    }
  }

  /** Every tile is one of the four children of its parent; the child index is read off the low bits. */
  lemma {:induction false} ChildOfParent(c: MapTile)
    ensures c == Child(Parent(c), c.x % 2 + 2 * (c.y % 2))
  {
  }

  /** Climbing from the parent is climbing one more level from the tile. */
  lemma {:induction false} AncestorOfParent(t: MapTile, k: nat)
    ensures Ancestor(Parent(t), k) == Ancestor(t, k + 1)
  {
    if k > 0 {
      AncestorOfParent(t, k - 1);
    }
  }
}

=== FILE: valhalla_routing_proxy.dfy ===
/**
 * The non-geometric logic of the Valhalla routing proxy: the maneuver-type
 * translation table, the map-matching configuration merge (both overloads)
 * and the choice of path algorithm. The polyline codec of the same source
 * file is in module Polyline.
 */
module ValhallaRoutingProxy {
  import opened Wrappers
  import opened Routing

  // ---------------------------------------------------------------------------
  // Maneuver types
  // ---------------------------------------------------------------------------

  /**
   * Valhalla's TripDirections maneuver types 0..29 and the action each maps
   * to. The transit types 30..36 are deliberately absent.
   */
  const ManeuverActions: map<int, RoutingAction> := map[
    0 := NoTurn,
    1 := StartAtEndOfStreet, 2 := StartAtEndOfStreet, 3 := StartAtEndOfStreet,
    4 := Finish, 5 := Finish, 6 := Finish,
    7 := GoStraight, 8 := GoStraight,
    9 := TurnRight, 10 := TurnRight, 11 := TurnRight,
    12 := UTurn, 13 := UTurn,
    14 := TurnLeft, 15 := TurnLeft, 16 := TurnLeft,
    17 := GoStraight, 18 := TurnRight, 19 := TurnLeft,
    20 := TurnRight, 21 := TurnLeft,
    22 := GoStraight, 23 := TurnRight, 24 := TurnLeft,
    25 := GoStraight,
    26 := EnterRoundabout, 27 := LeaveRoundabout,
    28 := GoStraight, 29 := GoStraight
  ]

  /** kSlightRight, kRight, kSharpRight, kRampRight, kExitRight, kStayRight. */
  const RightManeuvers: set<int> := {9, 10, 11, 18, 20, 23}
  /** kSharpLeft, kLeft, kSlightLeft, kRampLeft, kExitLeft, kStayLeft. */
  const LeftManeuvers: set<int> := {14, 15, 16, 19, 21, 24}
  /** kBecomes, kContinue, kRampStraight, kStayStraight, kMerge, kFerryEnter, kFerryExit. */
  const StraightManeuvers: set<int> := {7, 8, 17, 22, 25, 28, 29}

  /**
   * TranslateManeuverType: the pair (found, action). A type outside the
   * table (the transit types and every unknown value) gives false and the
   * incoming action back untouched.
   */
  function TranslateManeuverType(maneuverType: int, action: RoutingAction): (r: (bool, RoutingAction))
    ensures r.0 <==> 0 <= maneuverType <= 29
    ensures !r.0 ==> r.1 == action
    ensures r.0 ==> (r.1 == TurnRight <==> maneuverType in RightManeuvers)
    ensures r.0 ==> (r.1 == TurnLeft <==> maneuverType in LeftManeuvers)
    ensures r.0 ==> (r.1 == GoStraight <==> maneuverType in StraightManeuvers)
  {
    if maneuverType in ManeuverActions then (true, ManeuverActions[maneuverType]) else (false, action)
  }

  // ---------------------------------------------------------------------------
  // Map-matching configuration merge
  // ---------------------------------------------------------------------------

  /**
   * A property-tree node seen one level deep: its children by key. Child
   * subtrees are opaque values of type V; duplicate keys and child order are
   * not modelled.
   */
  type Profile<V> = map<string, V>

  /** The precedence both overloads implement: preference, then mode, then default. */
  ghost predicate Layered<V>(r: Profile<V>, defaults: Profile<V>, mode: Profile<V>, prefs: Profile<V>) {
    && (forall k :: k in r <==> k in prefs || k in mode || k in defaults)
    && (forall k :: k in prefs ==> r[k] == prefs[k])
    && (forall k :: k !in prefs && k in mode ==> r[k] == mode[k])
    && (forall k :: k !in prefs && k !in mode && k in defaults ==> r[k] == defaults[k])
  }

  /** The mode-specific profile, empty when the configuration has none for `name`. */
  function ModeProfile<V>(config: map<string, Profile<V>>, name: string): Profile<V> {
    if name in config then config[name] else map[]
  }

  /**
   * The const MergeConfig: a copy of the "default" child, overwritten by the
   * child named after the mode (when present), overwritten by the
   * preferences. A configuration without "default" makes get_child throw.
   */
  function MergeConfig<V>(config: map<string, Profile<V>>, name: string, prefs: Profile<V>): (r: Result<Profile<V>, SdkError>)
    ensures r.Failure? <==> "default" !in config
    ensures r.Success? ==> Layered(r.value, config["default"], ModeProfile(config, name), prefs)
  {
    if "default" !in config then Failure(GenericError("No such node: default"))
    else Success(config["default"] + ModeProfile(config, name) + prefs)
  }

  /**
   * Adds every key of `source` missing from `target`, keeping the values
   * `target` already has: the put_child-when-absent loop.
   */
  method FillMissing<V>(target: Profile<V>, source: Profile<V>) returns (r: Profile<V>)
    ensures forall k :: k in r <==> k in target || k in source
    ensures forall k :: k in target ==> r[k] == target[k]
    ensures forall k :: k !in target && k in source ==> r[k] == source[k]
  {
    r := target;
    var pending := source.Keys;
    while pending != {}
      invariant forall k :: k in pending ==> k in source
      invariant forall k :: k in r <==> k in target || (k in source && k !in pending)
      invariant forall k :: k in target ==> r[k] == target[k]
      invariant forall k :: k in r && k !in target ==> k in source && r[k] == source[k]
      decreases |pending|
    {
      var k :| k in pending;
      if k !in r {
        r := r[k := source[k]];
      }
      pending := pending - {k};
    }
  }

  /**
   * The mutating MergeConfig: missing keys of the preferences are filled from
   * the mode profile first, then from the default profile. When the
   * configuration has no "default", the mode fill has already happened when
   * get_child throws; `ok` is false and `merged` is that partial state.
   */
  method MergeConfigInPlace<V>(config: map<string, Profile<V>>, name: string, prefs: Profile<V>)
    returns (merged: Profile<V>, ok: bool)
    ensures ok <==> "default" in config
    ensures ok ==> Layered(merged, config["default"], ModeProfile(config, name), prefs)
    ensures !ok ==> Layered(merged, map[], ModeProfile(config, name), prefs)
  {
    merged := FillMissing(prefs, ModeProfile(config, name));
    if "default" !in config {
      return merged, false;
    }
    merged := FillMissing(merged, config["default"]);
    ok := true;
  }

  /** Both overloads produce the same merged profile whenever the default profile exists. */
  lemma {:induction false} MergeOverloadsAgree<V>(config: map<string, Profile<V>>, name: string, prefs: Profile<V>,
                               merged: Profile<V>)
    requires "default" in config
    requires Layered(merged, config["default"], ModeProfile(config, name), prefs)
    ensures MergeConfig(config, name, prefs) == Success(merged)
  {
    var r := MergeConfig(config, name, prefs).value;
    forall k | k in r
      ensures k in merged && r[k] == merged[k]
    {
    }
    assert r == merged;
  }

  // ---------------------------------------------------------------------------
  // Path algorithm selection
  // ---------------------------------------------------------------------------

  datatype PathAlgorithm = MultiModalAStar | AStar | BidirectionalAStar

  /** Some origin edge has the same id as some destination edge. */
  ghost predicate SharesEdge(originEdges: seq<int>, destinationEdges: seq<int>) {
    exists i, j :: 0 <= i < |originEdges| && 0 <= j < |destinationEdges| && originEdges[i] == destinationEdges[j]
  }

  /**
   * get_path_algorithm: multimodal routing uses multimodal A*, buses use A*,
   * pedestrians and wheelchairs use bidirectional A*, and every other
   * costing uses A* exactly when origin and destination share an edge (the
   * trivial case bidirectional A* cannot handle with one-ways).
   */
  method GetPathAlgorithm(routeType: string, originEdges: seq<int>, destinationEdges: seq<int>)
    returns (a: PathAlgorithm)
    ensures routeType == "multimodal" ==> a == MultiModalAStar
    ensures routeType == "bus" ==> a == AStar
    ensures routeType == "pedestrian" || routeType == "wheelchair" ==> a == BidirectionalAStar
    ensures routeType !in {"multimodal", "bus", "pedestrian", "wheelchair"} ==>
              (a == AStar <==> SharesEdge(originEdges, destinationEdges))
    ensures routeType !in {"multimodal", "bus", "pedestrian", "wheelchair"} ==> a != MultiModalAStar
  {
    if routeType == "multimodal" {
      return MultiModalAStar;
    } else if routeType == "bus" {
      return AStar;
    } else if routeType == "pedestrian" || routeType == "wheelchair" {
      return BidirectionalAStar;
    }
    for i := 0 to |originEdges|
      invariant forall i', j :: 0 <= i' < i && 0 <= j < |destinationEdges| ==> originEdges[i'] != destinationEdges[j]
    {
      for j := 0 to |destinationEdges|
        invariant forall j' :: 0 <= j' < j ==> originEdges[i] != destinationEdges[j']
      {
        if originEdges[i] == destinationEdges[j] {
          return AStar;
        }
      }
    }
    return BidirectionalAStar;
  }
}

=== FILE: vector_tile_layer.dfy ===
/**
 * What is specific to the vector tile layer: its tile ids (frame number
 * dropped in tile-map mode), the load step of its fetch task (first usable
 * data-source tile, one decode, store into the task's cache tier with the
 * data's max age), and the cost of a cached TileInfo.
 *
 * The data source, the decoder and the renderer's resident-size estimate
 * are parameters; time is an explicit `now` in milliseconds.
 */
module VectorTileLayer {
  import opened Wrappers
  import opened Tiles
  import opened TileCache
  import opened TileLayer
  import VtTile

  /** getTileId in tile-map mode ignores the frame; otherwise the whole tile is the key. */
  lemma {:induction false} GetTileIdSpec(useTileMapMode: bool, a: MapTile, b: MapTile)
    ensures useTileMapMode ==>
              (CacheKey(VectorLayer(true), a) == CacheKey(VectorLayer(true), b)
               <==> a.x == b.x && a.y == b.y && a.zoom == b.zoom)
    ensures !useTileMapMode ==> (CacheKey(VectorLayer(false), a) == CacheKey(VectorLayer(false), b) <==> a == b)
  {
    if useTileMapMode && CacheKey(VectorLayer(true), a) == CacheKey(VectorLayer(true), b) {
      assert CacheKey(VectorLayer(true), a).tile == CacheKey(VectorLayer(true), b).tile;
    }
  }

  // ---------------------------------------------------------------------------
  // TileInfo::getSize
  // ---------------------------------------------------------------------------

  /** The summed resident size of the tiles of a tile map. */
  function FramesSize(tileMap: seq<FrameTile>, residentSize: VtTile.Tile -> nat): nat
    decreases |tileMap|
  {
    if |tileMap| == 0 then 0 else FramesSize(tileMap[..|tileMap| - 1], residentSize) + residentSize(tileMap[|tileMap| - 1].tile)
  }

  /** Adding a frame to a tile map adds exactly that tile's resident size. */
  lemma {:induction false} FramesSizeAppend(tileMap: seq<FrameTile>, f: FrameTile, residentSize: VtTile.Tile -> nat)
    ensures FramesSize(tileMap + [f], residentSize) == FramesSize(tileMap, residentSize) + residentSize(f.tile)
  {
    assert (tileMap + [f])[..|tileMap|] == tileMap;
  }

  /** Every frame's resident size is part of the total. */
  lemma {:induction false} FramesSizeBounds(tileMap: seq<FrameTile>, residentSize: VtTile.Tile -> nat, i: nat)
    requires i < |tileMap|
    ensures residentSize(tileMap[i].tile) <= FramesSize(tileMap, residentSize)
    decreases |tileMap|
  {
    if i < |tileMap| - 1 {
      FramesSizeBounds(tileMap[..|tileMap| - 1], residentSize, i);
    }
  }

  /**
   * TileInfo::getSize: the fixed footprint, plus the raw data when kept,
   * plus the resident size of every frame.
   */
  function TileInfoSize(tileMap: seq<FrameTile>, data: Option<seq<bv8>>, residentSize: VtTile.Tile -> nat): (n: nat)
    ensures n >= ExtraTileFootprint
    ensures data.Some? ==> n >= ExtraTileFootprint + |data.value|
    ensures n >= ExtraTileFootprint + FramesSize(tileMap, residentSize)
  {
    ExtraTileFootprint + (if data.Some? then |data.value| else 0) + FramesSize(tileMap, residentSize)
  }

  // ---------------------------------------------------------------------------
  // FetchTask::loadTile
  // ---------------------------------------------------------------------------

  /**
   * What loadTile consults: the data source, the decoder (None for a null
   * tile map), whether the layer's tile transformer is still the one the
   * tile was decoded with, whether an event listener wants the raw data,
   * the resident size of decoded tiles, and the current time.
   */
  datatype LoadEnv = LoadEnv(
    source: MapTile -> SourceTile,
    decode: (VtTile.VtTileId, VtTile.VtTileId, seq<bv8>) -> Option<seq<FrameTile>>,
    transformerUnchanged: bool,
    keepData: bool,
    residentSize: VtTile.Tile -> nat,
    now: int)

  /** The vt id of a map tile (the frame number is dropped). */
  function VtId(t: MapTile): VtTile.VtTileId {
    VtTile.VtTileId(t.zoom, t.x, t.y)
  }

  /** The cache tier a task writes to. */
  function TierOf(outcome: LoadOutcome, preloading: bool): Cache<TileId, CachedTile>
    requires outcome.LoadReturned?
  {
    if preloading then outcome.preloadingCache else outcome.visibleCache
  }

  /**
   * loadTile for a task of a vector layer: the first data-source tile that
   * is not replace-with-parent is the only one loaded and decoded; a
   * decoded tile is stored under the task tile's key in the task's tier
   * unless the task was invalidated or the transformer changed, and the
   * refresh flag is set whenever the decode succeeded.
   */
  function LoadTile(useTileMapMode: bool, env: LoadEnv, task: FetchTask,
                    visibleCache: Cache<TileId, CachedTile>, preloadingCache: Cache<TileId, CachedTile>): (r: LoadOutcome)
    ensures var i := ServingIndex(env.source, task.dataSourceTiles);
            r.LoadThrew? <==> i < |task.dataSourceTiles| && env.source(task.dataSourceTiles[i]).SourceThrew?
    ensures var i := ServingIndex(env.source, task.dataSourceTiles);
            r.LoadReturned? && r.refresh <==>
              && i < |task.dataSourceTiles|
              && env.source(task.dataSourceTiles[i]).TileData?
              && env.decode(VtId(task.dataSourceTiles[i]), VtId(task.tile), env.source(task.dataSourceTiles[i]).data).Some?
    ensures r.LoadReturned? && (!r.refresh || task.invalidated || !env.transformerUnchanged) ==>
              r.visibleCache == visibleCache && r.preloadingCache == preloadingCache
    ensures r.LoadReturned? && task.preloading ==> r.visibleCache == visibleCache
    ensures r.LoadReturned? && !task.preloading ==> r.preloadingCache == preloadingCache
    ensures var key := CacheKey(VectorLayer(useTileMapMode), task.tile);
            var before := if task.preloading then preloadingCache else visibleCache;
            r.LoadReturned? ==> forall k :: k in before && k != key ==> k in TierOf(r, task.preloading) && TierOf(r, task.preloading)[k] == before[k]
  {
    var tiles := task.dataSourceTiles;
    var i := ServingIndex(env.source, tiles);
    if i == |tiles| then LoadReturned(false, visibleCache, preloadingCache)
    else
      match env.source(tiles[i])
      case SourceThrew => LoadThrew
      case TileData(data, maxAge) =>
        (match env.decode(VtId(tiles[i]), VtId(task.tile), data)
         case None => LoadReturned(false, visibleCache, preloadingCache)
         case Some(tileMap) =>
           var kept := if env.keepData then Some(data) else None;
           var info := TileInfo(tileMap, kept);
           if task.invalidated || !env.transformerUnchanged then LoadReturned(true, visibleCache, preloadingCache)
           else
             var key := CacheKey(VectorLayer(useTileMapMode), task.tile);
             var size := TileInfoSize(tileMap, kept, env.residentSize);
             if task.preloading then LoadReturned(true, visibleCache, Store(preloadingCache, key, info, size, maxAge, env.now))
             else LoadReturned(true, Store(visibleCache, key, info, size, maxAge, env.now), preloadingCache))
      case _ => LoadReturned(false, visibleCache, preloadingCache)
  }

  /**
   * A stored tile: when the serving tile decodes and the task is neither
   * invalidated nor stale, its tier holds the TileInfo under the task
   * tile's key, valid until now + maxAge (forever for a negative max age).
   */
  lemma {:induction false} LoadTileStores(useTileMapMode: bool, env: LoadEnv, task: FetchTask,
                       visibleCache: Cache<TileId, CachedTile>, preloadingCache: Cache<TileId, CachedTile>)
    requires !task.invalidated && env.transformerUnchanged
    requires var i := ServingIndex(env.source, task.dataSourceTiles);
             && i < |task.dataSourceTiles|
             && env.source(task.dataSourceTiles[i]).TileData?
             && env.decode(VtId(task.dataSourceTiles[i]), VtId(task.tile), env.source(task.dataSourceTiles[i]).data).Some?
    ensures var i := ServingIndex(env.source, task.dataSourceTiles);
            var src := env.source(task.dataSourceTiles[i]);
            var tileMap := env.decode(VtId(task.dataSourceTiles[i]), VtId(task.tile), src.data).value;
            var key := CacheKey(VectorLayer(useTileMapMode), task.tile);
            var r := LoadTile(useTileMapMode, env, task, visibleCache, preloadingCache);
            && r.LoadReturned? && r.refresh
            && Get(TierOf(r, task.preloading), key) == Some(TileInfo(tileMap, if env.keepData then Some(src.data) else None))
            && (forall t :: Valid(TierOf(r, task.preloading), key, t) <==> src.maxAge < 0 || t < env.now + src.maxAge)
  {
  }

  /** Data-source tiles after the serving one are never consulted. */
  lemma {:induction false} LoadTileIgnoresLaterTiles(useTileMapMode: bool, env: LoadEnv, task: FetchTask, extra: seq<MapTile>,
                                  visibleCache: Cache<TileId, CachedTile>, preloadingCache: Cache<TileId, CachedTile>)
    requires ServingIndex(env.source, task.dataSourceTiles) < |task.dataSourceTiles|
    ensures LoadTile(useTileMapMode, env, task.(dataSourceTiles := task.dataSourceTiles + extra), visibleCache, preloadingCache)
            == LoadTile(useTileMapMode, env, task, visibleCache, preloadingCache)
  {
    ServingIndexPrefix(env.source, task.dataSourceTiles, extra);
    var i := ServingIndex(env.source, task.dataSourceTiles);
    assert (task.dataSourceTiles + extra)[i] == task.dataSourceTiles[i];
  }

  lemma {:induction false} ServingIndexPrefix(source: MapTile -> SourceTile, tiles: seq<MapTile>, extra: seq<MapTile>)
    requires ServingIndex(source, tiles) < |tiles|
    ensures ServingIndex(source, tiles + extra) == ServingIndex(source, tiles)
    decreases |tiles|
  {
    if source(tiles[0]).ReplaceWithParent? {
      assert (tiles + extra)[1..] == tiles[1..] + extra;
      ServingIndexPrefix(source, tiles[1..], extra);
    }
  }
}

=== FILE: vt_tile.dfy ===
/**
 * The renderer-side tile objects the tile layers produce and cache: the vt
 * library's tile id, tile bitmaps and decoded tiles. Only what the layers
 * read is modelled; geometry, labels and styling are not.
 */
module VtTile {

  /** vt::TileId: zoom, x, y (no frame number). */
  datatype VtTileId = VtTileId(zoom: int, x: int, y: int)

  /** vt::TileBitmap::Format. */
  datatype BitmapFormat = Grayscale | Rgb | Rgba

  function BytesPerPixel(f: BitmapFormat): (n: nat)
    ensures 1 <= n <= 4
  {
    match f
    case Grayscale => 1
    case Rgb => 3
    case Rgba => 4
  }

  /** A vt::TileBitmap: rows stored bottom-up, `BytesPerPixel(format)` bytes per pixel. */
  datatype TileBitmap = TileBitmap(format: BitmapFormat, width: int, height: int, data: seq<bv8>)

  /** Positive dimensions and exactly width * height pixels of data. */
  predicate WellFormed(b: TileBitmap) {
    b.width > 0 && b.height > 0 && |b.data| == b.width * b.height * BytesPerPixel(b.format)
  }

  /** A decoded vt::Tile: its id and the bitmaps of its layers. */
  datatype Tile = Tile(id: VtTileId, bitmaps: seq<TileBitmap>)
}

=== FILE: wrappers.dfy ===
/**
 * Option and Result values used across the model: a C++ null pointer or
 * "not found" becomes None, and a thrown exception or error return becomes a
 * Failure carrying the error.
 */
module Wrappers {

  datatype Option<+T> = None | Some(value: T) {
    predicate IsFailure() { None? }

    function GetOr(default: T): T {
      match this
      case Some(v) => v
      case None => default
    }
  }

  datatype Result<+R, +E> = Success(value: R) | Failure(error: E) {
    predicate IsFailure() { Failure? }

    function ToOption(): Option<R> {
      match this
      case Success(v) => Some(v)
      case Failure(_) => None
    }
  }

  /** A byte of a C++ buffer or `std::string`, as its unsigned value. */
  type Byte = b: int | 0 <= b < 256

  /** The exception classes the SDK throws across its public API. */
  datatype SdkError =
    | NullArgument(what: string)
    | InvalidArgument(what: string)
    | OutOfRange(what: string)
    | ParseError(what: string)
    | GenericError(what: string)
}
